=== FILE: README.md ===
# OpenDocument.core: element registry, tables, styles and serialisers in Dafny

This project models the core of OpenDocument.core, a C++ library that opens
OpenDocument (ODF) and Office Open XML (OOXML) files, exposes their content
as a navigable tree of typed elements with resolved styles, and serialises
it to HTML. The model covers these parts:

- **The ODF element registry** (`OdfDocument`). This is an append-only arena of element
  records whose identifiers are 1-based positions. Registering an XML node
  classifies it through a tag table. Drawing groups and tables of content
  are spliced into the caller's sibling chain. Parent, first-child and
  sibling links are patched in place as records are appended.
- **The ODF table** (`OdfTable`). Repeat-compressed column, row and cell
  elements are expanded into sparse maps keyed by index or (row, column),
  with the dimensions and lookups the table answers.
- **The ODF style cascade** (`OdfStyle`):
  - name indices per style category;
  - memoised parent chains of style entries;
  - the per-element-type registry of style properties;
  - bottom-up property merging, where the nearest style that sets a property wins.
- **OOXML text elements** (`OoxmlText`):
  - tag classification for WordprocessingML;
  - the first-child and sibling searches;
  - the per-kind accessors.
- **Two HTML serialisers**:
  - `OdfContentTranslator` turns ODF content into HTML;
  - `WorkbookTranslator` turns a SpreadsheetML workbook into HTML.

  Both escape text and write style-class lists. Both emit tables through a
  row and column window. The SpreadsheetML one also fills the gaps of a
  sparse sheet and writes the CSS rules and dependency table of its cell
  formats.
- **The OOXML package metadata parsers**:
  - `OoxmlPackage` holds what they share;
  - `OoxmlMeta`, `OfficeOpenXmlMeta` and `LegacyOfficeOpenXmlMeta` are the three versions in the repository.

  They cover marker-part file-type detection, the encrypted-package check,
  relationships paths and first-wins relationship maps, and entry counting.
- **The read-only property** (`Property`).

The translators are each written twice:
- a pure reference definition: functions from a node and the state before it to the state after it;
- a `class` whose methods perform the same walk in place, appending to the output and updating the context fields. Each method is proved to end in the state the reference definition gives.

The registry and the table are classes over `seq`/`map` fields, likewise proved against specification functions.

Shared vocabulary lives in small modules:
- `Wrappers`: Option, Result and Outcome for null pointers and exceptions;
- `Xml`: an abstract tree with ordered attributes, standing for both pugixml and tinyxml2;
- `Strings`: decimal printing and reading, prefixes, concatenation;
- `HtmlText`: escaping and class lists;
- `TableWindow`: window bounds;
- `Counters`: 32-bit counters;
- `DocumentTypes`: element types, properties and values.


## Model

| member | source | states |
|---|---|---|
| OdfDocument.Append | src/internal/odf/odf_document.cpp:360-381 | the new record goes at position \|a\| (identifier \|a\|+1) with the given parent and previous sibling and no child or next sibling; an earlier record changes only to become the parent's first child (when there is no previous sibling) or the previous sibling's next sibling |
| OdfDocument.RegElem | src/internal/odf/odf_document.cpp:268-333 | registration only appends: the arena never shrinks, and the first identifier and chain tail it returns exist |
| OdfDocument.RegChildren | src/internal/odf/odf_document.cpp:335-354 | registering siblings only appends; the identifiers it returns exist |
| OdfDocument.AppendKeeps | src/internal/odf/odf_document.cpp:360-381 | appending a record that fits keeps every link well formed (threaded, for the corrected registration), changes only the two patched records, and leaves room for a next sibling after it and a first child under it |
| OdfDocument.AppendLinkedAt | src/internal/odf/odf_document.cpp:364-378 | after the append, the new record's links and those of every earlier record are well formed |
| OdfDocument.AppendLinkedOld | src/internal/odf/odf_document.cpp:373-378 | the links of a record already present stay well formed after the append |
| OdfDocument.AppendChainedAt | src/internal/odf/odf_document.cpp:373-378 | with the corrected threading, each record's previous sibling names it as next sibling, and a record with no previous sibling is its parent's first child |
| OdfDocument.AppendExtends | src/internal/odf/odf_document.cpp:370-378 | the append touches only the parent's first child and the previous sibling's next sibling |
| OdfDocument.RegElemKeeps | src/internal/odf/odf_document.cpp:268-333 | registering a node keeps the links well formed (threaded too, when corrected); a registration that yields 0 changes nothing; the first record produced hangs under the parent after the previous sibling |
| OdfDocument.NewRecordKeeps | src/internal/odf/odf_document.cpp:324-332 | a known tag gets identifier \|a\|+1, appended before its children, and the links stay well formed |
| OdfDocument.RegChildrenKeeps | src/internal/odf/odf_document.cpp:335-354 | the children loop keeps the links well formed; a first identifier already found is kept |
| OdfDocument.RegChildrenStep | src/internal/odf/odf_document.cpp:341-351 | one loop pass registers the next child and goes on after it, with that child as the previous sibling when it produced a record |
| OdfDocument.RegElemFirstIff | src/internal/odf/odf_document.cpp:297-332 | a node yields a non-zero identifier exactly when it is character data, a known tag, or a table of content or drawing group holding something that registers |
| OdfDocument.RegChildrenFirstIff | src/internal/odf/odf_document.cpp:339-353 | the children loop returns a non-zero first child exactly when some child registers |
| OdfDocument.RegChildrenKeepsFirst | src/internal/odf/odf_document.cpp:347-349 | once a first child is known, later children do not replace it |
| OdfDocument.UnknownTagAddsNothing | src/internal/odf/odf_document.cpp:316-322 | a tag missing from the table that does not delegate yields 0 and appends no record |
| OdfDocument.RegElemIndex | src/internal/odf/odf_document.cpp:308-310 | `text:table-of-content` registers the children of its `text:index-body` in its own place, creating no record for itself |
| OdfDocument.RegElemGroup | src/internal/odf/odf_document.cpp:311-314 | `draw:g` registers its own children in its place, creating no record for itself |
| OdfDocument.RegElemKnown | src/internal/odf/odf_document.cpp:324-332 | a known node's record is appended first, so its children get larger identifiers; a table's children are not registered |
| OdfDocument.AsWrittenSpliceSkipsSibling | src/internal/odf/odf_document.cpp:311-350 | as written, a paragraph after a drawing group of two paragraphs is linked after the group's first paragraph, so the sibling walk skips the second one and the links are not mutual |
| OdfDocument.CorrectedRegistrationThreads | src/internal/odf/odf_document.cpp:335-354 | threading the chain's tail instead keeps every link mutual on every input |
| OdfDocument.TypeOf | src/internal/odf/odf_document.cpp:453-459 | identifier 0 has type NONE |
| OdfDocument.ParentOf | src/internal/odf/odf_document.cpp:461-467 | identifier 0 has no parent; a parent always has a smaller identifier |
| OdfDocument.FirstChildOf | src/internal/odf/odf_document.cpp:469-475 | identifier 0 has no first child; a first child is a later record that names this one as its parent |
| OdfDocument.PreviousSiblingOf | src/internal/odf/odf_document.cpp:477-483 | identifier 0 has no previous sibling; a previous sibling is an earlier record with the same parent |
| OdfDocument.NextSiblingOf | src/internal/odf/odf_document.cpp:485-491 | identifier 0 has no next sibling; a next sibling is a later record that names this one as its previous sibling |
| OdfDocument.SiblingLinksInverse | src/internal/odf/odf_document.cpp:373-378 | in an arena built by the corrected registration, next(prev(b)) = b, and a record without a previous sibling is its parent's first child |
| OdfDocument.StyleAttribute | src/internal/odf/odf_document.cpp:18-36 | paragraphs, spans and links use `text:style-name`, tables `table:style-name`, slides, pages and shapes `draw:style-name`, and every other type none |
| OdfDocument.ElementStyleProperty | src/internal/odf/odf_document.cpp:54-75 | a text property is read from the style's text properties under its attribute name; other properties and unset ones give nothing |
| OdfDocument.ElementProperties | src/internal/odf/odf_document.cpp:493-574 | identifier 0 is an error; a link gets HREF from `xlink:href`; rectangles and circles get X, Y, WIDTH and HEIGHT; lines get X1, Y1, X2 and Y2; slides, pages, sheets and bookmarks get NAME; images get the placeholders IMAGE_INTERNAL true, an empty HREF and an IMAGE_FILE at the empty path; every other type gets an empty map |
| OdfDocument.UpdateElementProperties | src/internal/odf/odf_document.cpp:576-580 | always fails with UnsupportedOperation |
| OdfDocument.OpenDocument.NewElement | src/internal/odf/odf_document.cpp:360-381 | the arena field becomes `Append` of the old one, and the returned identifier is its new length |
| OdfDocument.OpenDocument.RegisterElement | src/internal/odf/odf_document.cpp:268-333 | the arena field and the returned identifiers are those of the (corrected) `RegElem` |
| OdfDocument.OpenDocument.RegisterChildren | src/internal/odf/odf_document.cpp:335-354 | the children loop ends where the (corrected) `RegChildren` does, with every link kept mutual |
| OdfDocument.OpenDocument.Open | src/internal/odf/odf_document.cpp:246-262 | opening fails with NoOpenDocumentFile exactly when the first child of `office:body` registers nothing; otherwise the root is its identifier |
| OdfTable.TimesIsProduct | src/internal/odf/odf_table.cpp:30-50 | the row index reached after n declared rows of k instances each is n·k |
| OdfTable.ColumnMap | src/internal/odf/odf_table.cpp:13-19 | the i-th declared column is stored at index i, for i < n, and nothing else is stored |
| OdfTable.CellLists | src/internal/odf/odf_table.cpp:32 | the cells of each declared row, row by row |
| OdfTable.RowMapAt | src/internal/odf/odf_table.cpp:21-28 | declared row j is stored at the index of its first instance, j · repeat |
| OdfTable.RowMapKeys | src/internal/odf/odf_table.cpp:28 | every stored row index is the first instance of some declared row |
| OdfTable.RowMapNoRepeat | src/internal/odf/odf_table.cpp:23-30 | with a repeat count of 0, every declared row is written at index 0 and the last one stays |
| OdfTable.RepeatsAt | src/internal/odf/odf_table.cpp:36-45 | the copies of one cell occupy consecutive columns from the cursor, and each is recorded exactly when the cell's content registers something |
| OdfTable.RowCellsKeys | src/internal/odf/odf_table.cpp:31-46 | a row instance's records lie in that row, left of the expanded width |
| OdfTable.RowCellsAt | src/internal/odf/odf_table.cpp:31-46 | copy r of cell j sits at column j·repeat + r, since the cursor restarts at 0 for every instance and advances on every copy, recorded or not |
| OdfTable.InstancesAt | src/internal/odf/odf_table.cpp:30-50 | the records of a declared row's instances are exactly those of each instance row |
| OdfTable.CellMapKeys | src/internal/odf/odf_table.cpp:22-51 | every cell record lies below the expanded row count, none at or beyond it |
| OdfTable.CellMapAt | src/internal/odf/odf_table.cpp:22-51 | instance i of declared row j is row j·rowRepeat + i, and its records are those of row j's cells |
| OdfTable.LowerBound | src/internal/odf/odf_table.cpp:168-182 | `lower_bound`: the smallest key at or above x, or none exactly when every key is below x |
| OdfTable.RecordProperties | src/internal/odf/odf_table.cpp:72-138 | empty without a record or without `table:style-name`; otherwise STYLE_NAME is the attribute and the other keys are exactly those of the style resolved for the record's type |
| OdfTable.Table.constructor | src/internal/odf/odf_table.cpp:7-10 | a new table holds the column, row and cell records of its node and its dimensions |
| OdfTable.Table.Register | src/internal/odf/odf_table.cpp:12-54 | the nested loops fill the column, row and cell maps as the specification functions give them; the dimensions are the expanded row count and the declared column count |
| OdfTable.Table.RegisterColumns | src/internal/odf/odf_table.cpp:13-19 | one record per declared column at consecutive indices |
| OdfTable.Table.RegisterRows | src/internal/odf/odf_table.cpp:21-51 | one row record per declared row at its first instance, the cells of every instance, and the expanded row count |
| OdfTable.Table.RegisterInstances | src/internal/odf/odf_table.cpp:30-50 | the instances of one declared row add their cells, and the row index moves past them |
| OdfTable.Table.RegisterCells | src/internal/odf/odf_table.cpp:31-47 | one row instance adds the records of its cells, with the cursor starting at 0 |
| OdfTable.Table.RegisterRepeats | src/internal/odf/odf_table.cpp:36-46 | the copies of one cell are recorded when its content registers something, and the cursor moves past all of them |
| OdfTable.Table.ColumnRecord | src/internal/odf/odf_table.cpp:168-174 | the record with the smallest index at or above the column; none exactly when every index is smaller |
| OdfTable.Table.RowRecord | src/internal/odf/odf_table.cpp:176-182 | the record with the smallest index at or above the row; none exactly when every index is smaller |
| OdfTable.Table.CellFirstChild | src/internal/odf/odf_table.cpp:62-70 | an exact-key lookup: the recorded first child, and 0 for an unrecorded position |
| OdfTable.Table.UpdateColumnProperties | src/internal/odf/odf_table.cpp:140-144 | always fails with UnsupportedOperation and changes nothing |
| OdfTable.Table.UpdateRowProperties | src/internal/odf/odf_table.cpp:146-150 | always fails with UnsupportedOperation and changes nothing |
| OdfTable.Table.UpdateCellProperties | src/internal/odf/odf_table.cpp:152-156 | always fails with UnsupportedOperation and changes nothing |
| OdfTable.Table.Resize | src/internal/odf/odf_table.cpp:158-161 | always fails with UnsupportedOperation and changes nothing |
| OdfTable.Table.DecoupleCell | src/internal/odf/odf_table.cpp:163-166 | always fails with UnsupportedOperation and changes nothing |
| OdfTable.RegisteredCell | src/internal/odf/odf_table.cpp:22-51 | after registration, copy c of cell m in instance i of declared row j sits at (j·rowRepeat + i, m·cellRepeat + c) and holds that cell's first child; there is no record when the first child is 0 |
| OdfTable.RegisteredCellsInside | src/internal/odf/odf_table.cpp:22-53 | no cell record lies beyond the expanded row count |
| OdfStyle.ParagraphGroup | src/internal/odf/odf_style.cpp:98-111 | paragraphs read text-align and the four margins, all from `style:paragraph-properties` |
| OdfStyle.TextGroup | src/internal/odf/odf_style.cpp:113-127 | the six font and colour properties, all from `style:text-properties` |
| OdfStyle.CellGroup | src/internal/odf/odf_style.cpp:58-75 | cells read padding and border on four sides, all from `style:table-cell-properties` |
| OdfStyle.GraphicGroup | src/internal/odf/odf_style.cpp:129-139 | shapes read stroke width and colour, fill colour and vertical alignment, all from `style:graphic-properties` |
| OdfStyle.RegistryParagraph | src/internal/odf/odf_style.cpp:43-45 | a paragraph reads the paragraph group and the text group, each property from its own group |
| OdfStyle.RegistryUnlisted | src/internal/odf/odf_style.cpp:43-80 | an element type the registry does not list reads no property |
| OdfStyle.Values | src/internal/odf/odf_style.cpp:82-96 | only registered properties are read from a style node |
| OdfStyle.ValueRead | src/internal/odf/odf_style.cpp:82-96 | a property is read exactly when its group child carries its attribute, with that attribute's value |
| OdfStyle.Applied | src/internal/odf/odf_style.cpp:26-32 | a property looked up and set on the node is overwritten; every other property keeps its previous value or stays absent |
| OdfStyle.AppliedNothing | src/internal/odf/odf_style.cpp:26-32 | before any lookup the result is unchanged |
| OdfStyle.AppliedNext | src/internal/odf/odf_style.cpp:27-31 | one more lookup updates that property alone, and only when the node sets it |
| OdfStyle.AppliedFound | src/internal/odf/odf_style.cpp:29-31 | a lookup that finds a value stores it |
| OdfStyle.AppliedMissing | src/internal/odf/odf_style.cpp:88-90 | a lookup that finds nothing keeps the previous value |
| OdfStyle.Resolved | src/internal/odf/odf_style.cpp:19-33 | an unregistered element type changes nothing; each registered property the node sets is overwritten, the rest is kept |
| OdfStyle.ResolveProperties | src/internal/odf/odf_style.cpp:19-33 | the update `resolve_properties` makes equals `Resolved`, in whatever order the registry is visited |
| OdfStyle.Merge | src/internal/odf/odf_style.cpp:26-32 | the loop over the getters leaves exactly the looked-up values applied |
| OdfStyle.Chain | src/internal/odf/odf_style.cpp:146-157 | the chain of an entry starts at its own node |
| OdfStyle.Layers | src/internal/odf/odf_style.cpp:146-157 | one layer per chain node, holding what that node sets |
| OdfStyle.NearestIsFirstSetter | src/internal/odf/odf_style.cpp:146-157 | the nearest value exists iff some layer sets the property, and it is the first such layer's value |
| OdfStyle.PropertiesNearest | src/internal/odf/odf_style.cpp:146-157 | an entry's property is set iff some style in its chain sets it, and the nearest style wins: a child overrides its ancestors and inherits the rest |
| OdfStyle.NearestLift | src/internal/odf/odf_style.cpp:153-156 | merging a node over inherited properties gives the nearest-setter value of the longer chain |
| OdfStyle.ChainLayers | src/internal/odf/odf_style.cpp:146-157 | the layers of a chain are the node's own values followed by the parent chain's layers |
| OdfStyle.NearestStep | src/internal/odf/odf_style.cpp:153-156 | a layer in front wins where it sets the property, otherwise the rest decides |
| OdfStyle.NearestEverywhere | src/internal/odf/odf_style.cpp:146-157 | the nearest-setter rule holds for every property at once |
| OdfStyle.KindOf | src/internal/odf/odf_style.cpp:201-221 | a node is assigned to an index only when its tag is that index's tag; `style:style` and `style:default-style` nodes are never skipped |
| OdfStyle.IndexOfStep | src/internal/odf/odf_style.cpp:201-221 | indexing one more node changes only the index of its kind, under its name (its family for a default style) |
| OdfStyle.IndexOfKeys | src/internal/odf/odf_style.cpp:201-221 | a name is in an index iff some visited node of that kind carries it |
| OdfStyle.IndexedHasFiler | src/internal/odf/odf_style.cpp:201-221 | every indexed name was filed by some node |
| OdfStyle.FilerIndexed | src/internal/odf/odf_style.cpp:201-221 | every filed name is indexed |
| OdfStyle.IndexOfLastWins | src/internal/odf/odf_style.cpp:206-219 | of several nodes with the same name the last one visited is the one indexed |
| OdfStyle.LastFilerWins | src/internal/odf/odf_style.cpp:206-219 | the same, for any keying function |
| OdfStyle.LinkedKept | src/internal/odf/odf_style.cpp:243-269 | a style's parent link stays valid while the memos grow |
| OdfStyle.AllLinkedKept | src/internal/odf/odf_style.cpp:223-231 | growing memos keep every old link |
| OdfStyle.StyleAdded | src/internal/odf/odf_style.cpp:243-269 | storing a freshly linked entry keeps all links valid and adds only styles ranked no higher |
| OdfStyle.Style.Empty | src/internal/odf/odf_style.cpp:159 | a style set with empty indices and memos |
| OdfStyle.Style.constructor | src/internal/odf/odf_style.cpp:161-165 | after construction every index holds what indexing both documents gives, every indexed style and default style has an entry, and all parent links are valid |
| OdfStyle.Style.GenerateIndices | src/internal/odf/odf_style.cpp:167-199 | the seven indices are those of the font faces, common, automatic and master styles of styles.xml, then the font faces and automatic styles of content.xml, in that order |
| OdfStyle.Style.IndexChild | src/internal/odf/odf_style.cpp:169-198 | a missing section adds nothing; a present one indexes its children |
| OdfStyle.Style.IndexSection | src/internal/odf/odf_style.cpp:201-221 | the children of a section are indexed in document order |
| OdfStyle.Style.IndexNode | src/internal/odf/odf_style.cpp:203-219 | one node is filed under the index of its tag |
| OdfStyle.Style.GenerateStyles | src/internal/odf/odf_style.cpp:223-231 | every default style and every style gets an entry, with valid links |
| OdfStyle.Style.GenerateDefaultStyles | src/internal/odf/odf_style.cpp:224-226 | every default style gets an entry |
| OdfStyle.Style.GenerateAllStyles | src/internal/odf/odf_style.cpp:227-230 | every indexed style gets an entry, and the default entries are kept |
| OdfStyle.Style.GenerateDefaultStyle | src/internal/odf/odf_style.cpp:233-241 | a default style's entry is built once, without a parent, and then returned from the memo |
| OdfStyle.Style.GenerateStyle | src/internal/odf/odf_style.cpp:243-269 | a style's entry is built once, after its parent's, linked to the named parent or, for a family style without a parent name, to the default entry under the empty key, and returned from the memo afterwards |
| OdfStyle.Style.StyleOf | src/internal/odf/odf_style.cpp:271-277 | the stored entry of a name, or none when the name has no entry |
| OdfStyle.Style.ResolveStyle | src/internal/odf/odf_style.cpp:279-287 | an unknown style resolves to no properties; a known one gives each property the value of the nearest style in its chain that sets it |
| OoxmlText.Factorize | src/ooxml/text/ooxml_text_elements.cpp:449-485 | a node becomes an element exactly when it is an XML element tagged `w:t`, `w:p`, `w:r`, `w:hyperlink`, `w:bookmarkStart` or `w:tbl`, and only one of the six kinds these give |
| OoxmlText.Type | src/ooxml/text/ooxml_text_elements.cpp:96 | the root handle, and only it, has the root type |
| OoxmlText.ScanForward | src/ooxml/text/ooxml_text_elements.cpp:521-526 | the first sibling at or after a position that the search accepts, or none when no later sibling is accepted |
| OoxmlText.ScanBackward | src/ooxml/text/ooxml_text_elements.cpp:506-516 | the nearest earlier sibling the search accepts, or none when no earlier sibling is accepted |
| OoxmlText.FactorizeFirstChild | src/ooxml/text/ooxml_text_elements.cpp:493-504 | the first child in document order that is recognised, every earlier child unrecognised; none only when no child is recognised |
| OoxmlText.FirstTagged | src/ooxml/text/ooxml_text_elements.cpp:13-19 | the first child with the given tag, as an element of the requested kind under this parent; none when no child has the tag |
| OoxmlText.FirstChildOf | src/ooxml/text/ooxml_text_elements.cpp:61-63 | a table and a table column have no children; a table row's first child is its first `w:tc`, none exactly when it has none; any other element's is its first recognised child, none exactly when no child is recognised; the child's parent is the element |
| OoxmlText.FirstColumn | src/ooxml/text/ooxml_text_elements.cpp:353-358 | a table's first `table:table-column` child, every earlier child lacking the tag; none exactly when no child has it |
| OoxmlText.FirstRow | src/ooxml/text/ooxml_text_elements.cpp:360-364 | a table's first `w:tr` child, every earlier child lacking the tag; none exactly when no child has it |
| OoxmlText.ParentOf | src/ooxml/text/ooxml_text_elements.cpp:57-59 | the root and a column reached from another column have no parent; any other element's parent is the element it was reached from, whose children are its siblings |
| OoxmlText.SiblingAt | src/ooxml/text/ooxml_text_elements.cpp:518-528 | the element at another position among the same siblings keeps the parent |
| OoxmlText.NextSiblingOf | src/ooxml/text/ooxml_text_elements.cpp:518-528 | the root has no sibling; otherwise the nearest later sibling the search for its kind accepts (same tag for table parts, any recognised node otherwise), every sibling in between skipped, under the same parent (as evidently intended for columns) |
| OoxmlText.PreviousSiblingOf | src/ooxml/text/ooxml_text_elements.cpp:506-516 | as evidently intended: the nearest earlier sibling the search for its kind accepts, every sibling in between skipped, under the same parent |
| OoxmlText.NextColumnAsWritten | src/ooxml/text/ooxml_text_elements.cpp:230-233 | as written: the nearest later `table:table-column`, built with the column's never-set table, so it has no parent |
| OoxmlText.PreviousColumnAsWritten | src/ooxml/text/ooxml_text_elements.cpp:225-228 | as written: the nearest earlier `table:table-column`, with no parent |
| OoxmlText.ColumnSiblingCounterexample | src/ooxml/text/ooxml_text_elements.cpp:221-233 | a table with two columns: the first has the table as parent, the second reached from it has none, while the corrected sibling keeps the table |
| OoxmlText.FactorizePreviousSiblingAsWritten | src/ooxml/text/ooxml_text_elements.cpp:506-516 | the loop as written computes `PreviousAsWritten`, which re-reads the same sibling every round |
| OoxmlText.AsWrittenNeverEnds | src/ooxml/text/ooxml_text_elements.cpp:509 | when the immediate previous sibling is not recognised, no number of rounds of the loop as written finds anything |
| OoxmlText.PreviousSiblingCounterexample | src/ooxml/text/ooxml_text_elements.cpp:509 | a paragraph, a proofing mark and a run: from the run the loop as written never reaches the paragraph |
| OoxmlText.AsWrittenFoundIsNearest | src/ooxml/text/ooxml_text_elements.cpp:509-513 | when the loop as written finds an element, it is the immediate previous sibling |
| OoxmlText.TextOf | src/ooxml/text/ooxml_text_elements.cpp:133 | the text of a `w:t` is the character data of its first child, empty when there is none |
| OoxmlText.Href | src/ooxml/text/ooxml_text_elements.cpp:175-177 | the `xlink:href` attribute, empty when it is missing |
| OoxmlText.BookmarkName | src/ooxml/text/ooxml_text_elements.cpp:186 | the `w:name` attribute, empty when it is missing |
| OoxmlText.StyleId | src/ooxml/text/ooxml_text_elements.cpp:143-153 | a paragraph asks for the style named by `w:pPr/w:pStyle/@w:val` (empty when any step is missing), a span for the empty id |
| OoxmlText.StyleFor | src/ooxml/text/ooxml_text_elements.cpp:80-87 | the style defined under the id, or the default style exactly when the document defines none |
| OoxmlText.SpanStyle | src/ooxml/text/ooxml_text_elements.cpp:161-164 | a span resolves the style under the empty id, otherwise the default style |
| OoxmlText.RowSpan | src/ooxml/text/ooxml_text_elements.cpp:279-282 | the rows-spanned attribute read by `as_uint`: 1 when it is missing, always below 2^32, and a leading decimal saturated at 2^32 - 1 |
| OoxmlText.ColumnSpan | src/ooxml/text/ooxml_text_elements.cpp:284-287 | the columns-spanned attribute read by `as_uint`: 1 when it is missing, always below 2^32, and a leading decimal saturated at 2^32 - 1 |
| OoxmlText.SpanReadsBack | src/ooxml/text/ooxml_text_elements.cpp:279-282 | a span written as a decimal number reads back as that number, saturated at 2^32 - 1 |
| OoxmlText.TableSize | src/ooxml/text/ooxml_text_elements.cpp:341-347 | row and column counts of a table are both 0 |
| OoxmlText.ImageInternal | src/ooxml/text/ooxml_text_elements.cpp:404-422 | an image is internal exactly when it has an `xlink:href` naming a file of the document's file system |
| OoxmlText.ImageFileOf | src/ooxml/text/ooxml_text_elements.cpp:429-446 | fails unless the image is internal; otherwise the file at the href, a StarView metafile exactly when the href contains `ObjectReplacements` or `.svm` |
| OoxmlText.ImageFileSniffing | src/ooxml/text/ooxml_text_elements.cpp:438-441 | the same rule stated by positions: a metafile exactly when one of the two markers occurs somewhere in the href |
| OdfContentTranslator.TranslateElement | src/odf/OpenDocumentContentTranslator.cpp:300-344 | every tag's translation only appends output, never lowers the text index, keeps the handed-out texts dense and hands out none outside editing mode |
| OdfContentTranslator.TranslateChildren | src/odf/OpenDocumentContentTranslator.cpp:293-298 | the same for a sequence of children in document order |
| OdfContentTranslator.TranslateText | src/odf/OpenDocumentContentTranslator.cpp:257-271 | the same for one text node |
| OdfContentTranslator.TranslateOther | src/odf/OpenDocumentContentTranslator.cpp:332-343 | the same for a substituted or unknown tag |
| OdfContentTranslator.TranslateParagraph | src/odf/OpenDocumentContentTranslator.cpp:54-63 | the same for a paragraph |
| OdfContentTranslator.TranslateLink | src/odf/OpenDocumentContentTranslator.cpp:81-97 | the same for a link |
| OdfContentTranslator.TranslateFrame | src/odf/OpenDocumentContentTranslator.cpp:113-132 | the same for a frame |
| OdfContentTranslator.TranslateImage | src/odf/OpenDocumentContentTranslator.cpp:134-172 | the same for an image |
| OdfContentTranslator.TranslateTable | src/odf/OpenDocumentContentTranslator.cpp:174-197 | the same for a table |
| OdfContentTranslator.TableBounds | src/odf/OpenDocumentContentTranslator.cpp:175-185 | the window starts at the configured offsets; it spans the configured limits, and for a spreadsheet limited by its dimensions the smaller of the limit and the sheet's size |
| OdfContentTranslator.ColumnLoop | src/odf/OpenDocumentContentTranslator.cpp:203-214 | the column loop only appends output and hands out no text |
| OdfContentTranslator.TranslateTableColumn | src/odf/OpenDocumentContentTranslator.cpp:199-215 | the same for a whole column element |
| OdfContentTranslator.RowStep | src/odf/OpenDocumentContentTranslator.cpp:221-229 | one row repetition only appends output; which repetitions write a `tr` is stated by `RowStepWindow` and `RowWindow` |
| OdfContentTranslator.RowLoop | src/odf/OpenDocumentContentTranslator.cpp:220-230 | the row loop only appends output; its window is stated by `RowWindow` and `RowCursor` |
| OdfContentTranslator.TranslateTableRow | src/odf/OpenDocumentContentTranslator.cpp:217-231 | the same for a whole row element, whose loop is `RowLoop` |
| OdfContentTranslator.CellStep | src/odf/OpenDocumentContentTranslator.cpp:238-253 | one cell repetition only appends output; which repetitions write a `td` is stated by `CellStepWindow` and `CellWindow` |
| OdfContentTranslator.CellLoop | src/odf/OpenDocumentContentTranslator.cpp:237-254 | the cell loop only appends output; its window is stated by `CellWindow` and `CellCursor` |
| OdfContentTranslator.TranslateTableCell | src/odf/OpenDocumentContentTranslator.cpp:233-255 | the same for a whole cell element, whose loop is `CellLoop` |
| OdfContentTranslator.SkippedTagsWriteNothing | src/odf/OpenDocumentContentTranslator.cpp:308-319 | descriptions, index title templates, notes and annotations write nothing and change no context |
| OdfContentTranslator.UnknownTagsAreTransparent | src/odf/OpenDocumentContentTranslator.cpp:332-343 | a tag that is neither handled nor substituted writes only its children |
| OdfContentTranslator.EmptyParagraphWritesBreak | src/odf/OpenDocumentContentTranslator.cpp:59 | a paragraph without child nodes is written as `<p…><br/></p>` |
| OdfContentTranslator.SpaceWritesCount | src/odf/OpenDocumentContentTranslator.cpp:65-74 | for a count below 2^32, where the 32-bit loop ends, `text:s` writes exactly `text:c` spaces and nothing else, one space when the count is missing |
| OdfContentTranslator.RepeatSpaces | src/odf/OpenDocumentContentTranslator.cpp:70-73 | the repeated text is that many spaces |
| OdfContentTranslator.AttributesMarkupShape | src/odf/OpenDocumentContentTranslator.cpp:273-291 | an element's attribute markup is empty or starts a class attribute |
| OdfContentTranslator.LinkTargetsSelf | src/odf/OpenDocumentContentTranslator.cpp:84-89 | a link's output carries `target="_self"` right after its href exactly when the href starts with `#` |
| OdfContentTranslator.LinkOpening | src/odf/OpenDocumentContentTranslator.cpp:82-94 | the target can be read off the text after the href, whatever markup follows |
| OdfContentTranslator.LinkHeadShape | src/odf/OpenDocumentContentTranslator.cpp:82-89 | the opening of a link is the href followed by the optional target |
| OdfContentTranslator.TargetChoice | src/odf/OpenDocumentContentTranslator.cpp:87-94 | the target and the class markup never start alike |
| OdfContentTranslator.LinkOpensWithHead | src/odf/OpenDocumentContentTranslator.cpp:81-97 | a link's output starts with its opening tag |
| OdfContentTranslator.TextWrittenEscaped | src/odf/OpenDocumentContentTranslator.cpp:257-264 | outside editing mode a text node is written escaped and nothing else changes; the written text holds no `<` and reads back as the node's text |
| OdfContentTranslator.TextHandedOut | src/odf/OpenDocumentContentTranslator.cpp:265-270 | in editing mode a text is wrapped with the current index, recorded under it, the index moves on by one, and the recorded texts stay dense |
| OdfContentTranslator.ColumnCursor | src/odf/OpenDocumentContentTranslator.cpp:203-214 | the column loop leaves the cursor where the window's end bound or the repeat count stops it |
| OdfContentTranslator.ColumnWindow | src/odf/OpenDocumentContentTranslator.cpp:203-214 | a `col` is written for exactly the repetitions inside the window |
| OdfContentTranslator.StyleSpan | src/odf/OpenDocumentContentTranslator.cpp:205-208 | the style recorded for every column in a range, and for no other |
| OdfContentTranslator.StyleSpanStep | src/odf/OpenDocumentContentTranslator.cpp:205-208 | recording one more column extends the range by one |
| OdfContentTranslator.ColumnStepCursor | src/odf/OpenDocumentContentTranslator.cpp:213 | one repetition moves the cursor one column on and keeps the window |
| OdfContentTranslator.ColumnStepOutput | src/odf/OpenDocumentContentTranslator.cpp:205-212 | one repetition writes a `col` exactly when it lies at or after the window's start |
| OdfContentTranslator.ColumnStepStyles | src/odf/OpenDocumentContentTranslator.cpp:205-208 | one repetition inside the window records the column's default cell style, when there is one |
| OdfContentTranslator.StylesAdvance | src/odf/OpenDocumentContentTranslator.cpp:205-208 | recording one column then the rest equals recording the whole range |
| OdfContentTranslator.ColumnLoopStyles | src/odf/OpenDocumentContentTranslator.cpp:203-214 | the column loop changes the default cell styles as `StylesLoop` does |
| OdfContentTranslator.StylesLoopSpan | src/odf/OpenDocumentContentTranslator.cpp:203-214 | `StylesLoop` records the style for exactly the columns inside the window |
| OdfContentTranslator.ColumnStyles | src/odf/OpenDocumentContentTranslator.cpp:203-214 | a column's default cell style is recorded for exactly the columns it writes, over whatever was recorded before |
| OdfContentTranslator.StylesStep | src/odf/OpenDocumentContentTranslator.cpp:203-214 | the induction step of the column styles |
| OdfContentTranslator.RowStepWindow | src/odf/OpenDocumentContentTranslator.cpp:221-229 | one row repetition inside the window writes the whole row, and one before the start writes nothing and only moves the cursor |
| OdfContentTranslator.RowWindow | src/odf/OpenDocumentContentTranslator.cpp:217-231 | for row content that keeps the window and cursor (no nested table), the loop writes a `tr` for exactly the repetitions at or after the start row and before the end row, in order, after skipping those before the start |
| OdfContentTranslator.RowCursor | src/odf/OpenDocumentContentTranslator.cpp:220-230 | the row loop leaves the cursor where the end row or the repeat count stops it |
| OdfContentTranslator.RowsAdvanceWritten | src/odf/OpenDocumentContentTranslator.cpp:221-229 | a repetition inside the window is the first written row, and the rest follow it |
| OdfContentTranslator.RowsAdvanceSkipped | src/odf/OpenDocumentContentTranslator.cpp:221-229 | a repetition before the start leaves the rows written afterwards unchanged |
| OdfContentTranslator.CellStepWindow | src/odf/OpenDocumentContentTranslator.cpp:238-253 | one cell repetition inside the window writes the whole cell, and one before the start writes nothing and only moves the cursor one column |
| OdfContentTranslator.CellWindow | src/odf/OpenDocumentContentTranslator.cpp:233-255 | for a one-column cell whose content keeps the window and cursor, the loop writes a `td` for exactly the repetitions at or after the start column and before the end column, in order |
| OdfContentTranslator.CellWindowStep | src/odf/OpenDocumentContentTranslator.cpp:238-253 | the induction step of `CellWindow` |
| OdfContentTranslator.CellCursor | src/odf/OpenDocumentContentTranslator.cpp:237-254 | the cell loop of a one-column cell leaves the cursor where the end column or the repeat count stops it |
| OdfContentTranslator.CellsAdvanceWritten | src/odf/OpenDocumentContentTranslator.cpp:238-253 | a repetition inside the window is the first written cell, and the rest follow it |
| OdfContentTranslator.CellsAdvanceSkipped | src/odf/OpenDocumentContentTranslator.cpp:238-253 | a repetition before the start leaves the cells written afterwards unchanged |
| OdfContentTranslator.RowsBeforeWindow | src/odf/OpenDocumentContentTranslator.cpp:220-230 | rows wholly before the window write nothing, hand out no text and only move the cursor, one row per repetition |
| OdfContentTranslator.CellTakesColumnStyle | src/odf/OpenDocumentContentTranslator.cpp:240-244 | a cell without its own style, inside the window, is written with its column's default cell style |
| OdfContentTranslator.HeadTakesColumnStyle | src/odf/OpenDocumentContentTranslator.cpp:240-244 | the cell's opening tag carries the column's default style first |
| OdfContentTranslator.CellOpensWithHead | src/odf/OpenDocumentContentTranslator.cpp:239-251 | a cell inside the window starts with its opening tag |
| OdfContentTranslator.MarkupStep | src/odf/OpenDocumentContentTranslator.cpp:287-291 | one more attribute appends its markup after the earlier ones' |
| OdfContentTranslator.TableSteps | src/odf/OpenDocumentContentTranslator.cpp:174-197 | the table's translation is the window set-up, the opening tag, the children, the closing tag, then the next entry |
| OdfContentTranslator.Translator.constructor | src/odf/OpenDocumentContentTranslator.cpp:346-348 | the walk starts with empty output, the first entry, a fresh cursor, no column styles and no handed-out texts |
| OdfContentTranslator.Translator.Translate | src/odf/OpenDocumentContentTranslator.cpp:346-348 | the walk in place leaves the state `TranslateElement` gives |
| OdfContentTranslator.Translator.StyleAttributeTranslator | src/odf/OpenDocumentContentTranslator.cpp:28-47 | writes the class attribute: the name, then its dependencies last first |
| OdfContentTranslator.Translator.AttributeTranslator | src/odf/OpenDocumentContentTranslator.cpp:273-285 | writes a class attribute for a style-name attribute and nothing for any other |
| OdfContentTranslator.Translator.ElementAttributeTranslator | src/odf/OpenDocumentContentTranslator.cpp:287-291 | writes the markup of all attributes, in order |
| OdfContentTranslator.Translator.ElementTranslator | src/odf/OpenDocumentContentTranslator.cpp:300-344 | the dispatch in place equals `TranslateElement` |
| OdfContentTranslator.Translator.ElementChildrenTranslator | src/odf/OpenDocumentContentTranslator.cpp:293-298 | the children loop in place equals `TranslateChildren` |
| OdfContentTranslator.Translator.TextTranslator | src/odf/OpenDocumentContentTranslator.cpp:257-271 | equals `TranslateText` |
| OdfContentTranslator.Translator.OtherTranslator | src/odf/OpenDocumentContentTranslator.cpp:332-343 | equals `TranslateOther` |
| OdfContentTranslator.Translator.ParagraphTranslator | src/odf/OpenDocumentContentTranslator.cpp:54-63 | equals `TranslateParagraph` |
| OdfContentTranslator.Translator.SpaceTranslator | src/odf/OpenDocumentContentTranslator.cpp:65-74 | equals `TranslateSpace`, which writes the count in spaces |
| OdfContentTranslator.Translator.LinkTranslator | src/odf/OpenDocumentContentTranslator.cpp:81-97 | equals `TranslateLink` |
| OdfContentTranslator.Translator.LinkHeadWriter | src/odf/OpenDocumentContentTranslator.cpp:82-92 | writes the link's href and optional target |
| OdfContentTranslator.Translator.BookmarkTranslator | src/odf/OpenDocumentContentTranslator.cpp:99-111 | equals `TranslateBookmark` |
| OdfContentTranslator.Translator.FrameTranslator | src/odf/OpenDocumentContentTranslator.cpp:113-132 | equals `TranslateFrame` |
| OdfContentTranslator.Translator.ImageTranslator | src/odf/OpenDocumentContentTranslator.cpp:134-172 | equals `TranslateImage` |
| OdfContentTranslator.Translator.StartTable | src/odf/OpenDocumentContentTranslator.cpp:175-187 | sets the window from `TableBounds`, resets the cursor and clears the column default styles |
| OdfContentTranslator.Translator.TableTranslator | src/odf/OpenDocumentContentTranslator.cpp:174-197 | equals `TranslateTable` |
| OdfContentTranslator.Translator.ColumnRepetition | src/odf/OpenDocumentContentTranslator.cpp:204-213 | one pass of the column loop equals `ColumnStep` |
| OdfContentTranslator.Translator.TableColumnTranslator | src/odf/OpenDocumentContentTranslator.cpp:199-215 | the column loop in place equals `TranslateTableColumn` |
| OdfContentTranslator.Translator.RowRepetition | src/odf/OpenDocumentContentTranslator.cpp:221-229 | one pass of the row loop equals `RowStep` |
| OdfContentTranslator.Translator.TableRowTranslator | src/odf/OpenDocumentContentTranslator.cpp:217-231 | the row loop in place equals `TranslateTableRow`, whose window `RowWindow` states |
| OdfContentTranslator.Translator.CellRepetition | src/odf/OpenDocumentContentTranslator.cpp:238-253 | one pass of the cell loop equals `CellStep` |
| OdfContentTranslator.Translator.CellOpening | src/odf/OpenDocumentContentTranslator.cpp:240-249 | writes the cell's opening tag |
| OdfContentTranslator.Translator.DefaultStyleWriter | src/odf/OpenDocumentContentTranslator.cpp:241-244 | writes the column's default style for a cell without its own |
| OdfContentTranslator.Translator.CellSpansWriter | src/odf/OpenDocumentContentTranslator.cpp:247-248 | writes the declared column and row spans |
| OdfContentTranslator.Translator.TableCellTranslator | src/odf/OpenDocumentContentTranslator.cpp:233-255 | the cell loop in place equals `TranslateTableCell`, whose window `CellWindow` states |
| HtmlText.ReplaceAll | src/odf/OpenDocumentContentTranslator.cpp:259-261 | a replaced character is gone unless the replacement holds it, and no new character appears beyond the replacement's |
| HtmlText.EscapeTextIsPerChar | src/odf/OpenDocumentContentTranslator.cpp:258-261 | replacing `&` first, then `<` and `>`, equals escaping one character at a time |
| HtmlText.EscapeRoundTrip | src/odf/OpenDocumentContentTranslator.cpp:258-261 | escaped text reads back as the original |
| HtmlText.EscapeHasNoBrackets | src/odf/OpenDocumentContentTranslator.cpp:258-261 | escaped text holds no raw `<` or `>` |
| HtmlText.UnescapeEscaped | src/odf/OpenDocumentContentTranslator.cpp:258-261 | reading entities back inverts per-character escaping |
| HtmlText.ReplaceAllConcat | src/odf/OpenDocumentContentTranslator.cpp:259-261 | replacement distributes over concatenation |
| HtmlText.SpacedStep | src/odf/OpenDocumentContentTranslator.cpp:38-40 | walking the dependencies backwards writes them last first, each after a space |
| TableWindow.WindowAdvance | src/odf/OpenDocumentContentTranslator.cpp:203-254 | a pass before the end bound moves the loop on by one: it is the first written pass when at or after the start, and otherwise leaves the first written pass and the count unchanged |
| TableWindow.WindowEmpty | src/odf/OpenDocumentContentTranslator.cpp:203-254 | with no repetitions left or the cursor at the end bound, the loop writes nothing and stops where it is |
| TableWindow.WindowStep | src/odf/OpenDocumentContentTranslator.cpp:203-214 | one pass of a windowed loop writes exactly when it lies at or after the start bound |
| WorkbookTranslator.TranslateXfs | src/ooxml/OfficeOpenXmlWorkbookTranslator.cpp:72-108 | the cell formats only append to the style sheet |
| WorkbookTranslator.TranslateStyle | src/ooxml/OfficeOpenXmlWorkbookTranslator.cpp:111-125 | the style sheet translation only appends output |
| WorkbookTranslator.TranslateElement | src/ooxml/OfficeOpenXmlWorkbookTranslator.cpp:295-323 | every tag's translation only appends output, never lowers the text index, keeps the handed-out texts dense, hands out none outside editing mode and never changes the style dependencies |
| WorkbookTranslator.TranslateChildren | src/ooxml/OfficeOpenXmlWorkbookTranslator.cpp:288-293 | the same for a sequence of children |
| WorkbookTranslator.TranslateText | src/ooxml/OfficeOpenXmlWorkbookTranslator.cpp:128-142 | the same for one text node |
| WorkbookTranslator.TranslateOther | src/ooxml/OfficeOpenXmlWorkbookTranslator.cpp:311-322 | the same for `cols` and unknown tags |
| WorkbookTranslator.TranslateTable | src/ooxml/OfficeOpenXmlWorkbookTranslator.cpp:185-204 | the same for a worksheet |
| WorkbookTranslator.ColLoop | src/ooxml/OfficeOpenXmlWorkbookTranslator.cpp:213-221 | the column loop only appends output and moves the cursor |
| WorkbookTranslator.TranslateCol | src/ooxml/OfficeOpenXmlWorkbookTranslator.cpp:206-222 | the same for a whole `col` element |
| WorkbookTranslator.RowGap | src/ooxml/OfficeOpenXmlWorkbookTranslator.cpp:227-234 | the row gap only appends output and moves the cursor |
| WorkbookTranslator.TranslateRow | src/ooxml/OfficeOpenXmlWorkbookTranslator.cpp:224-246 | a row's translation only appends output and keeps the texts dense |
| WorkbookTranslator.RowElement | src/ooxml/OfficeOpenXmlWorkbookTranslator.cpp:238-245 | the named row, once the gap is behind it, only appends output and keeps the texts dense |
| WorkbookTranslator.CellGap | src/ooxml/OfficeOpenXmlWorkbookTranslator.cpp:251-257 | the cell gap only appends output and moves the cursor |
| WorkbookTranslator.CellValue | src/ooxml/OfficeOpenXmlWorkbookTranslator.cpp:263-282 | a cell's content only appends output |
| WorkbookTranslator.CellMarkup | src/ooxml/OfficeOpenXmlWorkbookTranslator.cpp:259-285 | a written cell only appends output |
| WorkbookTranslator.TranslateCellAsWritten | src/ooxml/OfficeOpenXmlWorkbookTranslator.cpp:248-286 | the cell as written only appends output |
| WorkbookTranslator.TranslateCell | src/ooxml/OfficeOpenXmlWorkbookTranslator.cpp:248-286 | the corrected cell only appends output |
| WorkbookTranslator.XfNameInjective | src/ooxml/OfficeOpenXmlWorkbookTranslator.cpp:75 | different cell formats get different class names |
| WorkbookTranslator.PushAppended | src/ooxml/OfficeOpenXmlWorkbookTranslator.cpp:80 | a push appends one dependency to the entry, creating it on the first push |
| WorkbookTranslator.XfPushesAppend | src/ooxml/OfficeOpenXmlWorkbookTranslator.cpp:77-89 | the three pushes append the format's dependencies in order and create the entry only when there is one |
| WorkbookTranslator.XfDependencyContents | src/ooxml/OfficeOpenXmlWorkbookTranslator.cpp:77-89 | a format depends exactly on its applied font, its named fill and its applied border; the font comes first and the border last |
| WorkbookTranslator.XfStepEntries | src/ooxml/OfficeOpenXmlWorkbookTranslator.cpp:74-107 | one cell format touches only its own entry |
| WorkbookTranslator.XfsKeep | src/ooxml/OfficeOpenXmlWorkbookTranslator.cpp:72-108 | later formats leave an earlier format's entry alone while the 32-bit counter does not wrap |
| WorkbookTranslator.XfsRecorded | src/ooxml/OfficeOpenXmlWorkbookTranslator.cpp:72-108 | after the cell formats each format's entry holds exactly its dependencies, and exists only when there is at least one |
| WorkbookTranslator.XfsUnfold | src/ooxml/OfficeOpenXmlWorkbookTranslator.cpp:74-107 | the first format's step, unfolded |
| WorkbookTranslator.XfsRecordedLater | src/ooxml/OfficeOpenXmlWorkbookTranslator.cpp:72-108 | the induction step for the formats after the first |
| WorkbookTranslator.XfsRecordedFirst | src/ooxml/OfficeOpenXmlWorkbookTranslator.cpp:74-107 | the first format's entry is its dependency list |
| WorkbookTranslator.RulesNumbered | src/ooxml/OfficeOpenXmlWorkbookTranslator.cpp:18-70 | a style list is written as one rule per element child, the k-th numbered k from the counter's start |
| WorkbookTranslator.CellClassFollowsFormat | src/ooxml/OfficeOpenXmlWorkbookTranslator.cpp:157-177 | after the cell formats, a cell naming format k gets the class of format k followed by its border, fill and font, last pushed first |
| WorkbookTranslator.ClassOfEntry | src/ooxml/OfficeOpenXmlWorkbookTranslator.cpp:157-177 | the class attribute of a cell naming format k, by that format's entry |
| WorkbookTranslator.ColumnLoopWindow | src/ooxml/OfficeOpenXmlWorkbookTranslator.cpp:213-221 | the column loop writes a `col` for exactly its passes inside the window and leaves the cursor after the last pass |
| WorkbookTranslator.ColumnLoopOut | src/ooxml/OfficeOpenXmlWorkbookTranslator.cpp:213-221 | the output part of the same |
| WorkbookTranslator.ColumnLoopCursor | src/ooxml/OfficeOpenXmlWorkbookTranslator.cpp:213-221 | the cursor part of the same |
| WorkbookTranslator.Wrap64 | src/ooxml/OfficeOpenXmlWorkbookTranslator.cpp:211 | unsigned 64-bit wrap-around of a difference in range |
| WorkbookTranslator.ColumnCountWraps | src/ooxml/OfficeOpenXmlWorkbookTranslator.cpp:209-211 | `max - min + 1` is the span when `min <= max`, and the span plus 2^64 when `min > max + 1` |
| WorkbookTranslator.ColumnsWritten | src/ooxml/OfficeOpenXmlWorkbookTranslator.cpp:206-222 | a `col` spanning fewer than 2^32 columns writes a tag for each spanned column inside the window and moves the cursor past them, stopping at the window's end |
| WorkbookTranslator.UnorderedColumnsFillWindow | src/ooxml/OfficeOpenXmlWorkbookTranslator.cpp:207-213 | with `min > max + 1` the count wraps so far that the loop runs up to the window's end |
| WorkbookTranslator.RowGapWindow | src/ooxml/OfficeOpenXmlWorkbookTranslator.cpp:227-234 | the rows skipped before a row are written as empty rows for those inside the window; the gap stops at the named row or the window's end |
| WorkbookTranslator.RowGapOut | src/ooxml/OfficeOpenXmlWorkbookTranslator.cpp:227-234 | the output part of the same |
| WorkbookTranslator.RowGapCursor | src/ooxml/OfficeOpenXmlWorkbookTranslator.cpp:227-234 | the cursor part of the same |
| WorkbookTranslator.CellGapWindow | src/ooxml/OfficeOpenXmlWorkbookTranslator.cpp:251-257 | the columns skipped before a cell are written as empty cells for those inside the window; the gap stops at the named column or the window's end |
| WorkbookTranslator.CellGapOut | src/ooxml/OfficeOpenXmlWorkbookTranslator.cpp:251-257 | the output part of the same |
| WorkbookTranslator.CellGapCursor | src/ooxml/OfficeOpenXmlWorkbookTranslator.cpp:251-257 | the cursor part of the same |
| WorkbookTranslator.RowPastEndWritesNothing | src/ooxml/OfficeOpenXmlWorkbookTranslator.cpp:228-237 | once the cursor has reached the window's last row, a row writes nothing and the cursor stays |
| WorkbookTranslator.RowWrittenAtIndex | src/ooxml/OfficeOpenXmlWorkbookTranslator.cpp:225-243 | a row the window holds is written on the row it names, its start tag right after the gap |
| WorkbookTranslator.RowBody | src/ooxml/OfficeOpenXmlWorkbookTranslator.cpp:236-245 | after the gap the row is written and the cursor moves to the next row |
| WorkbookTranslator.CellPastEndDropped | src/ooxml/OfficeOpenXmlWorkbookTranslator.cpp:251-257 | corrected: once the cursor has reached the window's last column a cell writes nothing |
| WorkbookTranslator.CellBeforeWindowSkipped | src/ooxml/OfficeOpenXmlWorkbookTranslator.cpp:251-257 | corrected: a cell before the window writes nothing; only the cursor moves past it |
| WorkbookTranslator.AsWrittenCellPastEnd | src/ooxml/OfficeOpenXmlWorkbookTranslator.cpp:259-261 | as written: past the window's end a cell without a gap is still written, unlike the corrected cell |
| WorkbookTranslator.AsWrittenCellBeforeStart | src/ooxml/OfficeOpenXmlWorkbookTranslator.cpp:259-261 | as written: a cell before the window's start is still written, unlike the corrected cell |
| WorkbookTranslator.CellOpens | src/ooxml/OfficeOpenXmlWorkbookTranslator.cpp:259-261 | a written cell starts with `<td` and writes something |
| WorkbookTranslator.CellWrittenAtColumn | src/ooxml/OfficeOpenXmlWorkbookTranslator.cpp:249-285 | a cell of the window is written in the column it names, after one empty cell per skipped column inside the window |
| WorkbookTranslator.EmptyCellWritten | src/ooxml/OfficeOpenXmlWorkbookTranslator.cpp:263-282 | a cell without a type, with an unknown type or with a negative shared-string index is written as an empty cell |
| WorkbookTranslator.SharedTextValue | src/ooxml/OfficeOpenXmlWorkbookTranslator.cpp:265-269 | a shared-string cell whose `si` holds a single `t` of plain text holds that text, escaped |
| WorkbookTranslator.PlainTextString | src/ooxml/OfficeOpenXmlWorkbookTranslator.cpp:265-269 | a `t` element of plain text writes its text escaped, outside editing mode |
| WorkbookTranslator.TextWrittenEscaped | src/ooxml/OfficeOpenXmlWorkbookTranslator.cpp:128-135 | outside editing mode a text node is written escaped, holds no `<` and reads back as the text |
| WorkbookTranslator.TextHandedOut | src/ooxml/OfficeOpenXmlWorkbookTranslator.cpp:136-141 | in editing mode a text is wrapped with the current index, recorded under it, and the index moves on by one |
| WorkbookTranslator.SkippedTagsWriteNothing | src/ooxml/OfficeOpenXmlWorkbookTranslator.cpp:299-305 | `headerFooter` and `f` write nothing and change nothing |
| WorkbookTranslator.ColsAsColgroup | src/ooxml/OfficeOpenXmlWorkbookTranslator.cpp:296-321 | `cols` is written as a `colgroup` |
| WorkbookTranslator.UnknownTagsTransparent | src/ooxml/OfficeOpenXmlWorkbookTranslator.cpp:311-322 | a tag the walk does not know writes only its children |
| WorkbookTranslator.RulesStep | src/ooxml/OfficeOpenXmlWorkbookTranslator.cpp:20-40 | one child of a style list: an element writes its rule and moves the counter on, another node is passed over |
| WorkbookTranslator.Translator.constructor | src/ooxml/OfficeOpenXmlWorkbookTranslator.cpp:326-328 | the walk starts with empty output, no dependencies, a fresh cursor and no handed-out texts |
| WorkbookTranslator.Translator.StyleTranslator | src/ooxml/OfficeOpenXmlWorkbookTranslator.cpp:111-125 | the style sheet in place equals `TranslateStyle` |
| WorkbookTranslator.Translator.FontsTranslator | src/ooxml/OfficeOpenXmlWorkbookTranslator.cpp:18-41 | writes one font rule per element child, numbered by a 32-bit counter |
| WorkbookTranslator.Translator.FontWriter | src/ooxml/OfficeOpenXmlWorkbookTranslator.cpp:21-37 | writes the font rule: family, size in points and colour without its alpha, each when given |
| WorkbookTranslator.Translator.FillsTranslator | src/ooxml/OfficeOpenXmlWorkbookTranslator.cpp:43-59 | writes one fill rule per element child |
| WorkbookTranslator.Translator.FillWriter | src/ooxml/OfficeOpenXmlWorkbookTranslator.cpp:46-55 | writes the background colour of a pattern fill, when given |
| WorkbookTranslator.Translator.BordersTranslator | src/ooxml/OfficeOpenXmlWorkbookTranslator.cpp:61-70 | writes one empty border rule per element child |
| WorkbookTranslator.Translator.CellXfsTranslator | src/ooxml/OfficeOpenXmlWorkbookTranslator.cpp:72-108 | the cell formats in place equal `TranslateXfs` |
| WorkbookTranslator.Translator.XfWriter | src/ooxml/OfficeOpenXmlWorkbookTranslator.cpp:75-106 | one cell format: its pushes, then its rule |
| WorkbookTranslator.Translator.XfPushesWriter | src/ooxml/OfficeOpenXmlWorkbookTranslator.cpp:77-89 | the pushes in place equal `XfPushes` |
| WorkbookTranslator.Translator.StyleAttributeTranslator | src/ooxml/OfficeOpenXmlWorkbookTranslator.cpp:144-155 | writes width in inches and height in points, each when given |
| WorkbookTranslator.Translator.ElementAttributeTranslator | src/ooxml/OfficeOpenXmlWorkbookTranslator.cpp:157-180 | writes the class attribute, then the inline style |
| WorkbookTranslator.Translator.ClassAttributeTranslator | src/ooxml/OfficeOpenXmlWorkbookTranslator.cpp:158-177 | writes the format's class and its dependencies, last pushed first |
| WorkbookTranslator.Translator.ContentTranslator | src/ooxml/OfficeOpenXmlWorkbookTranslator.cpp:326-328 | the walk in place from the root equals `TranslateElement` |
| WorkbookTranslator.Translator.ElementTranslator | src/ooxml/OfficeOpenXmlWorkbookTranslator.cpp:295-323 | the dispatch in place equals `TranslateElement` |
| WorkbookTranslator.Translator.ElementChildrenTranslator | src/ooxml/OfficeOpenXmlWorkbookTranslator.cpp:288-293 | the children loop in place equals `TranslateChildren` |
| WorkbookTranslator.Translator.TextTranslator | src/ooxml/OfficeOpenXmlWorkbookTranslator.cpp:128-142 | equals `TranslateText` |
| WorkbookTranslator.Translator.TableTranslator | src/ooxml/OfficeOpenXmlWorkbookTranslator.cpp:185-204 | equals `TranslateTable` |
| WorkbookTranslator.Translator.TableColTranslator | src/ooxml/OfficeOpenXmlWorkbookTranslator.cpp:206-222 | the column loop with its 32-bit counter equals `TranslateCol` |
| WorkbookTranslator.Translator.ColumnPass | src/ooxml/OfficeOpenXmlWorkbookTranslator.cpp:214-220 | one pass of the column loop equals `ColStep` |
| WorkbookTranslator.Translator.TableRowTranslator | src/ooxml/OfficeOpenXmlWorkbookTranslator.cpp:224-246 | the gap loop and the row equal `TranslateRow` |
| WorkbookTranslator.Translator.RowGapWriter | src/ooxml/OfficeOpenXmlWorkbookTranslator.cpp:227-234 | the gap loop in place equals `RowGap` |
| WorkbookTranslator.Translator.RowElementWriter | src/ooxml/OfficeOpenXmlWorkbookTranslator.cpp:238-245 | the named row in place equals `RowElement` |
| WorkbookTranslator.Translator.TableCellTranslator | src/ooxml/OfficeOpenXmlWorkbookTranslator.cpp:248-286 | the gap loop and the cell, with the window applied to the cell, equal `TranslateCell` |
| WorkbookTranslator.Translator.CellMarkupWriter | src/ooxml/OfficeOpenXmlWorkbookTranslator.cpp:259-284 | equals `CellMarkup` |
| WorkbookTranslator.Translator.CellValueTranslator | src/ooxml/OfficeOpenXmlWorkbookTranslator.cpp:263-282 | equals `CellValue` |
| OoxmlPackage.Join | ooxml/src/OfficeOpenXmlMeta.cpp:59 | joining a name onto a path gives a path whose parent is that path and whose last component is the name |
| OoxmlPackage.RelationsPathShape | ooxml/src/OfficeOpenXmlMeta.cpp:58-60 | the relations part of `dir/name` is `dir/_rels/name.rels`: one component longer, in the `_rels` directory beside the part |
| OoxmlPackage.RelationsPathRoundTrip | ooxml/src/OfficeOpenXmlMeta.cpp:58-60 | the part can be read back from its relations path |
| OoxmlPackage.RelationsPathInjective | ooxml/src/OfficeOpenXmlMeta.cpp:58-60 | different parts have different relations parts |
| OoxmlPackage.DetectType | ooxml/src/OfficeOpenXmlMeta.cpp:20-25 | the scan of the marker table stops at the first marker part present and yields its type, or none |
| OoxmlPackage.FirstPresentIn | ooxml/src/OfficeOpenXmlMeta.cpp:20-25 | a type is found exactly when some marker in the visiting order is present, and it is the type of the first one present |
| OoxmlPackage.DetectedTypeIsMarked | ooxml/src/OfficeOpenXmlMeta.cpp:12-25 | whatever the table's visiting order, a type is found exactly when one of the three marker parts is present, and the type found belongs to a present marker |
| OoxmlPackage.SingleMarkerDecides | ooxml/src/OfficeOpenXmlMeta.cpp:12-25 | when only one marker part is present its type is found, whatever the visiting order |
| OoxmlPackage.InsertAllKeys | ooxml/src/OfficeOpenXmlMeta.cpp:68-78 | the relationship map holds exactly the keys already there and the inserted Ids |
| OoxmlPackage.InsertAllKeeps | ooxml/src/OfficeOpenXmlMeta.cpp:75 | `insert` never overwrites a key already present |
| OoxmlPackage.InsertAllFirstWins | ooxml/src/OfficeOpenXmlMeta.cpp:75 | a new key is bound to the value of its first insertion |
| OoxmlPackage.FirstOccurrenceWins | ooxml/src/OfficeOpenXmlMeta.cpp:68-78 | from an empty map, each Id is bound to the Target of its first `Relationship` |
| OoxmlPackage.OnlyInsertedKeys | ooxml/src/OfficeOpenXmlMeta.cpp:68-78 | from an empty map, the keys are exactly the inserted Ids |
| OoxmlPackage.InsertAllIsFirstWins | ooxml/src/OfficeOpenXmlMeta.cpp:68-78 | the map built by the inserts is the first-wins map of the pairs |
| OoxmlPackage.EarliestWithKey | ooxml/src/OfficeOpenXmlMeta.cpp:75 | every inserted key has an earliest insertion |
| OoxmlPackage.FirstWinsMapUnique | ooxml/src/OfficeOpenXmlMeta.cpp:68-78 | there is only one first-wins map of a pair sequence, so the result does not depend on the map's internal order |
| OoxmlPackage.InsertEach | ooxml/src/OfficeOpenXmlMeta.cpp:70-77 | the insertion loop builds the first-wins map of the pairs |
| OoxmlPackage.CollectEntries | ooxml/src/OfficeOpenXmlMeta.cpp:41-49 | one entry per visited element, named by it, and a 32-bit count equal to the number of entries modulo 2^32 |
| OoxmlMeta.ParseFileMeta | src/ooxml/ooxml_meta.cpp:12-35 | a package holding both `EncryptionInfo` and `EncryptedPackage` is an encrypted Office Open XML file and password-protected; any other package takes its type from the first marker part present, is not encrypted, and has no entries |
| OoxmlMeta.UnencryptedTypeFromMarkers | src/ooxml/ooxml_meta.cpp:27-32 | an unencrypted package's type is unknown exactly when no marker part is present, and otherwise belongs to a present marker |
| OoxmlMeta.ParseRelationships | src/ooxml/ooxml_meta.cpp:37-46 | each Id of a `Relationship` element is bound to the Target of its first occurrence, and there are no other keys; a missing attribute reads as the empty string |
| OoxmlMeta.ParseRelationshipsAt | src/ooxml/ooxml_meta.cpp:48-58 | a part without relations part has no relationships; otherwise the relations part's relationships, first occurrence winning |
| OfficeOpenXmlMeta.ParseFileMeta | ooxml/src/OfficeOpenXmlMeta.cpp:11-56 | the type of the first marker part present, never encrypted; a presentation has one unnamed entry per `p:sldId`, a workbook one entry per `sheet` named by it, anything else none; the count is the entries' number modulo 2^32 |
| OfficeOpenXmlMeta.ParseRelationships | ooxml/src/OfficeOpenXmlMeta.cpp:68-78 | each Id is bound to the Target of its first `Relationship`, and there are no other keys |
| OfficeOpenXmlMeta.ParseRelationshipsAt | ooxml/src/OfficeOpenXmlMeta.cpp:80-87 | a relations part that does not load gives an empty map; otherwise its relationships, first occurrence winning |
| LegacyOfficeOpenXmlMeta.ParseFileMeta | src/ooxml/OfficeOpenXmlMeta.cpp:11-28 | only the type is set: the type of the first marker part present |
| LegacyOfficeOpenXmlMeta.ParseRelationships | src/ooxml/OfficeOpenXmlMeta.cpp:38-48 | each Id is bound to a relationship holding the Target of its first occurrence, and there are no other keys |
| LegacyOfficeOpenXmlMeta.ParseRelationshipsAt | src/ooxml/OfficeOpenXmlMeta.cpp:50-54 | the path itself is loaded; a document that does not load is an `invalid_argument` error "xml not present", and exactly then; otherwise its relationships, first occurrence winning |
| Counters.Next32Steps | src/ooxml/OfficeOpenXmlWorkbookTranslator.cpp:39 | the 32-bit counter stays below 2^32 and counts up by one until it wraps |
| Counters.Next32Counts | ooxml/src/OfficeOpenXmlMeta.cpp:34 | a 32-bit count incremented once per item is the number of items modulo 2^32 |
| Property.Empty | src/abstract/property.cpp:6 | a default-constructed property holds no value |
| Property.Make | src/abstract/property.cpp:8-9 | a property holds the value it was constructed with |
| Property.Readonly | src/abstract/property.cpp:11 | a constant property is always read-only |
| Property.Optional | src/abstract/property.cpp:13 | a constant property is always optional |
| Property.Set | src/abstract/property.cpp:17-19 | setting a constant property always fails with `PropertyReadOnly` |
| Property.ValueSurvivesSet | src/abstract/property.cpp:15-19 | a failed set leaves the constructed value readable unchanged |
| Xml.NumberFound | src/odf/OpenDocumentContentTranslator.cpp:66 | a number is found exactly when, after leading white space, a digit comes first or right after a sign; its value is that of the digits |
| Xml.DigitFirstReads | src/ooxml/text/ooxml_text_elements.cpp:281 | text that starts with a digit reads as its leading decimal, with no sign |
| Xml.AsUintReads | src/internal/odf/odf_table.cpp:24 | `as_uint`: the default for a missing attribute; 0 for text without a number or with a minus sign; otherwise the number saturated at 2^32 - 1 |
| Xml.Unsigned64Reads | src/odf/OpenDocumentContentTranslator.cpp:66 | `Unsigned64Attribute`: the default for a missing attribute or one without a number; otherwise below 2^64, saturated at 2^64 - 1, a negative number wrapped modulo 2^64 |
| Xml.ParseIntReads | src/ooxml/OfficeOpenXmlWorkbookTranslator.cpp:151-152 | `Int64Value`: the number with its sign, or the default when there is none |
| Xml.MissingAttributeDefaults | src/internal/odf/odf_table.cpp:24 | a missing attribute reads as the default under both libraries |
| Xml.PrintedNumberReadsBack | src/odf/OpenDocumentContentTranslator.cpp:66 | a printed number reads back unchanged under each reader whose width it fits |
| Xml.PrintedIntegerReadsBack | src/ooxml/OfficeOpenXmlWorkbookTranslator.cpp:151-152 | a printed integer, negative or not, reads back unchanged |

## Left out

- File and archive I/O: zip and compound-file readers, saving, and `XmlUtil::parse` are not modelled. A package is a set of paths with a map from a path to its parsed document. `recursiveVisitElementsWithName` and `select_nodes("//Relationship")` are a pre-order walk of the tree, root included.
- `access::Path`, `TableLocation` and `TablePosition` are not part of this model. A path is a sequence of components. The content serialiser's cursor moves (`addCol`, `startRow`, `addRow`, `addCell`) are operations held in its configuration. The workbook's column of an `A1` reference is a function in its configuration.
- The iteration order of the `unordered_map` marker tables is unspecified. It is the parameter `order`, constrained only to list the three markers once each. The lemmas state what holds for every order.
- The iteration order of the returned relationship maps is not modelled. A map is a value, and the first-wins map of a pair sequence is unique.
- Null-pointer dereferences are preconditions, not modelled behaviour. This covers `FindAttribute(...)->Value()` and the missing `v` child in the workbook (`Defined`, `XfDefined`, `StyleDefined`). It also covers the missing `Id` or `Target` in the tinyxml2 relationship parsers (`RelationshipsAttributed`) and a main part that does not load (`MainPartReadable`).
- WorkbookTranslator.Cursor: `TableCursor` is not part of this model. The workbook translator's cursor is a (row, column) pair with two fixed moves: `addCol` and `addCell` move one column on, and `addRow(k)` (k = 1 by default) moves k rows on and restarts the column at 0. The source's `TableCursor` also tracks row spans, but this translator never adds a cell with a span, so the model leaves them out. Every workbook window lemma (`ColumnLoopWindow`, `ColumnsWritten`, `RowGapWindow`, `CellGapWindow`, `CellWrittenAtColumn`, `RowWrittenAtIndex`) rests on these moves.
- WorkbookTranslator: a `t="s"` cell whose shared string itself holds a shared-string cell is excluded by `Defined`; the walk would otherwise follow shared strings without bound.
- Integer widths: the 32-bit counters of the workbook style lists and of the entry counts are modelled with wrap-around (`Counters`). The ODF table's `uint32_t` indices and the content serialiser's `std::uint32_t` window bounds are unbounded `nat`.
- Xml.AsUint, Xml.Unsigned64, Xml.ParseInt: the readers skip leading spaces, tabs, line feeds and carriage returns and read an optional sign and decimal digits. They do not read a `0x` hexadecimal prefix, do not skip a vertical tab or form feed, and `ParseInt` does not model 64-bit overflow. `as_uint` gives 0 for text without a number and for a negative number, and saturates at 2^32 - 1. `Unsigned64Attribute` gives the default for text without a number, wraps a negative number modulo 2^64 and saturates at 2^64 - 1.
- OdfContentTranslator.TranslateSpace: the source counts the spaces with a 32-bit counter against a 64-bit count, so for a count of 2^32 or more its loop never ends. The model writes the count in spaces. `SpaceWritesCount` is stated only for counts below 2^32.
- OdfContentTranslator.Translator.SpaceTranslator: the same 32-bit counter; the method ends where the source's loop does not, for counts of 2^32 or more.
- OdfContentTranslator.ColumnLoop, RowLoop, CellLoop: the table loops also count with 32-bit counters against 64-bit repeat counts. The model counts without bound. It agrees with the source whenever the loop meets the window's end or the repeat count within 2^32 passes.
- OdfContentTranslator.RowWindow: stated for row content that keeps the cursor's row and the window (`KeepsRowWindow`). A nested table resets both, and the model does not state what the loop then writes.
- OdfContentTranslator.CellWindow: stated for cells spanning one column, whose cursor move the configuration's `AddsOneCell` fixes, and for content that keeps the cursor's column and the window (`KeepsColumnWindow`). The loop for wider cells is modelled but has no window lemma.
- WorkbookTranslator.TranslateTable: the `tableLimitByDimensions` branch of the worksheet translator has an empty body (its code is commented out under a TODO), so the window is the configured offsets and limits alone.
- OdfStyle: parent-style cycles make `generate_style_` recurse forever. Acyclic parent references are a precondition, witnessed by a ghost rank map.
- OdfStyle.Style.GenerateStyle: the family-default branch is modelled as written. It looks up the style's own name in the default-style index, and it memoises the default entry under the empty string, the value of the missing parent attribute.
- OdfDocument: the stub `Table` class and `register_table_` inside the registry source are not modelled, because `m_tables` is never filled there. The table model is the separate `OdfTable`. Its content registration is a function from a cell node to a first-child identifier (0 for none).
- OdfContentTranslator.TranslateImage: image embedding is left out. This covers storage reads, SVM conversion and base64. Only the alternative text the serialiser writes when it does not embed is modelled.
- WorkbookTranslator: `substr(2)` throws for an `rgb` colour shorter than two characters. The model writes an empty colour instead.
- WorkbookTranslator.SharedTextValue: states the value of a shared string holding a single `t` of plain text only, not of shared strings holding rich runs.
- WorkbookTranslator.ColumnsWritten: states the columns written only for spans between 1 and 2^32 - 1. The loop counter is 32-bit and the count 64-bit; `UnorderedColumnsFillWindow` covers the wrapped case.
- WorkbookTranslator.Translator.TableColTranslator: the `col` start tag, with its attributes, is computed once and written on every pass. The source recomputes the same text on each pass.
- LegacyOfficeOpenXmlMeta.ParseRelationshipsAt: `loadRelationships` parses the path it is given, not its relations path, and the model does the same.
- OfficeOpenXmlMeta.ParseFileMeta: entries carry only the name the source writes. The other `FileMeta` fields are left at their defaults, and `dimension` is a TODO in the source.
- OoxmlText.FactorizePreviousSiblingAsWritten: the loop as written does not terminate when the previous sibling is not recognised, so it runs for at most `steps` rounds and reports running out.
- Element types, property keys and values are the enumerations the modelled code uses. `std::any` values are strings.

Three behaviours of the ODF table code, modelled as written:
- Both repeat counts are read from the table node, not from each row or cell.
- The column and row lookups return the first record at or after the index (`lower_bound`).
- Every declared column gets exactly one record, whatever its repeat count, so the column count is the number of declared columns.

## Findings

| source | as written | input that shows it | evidently intended | confidence | as-written member | corrected member |
|---|---|---|---|---|---|---|
| src/internal/odf/odf_document.cpp:311-350 | registering a drawing group or table of contents returns only its first spliced child, and the caller threads that as the previous sibling | a paragraph following a `draw:g` with two paragraphs: record 2's next sibling is record 4, while record 3 names record 2 as previous, so the sibling walk skips record 3 | thread the last spliced child so that the chain stays mutual | high, not executed | OdfDocument.AsWrittenSpliceSkipsSibling | OdfDocument.CorrectedRegistrationThreads |
| src/ooxml/text/ooxml_text_elements.cpp:509 | the previous-sibling search reads the same sibling every round without stepping back | a paragraph, an unrecognised `w:proofErr`, then a run: from the run the search never ends | step to the previous sibling each round and return the nearest recognised one | high, not executed | OoxmlText.PreviousSiblingCounterexample | OoxmlText.PreviousSiblingOf |
| src/ooxml/text/ooxml_text_elements.cpp:221-233 | the column constructor passes the table to `Element` but never sets its own `m_table`, and the sibling columns are built with that null table | a table with two `table:table-column` children: the second, reached from the first, has no parent | build the sibling with the column's parent, so that every column of a table has the table as parent | high, not executed | OoxmlText.ColumnSiblingCounterexample | OoxmlText.NextSiblingOf |
| src/ooxml/OfficeOpenXmlWorkbookTranslator.cpp:259 | after the gap loop the cell is written unconditionally, outside the column window too | a cell whose column is at or past the window's last column, or before its first | a cell outside the window is dropped, as the gap loop drops empty cells | medium, not executed | WorkbookTranslator.AsWrittenCellPastEnd | WorkbookTranslator.TranslateCell |

=== FILE: counters.dfy ===
/** Fixed-width unsigned counters. */
module Counters {
  const U32: nat := 0x1_0000_0000
  const U64: nat := 0x1_0000_0000_0000_0000

  /** `++i` on a 32-bit unsigned counter. */
  function Next32(i: nat): nat
  {
    (i + 1) % U32
  }

  /** The counter steps by one until it wraps around at 2^32. */
  lemma Next32Steps(i: nat)
    requires i < U32
    ensures Next32(i) < U32
    ensures i + 1 < U32 ==> Next32(i) == i + 1
  {
  }

  /** Counting with `Next32` from 0 gives the number of steps modulo 2^32. */
  lemma Next32Counts(n: nat)
    ensures Next32(n % U32) == (n + 1) % U32
  {
  }
}

=== FILE: document_types.dfy ===
/** The element and property vocabulary shared by the document models. */
module DocumentTypes {

  /** The kinds of element a document exposes; `NoneType` is the "no
      element" answer given for identifier 0. */
  datatype ElementType =
    | NoneType
    | Root
    | Slide
    | Sheet
    | Page
    | TextRun
    | LineBreak
    | Paragraph
    | Span
    | Link
    | Bookmark
    | List
    | ListItem
    | Table
    | TableColumn
    | TableRow
    | TableCell
    | Frame
    | Image
    | Rect
    | Line
    | Circle

  datatype ElementProperty =
    | Name
    | Href
    | ImageInternal
    | ImageFile
    | X | Y | Width | Height
    | X1 | Y1 | X2 | Y2
    | StyleName
    | TextAlign
    | MarginTop | MarginBottom | MarginLeft | MarginRight
    | FontName | FontSize | FontWeight | FontStyle | FontColor | BackgroundColor
    | PaddingTop | PaddingBottom | PaddingLeft | PaddingRight
    | BorderTop | BorderBottom | BorderLeft | BorderRight
    | StrokeWidth | StrokeColor | FillColor | VerticalAlign

  /** A property value: attribute text, a flag, or a file opened at a path. */
  datatype Value = Str(text: string) | Flag(flag: bool) | FileAt(path: string)

  type Properties = map<ElementProperty, Value>
}

=== FILE: html_text.dfy ===
/** Escaping of character data for HTML output (`&` is replaced first,
    then `<` and `>`, each by its entity) and the class lists written
    into start tags. */
module HtmlText {
  import opened Strings

  /** Every occurrence of `c` in `s` replaced by `rep`, left to right, the
      inserted text not searched again. */
  function ReplaceAll(s: string, c: char, rep: string): (r: string)
    ensures c !in rep ==> c !in r
    ensures forall d :: d != c && d !in rep && d !in s ==> d !in r
  {
    if s == [] then [] else (if s[0] == c then rep else [s[0]]) + ReplaceAll(s[1..], c, rep)
  }

  /** The three replacement passes, in the order the text translator makes them. */
  function EscapeText(s: string): string
  {
    ReplaceAll(ReplaceAll(ReplaceAll(s, '&', "&amp;"), '<', "&lt;"), '>', "&gt;")
  }

  /** The entity a single character becomes. */
  function EscapeChar(c: char): string
  {
    if c == '&' then "&amp;" else if c == '<' then "&lt;" else if c == '>' then "&gt;" else [c]
  }

  /** Escaping one character at a time. */
  function Escaped(s: string): string
  {
    if s == [] then [] else EscapeChar(s[0]) + Escaped(s[1..])
  }

  /** Reading entities back: the inverse of escaping. */
  function Unescape(s: string): string
    decreases |s|
  {
    if s == [] then []
    else if IsPrefix("&amp;", s) then "&" + Unescape(s[5..])
    else if IsPrefix("&lt;", s) then "<" + Unescape(s[4..])
    else if IsPrefix("&gt;", s) then ">" + Unescape(s[4..])
    else [s[0]] + Unescape(s[1..])
  }

  lemma {:induction false} ReplaceAllConcat(a: string, b: string, c: char, rep: string)
    ensures ReplaceAll(a + b, c, rep) == ReplaceAll(a, c, rep) + ReplaceAll(b, c, rep)
    decreases |a|
  {
    if a == [] {
      assert a + b == b;
    } else {
      assert (a + b)[1..] == a[1..] + b;
      ReplaceAllConcat(a[1..], b, c, rep);
    }
  }

  lemma {:induction false} ReplaceAllAbsent(s: string, c: char, rep: string)
    requires c !in s
    ensures ReplaceAll(s, c, rep) == s
    decreases |s|
  {
    if s != [] {
      ReplaceAllAbsent(s[1..], c, rep);
    }
  }

  lemma ReplaceOne(c: char, d: char, rep: string)
    ensures ReplaceAll([c], d, rep) == if c == d then rep else [c]
  {
    assert [c][1..] == [];
  }

  lemma EscapeOne(c: char)
    ensures EscapeText([c]) == EscapeChar(c)
  {
    ReplaceOne(c, '&', "&amp;");
    if c == '&' {
      EscapeEntity("&amp;");
    } else {
      ReplaceOne(c, '<', "&lt;");
      if c == '<' {
        ReplaceAllAbsent("&lt;", '>', "&gt;");
      } else {
        ReplaceOne(c, '>', "&gt;");
      }
    }
  }

  /** `&amp;` passes the later two replacements untouched. */
  lemma EscapeEntity(e: string)
    requires e == "&amp;"
    ensures ReplaceAll(ReplaceAll(e, '<', "&lt;"), '>', "&gt;") == e
  {
    ReplaceAllAbsent(e, '<', "&lt;");
    ReplaceAllAbsent(e, '>', "&gt;");
  }

  /** Replacing `&` before `<` and `>` is what makes the passes act like a
      single per-character substitution: the entities added by a later pass
      are never touched by an earlier one, and `&lt;`, `&gt;` contain no
      character a later pass replaces. */
  lemma {:induction false} EscapeTextIsPerChar(s: string)
    ensures EscapeText(s) == Escaped(s)
    decreases |s|
  {
    if s != [] {
      var c := s[0];
      assert s == [c] + s[1..];
      ReplaceAllConcat([c], s[1..], '&', "&amp;");
      var a1 := ReplaceAll([c], '&', "&amp;");
      var b1 := ReplaceAll(s[1..], '&', "&amp;");
      ReplaceAllConcat(a1, b1, '<', "&lt;");
      var a2 := ReplaceAll(a1, '<', "&lt;");
      var b2 := ReplaceAll(b1, '<', "&lt;");
      ReplaceAllConcat(a2, b2, '>', "&gt;");
      EscapeOne(c);
      EscapeTextIsPerChar(s[1..]);
    }
  }

  lemma UnescapeStep(c: char, rest: string)
    ensures Unescape(EscapeChar(c) + rest) == [c] + Unescape(rest)
  {
    var t := EscapeChar(c) + rest;
    if c == '&' {
      assert t[..5] == "&amp;";
      assert t[5..] == rest;
    } else if c == '<' {
      assert t[..4] == "&lt;";
      assert !IsPrefix("&amp;", t) by { assert t[1] == 'l'; }
      assert t[4..] == rest;
    } else if c == '>' {
      assert t[..4] == "&gt;";
      assert !IsPrefix("&amp;", t) by { assert t[1] == 'g'; }
      assert !IsPrefix("&lt;", t) by { assert t[1] == 'g'; }
      assert t[4..] == rest;
    } else {
      assert t[0] == c;
      assert !IsPrefix("&amp;", t) && !IsPrefix("&lt;", t) && !IsPrefix("&gt;", t) by {
        assert "&amp;"[0] == '&' && "&lt;"[0] == '&' && "&gt;"[0] == '&';
      }
      assert t[1..] == rest;
    }
  }

  lemma {:induction false} UnescapeEscaped(s: string)
    ensures Unescape(Escaped(s)) == s
    decreases |s|
  {
    if s != [] {
      UnescapeStep(s[0], Escaped(s[1..]));
      UnescapeEscaped(s[1..]);
    }
  }

  /** Escaped text reads back as the original. */
  lemma EscapeRoundTrip(s: string)
    ensures Unescape(EscapeText(s)) == s
  {
    EscapeTextIsPerChar(s);
    UnescapeEscaped(s);
  }

  /** Escaped text holds no raw angle bracket, so it can open no tag. */
  lemma EscapeHasNoBrackets(s: string)
    ensures '<' !in EscapeText(s) && '>' !in EscapeText(s)
  {
    var t := ReplaceAll(ReplaceAll(s, '&', "&amp;"), '<', "&lt;");
    assert '<' !in t;
    assert '<' !in ReplaceAll(t, '>', "&gt;");
  }

  /** A text written for editing: wrapped in an editable span that
      carries the index the text node is registered under. */
  function EditableText(index: nat, text: string): string
  {
    "<span contenteditable=\"true\" data-odr-cid=\"" + NatToString(index) + "\">" + text + "</span>"
  }

  /** Words, each preceded by a space: the tail of a class attribute. */
  function Spaced(ws: seq<string>): string
  {
    if ws == [] then "" else Spaced(ws[..|ws| - 1]) + " " + ws[|ws| - 1]
  }

  /** One more dependency, walking backwards: it is written after the
      later ones. */
  lemma SpacedStep(deps: seq<string>, i: nat, start: string, o: string)
    requires 0 < i <= |deps| && o == start + Spaced(Reverse(deps[i..]))
    ensures o + " " + deps[i - 1] == start + Spaced(Reverse(deps[i - 1..]))
  {
    assert deps[i - 1..][1..] == deps[i..];
    var ws := Reverse(deps[i..]) + [deps[i - 1]];
    assert ws[..|ws| - 1] == Reverse(deps[i..]);
  }
}

=== FILE: legacy_office_open_xml_meta.dfy ===
/** The earlier tinyxml2-based metadata parser: the file type from the
    marker parts only, and relationships whose absence is an error. */
module LegacyOfficeOpenXmlMeta {
  import opened Wrappers
  import opened Xml
  import opened OoxmlPackage

  /** `parseFileMeta`: only the type, from the first marker part present in
      the table's visiting order `order`. */
  method ParseFileMeta(s: Storage, order: seq<Marker>) returns (r: FileMeta)
    requires IsOrdering(order)
    ensures r == NoMeta.(fileType := FirstPresent(s, order))
  {
    var t := DetectType(s, order);
    r := NoMeta.(fileType := t);
  }

  /** A relationship as this version stores it. */
  datatype Relationship = Relationship(target: string)

  /** The exception `parseRelationships` throws for a missing document. */
  datatype MetaError = InvalidArgument(message: string)

  function RelationshipPairs(rels: Node): seq<(string, Relationship)>
  {
    var rs := Relationships(rels);
    seq(|rs|, i requires 0 <= i < |rs| => (AttrValue(rs[i], "Id"), Relationship(AttrValue(rs[i], "Target"))))
  }

  /** `parseRelationships(rels)`: first occurrence of an Id wins. */
  method ParseRelationships(rels: Node) returns (result: map<string, Relationship>)
    requires RelationshipsAttributed(rels)
    ensures FirstWinsMap(result, RelationshipPairs(rels))
  {
    result := InsertEach(RelationshipPairs(rels));
  }

  /** `parseRelationships(storage, path)`: `loadRelationships` parses
      `path` itself, and a document that does not load is an
      `invalid_argument` error rather than an empty map. */
  method ParseRelationshipsAt(s: Storage, path: Path) returns (result: Result<map<string, Relationship>, MetaError>)
    requires Parse(s, path).Some? ==> RelationshipsAttributed(Parse(s, path).value)
    ensures Parse(s, path).None? <==> result == Err(InvalidArgument("xml not present"))
    ensures Parse(s, path).Some? ==> result.Ok? && FirstWinsMap(result.value, RelationshipPairs(Parse(s, path).value))
  {
    var relationships := Parse(s, path);
    if relationships.None? {
      return Err(InvalidArgument("xml not present"));
    }
    var m := ParseRelationships(relationships.value);
    result := Ok(m);
  }
}

=== FILE: odf_content_translator.dfy ===
/** The OpenDocument content to HTML serialiser: a recursive walk over
    the content tree that appends markup to an output stream and keeps a
    translation context (the table window and cursor, the default cell
    style of each column, the text nodes handed out for editing).

    `Translate*` functions are the reference definition: each maps a node
    and the state before it to the state after it. The `Translator` class
    performs the same walk in place and is proved equal to them. */
module OdfContentTranslator {
  import opened Wrappers
  import opened Xml
  import opened Strings
  import opened HtmlText
  import opened TableWindow
  import opened Counters

  /** A table location: the next row and column, plus whatever else the
      location tracks (cells still covered by row spans). How it moves is
      given by the configuration's cursor operations. */
  datatype Cursor = Cursor(nextRow: nat, nextCol: nat, covered: seq<nat>)

  const FreshCursor := Cursor(0, 0, [])

  /** Row and column count of one document entry (a sheet). */
  datatype Dims = Dims(rowCount: nat, columnCount: nat)

  /** Everything the walk reads but never changes: the translation
      options, the document metadata, the style dependency lists produced
      by the style translator, the style-name escaping it uses, and the
      table location's operations. */
  datatype Config = Config(
    editable: bool,
    tableOffsetRows: nat, tableLimitRows: nat,
    tableOffsetCols: nat, tableLimitCols: nat,
    tableLimitByDimensions: bool,
    spreadsheet: bool,
    entryDims: nat -> Dims,
    styleDependencies: map<string, seq<string>>,
    escapeStyleName: string -> string,
    addCol: Cursor -> Cursor,
    startRow: Cursor -> Cursor,
    addRow: Cursor -> Cursor,
    addCell: (Cursor, nat, nat) -> Cursor)

  /** The output written so far and the translation context. */
  datatype State = State(
    out: string,
    entry: nat,
    rowStart: nat, rowEnd: nat, colStart: nat, colEnd: nat,
    location: Cursor,
    defaultCellStyles: map<nat, string>,
    texts: map<nat, Node>,
    textIndex: nat)

  function Emit(s: State, text: string): State
  {
    s.(out := s.out + text)
  }

  /** Every text node handed out for editing sits under an index below the
      next one, and every such index is taken. */
  ghost predicate TextsDense(s: State)
  {
    forall i: nat :: i in s.texts <==> i < s.textIndex
  }

  /** What no step of the walk undoes: output is only appended, the text
      index only grows, the handed-out texts stay dense, and outside
      editing mode no text is handed out at all. */
  ghost predicate Grows(cfg: Config, s: State, r: State)
  {
    s.out <= r.out && s.textIndex <= r.textIndex &&
    (TextsDense(s) ==> TextsDense(r)) &&
    (!cfg.editable ==> r.textIndex == s.textIndex && r.texts == s.texts)
  }

  // ---------------------------------------------------------------- classes

  /** The class attribute for a style: the name followed by the names it
      depends on, last dependency first; an unknown style gets only its name. */
  function StyleClass(cfg: Config, name: string): string
  {
    " class=\"" + name +
    (if name in cfg.styleDependencies then Spaced(Reverse(cfg.styleDependencies[name])) else "") +
    "\""
  }

  const StyleAttributes: set<string> :=
    {"text:style-name", "table:style-name", "draw:style-name", "presentation:style-name"}

  function AttributeMarkup(cfg: Config, a: Attribute): string
  {
    if a.name in StyleAttributes then StyleClass(cfg, cfg.escapeStyleName(a.value)) else ""
  }

  /** What an element's attributes contribute to its start tag: a class
      attribute for each style-name attribute, in attribute order. */
  function AttributesMarkup(cfg: Config, attrs: seq<Attribute>): string
  {
    if attrs == [] then ""
    else AttributesMarkup(cfg, attrs[..|attrs| - 1]) + AttributeMarkup(cfg, attrs[|attrs| - 1])
  }

  function Attrs(cfg: Config, n: Node): string
  {
    AttributesMarkup(cfg, if n.Element? then n.attributes else [])
  }

  // ---------------------------------------------------------------- dispatch

  const Skippers: set<string> :=
    {"svg:desc", "text:index-title-template", "presentation:notes", "office:annotation"}

  /** Tags written as an HTML element of another name around their children. */
  function Substitution(name: string): Option<string>
  {
    if name == "text:span" then Some("span")
    else if name == "text:line-break" then Some("br")
    else if name == "text:list" then Some("ul")
    else if name == "text:list-item" then Some("li")
    else if name == "draw:page" then Some("div")
    else None
  }

  /** `ElementTranslator`. */
  function TranslateElement(cfg: Config, n: Node, s: State): (r: State)
    requires n.Element?
    ensures Grows(cfg, s, r)
    decreases Size(n), 3
  {
    var name := n.name;
    if name in Skippers then s
    else if name == "text:p" || name == "text:h" then TranslateParagraph(cfg, n, s)
    else if name == "text:s" then TranslateSpace(n, s)
    else if name == "text:tab" then Emit(s, "\t")
    else if name == "text:a" then TranslateLink(cfg, n, s)
    else if name == "text:bookmark" || name == "text:bookmark-start" then TranslateBookmark(cfg, n, s)
    else if name == "draw:frame" || name == "draw:custom-shape" then TranslateFrame(cfg, n, s)
    else if name == "draw:image" then TranslateImage(cfg, n, s)
    else if name == "table:table" then TranslateTable(cfg, n, s)
    else if name == "table:table-column" then TranslateTableColumn(cfg, n, s)
    else if name == "table:table-row" then TranslateTableRow(cfg, n, s)
    else if name == "table:table-cell" then TranslateTableCell(cfg, n, s)
    else TranslateOther(cfg, n, s)
  }

  /** `ElementChildrenTranslator`: text children are escaped, element
      children translated, other nodes ignored, in document order. */
  function TranslateChildren(cfg: Config, cs: seq<Node>, s: State): (r: State)
    ensures Grows(cfg, s, r)
    decreases SizeOf(cs), 4
  {
    if cs == [] then s
    else
      var s1 := match cs[0]
        case Text(_) => TranslateText(cfg, cs[0], s)
        case Element(_, _, _) => TranslateElement(cfg, cs[0], s)
        case Other => s;
      TranslateChildren(cfg, cs[1..], s1)
  }

  /** `TextTranslator`. */
  function TranslateText(cfg: Config, n: Node, s: State): (r: State)
    requires n.Text?
    ensures Grows(cfg, s, r)
  {
    var text := EscapeText(n.text);
    if !cfg.editable then Emit(s, text)
    else
      s.(out := s.out + EditableText(s.textIndex, text),
         texts := s.texts[s.textIndex := n],
         textIndex := s.textIndex + 1)
  }

  /** A substituted tag wraps its children; any other tag is transparent. */
  function TranslateOther(cfg: Config, n: Node, s: State): (r: State)
    requires n.Element?
    ensures Grows(cfg, s, r)
    decreases Size(n), 2
  {
    match Substitution(n.name)
    case Some(tag) =>
      Emit(TranslateChildren(cfg, n.children, Emit(s, "<" + tag + Attrs(cfg, n) + ">")), "</" + tag + ">")
    case None => TranslateChildren(cfg, n.children, s)
  }

  // ---------------------------------------------------------------- text

  /** `ParagraphTranslator`: a paragraph without any child node is written
      as a line break so that it keeps its height. */
  function TranslateParagraph(cfg: Config, n: Node, s: State): (r: State)
    requires n.Element?
    ensures Grows(cfg, s, r)
    decreases Size(n), 2
  {
    var s1 := Emit(s, "<p" + Attrs(cfg, n) + ">");
    var s2 := if n.children == [] then Emit(s1, "<br/>") else TranslateChildren(cfg, n.children, s1);
    Emit(s2, "</p>")
  }

  /** The number of spaces a `text:s` stands for. */
  function SpaceCount(n: Node): nat
  {
    Unsigned64(Attr(n, "text:c"), 1)
  }

  function TranslateSpace(n: Node, s: State): State
  {
    Emit(s, Repeat(" ", SpaceCount(n)))
  }

  predicate SelfTarget(href: string)
  {
    |href| > 0 && href[0] == '#'
  }

  /** The start of a link's tag: its href and, for a reference into the
      document itself, a target that keeps it in the same frame. */
  function LinkHead(n: Node): string
  {
    match Attr(n, "xlink:href")
    case None => "<a"
    case Some(v) => "<a" + (" href=\"" + v + "\"") + (if SelfTarget(v) then " target=\"_self\"" else "")
  }

  function TranslateLink(cfg: Config, n: Node, s: State): (r: State)
    requires n.Element?
    ensures Grows(cfg, s, r)
    decreases Size(n), 2
  {
    var s1 := Emit(s, LinkHead(n) + Attrs(cfg, n) + ">");
    Emit(TranslateChildren(cfg, n.children, s1), "</a>")
  }

  function BookmarkId(n: Node): string
  {
    match Attr(n, "text:name") case None => "" case Some(v) => " id=\"" + v + "\""
  }

  function TranslateBookmark(cfg: Config, n: Node, s: State): State
  {
    Emit(s, "<a" + BookmarkId(n) + Attrs(cfg, n) + "></a>")
  }

  function OptionalStyle(n: Node, attribute: string, property: string): string
  {
    match Attr(n, attribute) case None => "" case Some(v) => property + ":" + v + ";"
  }

  /** The start of a frame's tag: its size and position as inline style. */
  function FrameHead(n: Node): string
  {
    "<div style=\"" + OptionalStyle(n, "svg:width", "width") + OptionalStyle(n, "svg:height", "height") +
    OptionalStyle(n, "svg:x", "left") + OptionalStyle(n, "svg:y", "top") + "\""
  }

  function TranslateFrame(cfg: Config, n: Node, s: State): (r: State)
    requires n.Element?
    ensures Grows(cfg, s, r)
    decreases Size(n), 2
  {
    var s1 := Emit(s, FrameHead(n) + Attrs(cfg, n) + ">");
    Emit(TranslateChildren(cfg, n.children, s1), "</div>")
  }

  function ImageHead(n: Node): string
  {
    "<img style=\"width:100%;height:100%\"" +
    match Attr(n, "xlink:href")
    case None => " alt=\"Error: image path not specified"
    case Some(p) => (" alt=\"Error: image not found or unsupported: " + p + "\"")
  }

  /** An image without embedding: the alternative text names the path, or
      says that there is none (that text is left without its closing quote). */
  function TranslateImage(cfg: Config, n: Node, s: State): (r: State)
    requires n.Element?
    ensures Grows(cfg, s, r)
    decreases Size(n), 2
  {
    var s1 := Emit(s, ImageHead(n) + Attrs(cfg, n) + ">");
    Emit(TranslateChildren(cfg, n.children, s1), "</img>")
  }

  // ---------------------------------------------------------------- tables

  /** The window a table is written in: rows and columns from the
      configured offsets, as many as the configured limits allow, and for a
      spreadsheet limited by its dimensions no more than the sheet has. */
  function TableBounds(cfg: Config, entry: nat): (r: (nat, nat, nat, nat))
    ensures r.0 == cfg.tableOffsetRows && r.2 == cfg.tableOffsetCols
    ensures r.1 <= r.0 + cfg.tableLimitRows && r.3 <= r.2 + cfg.tableLimitCols
    ensures !(cfg.spreadsheet && cfg.tableLimitByDimensions) ==>
      r.1 == r.0 + cfg.tableLimitRows && r.3 == r.2 + cfg.tableLimitCols
    ensures cfg.spreadsheet && cfg.tableLimitByDimensions ==>
      r.1 <= r.0 + cfg.entryDims(entry).rowCount && r.3 <= r.2 + cfg.entryDims(entry).columnCount &&
      (r.1 == r.0 + cfg.tableLimitRows || r.1 == r.0 + cfg.entryDims(entry).rowCount) &&
      (r.3 == r.2 + cfg.tableLimitCols || r.3 == r.2 + cfg.entryDims(entry).columnCount)
  {
    var rowStart := cfg.tableOffsetRows;
    var colStart := cfg.tableOffsetCols;
    var rowEnd := rowStart + cfg.tableLimitRows;
    var colEnd := colStart + cfg.tableLimitCols;
    if cfg.spreadsheet && cfg.tableLimitByDimensions then
      (rowStart, Min(rowEnd, rowStart + cfg.entryDims(entry).rowCount),
       colStart, Min(colEnd, colStart + cfg.entryDims(entry).columnCount))
    else (rowStart, rowEnd, colStart, colEnd)
  }

  const TableAttributes := " cellpadding=\"0\" border=\"0\" cellspacing=\"0\""

  /** `TableTranslator`: sets the window, resets the cursor and the column
      default styles, writes the table and moves on to the next entry. */
  function TranslateTable(cfg: Config, n: Node, s: State): (r: State)
    requires n.Element?
    ensures Grows(cfg, s, r)
    decreases Size(n), 2
  {
    var b := TableBounds(cfg, s.entry);
    var s1 := s.(rowStart := b.0, rowEnd := b.1, colStart := b.2, colEnd := b.3,
                 location := FreshCursor, defaultCellStyles := map[]);
    var s2 := Emit(s1, "<table" + Attrs(cfg, n) + TableAttributes + ">");
    var s3 := Emit(TranslateChildren(cfg, n.children, s2), "</table>");
    s3.(entry := s3.entry + 1)
  }

  function Repeated(n: Node, attribute: string): nat
  {
    Unsigned64(Attr(n, attribute), 1)
  }

  /** One repetition of a column inside the window: it records the
      column's default cell style and writes a `col`. */
  function ColumnStep(cfg: Config, n: Node, s: State): (r: State)
  {
    var c := s.location.nextCol;
    var s1 := if c >= s.colStart then
      Emit(s.(defaultCellStyles :=
                if HasAttr(n, "table:default-cell-style-name")
                then s.defaultCellStyles[c := AttrValue(n, "table:default-cell-style-name")]
                else s.defaultCellStyles),
           ColumnTag(cfg, n))
      else s;
    s1.(location := cfg.addCol(s1.location))
  }

  /** The tag written for each column inside the window. */
  function ColumnTag(cfg: Config, n: Node): string
  {
    "<col" + Attrs(cfg, n) + ">"
  }

  /** `k` more repetitions of a column, stopping at the window's end. */
  function ColumnLoop(cfg: Config, n: Node, k: nat, s: State): (r: State)
    ensures Grows(cfg, s, r)
    decreases k
  {
    if k == 0 || s.location.nextCol >= s.colEnd then s
    else ColumnLoop(cfg, n, k - 1, ColumnStep(cfg, n, s))
  }

  function TranslateTableColumn(cfg: Config, n: Node, s: State): (r: State)
    ensures Grows(cfg, s, r)
  {
    ColumnLoop(cfg, n, Repeated(n, "table:number-columns-repeated"), s)
  }

  function RowStep(cfg: Config, n: Node, s: State): (r: State)
    requires n.Element?
    ensures Grows(cfg, s, r)
    decreases Size(n), 0
  {
    var s1 := if s.location.nextRow >= s.rowStart then
      Emit(TranslateChildren(cfg, n.children, Emit(s, "<tr" + Attrs(cfg, n) + ">")), "</tr>")
      else s;
    s1.(location := cfg.addRow(s1.location))
  }

  function RowLoop(cfg: Config, n: Node, k: nat, s: State): (r: State)
    requires n.Element?
    ensures Grows(cfg, s, r)
    decreases Size(n), 1, k
  {
    if k == 0 || s.location.nextRow >= s.rowEnd then s
    else RowLoop(cfg, n, k - 1, RowStep(cfg, n, s))
  }

  function TranslateTableRow(cfg: Config, n: Node, s: State): (r: State)
    requires n.Element?
    ensures Grows(cfg, s, r)
    decreases Size(n), 2
  {
    RowLoop(cfg, n, Repeated(n, "table:number-rows-repeated"), s.(location := cfg.startRow(s.location)))
  }

  /** The class a cell without its own style takes from its column. */
  function ColumnDefault(cfg: Config, n: Node, styles: map<nat, string>, c: nat): string
  {
    if !HasAttr(n, "table:style-name") && c in styles then StyleClass(cfg, styles[c]) else ""
  }

  /** The spans a cell declares, written as HTML spans. */
  function CellSpans(n: Node): string
  {
    (if HasAttr(n, "table:number-columns-spanned")
     then " colspan=\"" + NatToString(Repeated(n, "table:number-columns-spanned")) + "\"" else "") +
    (if HasAttr(n, "table:number-rows-spanned")
     then " rowspan=\"" + NatToString(Repeated(n, "table:number-rows-spanned")) + "\"" else "")
  }

  /** The opening tag of a cell in column `c`. */
  function CellHead(cfg: Config, n: Node, styles: map<nat, string>, c: nat): string
  {
    "<td" + ColumnDefault(cfg, n, styles, c) + Attrs(cfg, n) + CellSpans(n) + ">"
  }

  function CellStep(cfg: Config, n: Node, s: State): (r: State)
    requires n.Element?
    ensures Grows(cfg, s, r)
    decreases Size(n), 0
  {
    var c := s.location.nextCol;
    var s1 := if c >= s.colStart then
      Emit(TranslateChildren(cfg, n.children, Emit(s, CellHead(cfg, n, s.defaultCellStyles, c))), "</td>")
      else s;
    s1.(location := cfg.addCell(s1.location, Repeated(n, "table:number-columns-spanned"),
                                Repeated(n, "table:number-rows-spanned")))
  }

  function CellLoop(cfg: Config, n: Node, k: nat, s: State): (r: State)
    requires n.Element?
    ensures Grows(cfg, s, r)
    decreases Size(n), 1, k
  {
    if k == 0 || s.location.nextCol >= s.colEnd then s
    else CellLoop(cfg, n, k - 1, CellStep(cfg, n, s))
  }

  function TranslateTableCell(cfg: Config, n: Node, s: State): (r: State)
    requires n.Element?
    ensures Grows(cfg, s, r)
    decreases Size(n), 2
  {
    CellLoop(cfg, n, Repeated(n, "table:number-columns-repeated"), s)
  }

  // ---------------------------------------------------------------- properties

  /** Skipped tags (descriptions, index title templates, notes,
      annotations) write nothing and leave the context alone. */
  lemma SkippedTagsWriteNothing(cfg: Config, n: Node, s: State)
    requires n.Element? && n.name in Skippers
    ensures TranslateElement(cfg, n, s) == s
  {
  }

  /** A tag the walk does not know is transparent: only its children are
      written. */
  lemma UnknownTagsAreTransparent(cfg: Config, n: Node, s: State)
    requires n.Element? && n.name !in Skippers && Substitution(n.name).None?
    requires n.name !in {"text:p", "text:h", "text:s", "text:tab", "text:a", "text:bookmark",
                         "text:bookmark-start", "draw:frame", "draw:custom-shape", "draw:image",
                         "table:table", "table:table-column", "table:table-row", "table:table-cell"}
    ensures TranslateElement(cfg, n, s) == TranslateChildren(cfg, n.children, s)
  {
  }

  /** A paragraph without child nodes is written as an empty paragraph
      holding a line break. */
  lemma EmptyParagraphWritesBreak(cfg: Config, n: Node, s: State)
    requires n.Element? && (n.name == "text:p" || n.name == "text:h") && n.children == []
    ensures TranslateElement(cfg, n, s) == Emit(s, "<p" + Attrs(cfg, n) + "><br/></p>")
  {
    EmitThree(s, "<p" + Attrs(cfg, n) + ">", "<br/>", "</p>");
    assert "<p" + Attrs(cfg, n) + ">" + "<br/>" + "</p>" == "<p" + Attrs(cfg, n) + "><br/></p>";
  }

  /** `text:s` writes exactly `text:c` spaces, one when the count is
      missing, none for a count of 0. The source counts with a 32-bit
      counter, which ends only for counts below 2^32. */
  lemma SpaceWritesCount(cfg: Config, n: Node, s: State)
    requires n.Element? && n.name == "text:s" && SpaceCount(n) < U32
    ensures var r := TranslateElement(cfg, n, s);
      r.out == s.out + Repeat(" ", SpaceCount(n)) &&
      |r.out| == |s.out| + SpaceCount(n) &&
      (forall i :: |s.out| <= i < |r.out| ==> r.out[i] == ' ') &&
      r == s.(out := r.out)
    ensures !HasAttr(n, "text:c") ==> TranslateElement(cfg, n, s).out == s.out + " "
  {
    RepeatSpaces(SpaceCount(n));
    assert Repeat(" ", 1) == " " by { assert Repeat(" ", 0) == ""; }
  }

  lemma {:induction false} RepeatSpaces(k: nat)
    ensures |Repeat(" ", k)| == k
    ensures forall i :: 0 <= i < k ==> Repeat(" ", k)[i] == ' '
  {
    if k > 0 {
      RepeatSpaces(k - 1);
    }
  }

  /** The class markup of an element's attributes is empty or starts a
      class attribute. */
  lemma {:induction false} AttributesMarkupShape(cfg: Config, attrs: seq<Attribute>)
    ensures var m := AttributesMarkup(cfg, attrs); m == "" || (|m| >= 2 && m[0] == ' ' && m[1] == 'c')
  {
    if attrs != [] {
      AttributesMarkupShape(cfg, attrs[..|attrs| - 1]);
    }
  }

  /** A link opens in the same frame exactly when its href is a reference
      into the document (starts with '#'). */
  lemma LinkTargetsSelf(cfg: Config, n: Node, s: State)
    requires n.Element? && Attr(n, "xlink:href").Some?
    ensures var v := Attr(n, "xlink:href").value;
      (s.out + "<a" + (" href=\"" + v + "\"") + " target=\"_self\"" <= TranslateLink(cfg, n, s).out) <==> SelfTarget(v)
  {
    LinkOpensWithHead(cfg, n, s);
    AttributesMarkupShape(cfg, n.attributes);
    LinkOpening(n, s.out, Attrs(cfg, n), TranslateLink(cfg, n, s).out);
  }

  /** Whatever follows the opening tag, the target can be read off the
      text right after the href. */
  lemma LinkOpening(n: Node, o: string, m: string, x: string)
    requires Attr(n, "xlink:href").Some?
    requires m == "" || (|m| >= 2 && m[0] == ' ' && m[1] == 'c')
    requires o + (LinkHead(n) + m + ">") <= x
    ensures var v := Attr(n, "xlink:href").value;
      (o + "<a" + (" href=\"" + v + "\"") + " target=\"_self\"" <= x) <==> SelfTarget(v)
  {
    var v := Attr(n, "xlink:href").value;
    var p := o + "<a" + (" href=\"" + v + "\"");
    var t := " target=\"_self\"";
    LinkHeadShape(n, o, m);
    TargetChoice(p, t, m, x, SelfTarget(v));
  }

  lemma LinkHeadShape(n: Node, o: string, m: string)
    requires Attr(n, "xlink:href").Some?
    ensures var v := Attr(n, "xlink:href").value;
      o + (LinkHead(n) + m + ">")
      == (o + "<a" + (" href=\"" + v + "\"")) + ((if SelfTarget(v) then " target=\"_self\"" else "") + (m + ">"))
  {
    var v := Attr(n, "xlink:href").value;
    var t := if SelfTarget(v) then " target=\"_self\"" else "";
    assert LinkHead(n) == "<a" + (" href=\"" + v + "\"") + t;
    Regroup(o, "<a", " href=\"" + v + "\"", t, m, ">");
  }

  /** Regroups the markup of a link so the proof can split it at the target. */
  lemma Regroup(o: string, a: string, b: string, c: string, d: string, e: string)
    ensures o + (a + b + c + d + e) == (o + a + b) + (c + (d + e))
  {
  }

  /** What follows a link's href is either the target or the class markup
      and the closing bracket, and those two never start alike. */
  lemma TargetChoice(p: string, t: string, m: string, x: string, self: bool)
    requires |t| >= 2 && t[0] == ' ' && t[1] == 't'
    requires m == "" || (|m| >= 2 && m[0] == ' ' && m[1] == 'c')
    requires p + ((if self then t else "") + (m + ">")) <= x
    ensures p + t <= x <==> self
  {
    if self {
      assert p + t <= p + (t + (m + ">"));
    } else if m == "" {
      assert x[|p|] == '>' != t[0];
    } else {
      assert x[|p| + 1] == m[1] != t[1];
    }
  }

  /** A link's output starts with its opening tag. */
  lemma LinkOpensWithHead(cfg: Config, n: Node, s: State)
    requires n.Element?
    ensures s.out + (LinkHead(n) + Attrs(cfg, n) + ">") <= TranslateLink(cfg, n, s).out
  {
    var s1 := Emit(s, LinkHead(n) + Attrs(cfg, n) + ">");
    var r1 := TranslateChildren(cfg, n.children, s1);
    PrefixAppend(s1.out, r1.out, "</a>");
  }

  /** Outside editing mode a text node is written escaped and nothing
      else changes; the written text holds no tag and reads back as the
      node's text. */
  lemma TextWrittenEscaped(cfg: Config, n: Node, s: State)
    requires n.Text? && !cfg.editable
    ensures TranslateText(cfg, n, s) == Emit(s, EscapeText(n.text))
    ensures '<' !in EscapeText(n.text) && Unescape(EscapeText(n.text)) == n.text
  {
    EscapeHasNoBrackets(n.text);
    EscapeRoundTrip(n.text);
  }

  /** In editing mode each text node is wrapped with the current index,
      recorded under that index, and the index moves on by exactly one. */
  lemma TextHandedOut(cfg: Config, n: Node, s: State)
    requires n.Text? && cfg.editable
    ensures var r := TranslateText(cfg, n, s);
      r.out == s.out + EditableText(s.textIndex, EscapeText(n.text)) &&
      r.textIndex == s.textIndex + 1 &&
      r.texts == s.texts[s.textIndex := n] &&
      (TextsDense(s) ==> TextsDense(r) && s.textIndex !in s.texts)
  {
  }

  /** Moving to the next column moves the cursor one column on. */
  ghost predicate AddsOneColumn(cfg: Config)
  {
    forall c :: cfg.addCol(c).nextCol == c.nextCol + 1
  }

  ghost predicate AddsOneRow(cfg: Config)
  {
    forall c :: cfg.addRow(c).nextRow == c.nextRow + 1
  }

  /** The column loop stops at the end bound: of `k` repetitions starting at
      cursor column `c0`, it passes the ones before the end bound. */
  lemma {:induction false} ColumnCursor(cfg: Config, n: Node, k: nat, s: State)
    requires AddsOneColumn(cfg)
    ensures var r := ColumnLoop(cfg, n, k, s);
      r.location.nextCol == LastPass(s.location.nextCol, s.colEnd, k) &&
      r.colStart == s.colStart && r.colEnd == s.colEnd
    decreases k
  {
    if k > 0 && s.location.nextCol < s.colEnd {
      ColumnCursor(cfg, n, k - 1, ColumnStep(cfg, n, s));
    }
  }

  /** The column window: a `col` is written for exactly the passes at or
      after the start bound. */
  lemma {:induction false} ColumnWindow(cfg: Config, n: Node, k: nat, s: State)
    requires AddsOneColumn(cfg)
    ensures ColumnLoop(cfg, n, k, s).out ==
      s.out + Repeat(ColumnTag(cfg, n), Written(s.location.nextCol, s.colStart, s.colEnd, k))
    decreases k
  {
    var c0 := s.location.nextCol;
    if k > 0 && c0 < s.colEnd {
      var s1 := ColumnStep(cfg, n, s);
      ColumnStepCursor(cfg, n, s);
      ColumnStepOutput(cfg, n, s);
      ColumnWindow(cfg, n, k - 1, s1);
      assert ColumnLoop(cfg, n, k, s) == ColumnLoop(cfg, n, k - 1, s1);
      WindowStep(s.out, s1.out, ColumnLoop(cfg, n, k, s).out, ColumnTag(cfg, n), c0, s.colStart, s.colEnd, k);
    } else {
      assert Written(c0, s.colStart, s.colEnd, k) == 0;
    }
  }

  /** The same style recorded for every column from `first` up to `last`. */
  function StyleSpan(first: nat, last: nat, v: string): (m: map<nat, string>)
    ensures forall c :: c in m <==> first <= c < last
    ensures forall c :: c in m ==> m[c] == v
    decreases last - first
  {
    if first >= last then map[] else StyleSpan(first + 1, last, v)[first := v]
  }

  lemma StyleSpanStep(m: map<nat, string>, c0: nat, last: nat, v: string)
    requires c0 < last
    ensures m[c0 := v] + StyleSpan(c0 + 1, last, v) == m + StyleSpan(c0, last, v)
  {
  }

  /** One pass of the column loop, in terms of cursor and style table. */
  lemma ColumnStepCursor(cfg: Config, n: Node, s: State)
    requires AddsOneColumn(cfg)
    ensures var r := ColumnStep(cfg, n, s);
      r.location.nextCol == s.location.nextCol + 1 && r.colStart == s.colStart && r.colEnd == s.colEnd
  {
  }

  lemma ColumnStepOutput(cfg: Config, n: Node, s: State)
    ensures ColumnStep(cfg, n, s).out ==
      if s.location.nextCol >= s.colStart then s.out + (ColumnTag(cfg, n)) else s.out
  {
  }

  lemma ColumnStepStyles(cfg: Config, n: Node, s: State)
    ensures var c0 := s.location.nextCol;
      ColumnStep(cfg, n, s).defaultCellStyles ==
        if c0 >= s.colStart && HasAttr(n, "table:default-cell-style-name")
        then s.defaultCellStyles[c0 := AttrValue(n, "table:default-cell-style-name")]
        else s.defaultCellStyles
  {
  }

  /** The style table after the columns from `first` up to `last` have
      recorded `v`, when the column declares a default cell style. */
  function WithStyles(m: map<nat, string>, has: bool, first: nat, last: nat, v: string): map<nat, string>
  {
    if has then m + StyleSpan(first, last, v) else m
  }

  lemma StylesAdvance(m: map<nat, string>, has: bool, v: string, c0: nat, start: nat, last: nat)
    requires c0 < last
    ensures WithStyles(if c0 >= start && has then m[c0 := v] else m, has, WindowFirst(c0 + 1, start, last), last, v)
         == WithStyles(m, has, WindowFirst(c0, start, last), last, v)
  {
    if c0 >= start && has {
      StyleSpanStep(m, c0, last, v);
    }
  }

  /** The style table alone through `k` passes of the column loop. */
  function StylesLoop(m: map<nat, string>, has: bool, v: string, c0: nat, start: nat, end: nat, k: nat): map<nat, string>
    decreases k
  {
    if k == 0 || c0 >= end then m
    else StylesLoop(if c0 >= start && has then m[c0 := v] else m, has, v, c0 + 1, start, end, k - 1)
  }

  /** The column loop changes the style table as `StylesLoop` does. */
  lemma {:induction false} ColumnLoopStyles(cfg: Config, n: Node, k: nat, s: State)
    requires AddsOneColumn(cfg)
    ensures ColumnLoop(cfg, n, k, s).defaultCellStyles ==
      StylesLoop(s.defaultCellStyles, HasAttr(n, "table:default-cell-style-name"),
                 AttrValue(n, "table:default-cell-style-name"), s.location.nextCol, s.colStart, s.colEnd, k)
    decreases k
  {
    if k > 0 && s.location.nextCol < s.colEnd {
      ColumnStepCursor(cfg, n, s);
      ColumnStepStyles(cfg, n, s);
      ColumnLoopStyles(cfg, n, k - 1, ColumnStep(cfg, n, s));
    }
  }

  /** The passes that fall inside the window record `v`, over whatever was
      recorded before. */
  lemma {:induction false} StylesLoopSpan(m: map<nat, string>, has: bool, v: string, c0: nat, start: nat, end: nat, k: nat)
    ensures StylesLoop(m, has, v, c0, start, end, k) ==
      WithStyles(m, has, FirstWritten(c0, start, end, k), LastPass(c0, end, k), v)
    decreases k
  {
    if k > 0 && c0 < end {
      var m1 := if c0 >= start && has then m[c0 := v] else m;
      StylesLoopSpan(m1, has, v, c0 + 1, start, end, k - 1);
      StylesStep(m, m1, StylesLoop(m1, has, v, c0 + 1, start, end, k - 1), has, v, c0, start, end, k);
    } else {
      assert FirstWritten(c0, start, end, k) == LastPass(c0, end, k) == c0;
      assert m + StyleSpan(c0, c0, v) == m;
    }
  }

  /** The column window: the column's default cell style is recorded for
      exactly the columns it writes, over whatever was recorded before. */
  lemma ColumnStyles(cfg: Config, n: Node, k: nat, s: State)
    requires AddsOneColumn(cfg)
    ensures ColumnLoop(cfg, n, k, s).defaultCellStyles ==
      WithStyles(s.defaultCellStyles, HasAttr(n, "table:default-cell-style-name"),
                 FirstWritten(s.location.nextCol, s.colStart, s.colEnd, k), LastPass(s.location.nextCol, s.colEnd, k),
                 AttrValue(n, "table:default-cell-style-name"))
  {
    ColumnLoopStyles(cfg, n, k, s);
    StylesLoopSpan(s.defaultCellStyles, HasAttr(n, "table:default-cell-style-name"),
                   AttrValue(n, "table:default-cell-style-name"), s.location.nextCol, s.colStart, s.colEnd, k);
  }

  /** The induction step of the column styles, on the style table alone. */
  lemma StylesStep(m: map<nat, string>, m1: map<nat, string>, r: map<nat, string>, has: bool, v: string,
                   c0: nat, start: nat, end: nat, k: nat)
    requires 0 < k && c0 < end
    requires m1 == if c0 >= start && has then m[c0 := v] else m
    requires r == WithStyles(m1, has, FirstWritten(c0 + 1, start, end, k - 1), LastPass(c0 + 1, end, k - 1), v)
    ensures r == WithStyles(m, has, FirstWritten(c0, start, end, k), LastPass(c0, end, k), v)
  {
    var last := LastPass(c0, end, k);
    assert LastPass(c0 + 1, end, k - 1) == last;
    StylesAdvance(m, has, v, c0, start, last);
  }

  /** Rows lying wholly before the window write nothing: only the cursor
      moves on, one row per repetition. */
  lemma {:induction false} RowsBeforeWindow(cfg: Config, n: Node, k: nat, s: State)
    requires n.Element? && AddsOneRow(cfg)
    requires s.location.nextRow + k <= s.rowStart && s.rowStart <= s.rowEnd
    ensures var r := RowLoop(cfg, n, k, s);
      r.out == s.out && r.texts == s.texts && r.textIndex == s.textIndex &&
      r.location.nextRow == s.location.nextRow + k
    decreases k
  {
    if k > 0 {
      RowsBeforeWindow(cfg, n, k - 1, RowStep(cfg, n, s));
    }
  }

  /** A cell spanning one column moves the cursor one column on. */
  ghost predicate AddsOneCell(cfg: Config)
  {
    forall c, rowspan :: cfg.addCell(c, 1, rowspan).nextCol == c.nextCol + 1
  }

  /** The content of `n` leaves the row cursor and the row window as it
      found them (it holds no table of its own). */
  ghost predicate KeepsRowWindow(cfg: Config, n: Node)
  {
    n.Element? &&
    forall s :: var r := TranslateChildren(cfg, n.children, s);
      r.location.nextRow == s.location.nextRow && r.rowStart == s.rowStart && r.rowEnd == s.rowEnd
  }

  /** The content of `n` leaves the column cursor and the column window as
      it found them. */
  ghost predicate KeepsColumnWindow(cfg: Config, n: Node)
  {
    n.Element? &&
    forall s :: var r := TranslateChildren(cfg, n.children, s);
      r.location.nextCol == s.location.nextCol && r.colStart == s.colStart && r.colEnd == s.colEnd
  }

  /** The cursor after `j` rows are passed over. */
  function SkipRows(cfg: Config, c: Cursor, j: nat): Cursor
    decreases j
  {
    if j == 0 then c else SkipRows(cfg, cfg.addRow(c), j - 1)
  }

  /** A row's markup: its opening tag, its content, its closing tag. */
  function WholeRow(cfg: Config, n: Node, s: State): State
    requires n.Element?
  {
    Emit(TranslateChildren(cfg, n.children, Emit(s, "<tr" + Attrs(cfg, n) + ">")), "</tr>")
  }

  /** `j` rows written in full, with no window check. */
  function WrittenRows(cfg: Config, n: Node, j: nat, s: State): State
    requires n.Element?
    decreases j
  {
    if j == 0 then s
    else
      var s1 := WholeRow(cfg, n, s);
      WrittenRows(cfg, n, j - 1, s1.(location := cfg.addRow(s1.location)))
  }

  /** What `k` repetitions of a row do by the window's arithmetic: the
      cursor passes over the rows before the start bound, then the rows
      from there up to the end bound are written in full. */
  function RowsInWindow(cfg: Config, n: Node, k: nat, s: State): State
    requires n.Element?
  {
    var c0 := s.location.nextRow;
    WrittenRows(cfg, n, Written(c0, s.rowStart, s.rowEnd, k),
                s.(location := SkipRows(cfg, s.location, FirstWritten(c0, s.rowStart, s.rowEnd, k) - c0)))
  }

  /** One pass of the row loop, for a row whose content keeps the row
      cursor: the cursor moves one row on, and the row is written in full
      exactly when it lies at or after the start bound. */
  lemma RowStepWindow(cfg: Config, n: Node, s: State)
    requires n.Element? && AddsOneRow(cfg) && KeepsRowWindow(cfg, n)
    ensures var r := RowStep(cfg, n, s);
      r.location.nextRow == s.location.nextRow + 1 && r.rowStart == s.rowStart && r.rowEnd == s.rowEnd &&
      var w := if s.location.nextRow >= s.rowStart then WholeRow(cfg, n, s) else s;
      r == w.(location := cfg.addRow(w.location))
  {
    var s0 := Emit(s, "<tr" + Attrs(cfg, n) + ">");
    var t := TranslateChildren(cfg, n.children, s0);
    assert t.location.nextRow == s0.location.nextRow && t.rowStart == s0.rowStart && t.rowEnd == s0.rowEnd;
  }

  /** The row window: the row loop does what the window's arithmetic says,
      and stops at the end bound. */
  lemma {:induction false} RowWindow(cfg: Config, n: Node, k: nat, s: State)
    requires n.Element? && AddsOneRow(cfg) && KeepsRowWindow(cfg, n)
    ensures RowLoop(cfg, n, k, s) == RowsInWindow(cfg, n, k, s)
    decreases k
  {
    var c0 := s.location.nextRow;
    if k > 0 && c0 < s.rowEnd {
      var s1 := RowStep(cfg, n, s);
      RowStepWindow(cfg, n, s);
      RowWindow(cfg, n, k - 1, s1);
      assert RowLoop(cfg, n, k, s) == RowLoop(cfg, n, k - 1, s1);
      if c0 >= s.rowStart {
        RowsAdvanceWritten(cfg, n, k, s, s1, RowLoop(cfg, n, k, s));
      } else {
        RowsAdvanceSkipped(cfg, n, k, s, s1, RowLoop(cfg, n, k, s));
      }
    } else {
      WindowEmpty(c0, s.rowStart, s.rowEnd, k);
      assert s.(location := SkipRows(cfg, s.location, 0)) == s;
    }
  }

  /** The row loop stops at the end bound: of `k` repetitions of a row, it
      passes the ones before the end bound. */
  lemma {:induction false} RowCursor(cfg: Config, n: Node, k: nat, s: State)
    requires n.Element? && AddsOneRow(cfg) && KeepsRowWindow(cfg, n)
    ensures RowLoop(cfg, n, k, s).location.nextRow == LastPass(s.location.nextRow, s.rowEnd, k)
    decreases k
  {
    var c0 := s.location.nextRow;
    if k > 0 && c0 < s.rowEnd {
      RowStepWindow(cfg, n, s);
      RowCursor(cfg, n, k - 1, RowStep(cfg, n, s));
      WindowAdvance(c0, s.rowStart, s.rowEnd, k);
    }
  }

  /** The induction step of the row window, on states alone: a pass at or
      after the start bound writes the first row in full. */
  lemma RowsAdvanceWritten(cfg: Config, n: Node, k: nat, s: State, s1: State, r: State)
    requires n.Element? && 0 < k && s.rowStart <= s.location.nextRow < s.rowEnd
    requires s1.location.nextRow == s.location.nextRow + 1 && s1.rowStart == s.rowStart && s1.rowEnd == s.rowEnd
    requires var w := WholeRow(cfg, n, s);
      s1 == w.(location := cfg.addRow(w.location))
    requires r == RowsInWindow(cfg, n, k - 1, s1)
    ensures r == RowsInWindow(cfg, n, k, s)
  {
    var c0 := s.location.nextRow;
    WindowAdvance(c0, s.rowStart, s.rowEnd, k);
    var w := Written(c0 + 1, s.rowStart, s.rowEnd, k - 1);
    assert r == WrittenRows(cfg, n, w, s1.(location := SkipRows(cfg, s1.location, 0)));
    assert s1.(location := SkipRows(cfg, s1.location, 0)) == s1;
    assert s.(location := SkipRows(cfg, s.location, 0)) == s;
    assert WrittenRows(cfg, n, w + 1, s) == WrittenRows(cfg, n, w, s1);
  }

  /** The induction step of the row window, on states alone: a pass before
      the start bound only moves the cursor. */
  lemma RowsAdvanceSkipped(cfg: Config, n: Node, k: nat, s: State, s1: State, r: State)
    requires n.Element? && 0 < k && s.location.nextRow < s.rowStart && s.location.nextRow < s.rowEnd
    requires s1.rowStart == s.rowStart && s1.rowEnd == s.rowEnd
    requires s1 == s.(location := cfg.addRow(s.location))
    requires s1.location.nextRow == s.location.nextRow + 1
    requires r == RowsInWindow(cfg, n, k - 1, s1)
    ensures r == RowsInWindow(cfg, n, k, s)
  {
    var c0 := s.location.nextRow;
    WindowAdvance(c0, s.rowStart, s.rowEnd, k);
    var f := FirstWritten(c0 + 1, s.rowStart, s.rowEnd, k - 1) - (c0 + 1);
    assert SkipRows(cfg, s.location, f + 1) == SkipRows(cfg, s1.location, f);
    assert s.(location := SkipRows(cfg, s1.location, f)) == s1.(location := SkipRows(cfg, s1.location, f));
  }

  /** The cursor after `j` one-column cells are passed over. */
  function SkipCells(cfg: Config, c: Cursor, rowspan: nat, j: nat): Cursor
    decreases j
  {
    if j == 0 then c else SkipCells(cfg, cfg.addCell(c, 1, rowspan), rowspan, j - 1)
  }

  /** A cell's markup at the cursor's column: its opening tag, its content,
      its closing tag. */
  function WholeCell(cfg: Config, n: Node, s: State): State
    requires n.Element?
  {
    Emit(TranslateChildren(cfg, n.children, Emit(s, CellHead(cfg, n, s.defaultCellStyles, s.location.nextCol))), "</td>")
  }

  /** `j` one-column cells written in full, with no window check. */
  function WrittenCells(cfg: Config, n: Node, j: nat, s: State): State
    requires n.Element?
    decreases j
  {
    if j == 0 then s
    else
      var s1 := WholeCell(cfg, n, s);
      WrittenCells(cfg, n, j - 1, s1.(location := cfg.addCell(s1.location, 1, Repeated(n, "table:number-rows-spanned"))))
  }

  /** What `k` repetitions of a one-column cell do by the window's
      arithmetic: the cursor passes over the columns before the start
      bound, then the cells from there up to the end bound are written in
      full. */
  function CellsInWindow(cfg: Config, n: Node, k: nat, s: State): State
    requires n.Element?
  {
    var c0 := s.location.nextCol;
    WrittenCells(cfg, n, Written(c0, s.colStart, s.colEnd, k),
                 s.(location := SkipCells(cfg, s.location, Repeated(n, "table:number-rows-spanned"),
                                          FirstWritten(c0, s.colStart, s.colEnd, k) - c0)))
  }

  /** One pass of the cell loop, for a one-column cell whose content keeps
      the column cursor: the cursor moves one column on, and the cell is
      written in full exactly when it lies at or after the start bound. */
  lemma CellStepWindow(cfg: Config, n: Node, s: State)
    requires n.Element? && AddsOneCell(cfg) && KeepsColumnWindow(cfg, n)
    requires Repeated(n, "table:number-columns-spanned") == 1
    ensures var r := CellStep(cfg, n, s);
      r.location.nextCol == s.location.nextCol + 1 && r.colStart == s.colStart && r.colEnd == s.colEnd &&
      var w := if s.location.nextCol >= s.colStart then WholeCell(cfg, n, s) else s;
      r == w.(location := cfg.addCell(w.location, 1, Repeated(n, "table:number-rows-spanned")))
  {
    var s0 := Emit(s, CellHead(cfg, n, s.defaultCellStyles, s.location.nextCol));
    var t := TranslateChildren(cfg, n.children, s0);
    assert t.location.nextCol == s0.location.nextCol && t.colStart == s0.colStart && t.colEnd == s0.colEnd;
  }

  /** The cell window, for a cell spanning one column: the cell loop does
      what the window's arithmetic says, and stops at the end bound. */
  lemma {:induction false} CellWindow(cfg: Config, n: Node, k: nat, s: State)
    requires n.Element? && AddsOneCell(cfg) && KeepsColumnWindow(cfg, n)
    requires Repeated(n, "table:number-columns-spanned") == 1
    ensures CellLoop(cfg, n, k, s) == CellsInWindow(cfg, n, k, s)
    decreases k
  {
    var c0 := s.location.nextCol;
    if k > 0 && c0 < s.colEnd {
      CellWindow(cfg, n, k - 1, CellStep(cfg, n, s));
      CellWindowStep(cfg, n, k, s);
    } else {
      WindowEmpty(c0, s.colStart, s.colEnd, k);
      assert s.(location := SkipCells(cfg, s.location, Repeated(n, "table:number-rows-spanned"), 0)) == s;
    }
  }

  /** One pass of the cell window's induction. */
  lemma CellWindowStep(cfg: Config, n: Node, k: nat, s: State)
    requires n.Element? && AddsOneCell(cfg) && KeepsColumnWindow(cfg, n)
    requires Repeated(n, "table:number-columns-spanned") == 1
    requires k > 0 && s.location.nextCol < s.colEnd
    requires CellLoop(cfg, n, k - 1, CellStep(cfg, n, s)) == CellsInWindow(cfg, n, k - 1, CellStep(cfg, n, s))
    ensures CellLoop(cfg, n, k, s) == CellsInWindow(cfg, n, k, s)
  {
    var s1 := CellStep(cfg, n, s);
    CellStepWindow(cfg, n, s);
    assert CellLoop(cfg, n, k, s) == CellLoop(cfg, n, k - 1, s1);
    if s.location.nextCol >= s.colStart {
      CellsAdvanceWritten(cfg, n, k, s, s1, CellLoop(cfg, n, k, s));
    } else {
      CellsAdvanceSkipped(cfg, n, k, s, s1, CellLoop(cfg, n, k, s));
    }
  }

  /** The cell loop stops at the end bound: of `k` repetitions of a
      one-column cell, it passes the ones before the end bound. */
  lemma {:induction false} CellCursor(cfg: Config, n: Node, k: nat, s: State)
    requires n.Element? && AddsOneCell(cfg) && KeepsColumnWindow(cfg, n)
    requires Repeated(n, "table:number-columns-spanned") == 1
    ensures CellLoop(cfg, n, k, s).location.nextCol == LastPass(s.location.nextCol, s.colEnd, k)
    decreases k
  {
    var c0 := s.location.nextCol;
    if k > 0 && c0 < s.colEnd {
      CellStepWindow(cfg, n, s);
      CellCursor(cfg, n, k - 1, CellStep(cfg, n, s));
      WindowAdvance(c0, s.colStart, s.colEnd, k);
    }
  }

  /** The induction step of the cell window, on states alone: a pass at or
      after the start bound writes the first cell in full. */
  lemma CellsAdvanceWritten(cfg: Config, n: Node, k: nat, s: State, s1: State, r: State)
    requires n.Element? && 0 < k && s.colStart <= s.location.nextCol < s.colEnd
    requires s1.location.nextCol == s.location.nextCol + 1 && s1.colStart == s.colStart && s1.colEnd == s.colEnd
    requires var w := WholeCell(cfg, n, s);
      s1 == w.(location := cfg.addCell(w.location, 1, Repeated(n, "table:number-rows-spanned")))
    requires r == CellsInWindow(cfg, n, k - 1, s1)
    ensures r == CellsInWindow(cfg, n, k, s)
  {
    var c0 := s.location.nextCol;
    var rs := Repeated(n, "table:number-rows-spanned");
    WindowAdvance(c0, s.colStart, s.colEnd, k);
    var w := Written(c0 + 1, s.colStart, s.colEnd, k - 1);
    assert r == WrittenCells(cfg, n, w, s1.(location := SkipCells(cfg, s1.location, rs, 0)));
    assert s1.(location := SkipCells(cfg, s1.location, rs, 0)) == s1;
    assert s.(location := SkipCells(cfg, s.location, rs, 0)) == s;
    assert WrittenCells(cfg, n, w + 1, s) == WrittenCells(cfg, n, w, s1);
  }

  /** The induction step of the cell window, on states alone: a pass before
      the start bound only moves the cursor. */
  lemma CellsAdvanceSkipped(cfg: Config, n: Node, k: nat, s: State, s1: State, r: State)
    requires n.Element? && 0 < k && s.location.nextCol < s.colStart && s.location.nextCol < s.colEnd
    requires s1.colStart == s.colStart && s1.colEnd == s.colEnd
    requires s1 == s.(location := cfg.addCell(s.location, 1, Repeated(n, "table:number-rows-spanned")))
    requires s1.location.nextCol == s.location.nextCol + 1
    requires r == CellsInWindow(cfg, n, k - 1, s1)
    ensures r == CellsInWindow(cfg, n, k, s)
  {
    var c0 := s.location.nextCol;
    var rs := Repeated(n, "table:number-rows-spanned");
    WindowAdvance(c0, s.colStart, s.colEnd, k);
    var f := FirstWritten(c0 + 1, s.colStart, s.colEnd, k - 1) - (c0 + 1);
    assert SkipCells(cfg, s.location, rs, f + 1) == SkipCells(cfg, s1.location, rs, f);
    assert s.(location := SkipCells(cfg, s1.location, rs, f)) == s1.(location := SkipCells(cfg, s1.location, rs, f));
  }

  /** A cell without its own style, inside the window, is written with
      the default cell style its column declared. */
  lemma CellTakesColumnStyle(cfg: Config, n: Node, s: State)
    requires n.Element? && !HasAttr(n, "table:style-name")
    requires s.colStart <= s.location.nextCol && s.location.nextCol in s.defaultCellStyles
    ensures s.out + "<td" + StyleClass(cfg, s.defaultCellStyles[s.location.nextCol]) <= CellStep(cfg, n, s).out
  {
    CellOpensWithHead(cfg, n, s);
    HeadTakesColumnStyle(cfg, n, s.defaultCellStyles, s.location.nextCol, s.out, CellStep(cfg, n, s).out);
  }

  lemma HeadTakesColumnStyle(cfg: Config, n: Node, styles: map<nat, string>, c: nat, o: string, x: string)
    requires !HasAttr(n, "table:style-name") && c in styles
    requires o + CellHead(cfg, n, styles, c) <= x
    ensures o + "<td" + StyleClass(cfg, styles[c]) <= x
  {
    assert ColumnDefault(cfg, n, styles, c) == StyleClass(cfg, styles[c]);
    HeadPrefix(o, "<td", ColumnDefault(cfg, n, styles, c), Attrs(cfg, n), CellSpans(n), ">", x);
  }

  /** The opening of a cell's markup is a prefix of everything written after it. */
  lemma HeadPrefix(o: string, a: string, b: string, c: string, d: string, e: string, x: string)
    requires o + (a + b + c + d + e) <= x
    ensures o + a + b <= x
  {
    assert o + (a + b + c + d + e) == o + a + b + (c + d + e);
  }

  /** A cell inside the window starts with its opening tag. */
  lemma CellOpensWithHead(cfg: Config, n: Node, s: State)
    requires n.Element? && s.colStart <= s.location.nextCol
    ensures s.out + CellHead(cfg, n, s.defaultCellStyles, s.location.nextCol) <= CellStep(cfg, n, s).out
  {
    var s1 := Emit(s, CellHead(cfg, n, s.defaultCellStyles, s.location.nextCol));
    PrefixAppend(s1.out, TranslateChildren(cfg, n.children, s1).out, "</td>");
  }

  /** One more attribute: its markup follows what the earlier ones wrote. */
  lemma MarkupStep(cfg: Config, attrs: seq<Attribute>, i: nat, o: string, p: string)
    requires i < |attrs| && p == o + AttributesMarkup(cfg, attrs[..i])
    ensures p + AttributeMarkup(cfg, attrs[i]) == o + AttributesMarkup(cfg, attrs[..i + 1])
  {
    assert attrs[..i + 1][..i] == attrs[..i];
  }

  /** `TranslateTable` read as the steps the translator takes. */
  lemma TableSteps(cfg: Config, n: Node, s0: State, s1: State, s2: State, s3: State)
    requires n.Element?
    requires var b := TableBounds(cfg, s0.entry);
      s1 == s0.(rowStart := b.0, rowEnd := b.1, colStart := b.2, colEnd := b.3,
                location := FreshCursor, defaultCellStyles := map[])
    requires s2 == Emit(s1, "<table" + Attrs(cfg, n) + TableAttributes + ">")
    requires s3 == TranslateChildren(cfg, n.children, s2)
    ensures TranslateTable(cfg, n, s0) == Emit(s3, "</table>").(entry := s3.entry + 1)
  {
  }

  /** Three emissions in a row write their concatenation. */
  lemma EmitThree(s: State, a: string, b: string, c: string)
    ensures Emit(Emit(Emit(s, a), b), c) == Emit(s, a + b + c)
  {
    assert s.out + a + b + c == s.out + (a + b + c);
  }

  // ---------------------------------------------------------------- the walk in place

  /** The translation context and the output stream, updated in place. */
  class Translator {
    const cfg: Config
    var out: string
    var currentEntry: nat
    var rowStart: nat
    var rowEnd: nat
    var colStart: nat
    var colEnd: nat
    var location: Cursor
    var defaultCellStyles: map<nat, string>
    var textTranslation: map<nat, Node>
    var textIndex: nat

    function Snapshot(): State
      reads this
    {
      State(out, currentEntry, rowStart, rowEnd, colStart, colEnd, location,
            defaultCellStyles, textTranslation, textIndex)
    }

    constructor (cfg: Config)
      ensures Snapshot() == State("", 0, 0, 0, 0, 0, FreshCursor, map[], map[], 0)
      ensures TextsDense(Snapshot())
    {
      this.cfg := cfg;
      out := "";
      currentEntry := 0;
      rowStart, rowEnd, colStart, colEnd := 0, 0, 0, 0;
      location := FreshCursor;
      defaultCellStyles := map[];
      textTranslation := map[];
      textIndex := 0;
    }

    /** `translate`: the walk from one element. */
    method Translate(n: Node)
      requires n.Element?
      modifies this
      ensures Snapshot() == TranslateElement(cfg, n, old(Snapshot()))
    {
      ElementTranslator(n);
    }

    /** `StyleAttributeTranslator`: the dependencies are written walking the
        list backwards. */
    method StyleAttributeTranslator(name: string)
      modifies this`out
      ensures out == old(out) + StyleClass(cfg, name)
    {
      out := out + " class=\"" + name;
      ghost var start := out;
      if name in cfg.styleDependencies {
        var deps := cfg.styleDependencies[name];
        var i := |deps|;
        while i > 0
          invariant 0 <= i <= |deps|
          invariant out == start + Spaced(Reverse(deps[i..]))
        {
          SpacedStep(deps, i, start, out);
          out := out + " " + deps[i - 1];
          i := i - 1;
        }
        assert deps[0..] == deps;
      }
      out := out + "\"";
    }

    method AttributeTranslator(a: Attribute)
      modifies this`out
      ensures out == old(out) + AttributeMarkup(cfg, a)
    {
      if a.name in StyleAttributes {
        StyleAttributeTranslator(cfg.escapeStyleName(a.value));
      }
    }

    /** `ElementAttributeTranslator`: each attribute in turn. */
    method ElementAttributeTranslator(n: Node)
      modifies this`out
      ensures out == old(out) + Attrs(cfg, n)
    {
      var attrs := if n.Element? then n.attributes else [];
      var i := 0;
      while i < |attrs|
        invariant 0 <= i <= |attrs|
        invariant out == old(out) + AttributesMarkup(cfg, attrs[..i])
      {
        MarkupStep(cfg, attrs, i, old(out), out);
        AttributeTranslator(attrs[i]);
        i := i + 1;
      }
      assert attrs[..|attrs|] == attrs;
    }

    method ElementTranslator(n: Node)
      requires n.Element?
      modifies this
      ensures Snapshot() == TranslateElement(cfg, n, old(Snapshot()))
      decreases Size(n), 3
    {
      var name := n.name;
      if name in Skippers {
        return;
      }
      if name == "text:p" || name == "text:h" {
        ParagraphTranslator(n);
      } else if name == "text:s" {
        SpaceTranslator(n);
      } else if name == "text:tab" {
        out := out + "\t";
      } else if name == "text:a" {
        LinkTranslator(n);
      } else if name == "text:bookmark" || name == "text:bookmark-start" {
        BookmarkTranslator(n);
      } else if name == "draw:frame" || name == "draw:custom-shape" {
        FrameTranslator(n);
      } else if name == "draw:image" {
        ImageTranslator(n);
      } else if name == "table:table" {
        TableTranslator(n);
      } else if name == "table:table-column" {
        TableColumnTranslator(n);
      } else if name == "table:table-row" {
        TableRowTranslator(n);
      } else if name == "table:table-cell" {
        TableCellTranslator(n);
      } else {
        OtherTranslator(n);
      }
    }

    /** `ElementChildrenTranslator`. */
    method ElementChildrenTranslator(cs: seq<Node>)
      modifies this
      ensures Snapshot() == TranslateChildren(cfg, cs, old(Snapshot()))
      decreases SizeOf(cs), 4
    {
      var i := 0;
      while i < |cs|
        invariant 0 <= i <= |cs|
        invariant TranslateChildren(cfg, cs[i..], Snapshot()) == TranslateChildren(cfg, cs, old(Snapshot()))
      {
        assert cs[i..][1..] == cs[i + 1..];
        SizeOfMember(cs, cs[i]);
        match cs[i] {
          case Text(_) => TextTranslator(cs[i]);
          case Element(_, _, _) => ElementTranslator(cs[i]);
          case Other =>
        }
        i := i + 1;
      }
    }

    method TextTranslator(n: Node)
      requires n.Text?
      modifies this
      ensures Snapshot() == TranslateText(cfg, n, old(Snapshot()))
    {
      var text := EscapeText(n.text);
      if !cfg.editable {
        out := out + text;
      } else {
        out := out + EditableText(textIndex, text);
        textTranslation := textTranslation[textIndex := n];
        textIndex := textIndex + 1;
      }
    }

    method OtherTranslator(n: Node)
      requires n.Element?
      modifies this
      ensures Snapshot() == TranslateOther(cfg, n, old(Snapshot()))
      decreases Size(n), 2
    {
      var substitute := Substitution(n.name);
      if substitute.Some? {
        var tag := substitute.value;
        ghost var s0 := Snapshot();
        out := out + ("<" + tag);
        ElementAttributeTranslator(n);
        out := out + ">";
        EmitThree(s0, "<" + tag, Attrs(cfg, n), ">");
        ElementChildrenTranslator(n.children);
        out := out + ("</" + tag + ">");
      } else {
        ElementChildrenTranslator(n.children);
      }
    }

    method ParagraphTranslator(n: Node)
      requires n.Element?
      modifies this
      ensures Snapshot() == TranslateParagraph(cfg, n, old(Snapshot()))
      decreases Size(n), 2
    {
      ghost var s0 := Snapshot();
      out := out + "<p";
      ElementAttributeTranslator(n);
      out := out + ">";
      EmitThree(s0, "<p", Attrs(cfg, n), ">");
      assert Snapshot() == Emit(s0, "<p" + Attrs(cfg, n) + ">");
      if n.children == [] {
        out := out + "<br/>";
      } else {
        ElementChildrenTranslator(n.children);
      }
      out := out + "</p>";
    }

    /** `SpaceTranslator`: one space per count. */
    method SpaceTranslator(n: Node)
      modifies this
      ensures Snapshot() == TranslateSpace(n, old(Snapshot()))
    {
      var count := Unsigned64(Attr(n, "text:c"), 1);
      if count == 0 {
        return;
      }
      var i := 0;
      while i < count
        invariant 0 <= i <= count
        invariant Snapshot() == Emit(old(Snapshot()), Repeat(" ", i))
      {
        out := out + " ";
        i := i + 1;
      }
    }

    method LinkTranslator(n: Node)
      requires n.Element?
      modifies this
      ensures Snapshot() == TranslateLink(cfg, n, old(Snapshot()))
      decreases Size(n), 2
    {
      ghost var s0 := Snapshot();
      LinkHeadWriter(n);
      ElementAttributeTranslator(n);
      out := out + ">";
      EmitThree(s0, LinkHead(n), Attrs(cfg, n), ">");
      ElementChildrenTranslator(n.children);
      out := out + "</a>";
    }

    /** The link's opening: its href, and a same-frame target for a
        reference into the document. */
    method LinkHeadWriter(n: Node)
      modifies this`out
      ensures out == old(out) + LinkHead(n)
    {
      out := out + "<a";
      var href := Attr(n, "xlink:href");
      if href.Some? {
        out := out + (" href=\"" + href.value + "\"");
        if |href.value| > 0 && href.value[0] == '#' {
          out := out + " target=\"_self\"";
        }
      }
    }

    method BookmarkTranslator(n: Node)
      modifies this
      ensures Snapshot() == TranslateBookmark(cfg, n, old(Snapshot()))
    {
      ghost var s0 := Snapshot();
      out := out + ("<a" + BookmarkId(n));
      ElementAttributeTranslator(n);
      out := out + "></a>";
      EmitThree(s0, "<a" + BookmarkId(n), Attrs(cfg, n), "></a>");
    }

    method FrameTranslator(n: Node)
      requires n.Element?
      modifies this
      ensures Snapshot() == TranslateFrame(cfg, n, old(Snapshot()))
      decreases Size(n), 2
    {
      ghost var s0 := Snapshot();
      out := out + FrameHead(n);
      ElementAttributeTranslator(n);
      out := out + ">";
      EmitThree(s0, FrameHead(n), Attrs(cfg, n), ">");
      ElementChildrenTranslator(n.children);
      out := out + "</div>";
    }

    method ImageTranslator(n: Node)
      requires n.Element?
      modifies this
      ensures Snapshot() == TranslateImage(cfg, n, old(Snapshot()))
      decreases Size(n), 2
    {
      ghost var s0 := Snapshot();
      out := out + ImageHead(n);
      ElementAttributeTranslator(n);
      out := out + ">";
      EmitThree(s0, ImageHead(n), Attrs(cfg, n), ">");
      ElementChildrenTranslator(n.children);
      out := out + "</img>";
    }

    /** The table's window, a fresh cursor and no column default styles. */
    method StartTable()
      modifies this
      ensures var b := TableBounds(cfg, old(currentEntry));
        Snapshot() == old(Snapshot()).(rowStart := b.0, rowEnd := b.1, colStart := b.2, colEnd := b.3,
                                       location := FreshCursor, defaultCellStyles := map[])
    {
      rowStart := cfg.tableOffsetRows;
      rowEnd := rowStart + cfg.tableLimitRows;
      colStart := cfg.tableOffsetCols;
      colEnd := colStart + cfg.tableLimitCols;
      if cfg.spreadsheet && cfg.tableLimitByDimensions {
        rowEnd := Min(rowEnd, rowStart + cfg.entryDims(currentEntry).rowCount);
        colEnd := Min(colEnd, colStart + cfg.entryDims(currentEntry).columnCount);
      }
      location := FreshCursor;
      defaultCellStyles := map[];
    }

    method TableTranslator(n: Node)
      requires n.Element?
      modifies this
      ensures Snapshot() == TranslateTable(cfg, n, old(Snapshot()))
      decreases Size(n), 2
    {
      ghost var s0 := Snapshot();
      StartTable();
      ghost var s1 := Snapshot();
      out := out + "<table";
      ElementAttributeTranslator(n);
      out := out + TableAttributes;
      EmitThree(s1, "<table", Attrs(cfg, n), TableAttributes);
      out := out + ">";
      assert Snapshot() == Emit(s1, "<table" + Attrs(cfg, n) + TableAttributes + ">");
      ghost var s2 := Snapshot();
      ElementChildrenTranslator(n.children);
      ghost var s3 := Snapshot();
      out := out + "</table>";
      currentEntry := currentEntry + 1;
      TableSteps(cfg, n, s0, s1, s2, s3);
    }

    /** One pass of the column loop's body. */
    method ColumnRepetition(n: Node, defaultCellStyle: Option<string>)
      requires defaultCellStyle == Attr(n, "table:default-cell-style-name")
      modifies this
      ensures Snapshot() == ColumnStep(cfg, n, old(Snapshot()))
    {
      if location.nextCol >= colStart {
        if defaultCellStyle.Some? {
          defaultCellStyles := defaultCellStyles[location.nextCol := defaultCellStyle.value];
        }
        ghost var s1 := Snapshot();
        out := out + "<col";
        ElementAttributeTranslator(n);
        out := out + ">";
        EmitThree(s1, "<col", Attrs(cfg, n), ">");
      }
      location := cfg.addCol(location);
    }

    /** `TableColumnTranslator`: the column's repetitions inside the window. */
    method TableColumnTranslator(n: Node)
      modifies this
      ensures Snapshot() == TranslateTableColumn(cfg, n, old(Snapshot()))
    {
      var repeated := Unsigned64(Attr(n, "table:number-columns-repeated"), 1);
      var defaultCellStyle := Attr(n, "table:default-cell-style-name");
      var i := 0;
      ghost var goal := TranslateTableColumn(cfg, n, old(Snapshot()));
      while i < repeated
        invariant 0 <= i <= repeated
        invariant ColumnLoop(cfg, n, repeated - i, Snapshot()) == goal
      {
        if location.nextCol >= colEnd {
          assert Snapshot() == goal;
          return;
        }
        ColumnRepetition(n, defaultCellStyle);
        i := i + 1;
      }
      assert Snapshot() == goal;
    }

    method RowRepetition(n: Node)
      requires n.Element?
      modifies this
      ensures Snapshot() == RowStep(cfg, n, old(Snapshot()))
      decreases Size(n), 1
    {
      if location.nextRow >= rowStart {
        ghost var s1 := Snapshot();
        out := out + "<tr";
        ElementAttributeTranslator(n);
        out := out + ">";
        EmitThree(s1, "<tr", Attrs(cfg, n), ">");
        ElementChildrenTranslator(n.children);
        out := out + "</tr>";
      }
      location := cfg.addRow(location);
    }

    /** `TableRowTranslator`: the row's repetitions inside the window. */
    method TableRowTranslator(n: Node)
      requires n.Element?
      modifies this
      ensures Snapshot() == TranslateTableRow(cfg, n, old(Snapshot()))
      decreases Size(n), 2
    {
      var repeated := Unsigned64(Attr(n, "table:number-rows-repeated"), 1);
      location := cfg.startRow(location);
      var i := 0;
      while i < repeated
        invariant 0 <= i <= repeated
        invariant RowLoop(cfg, n, repeated - i, Snapshot()) == TranslateTableRow(cfg, n, old(Snapshot()))
      {
        if location.nextRow >= rowEnd {
          break;
        }
        RowRepetition(n);
        i := i + 1;
      }
    }

    method CellRepetition(n: Node, colspan: nat, rowspan: nat)
      requires n.Element?
      requires colspan == Repeated(n, "table:number-columns-spanned")
      requires rowspan == Repeated(n, "table:number-rows-spanned")
      modifies this
      ensures Snapshot() == CellStep(cfg, n, old(Snapshot()))
      decreases Size(n), 1
    {
      var c := location.nextCol;
      if c >= colStart {
        ghost var s0 := Snapshot();
        CellOpening(n, c, colspan, rowspan);
        assert Snapshot() == Emit(s0, CellHead(cfg, n, s0.defaultCellStyles, c));
        ElementChildrenTranslator(n.children);
        out := out + "</td>";
      }
      location := cfg.addCell(location, colspan, rowspan);
    }

    /** The opening tag of a cell: the column's default style, the cell's
        own attributes and its spans. */
    method CellOpening(n: Node, c: nat, colspan: nat, rowspan: nat)
      requires colspan == Repeated(n, "table:number-columns-spanned")
      requires rowspan == Repeated(n, "table:number-rows-spanned")
      modifies this`out
      ensures out == old(out) + CellHead(cfg, n, defaultCellStyles, c)
    {
      ghost var o := out;
      out := out + "<td";
      DefaultStyleWriter(n, c);
      ElementAttributeTranslator(n);
      CellSpansWriter(n, colspan, rowspan);
      out := out + ">";
      AppendFive(o, "<td", ColumnDefault(cfg, n, defaultCellStyles, c), Attrs(cfg, n), CellSpans(n), ">");
    }

    method DefaultStyleWriter(n: Node, c: nat)
      modifies this`out
      ensures out == old(out) + ColumnDefault(cfg, n, defaultCellStyles, c)
    {
      if !HasAttr(n, "table:style-name") && c in defaultCellStyles {
        StyleAttributeTranslator(defaultCellStyles[c]);
      }
    }

    method CellSpansWriter(n: Node, colspan: nat, rowspan: nat)
      requires colspan == Repeated(n, "table:number-columns-spanned")
      requires rowspan == Repeated(n, "table:number-rows-spanned")
      modifies this`out
      ensures out == old(out) + CellSpans(n)
    {
      var cols := "";
      if HasAttr(n, "table:number-columns-spanned") {
        cols := " colspan=\"" + NatToString(colspan) + "\"";
      }
      var rows := "";
      if HasAttr(n, "table:number-rows-spanned") {
        rows := " rowspan=\"" + NatToString(rowspan) + "\"";
      }
      out := out + cols + rows;
    }

    /** `TableCellTranslator`: the cell's repetitions inside the window. */
    method TableCellTranslator(n: Node)
      requires n.Element?
      modifies this
      ensures Snapshot() == TranslateTableCell(cfg, n, old(Snapshot()))
      decreases Size(n), 2
    {
      var repeated := Unsigned64(Attr(n, "table:number-columns-repeated"), 1);
      var colspan := Unsigned64(Attr(n, "table:number-columns-spanned"), 1);
      var rowspan := Unsigned64(Attr(n, "table:number-rows-spanned"), 1);
      var i := 0;
      while i < repeated
        invariant 0 <= i <= repeated
        invariant CellLoop(cfg, n, repeated - i, Snapshot()) == TranslateTableCell(cfg, n, old(Snapshot()))
      {
        if location.nextCol >= colEnd {
          break;
        }
        CellRepetition(n, colspan, rowspan);
        i := i + 1;
      }
    }
  }
}

=== FILE: odf_document.dfy ===
/** The OpenDocument element registry: an append-only arena of element
    records, filled by walking the content tree, whose records are
    linked to their parent, first child and siblings by 1-based
    identifiers (0 = no element). */
module OdfDocument {
  import opened Wrappers
  import opened Xml
  import opened DocumentTypes

  /** One arena entry; `Record` at position i has identifier i + 1. */
  datatype Record = Record(
    node: Node,
    kind: ElementType,
    parent: nat,
    firstChild: nat,
    previousSibling: nat,
    nextSibling: nat)

  type Arena = seq<Record>

  /** The arena after a registration, the first identifier it produced
      (0 when none) and the last identifier of the sibling chain it
      extended (the incoming previous sibling when it produced none). */
  datatype Step = Step(arena: Arena, first: nat, tail: nat)

  datatype Error = NoOpenDocumentFile | ElementNotFound | UnsupportedOperation

  // ---------------------------------------------------------------------
  // Classification

  /** The tag table of the registry; `NoneType` for a tag it does not know. */
  function TagType(name: string): ElementType
  {
    match name
    case "text:p" => Paragraph
    case "text:h" => Paragraph
    case "text:span" => Span
    case "text:s" => TextRun
    case "text:tab" => TextRun
    case "text:line-break" => LineBreak
    case "text:a" => Link
    case "text:bookmark" => Bookmark
    case "text:bookmark-start" => Bookmark
    case "text:list" => List
    case "text:list-item" => ListItem
    case "table:table" => Table
    case "draw:frame" => Frame
    case "draw:image" => Image
    case "draw:rect" => Rect
    case "draw:line" => Line
    case "draw:circle" => Circle
    case "office:text" => Root
    case "office:presentation" => Root
    case "office:spreadsheet" => Root
    case "office:drawing" => Root
    case _ => NoneType
  }

  /** Character data is text; an element is looked up in the tag table;
      every other node kind is unknown. */
  function Classify(n: Node): ElementType
  {
    match n
    case Text(_) => TextRun
    case Element(name, _, _) => TagType(name)
    case Other => NoneType
  }

  predicate IsTableOfContent(n: Node)
  {
    IsElementNamed(n, "text:table-of-content")
  }

  predicate IsGroup(n: Node)
  {
    IsElementNamed(n, "draw:g")
  }

  function SizeOpt(n: Option<Node>): nat
  {
    if n.Some? then Size(n.value) else 0
  }

  function ChildrenOfOpt(n: Option<Node>): seq<Node>
  {
    if n.Some? then ChildrenOf(n.value) else []
  }

  /** The body of a table of content is smaller than the table of content. */
  lemma IndexBodySmaller(n: Node)
    requires n.Element?
    ensures SizeOf(ChildrenOfOpt(Child(n, "text:index-body"))) < Size(n)
  {
    var b := Child(n, "text:index-body");
    if b.Some? {
      SizeOfMember(n.children, b.value);
    }
  }

  // ---------------------------------------------------------------------
  // Appending a record

  /** The record at identifier `rid` after identifier `id` was appended
      with the given parent and previous sibling. */
  function Patch(r: Record, rid: nat, id: nat, parent: nat, prev: nat): Record
  {
    r.(firstChild := if rid == parent && prev == 0 then id else r.firstChild,
       nextSibling := if rid == prev then id else r.nextSibling)
  }

  /** The arena after appending a record: the new record becomes the
      parent's first child when it has no previous sibling, and the
      previous sibling's next sibling otherwise. */
  function Append(a: Arena, node: Node, kind: ElementType, parent: nat, prev: nat): (b: Arena)
    requires parent <= |a| && prev <= |a|
    ensures |b| == |a| + 1
    ensures b[|a|] == Record(node, kind, parent, 0, prev, 0)
    ensures forall i :: 0 <= i < |a| ==> b[i] == Patch(a[i], i + 1, |a| + 1, parent, prev)
  {
    seq(|a| + 1, i requires 0 <= i <= |a| =>
      if i == |a| then Record(node, kind, parent, 0, prev, 0)
      else Patch(a[i], i + 1, |a| + 1, parent, prev))
  }

  // ---------------------------------------------------------------------
  // Registration, as a specification

  /** The previous sibling for the next child once `r` was registered. The
      code as written threads the FIRST identifier a registration produced;
      a registration that spliced several records (a drawing group or a
      table of content) then leaves its later records out of the chain.
      The corrected registration threads the chain's tail. */
  function NextPrev(r: Step, prev: nat, asWritten: bool): nat
  {
    if r.first == 0 then prev else if asWritten then r.first else r.tail
  }

  /** Registering one (possibly null) node under `parent` after `prev`. */
  function RegElem(a: Arena, n: Option<Node>, parent: nat, prev: nat, asWritten: bool): (r: Step)
    requires parent <= |a| && prev <= |a|
    ensures |a| <= |r.arena| && r.first <= |r.arena| && r.tail <= |r.arena|
    decreases SizeOpt(n), 1
  {
    match n
    case None => Step(a, 0, prev)
    case Some(node) =>
      if IsTableOfContent(node) then
        IndexBodySmaller(node);
        RegChildren(a, ChildrenOfOpt(Child(node, "text:index-body")), parent, prev, 0, asWritten)
      else if IsGroup(node) then
        RegChildren(a, node.children, parent, prev, 0, asWritten)
      else if Classify(node) == NoneType then
        Step(a, 0, prev)
      else
        var id := |a| + 1;
        var b := Append(a, node, Classify(node), parent, prev);
        if Classify(node) == Table then Step(b, id, id)
        else Step(RegChildren(b, ChildrenOf(node), id, 0, 0, asWritten).arena, id, id)
  }

  /** Registering the nodes `cs` in turn; `first` is the first identifier
      produced so far. */
  function RegChildren(a: Arena, cs: seq<Node>, parent: nat, prev: nat, first: nat, asWritten: bool): (r: Step)
    requires parent <= |a| && prev <= |a| && first <= |a|
    ensures |a| <= |r.arena| && r.first <= |r.arena| && r.tail <= |r.arena|
    decreases SizeOf(cs), 2
  {
    if cs == [] then Step(a, first, prev)
    else
      var r := RegElem(a, Some(cs[0]), parent, prev, asWritten);
      RegChildren(r.arena, cs[1..], parent, NextPrev(r, prev, asWritten),
                  if first == 0 then r.first else first, asWritten)
  }

  // ---------------------------------------------------------------------
  // Link invariants

  /** The links of the record at position i point where they should:
      parents and previous siblings to earlier records, first children and
      next siblings to later ones; a previous sibling shares the parent; a
      first child names this record as parent; a next sibling names this
      record as previous sibling. */
  predicate Linked(a: Arena, i: nat)
    requires i < |a|
  {
    var r := a[i];
    r.parent <= i && r.previousSibling <= i
    && (r.firstChild == 0 || i + 1 < r.firstChild <= |a|)
    && (r.nextSibling == 0 || i + 1 < r.nextSibling <= |a|)
    && (r.previousSibling != 0 ==> a[r.previousSibling - 1].parent == r.parent)
    && (r.firstChild != 0 ==> a[r.firstChild - 1].parent == i + 1)
    && (r.nextSibling != 0 ==> a[r.nextSibling - 1].previousSibling == i + 1)
  }

  predicate Wf(a: Arena)
  {
    forall i :: 0 <= i < |a| ==> Linked(a, i)
  }

  /** The converse links: the previous sibling names this record as its
      next sibling, and a record without previous sibling is its parent's
      first child. */
  predicate Chained(a: Arena, i: nat)
    requires i < |a|
  {
    var r := a[i];
    (0 < r.previousSibling <= |a| ==> a[r.previousSibling - 1].nextSibling == i + 1)
    && (0 < r.parent <= |a| && r.previousSibling == 0 ==> a[r.parent - 1].firstChild == i + 1)
  }

  predicate Threaded(a: Arena)
  {
    forall i :: 0 <= i < |a| ==> Chained(a, i)
  }

  /** A record may be appended under `parent` after `prev`: both exist and
      share the parent; for the corrected registration also, `prev` ends
      its chain and a parent receiving its first child has none yet. */
  predicate Fits(a: Arena, parent: nat, prev: nat, asWritten: bool)
  {
    parent <= |a| && prev <= |a|
    && (prev != 0 ==> a[prev - 1].parent == parent)
    && (!asWritten ==>
          (prev != 0 ==> a[prev - 1].nextSibling == 0)
          && (parent != 0 && prev == 0 ==> a[parent - 1].firstChild == 0))
  }

  /** `y` is `x` with at most its first child (when `mayFirst`) and next
      sibling (when `mayNext`) changed. */
  predicate Kept(x: Record, y: Record, mayFirst: bool, mayNext: bool)
  {
    x.node == y.node && x.kind == y.kind && x.parent == y.parent
    && x.previousSibling == y.previousSibling
    && (mayFirst || x.firstChild == y.firstChild)
    && (mayNext || x.nextSibling == y.nextSibling)
  }

  /** `b` extends `a`; of the records already in `a` only the parent's
      first child and the previous sibling's next sibling may change. */
  predicate Extends(a: Arena, b: Arena, parent: nat, prev: nat)
  {
    |a| <= |b| && forall i :: 0 <= i < |a| ==> Kept(a[i], b[i], i + 1 == parent, i + 1 == prev)
  }

  lemma FrameTrans(a: Arena, b: Arena, c: Arena, parent: nat, prev: nat, parent2: nat, prev2: nat)
    requires Extends(a, b, parent, prev) && Extends(b, c, parent2, prev2)
    requires parent2 == parent || parent2 == 0 || parent2 > |a|
    requires prev2 == prev || prev2 == 0 || prev2 > |a|
    ensures Extends(a, c, parent, prev)
  {
    forall i | 0 <= i < |a|
      ensures Kept(a[i], c[i], i + 1 == parent, i + 1 == prev)
    {
      assert Kept(a[i], b[i], i + 1 == parent, i + 1 == prev);
      assert Kept(b[i], c[i], i + 1 == parent2, i + 1 == prev2);
    }
  }

  /** Appending a fitting record keeps the links well formed (and, for the
      corrected registration, threaded), and leaves a fitting position
      both after the new record and under it. */
  lemma AppendKeeps(a: Arena, node: Node, kind: ElementType, parent: nat, prev: nat, asWritten: bool)
    requires Wf(a) && (!asWritten ==> Threaded(a)) && Fits(a, parent, prev, asWritten)
    ensures var b := Append(a, node, kind, parent, prev);
      Wf(b) && (!asWritten ==> Threaded(b)) && Extends(a, b, parent, prev)
      && Fits(b, parent, |a| + 1, asWritten) && Fits(b, |a| + 1, 0, asWritten)
  {
    var b := Append(a, node, kind, parent, prev);
    forall i | 0 <= i < |b|
      ensures Linked(b, i)
    {
      AppendLinkedAt(a, node, kind, parent, prev, asWritten, i);
    }
    if !asWritten {
      forall i | 0 <= i < |b|
        ensures Chained(b, i)
      {
        AppendChainedAt(a, node, kind, parent, prev, i);
      }
    }
    AppendExtends(a, node, kind, parent, prev);
  }

  lemma AppendLinkedAt(a: Arena, node: Node, kind: ElementType, parent: nat, prev: nat, asWritten: bool, i: nat)
    requires Wf(a) && Fits(a, parent, prev, asWritten) && i <= |a|
    ensures var b := Append(a, node, kind, parent, prev); Linked(b, i)
  {
    if i < |a| {
      AppendLinkedOld(a, node, kind, parent, prev, i);
    } else {
      var b := Append(a, node, kind, parent, prev);
      if prev != 0 {
        assert b[prev - 1].parent == a[prev - 1].parent;
      }
    }
  }

  /** The links of a record already present survive the append. */
  lemma AppendLinkedOld(a: Arena, node: Node, kind: ElementType, parent: nat, prev: nat, i: nat)
    requires parent <= |a| && prev <= |a| && i < |a| && Linked(a, i)
    ensures var b := Append(a, node, kind, parent, prev); Linked(b, i)
  {
    var b := Append(a, node, kind, parent, prev);
    var id := |a| + 1;
    var r := a[i];
    assert b[i] == Patch(r, i + 1, id, parent, prev);
    if r.previousSibling != 0 {
      assert b[r.previousSibling - 1].parent == a[r.previousSibling - 1].parent;
    }
    if b[i].firstChild != 0 && b[i].firstChild != id {
      assert b[b[i].firstChild - 1].parent == a[r.firstChild - 1].parent;
    }
    if b[i].nextSibling != 0 && b[i].nextSibling != id {
      assert b[b[i].nextSibling - 1].previousSibling == a[r.nextSibling - 1].previousSibling;
    }
  }

  lemma AppendChainedAt(a: Arena, node: Node, kind: ElementType, parent: nat, prev: nat, i: nat)
    requires Wf(a) && Threaded(a) && Fits(a, parent, prev, false) && i <= |a|
    ensures var b := Append(a, node, kind, parent, prev); Chained(b, i)
  {
    if i < |a| {
      assert Chained(a, i) && Linked(a, i);
      var r := a[i];
      if r.previousSibling != 0 {
        assert r.previousSibling != prev;
      }
      if r.parent != 0 && r.previousSibling == 0 {
        assert !(r.parent == parent && prev == 0);
      }
    }
  }

  lemma AppendExtends(a: Arena, node: Node, kind: ElementType, parent: nat, prev: nat)
    requires parent <= |a| && prev <= |a|
    ensures Extends(a, Append(a, node, kind, parent, prev), parent, prev)
  {
    var b := Append(a, node, kind, parent, prev);
    forall i | 0 <= i < |a|
      ensures Kept(a[i], b[i], i + 1 == parent, i + 1 == prev)
    {
    }
  }

  /** After a registration from `a` under `parent` after `prev`: the links
      are well formed (and, for the corrected registration, threaded); of
      the records already present only the parent's first child and the
      previous sibling's next sibling changed; the chain can be continued
      after `tail`, which is `prev` or a new record. */
  predicate Grown(a: Arena, b: Arena, tail: nat, parent: nat, prev: nat, asWritten: bool)
  {
    Wf(b) && (!asWritten ==> Threaded(b)) && Extends(a, b, parent, prev)
    && Fits(b, parent, tail, asWritten) && (tail == prev || |a| < tail)
  }

  /** `first` is a new record hanging under `parent` after `prev`. */
  predicate Anchored(a: Arena, b: Arena, first: nat, parent: nat, prev: nat)
  {
    |a| < first <= |b| && b[first - 1].parent == parent && b[first - 1].previousSibling == prev
  }

  /** Registering a node keeps the links well formed; for the corrected
      registration it also keeps them threaded. A registration that
      produces nothing changes nothing; the first record produced hangs
      under `parent` after `prev`. */
  lemma {:induction false} RegElemKeeps(a: Arena, n: Option<Node>, parent: nat, prev: nat, asWritten: bool)
    requires Wf(a) && (!asWritten ==> Threaded(a)) && Fits(a, parent, prev, asWritten)
    ensures Registered(a, RegElem(a, n, parent, prev, asWritten), parent, prev, 0, asWritten)
    decreases SizeOpt(n), 2
  {
    match n
    case None =>
    case Some(node) =>
      if IsTableOfContent(node) {
        IndexBodySmaller(node);
        RegChildrenKeeps(a, ChildrenOfOpt(Child(node, "text:index-body")), parent, prev, 0, asWritten);
      } else if IsGroup(node) {
        RegChildrenKeeps(a, node.children, parent, prev, 0, asWritten);
      } else if Classify(node) != NoneType {
        NewRecordKeeps(a, node, parent, prev, asWritten);
      }
  }

  /** The case of a node the tag table knows: its record is appended,
      then (unless it is a table) its children are registered under it. */
  lemma {:induction false} NewRecordKeeps(a: Arena, node: Node, parent: nat, prev: nat, asWritten: bool)
    requires Wf(a) && (!asWritten ==> Threaded(a)) && Fits(a, parent, prev, asWritten)
    requires !IsTableOfContent(node) && !IsGroup(node) && Classify(node) != NoneType
    ensures var r := RegElem(a, Some(node), parent, prev, asWritten);
      Grown(a, r.arena, r.tail, parent, prev, asWritten) && r.first == |a| + 1
      && Anchored(a, r.arena, r.first, parent, prev)
    decreases Size(node), 1
  {
    var id := |a| + 1;
    var b := Append(a, node, Classify(node), parent, prev);
    AppendKeeps(a, node, Classify(node), parent, prev, asWritten);
    if Classify(node) == Table {
      assert RegElem(a, Some(node), parent, prev, asWritten) == Step(b, id, id);
    } else {
      var c := RegChildren(b, ChildrenOf(node), id, 0, 0, asWritten);
      assert RegElem(a, Some(node), parent, prev, asWritten) == Step(c.arena, id, id);
      RegChildrenKeeps(b, ChildrenOf(node), id, 0, 0, asWritten);
      FrameTrans(a, b, c.arena, parent, prev, id, 0);
      assert Kept(b[id - 1], c.arena[id - 1], true, false);
    }
  }

  lemma {:induction false} RegChildrenKeeps(a: Arena, cs: seq<Node>, parent: nat, prev: nat, first: nat, asWritten: bool)
    requires Wf(a) && (!asWritten ==> Threaded(a)) && Fits(a, parent, prev, asWritten) && first <= |a|
    ensures Registered(a, RegChildren(a, cs, parent, prev, first, asWritten), parent, prev, first, asWritten)
    decreases SizeOf(cs), 3
  {
    if cs != [] {
      var r := RegElem(a, Some(cs[0]), parent, prev, asWritten);
      RegElemKeeps(a, Some(cs[0]), parent, prev, asWritten);
      var p := NextPrev(r, prev, asWritten);
      var f := if first == 0 then r.first else first;
      var rest := RegChildren(r.arena, cs[1..], parent, p, f, asWritten);
      assert RegChildren(a, cs, parent, prev, first, asWritten) == rest;
      RegChildrenKeeps(r.arena, cs[1..], parent, p, f, asWritten);
      RegisteredTrans(a, r, rest, parent, prev, first, asWritten);
    }
  }

  /** What registering siblings from `a` leaves behind: the arena grew as
      `Grown` allows; a first identifier already known stays; nothing
      registered means nothing changed; a new first record hangs under
      `parent` after `prev`. */
  predicate Registered(a: Arena, r: Step, parent: nat, prev: nat, first: nat, asWritten: bool)
  {
    Grown(a, r.arena, r.tail, parent, prev, asWritten)
    && (first != 0 ==> r.first == first)
    && (r.first == 0 ==> r.arena == a && r.tail == prev)
    && (first == 0 && r.first != 0 ==> Anchored(a, r.arena, r.first, parent, prev))
  }

  /** One registration `r` followed by the registration `rest` of the
      later siblings. */
  lemma RegisteredTrans(a: Arena, r: Step, rest: Step, parent: nat, prev: nat, first: nat, asWritten: bool)
    requires Registered(a, r, parent, prev, 0, asWritten)
    requires Registered(r.arena, rest, parent, NextPrev(r, prev, asWritten), if first == 0 then r.first else first, asWritten)
    ensures Registered(a, rest, parent, prev, first, asWritten)
  {
    var p := NextPrev(r, prev, asWritten);
    assert p == prev || |a| < p;
    GrownTrans(a, r.arena, rest.arena, rest.tail, parent, prev, p, asWritten);
    if first == 0 && r.first != 0 {
      AnchoredTrans(a, r.arena, rest.arena, r.first, parent, prev, p);
    }
  }

  /** Two registrations in a row, the second after the first's tail. */
  lemma GrownTrans(a: Arena, b: Arena, c: Arena, tail: nat, parent: nat, prev: nat, p: nat, asWritten: bool)
    requires Extends(a, b, parent, prev) && Grown(b, c, tail, parent, p, asWritten)
    requires p == prev || |a| < p
    ensures Grown(a, c, tail, parent, prev, asWritten)
  {
    FrameTrans(a, b, c, parent, prev, parent, p);
  }

  /** A later registration leaves an anchored record where it was. */
  lemma AnchoredTrans(a: Arena, b: Arena, c: Arena, f: nat, parent: nat, prev: nat, p: nat)
    requires Anchored(a, b, f, parent, prev) && Extends(b, c, parent, p)
    ensures Anchored(a, c, f, parent, prev)
  {
    assert Kept(b[f - 1], c[f - 1], f == parent, f == p);
  }

  /** Registering `cs` from position `i` is registering `cs[i]`, then the
      rest after it. */
  lemma RegChildrenStep(a: Arena, cs: seq<Node>, i: nat, parent: nat, prev: nat, first: nat)
    requires i < |cs| && parent <= |a| && prev <= |a| && first <= |a|
    ensures var r := RegElem(a, Some(cs[i]), parent, prev, false);
      RegChildren(a, cs[i..], parent, prev, first, false)
      == RegChildren(r.arena, cs[i + 1..], parent, NextPrev(r, prev, false), if first == 0 then r.first else first, false)
  {
    assert cs[i..][1..] == cs[i + 1..];
  }

  // ---------------------------------------------------------------------
  // What registration produces

  /** Whether registering `n` produces at least one record: character
      data and known tags do; a table of content or a drawing group does
      when one of its (body's) children does. */
  predicate Registers(n: Node)
    decreases Size(n), 1
  {
    if IsTableOfContent(n) then
      IndexBodySmaller(n);
      AnyRegisters(ChildrenOfOpt(Child(n, "text:index-body")))
    else if IsGroup(n) then AnyRegisters(n.children)
    else Classify(n) != NoneType
  }

  predicate AnyRegisters(cs: seq<Node>)
    decreases SizeOf(cs), 2
  {
    cs != [] && (Registers(cs[0]) || AnyRegisters(cs[1..]))
  }

  /** Registration yields an identifier exactly when the node holds
      something the registry knows; which records an earlier registration
      made does not matter. */
  lemma {:induction false} RegElemFirstIff(a: Arena, n: Node, parent: nat, prev: nat, asWritten: bool)
    requires parent <= |a| && prev <= |a|
    ensures RegElem(a, Some(n), parent, prev, asWritten).first != 0 <==> Registers(n)
    decreases Size(n), 1
  {
    if IsTableOfContent(n) {
      IndexBodySmaller(n);
      RegChildrenFirstIff(a, ChildrenOfOpt(Child(n, "text:index-body")), parent, prev, asWritten);
    } else if IsGroup(n) {
      RegChildrenFirstIff(a, n.children, parent, prev, asWritten);
    }
  }

  lemma {:induction false} RegChildrenFirstIff(a: Arena, cs: seq<Node>, parent: nat, prev: nat, asWritten: bool)
    requires parent <= |a| && prev <= |a|
    ensures RegChildren(a, cs, parent, prev, 0, asWritten).first != 0 <==> AnyRegisters(cs)
    decreases SizeOf(cs), 2
  {
    if cs != [] {
      var r := RegElem(a, Some(cs[0]), parent, prev, asWritten);
      RegElemFirstIff(a, cs[0], parent, prev, asWritten);
      var p := NextPrev(r, prev, asWritten);
      if r.first == 0 {
        RegChildrenFirstIff(r.arena, cs[1..], parent, p, asWritten);
      } else {
        RegChildrenKeepsFirst(r.arena, cs[1..], parent, p, r.first, asWritten);
      }
    }
  }

  /** Once a first identifier is known, later siblings do not replace it. */
  lemma {:induction false} RegChildrenKeepsFirst(a: Arena, cs: seq<Node>, parent: nat, prev: nat, first: nat, asWritten: bool)
    requires parent <= |a| && prev <= |a| && 0 < first <= |a|
    ensures RegChildren(a, cs, parent, prev, first, asWritten).first == first
    decreases SizeOf(cs)
  {
    if cs != [] {
      var r := RegElem(a, Some(cs[0]), parent, prev, asWritten);
      RegChildrenKeepsFirst(r.arena, cs[1..], parent, NextPrev(r, prev, asWritten), first, asWritten);
    }
  }

  /** A node that is neither known nor delegating adds no record. */
  lemma UnknownTagAddsNothing(a: Arena, n: Node, parent: nat, prev: nat, asWritten: bool)
    requires parent <= |a| && prev <= |a|
    requires !IsTableOfContent(n) && !IsGroup(n) && Classify(n) == NoneType
    ensures RegElem(a, Some(n), parent, prev, asWritten) == Step(a, 0, prev)
  {
  }

  /** What a registration leaves behind, read off its result. */
  lemma RegElemValid(a: Arena, n: Option<Node>, parent: nat, prev: nat, b: Arena, first: nat, tail: nat)
    requires Wf(a) && Threaded(a) && Fits(a, parent, prev, false)
    requires Step(b, first, tail) == RegElem(a, n, parent, prev, false)
    ensures Wf(b) && Threaded(b) && Fits(b, parent, tail, false)
  {
    RegElemKeeps(a, n, parent, prev, false);
  }

  /** The case of a node the tag table knows, from the arena after its
      record was appended (`b`) and after its children were (`c`). */
  lemma KnownRegistered(a: Arena, node: Option<Node>, kind: ElementType, parent: nat, prev: nat, id: nat,
                         b: Arena, c: Arena, f: nat, t: nat)
    requires Wf(a) && Threaded(a) && Fits(a, parent, prev, false)
    requires node.Some? && !IsTableOfContent(node.value) && !IsGroup(node.value)
    requires kind == Classify(node.value) && kind != NoneType && id == |a| + 1
    requires b == Append(a, node.value, kind, parent, prev)
    requires if kind == Table then c == b else Step(c, f, t) == RegChildren(b, ChildrenOfOpt(node), id, 0, 0, false)
    ensures Step(c, id, id) == RegElem(a, node, parent, prev, false)
    ensures Wf(c) && Threaded(c) && Fits(c, parent, id, false)
  {
    RegElemKnown(a, node.value, parent, prev, false);
    RegElemValid(a, node, parent, prev, c, id, id);
  }

  /** One child registered by the loop over `cs`, read off its result:
      the loop goes on with the rest of `cs` where the specification does. */
  lemma ChildRegistered(a: Arena, cs: seq<Node>, i: nat, parent: nat, prev: nat, first: nat, b: Arena, f: nat, t: nat)
    requires i < |cs| && Wf(a) && Threaded(a) && Fits(a, parent, prev, false) && first <= |a|
    requires Step(b, f, t) == RegElem(a, Some(cs[i]), parent, prev, false)
    ensures f == 0 ==> b == a
    ensures (if first == 0 then f else first) <= |b|
    ensures RegChildren(b, cs[i + 1..], parent, if f == 0 then prev else t, if first == 0 then f else first, false)
         == RegChildren(a, cs[i..], parent, prev, first, false)
  {
    RegChildrenStep(a, cs, i, parent, prev, first);
    RegElemKeeps(a, Some(cs[i]), parent, prev, false);
  }

  /** A table of content registers its body's children in its place. */
  lemma RegElemIndex(a: Arena, n: Node, parent: nat, prev: nat, asWritten: bool)
    requires parent <= |a| && prev <= |a| && IsTableOfContent(n)
    ensures RegElem(a, Some(n), parent, prev, asWritten)
         == RegChildren(a, ChildrenOfOpt(Child(n, "text:index-body")), parent, prev, 0, asWritten)
  {
  }

  /** A drawing group registers its children in its place. */
  lemma RegElemGroup(a: Arena, n: Node, parent: nat, prev: nat, asWritten: bool)
    requires parent <= |a| && prev <= |a| && !IsTableOfContent(n) && IsGroup(n)
    ensures RegElem(a, Some(n), parent, prev, asWritten) == RegChildren(a, ChildrenOfOpt(Some(n)), parent, prev, 0, asWritten)
  {
  }

  /** A known node gets a record, then (unless a table) its children are
      registered under it. */
  lemma RegElemKnown(a: Arena, n: Node, parent: nat, prev: nat, asWritten: bool)
    requires parent <= |a| && prev <= |a| && !IsTableOfContent(n) && !IsGroup(n) && Classify(n) != NoneType
    ensures var id := |a| + 1;
      var b := Append(a, n, Classify(n), parent, prev);
      RegElem(a, Some(n), parent, prev, asWritten)
      == if Classify(n) == Table then Step(b, id, id)
         else Step(RegChildren(b, ChildrenOfOpt(Some(n)), id, 0, 0, asWritten).arena, id, id)
  {
  }

  // ---------------------------------------------------------------------
  // The splice defect, shown on a concrete document

  function P(): Node
  {
    Element("text:p", [], [])
  }

  function G(): Node
  {
    Element("draw:g", [], [P(), P()])
  }

  /** An `office:text` holding a drawing group of two paragraphs followed
      by a third paragraph. */
  function GroupThenParagraph(): Node
  {
    Element("office:text", [], [G(), P()])
  }

  /** The arena after the root, after each paragraph of the group, and
      after the trailing paragraph. */
  function Arena1(): Arena
  {
    [Record(GroupThenParagraph(), Root, 0, 0, 0, 0)]
  }

  function Arena2(): Arena
  {
    [Record(GroupThenParagraph(), Root, 0, 2, 0, 0), Record(P(), Paragraph, 1, 0, 0, 0)]
  }

  function Arena3(): Arena
  {
    [Record(GroupThenParagraph(), Root, 0, 2, 0, 0), Record(P(), Paragraph, 1, 0, 0, 3),
     Record(P(), Paragraph, 1, 0, 2, 0)]
  }

  function Arena4(): Arena
  {
    [Record(GroupThenParagraph(), Root, 0, 2, 0, 0), Record(P(), Paragraph, 1, 0, 0, 4),
     Record(P(), Paragraph, 1, 0, 2, 0), Record(P(), Paragraph, 1, 0, 2, 0)]
  }

  lemma FirstGroupParagraph()
    ensures RegElem(Arena1(), Some(P()), 1, 0, true) == Step(Arena2(), 2, 2)
  {
    assert Append(Arena1(), P(), Paragraph, 1, 0) == Arena2();
  }

  lemma SecondGroupParagraph()
    ensures RegElem(Arena2(), Some(P()), 1, 2, true) == Step(Arena3(), 3, 3)
  {
    assert Append(Arena2(), P(), Paragraph, 1, 2) == Arena3();
  }

  lemma GroupSpliced()
    ensures RegElem(Arena1(), Some(G()), 1, 0, true) == Step(Arena3(), 2, 3)
  {
    FirstGroupParagraph();
    SecondGroupParagraph();
    assert [P(), P()][1..] == [P()];
    assert RegChildren(Arena1(), [P(), P()], 1, 0, 0, true)
        == RegChildren(Arena2(), [P()], 1, 2, 2, true);
    assert RegChildren(Arena2(), [P()], 1, 2, 2, true)
        == RegChildren(Arena3(), [], 1, 3, 2, true);
  }

  lemma TrailingParagraph()
    ensures RegElem(Arena3(), Some(P()), 1, 2, true) == Step(Arena4(), 4, 4)
  {
    assert Append(Arena3(), P(), Paragraph, 1, 2) == Arena4();
  }

  /** As written, the paragraph after the group is linked after the
      group's FIRST paragraph: record 3 (the group's second paragraph)
      names record 2 as its previous sibling, yet record 2's next sibling
      is record 4, so walking next siblings from the first child skips
      record 3. */
  lemma AsWrittenSpliceSkipsSibling()
    ensures var a := RegElem([], Some(GroupThenParagraph()), 0, 0, true).arena;
      |a| == 4 && a[2].previousSibling == 2 && a[1].nextSibling == 4 && !Threaded(a)
  {
    RootRegistration();
    assert !Chained(Arena4(), 2);
  }

  lemma RootRegistration()
    ensures RegElem([], Some(GroupThenParagraph()), 0, 0, true) == Step(Arena4(), 1, 1)
  {
    RootChildren();
    RootAppended();
    RootClassified();
  }

  lemma RootClassified()
    ensures var d := GroupThenParagraph();
      !IsTableOfContent(d) && !IsGroup(d) && Classify(d) == Root && ChildrenOf(d) == [G(), P()]
  {
  }

  lemma RootAppended()
    ensures Append([], GroupThenParagraph(), Root, 0, 0) == Arena1()
  {
  }

  lemma RootChildren()
    ensures RegChildren(Arena1(), [G(), P()], 1, 0, 0, true) == Step(Arena4(), 2, 4)
  {
    GroupSpliced();
    TrailingParagraph();
    var cs := [G(), P()];
    assert cs[1..] == [P()];
    assert RegChildren(Arena1(), cs, 1, 0, 0, true) == RegChildren(Arena3(), [P()], 1, 2, 2, true);
    assert RegChildren(Arena3(), [P()], 1, 2, 2, true) == RegChildren(Arena4(), [], 1, 4, 2, true);
  }

  /** The corrected registration keeps every link threaded on any input. */
  lemma CorrectedRegistrationThreads(n: Option<Node>)
    ensures var a := RegElem([], n, 0, 0, false).arena;
      Wf(a) && Threaded(a)
  {
    RegElemKeeps([], n, 0, 0, false);
  }

  // ---------------------------------------------------------------------
  // Navigation (identifier 0 answers "no element")

  function TypeOf(a: Arena, id: nat): (r: ElementType)
    requires id <= |a|
    ensures id == 0 ==> r == NoneType
  {
    if id == 0 then NoneType else a[id - 1].kind
  }

  function ParentOf(a: Arena, id: nat): (r: nat)
    requires id <= |a|
    ensures id == 0 ==> r == 0
    ensures Wf(a) && id != 0 ==> r < id
  {
    if id == 0 then 0 else assert Wf(a) ==> Linked(a, id - 1); a[id - 1].parent
  }

  function FirstChildOf(a: Arena, id: nat): (r: nat)
    requires id <= |a|
    ensures id == 0 ==> r == 0
    ensures Wf(a) && r != 0 ==> id < r <= |a| && ParentOf(a, r) == id
  {
    if id == 0 then 0 else assert Wf(a) ==> Linked(a, id - 1); a[id - 1].firstChild
  }

  function PreviousSiblingOf(a: Arena, id: nat): (r: nat)
    requires id <= |a|
    ensures id == 0 ==> r == 0
    ensures Wf(a) && r != 0 ==> r < id && ParentOf(a, r) == ParentOf(a, id)
  {
    if id == 0 then 0 else assert Wf(a) ==> Linked(a, id - 1); a[id - 1].previousSibling
  }

  function NextSiblingOf(a: Arena, id: nat): (r: nat)
    requires id <= |a|
    ensures id == 0 ==> r == 0
    ensures Wf(a) && r != 0 ==> id < r <= |a| && PreviousSiblingOf(a, r) == id
  {
    if id == 0 then 0 else assert Wf(a) ==> Linked(a, id - 1); a[id - 1].nextSibling
  }

  /** In a threaded arena the sibling links are mutual inverses and a
      record without previous sibling is its parent's first child. */
  lemma SiblingLinksInverse(a: Arena, id: nat)
    requires Wf(a) && Threaded(a) && 0 < id <= |a|
    ensures PreviousSiblingOf(a, id) != 0 ==> NextSiblingOf(a, PreviousSiblingOf(a, id)) == id
    ensures ParentOf(a, id) != 0 && PreviousSiblingOf(a, id) == 0 ==> FirstChildOf(a, ParentOf(a, id)) == id
  {
    assert Linked(a, id - 1) && Chained(a, id - 1);
  }

  // ---------------------------------------------------------------------
  // Properties of a record

  /** The attribute naming an element's style, by element type. */
  function StyleAttribute(t: ElementType): (r: Option<string>)
    ensures r == Some("text:style-name") <==> t in {Paragraph, Span, Link}
    ensures r == Some("table:style-name") <==> t == Table
    ensures r == Some("draw:style-name") <==> t in {Slide, Page, Rect, Line, Circle}
    ensures r.Some? ==> r.value in {"text:style-name", "table:style-name", "draw:style-name"}
  {
    match t
    case Paragraph => Some("text:style-name")
    case Span => Some("text:style-name")
    case Link => Some("text:style-name")
    case Table => Some("table:style-name")
    case Slide => Some("draw:style-name")
    case Page => Some("draw:style-name")
    case Rect => Some("draw:style-name")
    case Line => Some("draw:style-name")
    case Circle => Some("draw:style-name")
    case _ => None
  }

  /** The text-properties attribute behind each text property. */
  function TextPropertyAttribute(p: ElementProperty): Option<string>
  {
    match p
    case FontName => Some("style:font-name")
    case FontSize => Some("fo:font-size")
    case FontWeight => Some("fo:font-weight")
    case FontStyle => Some("fo:font-style")
    case FontColor => Some("fo:font-color")
    case BackgroundColor => Some("fo:background-color")
    case _ => None
  }

  /** A text property read from a resolved style's text properties (keyed
      by attribute name); nothing for other properties or unset ones. The
      element type does not take part. */
  function ElementStyleProperty(t: ElementType, p: ElementProperty, textProperties: map<string, Value>): (r: Option<Value>)
    ensures r.Some? <==> TextPropertyAttribute(p).Some? && TextPropertyAttribute(p).value in textProperties
    ensures r.Some? ==> r.value == textProperties[TextPropertyAttribute(p).value]
  {
    match TextPropertyAttribute(p)
    case None => None
    case Some(attr) => if attr in textProperties then Some(textProperties[attr]) else None
  }

  function StrAttr(n: Node, name: string): Value
  {
    Str(AttrValue(n, name))
  }

  /** The property map of one record: fixed attributes copied per type.
      Identifier 0 is an error. The style-resolving helpers the source
      calls here have empty bodies and add nothing. */
  function ElementProperties(a: Arena, id: nat): (r: Result<Properties, Error>)
    requires id <= |a|
    ensures r.Err? <==> id == 0
    ensures r.Err? ==> r.error == ElementNotFound
    ensures r.Ok? && a[id - 1].kind == Link ==>
      r.value.Keys == {Href} && r.value[Href] == Str(AttrValue(a[id - 1].node, "xlink:href"))
    ensures r.Ok? && a[id - 1].kind in {Rect, Circle} ==>
      r.value.Keys == {X, Y, Width, Height}
      && r.value[X] == Str(AttrValue(a[id - 1].node, "svg:x"))
      && r.value[Y] == Str(AttrValue(a[id - 1].node, "svg:y"))
      && r.value[Width] == Str(AttrValue(a[id - 1].node, "svg:width"))
      && r.value[Height] == Str(AttrValue(a[id - 1].node, "svg:height"))
    ensures r.Ok? && a[id - 1].kind == Line ==>
      r.value.Keys == {X1, Y1, X2, Y2}
      && r.value[X1] == Str(AttrValue(a[id - 1].node, "svg:x1"))
      && r.value[Y1] == Str(AttrValue(a[id - 1].node, "svg:y1"))
      && r.value[X2] == Str(AttrValue(a[id - 1].node, "svg:x2"))
      && r.value[Y2] == Str(AttrValue(a[id - 1].node, "svg:y2"))
    ensures r.Ok? && a[id - 1].kind in {Slide, Page} ==>
      r.value == map[Name := Str(AttrValue(a[id - 1].node, "draw:name"))]
    ensures r.Ok? && a[id - 1].kind == Sheet ==>
      r.value == map[Name := Str(AttrValue(a[id - 1].node, "table:name"))]
    ensures r.Ok? && a[id - 1].kind == Bookmark ==>
      r.value == map[Name := Str(AttrValue(a[id - 1].node, "text:name"))]
    ensures r.Ok? && a[id - 1].kind == Image ==>
      r.value.Keys == {ImageInternal, Href, ImageFile} && r.value[ImageInternal] == Flag(true)
      && r.value[Href] == Str("") && r.value[ImageFile] == FileAt("")
    ensures r.Ok? && a[id - 1].kind !in {Slide, Sheet, Page, Link, Bookmark, Image, Rect, Line, Circle} ==>
      r.value == map[]
  {
    if id == 0 then Err(ElementNotFound)
    else
      var n := a[id - 1].node;
      match a[id - 1].kind
      case Slide => Ok(map[Name := StrAttr(n, "draw:name")])
      case Sheet => Ok(map[Name := StrAttr(n, "table:name")])
      case Page => Ok(map[Name := StrAttr(n, "draw:name")])
      case Link => Ok(map[Href := StrAttr(n, "xlink:href")])
      case Bookmark => Ok(map[Name := StrAttr(n, "text:name")])
      case Image => Ok(map[ImageInternal := Flag(true), Href := Str(""), ImageFile := FileAt("")])
      case Rect => Ok(map[X := StrAttr(n, "svg:x"), Y := StrAttr(n, "svg:y"),
                          Width := StrAttr(n, "svg:width"), Height := StrAttr(n, "svg:height")])
      case Line => Ok(map[X1 := StrAttr(n, "svg:x1"), Y1 := StrAttr(n, "svg:y1"),
                          X2 := StrAttr(n, "svg:x2"), Y2 := StrAttr(n, "svg:y2")])
      case Circle => Ok(map[X := StrAttr(n, "svg:x"), Y := StrAttr(n, "svg:y"),
                            Width := StrAttr(n, "svg:width"), Height := StrAttr(n, "svg:height")])
      case _ => Ok(map[])
  }

  /** Updating properties is not supported. */
  function UpdateElementProperties(a: Arena, id: nat, properties: Properties): (r: Outcome<Error>)
    ensures r == Fail(UnsupportedOperation)
  {
    Fail(UnsupportedOperation)
  }

  /** The node whose first child becomes the root: the first child of
      `office:body`, or null. */
  function BodyStart(content: Node): Option<Node>
  {
    match Child(content, "office:body")
    case Some(body) => FirstChild(body)
    case None => None
  }

  // ---------------------------------------------------------------------
  // The registry object

  class OpenDocument {
    var elements: Arena
    var root: nat

    ghost predicate Valid()
      reads this
    {
      Wf(elements) && Threaded(elements) && root <= |elements|
    }

    constructor ()
      ensures elements == [] && root == 0 && Valid()
    {
      elements := [];
      root := 0;
    }

    /** Appends a record and links it to its parent and previous sibling;
        returns its identifier. */
    method NewElement(node: Node, kind: ElementType, parent: nat, prev: nat) returns (id: nat)
      requires Valid() && Fits(elements, parent, prev, false)
      modifies this
      ensures elements == Append(old(elements), node, kind, parent, prev)
      ensures id == |elements| && root == old(root) && Valid()
      ensures Fits(elements, parent, id, false) && Fits(elements, id, 0, false)
    {
      AppendKeeps(elements, node, kind, parent, prev, false);
      ghost var expected := Append(elements, node, kind, parent, prev);
      elements := elements + [Record(node, kind, parent, 0, prev, 0)];
      id := |elements|;
      if parent != 0 && prev == 0 {
        elements := elements[parent - 1 := elements[parent - 1].(firstChild := id)];
      }
      if prev != 0 {
        elements := elements[prev - 1 := elements[prev - 1].(nextSibling := id)];
      }
      assert elements == expected;
    }

    /** Registers one node; returns the first identifier it produced (0
        for none) and the tail of the sibling chain it extended. */
    method RegisterElement(node: Option<Node>, parent: nat, prev: nat) returns (first: nat, tail: nat)
      requires Valid() && Fits(elements, parent, prev, false)
      modifies this
      ensures Step(elements, first, tail) == RegElem(old(elements), node, parent, prev, false)
      ensures Valid() && Fits(elements, parent, tail, false) && root == old(root)
      decreases SizeOpt(node), 1
    {
      if node.None? {
        return 0, prev;
      }
      var n := node.value;
      if IsTableOfContent(n) {
        IndexBodySmaller(n);
        RegElemIndex(elements, n, parent, prev, false);
        first, tail := RegisterChildren(Child(n, "text:index-body"), parent, prev);
      } else if IsGroup(n) {
        RegElemGroup(elements, n, parent, prev, false);
        first, tail := RegisterChildren(node, parent, prev);
      } else {
        var kind := Classify(n);
        if kind == NoneType {
          UnknownTagAddsNothing(elements, n, parent, prev, false);
          return 0, prev;
        }
        ghost var a := elements;
        var id := NewElement(n, kind, parent, prev);
        ghost var b := elements;
        var childFirst, childTail := 0, 0;
        if kind != Table {
          childFirst, childTail := RegisterChildren(node, id, 0);
        }
        KnownRegistered(a, node, kind, parent, prev, id, b, elements, childFirst, childTail);
        first, tail := id, id;
      }
    }

    /** Registers the children of a (possibly null) node in order, each
        after the tail of the chain so far. */
    method RegisterChildren(node: Option<Node>, parent: nat, prev: nat) returns (first: nat, tail: nat)
      requires Valid() && Fits(elements, parent, prev, false)
      modifies this
      ensures Step(elements, first, tail) == RegChildren(old(elements), ChildrenOfOpt(node), parent, prev, 0, false)
      ensures Valid() && Fits(elements, parent, tail, false) && root == old(root)
      decreases SizeOpt(node), 0
    {
      var cs := ChildrenOfOpt(node);
      first, tail := 0, prev;
      var i := 0;
      while i < |cs|
        invariant 0 <= i <= |cs|
        invariant Valid() && Fits(elements, parent, tail, false) && first <= |elements|
        invariant RegChildren(elements, cs[i..], parent, tail, first, false)
               == RegChildren(old(elements), cs, parent, prev, 0, false)
        invariant root == old(root)
      {
        assert cs[i] in ChildrenOf(node.value);
        SizeOfMember(ChildrenOf(node.value), cs[i]);
        ghost var a := elements;
        var childFirst, childTail := RegisterElement(Some(cs[i]), parent, tail);
        ChildRegistered(a, cs, i, parent, tail, first, elements, childFirst, childTail);
        if childFirst != 0 {
          if first == 0 {
            first := childFirst;
          }
          tail := childTail;
        }
        i := i + 1;
      }
      assert cs[i..] == [];
    }

    /** Opening a document: registers the first child of `office:body`
        as the root, and fails when that registers nothing. */
    static method Open(content: Node) returns (r: Result<OpenDocument, Error>)
      ensures r.Err? <==> RegElem([], BodyStart(content), 0, 0, false).first == 0
      ensures r.Err? ==> r.error == NoOpenDocumentFile
      ensures r.Ok? ==> (fresh(r.value) && r.value.Valid() && r.value.root != 0
        && r.value.elements == RegElem([], BodyStart(content), 0, 0, false).arena
        && r.value.root == RegElem([], BodyStart(content), 0, 0, false).first)
    {
      var doc := new OpenDocument();
      var first, _ := doc.RegisterElement(BodyStart(content), 0, 0);
      doc.root := first;
      if first == 0 {
        return Err(NoOpenDocumentFile);
      }
      return Ok(doc);
    }
  }
}

=== FILE: odf_style.dfy ===
/** The OpenDocument style cascade: name indices over the style sections
    of styles.xml and content.xml, a memoised chain of style entries
    linked through `style:parent-style-name`, and the bottom-up merge of
    the properties each element type reads from a style node. */
module OdfStyle {
  import opened Wrappers
  import opened Xml
  import opened DocumentTypes

  // ---------------------------------------------------------------------
  // The property registry

  /** Where a registered property is read from: attribute `attribute` of
      the first `group` child of a style node. */
  datatype Getter = Getter(group: string, attribute: string)

  function ParagraphGetters(): map<ElementProperty, Getter>
  {
    var g := "style:paragraph-properties";
    map[TextAlign := Getter(g, "fo:text-align"),
        MarginTop := Getter(g, "fo:margin-top"),
        MarginBottom := Getter(g, "fo:margin-bottom"),
        MarginLeft := Getter(g, "fo:margin-left"),
        MarginRight := Getter(g, "fo:margin-right")]
  }

  function TextGetters(): map<ElementProperty, Getter>
  {
    var g := "style:text-properties";
    map[FontName := Getter(g, "style:font-name"),
        FontSize := Getter(g, "fo:font-size"),
        FontWeight := Getter(g, "fo:font-weight"),
        FontStyle := Getter(g, "fo:font-style"),
        FontColor := Getter(g, "fo:font-color"),
        BackgroundColor := Getter(g, "fo:background-color")]
  }

  function CellGetters(): map<ElementProperty, Getter>
  {
    var g := "style:table-cell-properties";
    map[PaddingTop := Getter(g, "fo:padding-top"),
        PaddingBottom := Getter(g, "fo:padding-bottom"),
        PaddingLeft := Getter(g, "fo:padding-left"),
        PaddingRight := Getter(g, "fo:padding-right"),
        BorderTop := Getter(g, "fo:border-top"),
        BorderBottom := Getter(g, "fo:border-bottom"),
        BorderLeft := Getter(g, "fo:border-left"),
        BorderRight := Getter(g, "fo:border-right")]
  }

  function GraphicGetters(): map<ElementProperty, Getter>
  {
    var g := "style:graphic-properties";
    map[StrokeWidth := Getter(g, "svg:stroke-width"),
        StrokeColor := Getter(g, "svg:stroke-color"),
        FillColor := Getter(g, "draw:fill-color"),
        VerticalAlign := Getter(g, "draw:textarea-vertical-align")]
  }

  /** The properties each element type reads from a style; an element type
      the registry does not know reads none. */
  function Registry(t: ElementType): map<ElementProperty, Getter>
  {
    match t
    case Paragraph => ParagraphGetters() + TextGetters()
    case Span => TextGetters()
    case Link => TextGetters()
    case Table => map[Width := Getter("style:table-properties", "style:width")]
    case TableColumn => map[Width := Getter("style:table-column-properties", "style:column-width")]
    case TableCell => CellGetters()
    case Rect => GraphicGetters()
    case Line => GraphicGetters()
    case Circle => GraphicGetters()
    case _ => map[]
  }

  lemma ParagraphGroup()
    ensures ParagraphGetters().Keys == {TextAlign, MarginTop, MarginBottom, MarginLeft, MarginRight}
    ensures forall p :: p in ParagraphGetters() ==> ParagraphGetters()[p].group == "style:paragraph-properties"
  {
  }

  lemma TextGroup()
    ensures TextGetters().Keys == {FontName, FontSize, FontWeight, FontStyle, FontColor, BackgroundColor}
    ensures forall p :: p in TextGetters() ==> TextGetters()[p].group == "style:text-properties"
  {
  }

  lemma CellGroup()
    ensures CellGetters().Keys
         == {PaddingTop, PaddingBottom, PaddingLeft, PaddingRight, BorderTop, BorderBottom, BorderLeft, BorderRight}
    ensures forall p :: p in CellGetters() ==> CellGetters()[p].group == "style:table-cell-properties"
  {
  }

  lemma GraphicGroup()
    ensures GraphicGetters().Keys == {StrokeWidth, StrokeColor, FillColor, VerticalAlign}
    ensures forall p :: p in GraphicGetters() ==> GraphicGetters()[p].group == "style:graphic-properties"
  {
  }

  /** Paragraphs read the paragraph group (alignment and margins) and the
      text group (font properties). */
  lemma RegistryParagraph()
    ensures Registry(Paragraph).Keys == ParagraphGetters().Keys + TextGetters().Keys
    ensures forall p :: p in Registry(Paragraph) ==>
              Registry(Paragraph)[p].group
              == (if p in TextGetters() then "style:text-properties" else "style:paragraph-properties")
  {
    ParagraphGroup();
    TextGroup();
  }

  /** Every element type the registry does not list reads nothing. */
  lemma RegistryUnlisted(t: ElementType)
    requires t !in {Paragraph, Span, Link, Table, TableColumn, TableCell, Rect, Line, Circle}
    ensures Registry(t) == map[]
  {
  }

  /** The value a getter reads from style node `node`; None when the
      property group or the attribute is missing. */
  function GetterValue(node: Node, g: Getter): Option<string>
  {
    match Child(node, g.group)
    case None => None
    case Some(c) => Attr(c, g.attribute)
  }

  /** The properties the getters `gs` find set on `node`, with their values. */
  function Values(gs: map<ElementProperty, Getter>, node: Node): (m: map<ElementProperty, string>)
    ensures m.Keys <= gs.Keys
  {
    map p | p in gs && GetterValue(node, gs[p]).Some? :: GetterValue(node, gs[p]).value
  }

  /** `result` after the properties in `done` have been looked up in
      `values`: a property found there overwrites, any other is kept. */
  function Applied(values: map<ElementProperty, string>, result: Properties, done: set<ElementProperty>): (r: Properties)
    ensures forall p :: p in done && p in values ==> p in r && r[p] == Str(values[p])
    ensures forall p :: !(p in done && p in values) ==> (p in r <==> p in result)
    ensures forall p :: !(p in done && p in values) && p in result ==> r[p] == result[p]
  {
    map p | p in result.Keys + done && (p in result || (p in done && p in values)) ::
      if p in done && p in values then Str(values[p]) else result[p]
  }

  lemma AppliedNothing(values: map<ElementProperty, string>, result: Properties)
    ensures Applied(values, result, {}) == result
  {
    assert Applied(values, result, {}).Keys == result.Keys;
  }

  /** Looking up one more property updates that property alone. */
  lemma AppliedNext(values: map<ElementProperty, string>, result: Properties, done: set<ElementProperty>, p: ElementProperty)
    requires p !in done
    ensures Applied(values, result, done + {p})
         == if p in values then Applied(values, result, done)[p := Str(values[p])]
            else Applied(values, result, done)
  {
    if p in values {
      AppliedFound(values, result, done, p);
    } else {
      AppliedMissing(values, result, done, p);
    }
  }

  lemma AppliedFound(values: map<ElementProperty, string>, result: Properties, done: set<ElementProperty>, p: ElementProperty)
    requires p !in done && p in values
    ensures Applied(values, result, done + {p}) == Applied(values, result, done)[p := Str(values[p])]
  {
    var b := Applied(values, result, done + {p});
    var c := Applied(values, result, done)[p := Str(values[p])];
    assert b.Keys == c.Keys;
    assert forall q :: q in b ==> b[q] == c[q];
  }

  lemma AppliedMissing(values: map<ElementProperty, string>, result: Properties, done: set<ElementProperty>, p: ElementProperty)
    requires p !in done && p !in values
    ensures Applied(values, result, done + {p}) == Applied(values, result, done)
  {
    var a := Applied(values, result, done);
    var b := Applied(values, result, done + {p});
    assert b.Keys == a.Keys;
    assert forall q :: q in b ==> b[q] == a[q];
  }

  /** The merge of one style node into `result` for element type `t`: every
      registered property the node sets is overwritten, everything else is
      kept; an element type without registered properties changes nothing. */
  function Resolved(t: ElementType, node: Node, result: Properties): (r: Properties)
    ensures Registry(t) == map[] ==> r == result
    ensures forall p :: p in Values(Registry(t), node) ==> p in r && r[p] == Str(Values(Registry(t), node)[p])
    ensures forall p :: p !in Values(Registry(t), node) ==> (p in r <==> p in result) && (p in result ==> r[p] == result[p])
  {
    var gs := Registry(t);
    Applied(Values(gs, node), result, gs.Keys)
  }

  /** `resolve_properties`: visits the registered properties of `t` one by
      one, in no particular order, and updates `result`. */
  method ResolveProperties(t: ElementType, node: Node, result: Properties) returns (r: Properties)
    ensures r == Resolved(t, node, result)
  {
    var getters := Registry(t);
    r := Merge(getters, node, result);
  }

  /** The loop of `resolve_properties` over a getter map. */
  method Merge(getters: map<ElementProperty, Getter>, node: Node, result: Properties) returns (r: Properties)
    ensures r == Applied(Values(getters, node), result, getters.Keys)
  {
    ghost var values := Values(getters, node);
    ghost var done: set<ElementProperty> := {};
    r := result;
    AppliedNothing(values, result);
    var todo := getters.Keys;
    while todo != {}
      invariant todo !! done && todo + done == getters.Keys
      invariant r == Applied(values, result, done)
      decreases |todo|
    {
      var p :| p in todo;
      var value := GetterValue(node, getters[p]);
      ValueRead(getters, node, p);
      MoveOne(todo, done, getters.Keys, p);
      RemoveOne(todo, p);
      AppliedNext(values, result, done, p);
      ghost var next := Applied(values, result, done + {p});
      if value.Some? {
        assert next == r[p := Str(values[p])];
        r := r[p := Str(value.value)];
      } else {
        assert next == r;
      }
      assert r == next;
      todo := todo - {p};
      done := done + {p};
    }
  }

  lemma PrefixGrows<T>(seen: seq<T>, cs: seq<T>, i: nat)
    requires i < |cs|
    ensures seen + cs[..i + 1] == (seen + cs[..i]) + [cs[i]]
  {
    assert cs[..i + 1] == cs[..i] + [cs[i]];
  }

  /** Moving one element from `todo` to `done` keeps them a partition of `all`. */
  lemma MoveOne<T>(todo: set<T>, done: set<T>, all: set<T>, x: T)
    requires x in todo && todo !! done && todo + done == all
    ensures (todo - {x}) !! (done + {x}) && (todo - {x}) + (done + {x}) == all
  {
  }

  /** Taking an element out of a set makes it smaller; the loop over the getters ends. */
  lemma RemoveOne<T>(s: set<T>, x: T)
    requires x in s
    ensures |s - {x}| < |s|
  {
  }

  lemma ValueRead(gs: map<ElementProperty, Getter>, node: Node, p: ElementProperty)
    requires p in gs
    ensures GetterValue(node, gs[p]).Some? <==> p in Values(gs, node)
    ensures p in Values(gs, node) ==> Values(gs, node)[p] == GetterValue(node, gs[p]).value
  {
  }

  // ---------------------------------------------------------------------
  // Style entries

  /** A style entry: its node and the entry of its parent style, if any.
      Entries are immutable once built. */
  datatype Entry = Entry(parent: Option<Entry>, node: Node)

  /** The nodes from an entry up to the root of its chain. */
  function Chain(e: Entry): (r: seq<Node>)
    ensures r != [] && r[0] == e.node
    decreases e
  {
    [e.node] + (if e.parent.Some? then Chain(e.parent.value) else [])
  }

  /** `Entry::properties`: the parent's properties, then this node's. */
  function EntryProperties(e: Entry, t: ElementType): Properties
    decreases e
  {
    Resolved(t, e.node, if e.parent.Some? then EntryProperties(e.parent.value, t) else map[])
  }

  /** What each node of `chain` sets, in chain order. */
  function Layers(chain: seq<Node>, gs: map<ElementProperty, Getter>): (r: seq<map<ElementProperty, string>>)
    ensures |r| == |chain|
    ensures forall i :: 0 <= i < |chain| ==> r[i] == Values(gs, chain[i])
  {
    if chain == [] then [] else [Values(gs, chain[0])] + Layers(chain[1..], gs)
  }

  /** The value of `p` in the nearest layer that sets it. */
  function Nearest(layers: seq<map<ElementProperty, string>>, p: ElementProperty): Option<string>
  {
    if layers == [] then None
    else if p in layers[0] then Some(layers[0][p])
    else Nearest(layers[1..], p)
  }

  /** `Nearest` finds a value exactly when some layer sets the property,
      and the value is that of the first such layer. */
  lemma {:induction false} NearestIsFirstSetter(layers: seq<map<ElementProperty, string>>, p: ElementProperty)
    ensures Nearest(layers, p).Some? <==> exists i :: 0 <= i < |layers| && p in layers[i]
    ensures Nearest(layers, p).Some? ==>
      exists i :: 0 <= i < |layers| && p in layers[i] && layers[i][p] == Nearest(layers, p).value
        && forall j :: 0 <= j < i ==> p !in layers[j]
  {
    if layers != [] && p !in layers[0] {
      var rest := layers[1..];
      NearestIsFirstSetter(rest, p);
      assert forall i :: 1 <= i < |layers| ==> layers[i] == rest[i - 1];
      if Nearest(layers, p).Some? {
        var i :| 0 <= i < |rest| && p in rest[i] && rest[i][p] == Nearest(layers, p).value
          && forall j :: 0 <= j < i ==> p !in rest[j];
        assert p in layers[i + 1];
      }
    } else if layers != [] {
      assert p in layers[0];
    }
  }

  /** A property of a style chain is set exactly when some style in the
      chain sets it, and its value is the one of the style nearest to the
      entry: a child overrides its ancestors and inherits the rest. */
  lemma {:induction false} PropertiesNearest(e: Entry, t: ElementType, p: ElementProperty)
    ensures p in EntryProperties(e, t) <==> Nearest(Layers(Chain(e), Registry(t)), p).Some?
    ensures p in EntryProperties(e, t) ==> EntryProperties(e, t)[p] == Str(Nearest(Layers(Chain(e), Registry(t)), p).value)
    decreases e
  {
    var gs := Registry(t);
    var rest := if e.parent.Some? then Chain(e.parent.value) else [];
    var inherited := if e.parent.Some? then EntryProperties(e.parent.value, t) else map[];
    if e.parent.Some? {
      PropertiesNearest(e.parent.value, t, p);
    }
    ChainLayers(e, gs);
    NearestLift(EntryProperties(e, t), Layers(Chain(e), gs), Values(gs, e.node), inherited, Layers(rest, gs), gs.Keys, p);
  }

  lemma NearestLift(r: Properties, layers: seq<map<ElementProperty, string>>, values: map<ElementProperty, string>,
                    inherited: Properties, rest: seq<map<ElementProperty, string>>, keys: set<ElementProperty>, p: ElementProperty)
    requires values.Keys <= keys && r == Applied(values, inherited, keys) && layers == [values] + rest
    requires p in inherited <==> Nearest(rest, p).Some?
    requires p in inherited ==> inherited[p] == Str(Nearest(rest, p).value)
    ensures p in r <==> Nearest(layers, p).Some?
    ensures p in r ==> r[p] == Str(Nearest(layers, p).value)
  {
    NearestStep(values, inherited, rest, keys, p);
  }

  lemma ChainLayers(e: Entry, gs: map<ElementProperty, Getter>)
    ensures Layers(Chain(e), gs)
         == [Values(gs, e.node)] + Layers(if e.parent.Some? then Chain(e.parent.value) else [], gs)
  {
    var rest := if e.parent.Some? then Chain(e.parent.value) else [];
    assert Chain(e) == [e.node] + rest;
    assert ([e.node] + rest)[1..] == rest;
  }

  /** One more layer in front: its own setting wins, otherwise the rest's. */
  lemma NearestStep(values: map<ElementProperty, string>, inherited: Properties, rest: seq<map<ElementProperty, string>>,
                    keys: set<ElementProperty>, p: ElementProperty)
    requires values.Keys <= keys
    requires p in inherited <==> Nearest(rest, p).Some?
    requires p in inherited ==> inherited[p] == Str(Nearest(rest, p).value)
    ensures var r := Applied(values, inherited, keys);
      (p in r <==> Nearest([values] + rest, p).Some?)
      && (p in r ==> r[p] == Str(Nearest([values] + rest, p).value))
  {
    assert ([values] + rest)[1..] == rest;
  }

  // ---------------------------------------------------------------------
  // Name indices

  /** The seven name indices of a style set. */
  datatype IndexKind = FontFaces | DefaultStyles | Styles | ListStyles | OutlineStyles | PageLayouts | MasterPages

  function IndexTag(k: IndexKind): string
  {
    match k
    case FontFaces => "style:font-face"
    case DefaultStyles => "style:default-style"
    case Styles => "style:style"
    case ListStyles => "style:list-style"
    case OutlineStyles => "style:outline-style"
    case PageLayouts => "style:page-layout"
    case MasterPages => "style:master-page"
  }

  /** The attribute an index is keyed by: the family for default styles,
      the name for everything else. */
  function IndexKey(k: IndexKind): string
  {
    if k == DefaultStyles then "style:family" else "style:name"
  }

  /** The index a node belongs to, by its tag; None for any other node. */
  function KindOf(n: Node): (r: Option<IndexKind>)
    ensures r.Some? ==> IsElementNamed(n, IndexTag(r.value))
    ensures r.None? ==> !IsElementNamed(n, "style:style") && !IsElementNamed(n, "style:default-style")
  {
    var name := NameOf(n);
    if !n.Element? then None
    else if name == "style:font-face" then Some(FontFaces)
    else if name == "style:default-style" then Some(DefaultStyles)
    else if name == "style:style" then Some(Styles)
    else if name == "style:list-style" then Some(ListStyles)
    else if name == "style:outline-style" then Some(OutlineStyles)
    else if name == "style:page-layout" then Some(PageLayouts)
    else if name == "style:master-page" then Some(MasterPages)
    else None
  }

  /** The key node `n` is filed under in index `k`: its key attribute
      (the empty name when missing) when its tag belongs to `k`, None
      otherwise. */
  function FiledKey(k: IndexKind, n: Node): Option<string>
  {
    if KindOf(n) == Some(k) then Some(AttrValue(n, IndexKey(k))) else None
  }

  /** The nodes of `cs` that `key` files, by key; a later node with the
      same key replaces an earlier one. */
  function IndexBy(cs: seq<Node>, key: Node -> Option<string>): map<string, Node>
    decreases |cs|
  {
    if cs == [] then map[]
    else
      var m := IndexBy(cs[..|cs| - 1], key);
      var last := cs[|cs| - 1];
      if key(last).Some? then m[key(last).value := last] else m
  }

  /** The name index of kind `k` over the nodes `cs`. */
  function IndexOf(cs: seq<Node>, k: IndexKind): map<string, Node>
  {
    IndexBy(cs, n => FiledKey(k, n))
  }

  /** Indexing one more node touches only the index of its kind. */
  lemma IndexOfStep(cs: seq<Node>, e: Node)
    ensures forall k ::
      IndexOf(cs + [e], k)
      == if KindOf(e) == Some(k) then IndexOf(cs, k)[AttrValue(e, IndexKey(k)) := e] else IndexOf(cs, k)
  {
    assert (cs + [e])[..|cs|] == cs;
  }

  /** A name is indexed exactly when some node of the index's kind has it. */
  lemma IndexOfKeys(cs: seq<Node>, k: IndexKind, key: string)
    ensures key in IndexOf(cs, k) <==> exists i :: 0 <= i < |cs| && FiledKey(k, cs[i]) == Some(key)
  {
    var f := n => FiledKey(k, n);
    if key in IndexOf(cs, k) {
      IndexedHasFiler(cs, f, key);
      var i :| 0 <= i < |cs| && f(cs[i]) == Some(key);
      assert FiledKey(k, cs[i]) == Some(key);
    }
    if i :| 0 <= i < |cs| && FiledKey(k, cs[i]) == Some(key) {
      FilerIndexed(cs, f, key, i);
    }
  }

  lemma {:induction false} IndexedHasFiler(cs: seq<Node>, f: Node -> Option<string>, key: string)
    requires key in IndexBy(cs, f)
    ensures exists i :: 0 <= i < |cs| && f(cs[i]) == Some(key)
    decreases |cs|
  {
    var last := |cs| - 1;
    if f(cs[last]) != Some(key) {
      var front := cs[..last];
      assert key in IndexBy(front, f);
      IndexedHasFiler(front, f, key);
      var i :| 0 <= i < |front| && f(front[i]) == Some(key);
      assert front[i] == cs[i];
    }
  }

  lemma {:induction false} FilerIndexed(cs: seq<Node>, f: Node -> Option<string>, key: string, i: nat)
    requires i < |cs| && f(cs[i]) == Some(key)
    ensures key in IndexBy(cs, f)
    decreases |cs|
  {
    var last := |cs| - 1;
    var front := cs[..last];
    if i < last {
      assert front[i] == cs[i];
      FilerIndexed(front, f, key, i);
    }
  }

  /** The last node filed under a key is the one indexed. */
  lemma IndexOfLastWins(cs: seq<Node>, k: IndexKind, i: nat)
    requires i < |cs| && FiledKey(k, cs[i]).Some?
    requires forall j :: i < j < |cs| ==> FiledKey(k, cs[j]) != FiledKey(k, cs[i])
    ensures FiledKey(k, cs[i]).value in IndexOf(cs, k)
    ensures IndexOf(cs, k)[FiledKey(k, cs[i]).value] == cs[i]
  {
    LastFilerWins(cs, n => FiledKey(k, n), i);
  }

  lemma {:induction false} LastFilerWins(cs: seq<Node>, f: Node -> Option<string>, i: nat)
    requires i < |cs| && f(cs[i]).Some?
    requires forall j :: i < j < |cs| ==> f(cs[j]) != f(cs[i])
    ensures f(cs[i]).value in IndexBy(cs, f)
    ensures IndexBy(cs, f)[f(cs[i]).value] == cs[i]
    decreases |cs|
  {
    var front := cs[..|cs| - 1];
    if i < |cs| - 1 {
      assert front[i] == cs[i];
      forall j | i < j < |front|
        ensures f(front[j]) != f(front[i])
      {
        assert front[j] == cs[j];
      }
      LastFilerWins(front, f, i);
    }
  }

  /** The children of the first `name` child of `root`; none when absent. */
  function SectionChildren(root: Node, name: string): seq<Node>
  {
    match Child(root, name)
    case None => []
    case Some(s) => ChildrenOf(s)
  }

  /** Every indexed node, in the order indexing visits them: the font
      faces, common, automatic and master styles of styles.xml, then the
      font faces and automatic styles of content.xml. */
  function Sections(content: Node, styles: Node): seq<Node>
  {
    SectionChildren(styles, "office:font-face-decls")
    + SectionChildren(styles, "office:styles")
    + SectionChildren(styles, "office:automatic-styles")
    + SectionChildren(styles, "office:master-styles")
    + SectionChildren(content, "office:font-face-decls")
    + SectionChildren(content, "office:automatic-styles")
  }

  // ---------------------------------------------------------------------
  // Linking the memoised entries

  /** The parent a style names, if any. */
  function ParentName(n: Node): Option<string>
  {
    Attr(n, "style:parent-style-name")
  }

  /** `rank` orders the style index so that every style naming an indexed
      parent ranks above it: the parent references have no cycle. */
  ghost predicate Ranked(index: map<string, Node>, rank: map<string, nat>)
  {
    index.Keys <= rank.Keys
    && forall n :: n in index && ParentName(index[n]).Some? && ParentName(index[n]).value in index ==>
         ParentName(index[n]).value in rank && rank[ParentName(index[n]).value] < rank[n]
  }

  /** `b` keeps every entry of `a`. */
  ghost predicate Extends<K, V>(a: map<K, V>, b: map<K, V>)
  {
    forall k :: k in a ==> k in b && b[k] == a[k]
  }

  lemma ExtendsKeys<K, V>(a: map<K, V>, b: map<K, V>)
    requires Extends(a, b)
    ensures a.Keys <= b.Keys
  {
  }

  /** The stored entry of style `n` is built from its indexed node, and its
      parent is the stored entry of its indexed parent style. A style with
      no parent name, a family name and a default style indexed under its
      own name hangs off the default entry stored under the empty key;
      any other style has no parent. */
  ghost predicate Linked(styles: map<string, Entry>, defaults: map<string, Entry>,
                         index: map<string, Node>, defaultIndex: map<string, Node>, n: string)
  {
    n in styles && n in index && styles[n].node == index[n]
    && match ParentName(index[n])
       case Some(pn) =>
         if pn in index then pn in styles && styles[n].parent == Some(styles[pn])
         else styles[n].parent == None
       case None =>
         if HasAttr(index[n], "style:family-name") && n in defaultIndex
         then "" in defaults && styles[n].parent == Some(defaults[""])
         else styles[n].parent == None
  }

  ghost predicate AllLinked(styles: map<string, Entry>, defaults: map<string, Entry>,
                            index: map<string, Node>, defaultIndex: map<string, Node>)
  {
    forall n :: n in styles ==> Linked(styles, defaults, index, defaultIndex, n)
  }

  /** Default entries have no parent and are built from an indexed default style. */
  ghost predicate DefaultsBuilt(defaults: map<string, Entry>, defaultIndex: map<string, Node>)
  {
    forall f :: f in defaults ==> defaults[f].parent == None && defaults[f].node in defaultIndex.Values
  }

  /** A link stays valid when the memos only grow. */
  lemma LinkedKept(styles: map<string, Entry>, defaults: map<string, Entry>,
                   styles': map<string, Entry>, defaults': map<string, Entry>,
                   index: map<string, Node>, defaultIndex: map<string, Node>, n: string)
    requires Linked(styles, defaults, index, defaultIndex, n)
    requires Extends(styles, styles') && Extends(defaults, defaults')
    ensures Linked(styles', defaults', index, defaultIndex, n)
  {
  }

  /** Growing memos keep every old link; the new entries must be linked. */
  lemma AllLinkedKept(styles: map<string, Entry>, defaults: map<string, Entry>,
                      styles': map<string, Entry>, defaults': map<string, Entry>,
                      index: map<string, Node>, defaultIndex: map<string, Node>)
    requires AllLinked(styles, defaults, index, defaultIndex)
    requires Extends(styles, styles') && Extends(defaults, defaults')
    requires forall n :: n in styles' && n !in styles ==> Linked(styles', defaults', index, defaultIndex, n)
    ensures AllLinked(styles', defaults', index, defaultIndex)
  {
    forall n | n in styles'
      ensures Linked(styles', defaults', index, defaultIndex, n)
    {
      if n in styles {
        LinkedKept(styles, defaults, styles', defaults', index, defaultIndex, n);
      }
    }
  }

  /** Storing the entry `e` of style `name` in memos `s1`, `d1` that
      grew from `s0`, `d0` while its parent was built. */
  lemma StyleAdded(s0: map<string, Entry>, d0: map<string, Entry>, s1: map<string, Entry>, d1: map<string, Entry>,
                   index: map<string, Node>, defaultIndex: map<string, Node>, name: string, e: Entry, rank: map<string, nat>)
    requires AllLinked(s1, d1, index, defaultIndex) && name !in s1
    requires Linked(s1[name := e], d1, index, defaultIndex, name)
    requires Extends(s0, s1) && s1.Keys <= s0.Keys + index.Keys && name in index
    requires forall n :: n in s1 && n !in s0 ==> n in rank && name in rank && rank[n] <= rank[name]
    requires name in rank
    ensures AllLinked(s1[name := e], d1, index, defaultIndex)
    ensures Extends(s0, s1[name := e]) && (s1[name := e]).Keys <= s0.Keys + index.Keys
    ensures forall n :: n in s1[name := e] && n !in s0 ==> n in rank && rank[n] <= rank[name]
  {
    AllLinkedKept(s1, d1, s1[name := e], d1, index, defaultIndex);
  }

  class Style {
    var fontFaces: map<string, Node>
    var defaultStyleIndex: map<string, Node>
    var styleIndex: map<string, Node>
    var listStyles: map<string, Node>
    var outlineStyles: map<string, Node>
    var pageLayouts: map<string, Node>
    var masterPages: map<string, Node>
    var defaultStyles: map<string, Entry>
    var styles: map<string, Entry>

    /** Every index holds what indexing the nodes `seen` gives. */
    ghost predicate Indexed(seen: seq<Node>)
      reads this
    {
      fontFaces == IndexOf(seen, FontFaces)
      && defaultStyleIndex == IndexOf(seen, DefaultStyles)
      && styleIndex == IndexOf(seen, Styles)
      && listStyles == IndexOf(seen, ListStyles)
      && outlineStyles == IndexOf(seen, OutlineStyles)
      && pageLayouts == IndexOf(seen, PageLayouts)
      && masterPages == IndexOf(seen, MasterPages)
    }

    ghost predicate Valid()
      reads this
    {
      AllLinked(styles, defaultStyles, styleIndex, defaultStyleIndex)
      && DefaultsBuilt(defaultStyles, defaultStyleIndex)
    }

    /** A style set with empty indices. */
    constructor Empty()
      ensures Indexed([])
      ensures styles == map[] && defaultStyles == map[]
      ensures Valid()
    {
      fontFaces, defaultStyleIndex, styleIndex := map[], map[], map[];
      listStyles, outlineStyles, pageLayouts, masterPages := map[], map[], map[], map[];
      defaultStyles, styles := map[], map[];
    }

    /** Indexes both documents and builds an entry for every default style
        and every style. The style parents must be acyclic. */
    constructor (content: Node, stylesRoot: Node, ghost rank: map<string, nat>)
      requires Ranked(IndexOf(Sections(content, stylesRoot), Styles), rank)
      ensures Indexed(Sections(content, stylesRoot))
      ensures Valid()
      ensures styles.Keys == styleIndex.Keys
      ensures defaultStyleIndex.Keys <= defaultStyles.Keys
    {
      fontFaces, defaultStyleIndex, styleIndex := map[], map[], map[];
      listStyles, outlineStyles, pageLayouts, masterPages := map[], map[], map[], map[];
      defaultStyles, styles := map[], map[];
      new;
      GenerateIndices(content, stylesRoot);
      GenerateStyles(rank);
    }

    method GenerateIndices(content: Node, stylesRoot: Node)
      requires Indexed([])
      modifies this`fontFaces, this`defaultStyleIndex, this`styleIndex, this`listStyles,
               this`outlineStyles, this`pageLayouts, this`masterPages
      ensures Indexed(Sections(content, stylesRoot))
    {
      ghost var seen: seq<Node> := [];
      IndexChild(seen, stylesRoot, "office:font-face-decls");
      seen := seen + SectionChildren(stylesRoot, "office:font-face-decls");
      IndexChild(seen, stylesRoot, "office:styles");
      seen := seen + SectionChildren(stylesRoot, "office:styles");
      IndexChild(seen, stylesRoot, "office:automatic-styles");
      seen := seen + SectionChildren(stylesRoot, "office:automatic-styles");
      IndexChild(seen, stylesRoot, "office:master-styles");
      seen := seen + SectionChildren(stylesRoot, "office:master-styles");
      IndexChild(seen, content, "office:font-face-decls");
      seen := seen + SectionChildren(content, "office:font-face-decls");
      IndexChild(seen, content, "office:automatic-styles");
      seen := seen + SectionChildren(content, "office:automatic-styles");
      assert [] + SectionChildren(stylesRoot, "office:font-face-decls")
          == SectionChildren(stylesRoot, "office:font-face-decls");
      assert seen == Sections(content, stylesRoot);
    }

    /** Indexes the children of the `name` section of `root`, if present. */
    method IndexChild(ghost seen: seq<Node>, root: Node, name: string)
      requires Indexed(seen)
      modifies this`fontFaces, this`defaultStyleIndex, this`styleIndex, this`listStyles,
               this`outlineStyles, this`pageLayouts, this`masterPages
      ensures Indexed(seen + SectionChildren(root, name))
    {
      var section := Child(root, name);
      if section.Some? {
        IndexSection(seen, ChildrenOf(section.value));
      } else {
        assert seen + [] == seen;
      }
    }

    /** Indexes the children of one section, after the nodes `seen`. */
    method IndexSection(ghost seen: seq<Node>, cs: seq<Node>)
      requires Indexed(seen)
      modifies this`fontFaces, this`defaultStyleIndex, this`styleIndex, this`listStyles,
               this`outlineStyles, this`pageLayouts, this`masterPages
      ensures Indexed(seen + cs)
    {
      assert seen + cs[..0] == seen;
      var i := 0;
      while i < |cs|
        invariant i <= |cs|
        invariant Indexed(seen + cs[..i])
      {
        IndexNode(seen + cs[..i], cs[i]);
        PrefixGrows(seen, cs, i);
        i := i + 1;
      }
      assert cs[..i] == cs;
    }

    /** Files one node under the index of its tag, keyed by its name (by its
        family for a default style); other nodes are skipped. */
    method IndexNode(ghost seen: seq<Node>, e: Node)
      requires Indexed(seen)
      modifies this`fontFaces, this`defaultStyleIndex, this`styleIndex, this`listStyles,
               this`outlineStyles, this`pageLayouts, this`masterPages
      ensures Indexed(seen + [e])
    {
      IndexOfStep(seen, e);
      var kind := KindOf(e);
      if kind.Some? {
        var key := AttrValue(e, IndexKey(kind.value));
        match kind.value
        case FontFaces => fontFaces := fontFaces[key := e];
        case DefaultStyles => defaultStyleIndex := defaultStyleIndex[key := e];
        case Styles => styleIndex := styleIndex[key := e];
        case ListStyles => listStyles := listStyles[key := e];
        case OutlineStyles => outlineStyles := outlineStyles[key := e];
        case PageLayouts => pageLayouts := pageLayouts[key := e];
        case MasterPages => masterPages := masterPages[key := e];
      }
    }

    /** Builds the entry of every default style, then of every style. */
    method GenerateStyles(ghost rank: map<string, nat>)
      requires Ranked(styleIndex, rank)
      requires styles == map[] && defaultStyles == map[]
      modifies this`styles, this`defaultStyles
      ensures Valid()
      ensures styles.Keys == styleIndex.Keys
      ensures defaultStyleIndex.Keys <= defaultStyles.Keys
    {
      GenerateDefaultStyles();
      ghost var defaults := defaultStyles;
      GenerateAllStyles(rank);
      ExtendsKeys(defaults, defaultStyles);
    }

    method GenerateDefaultStyles()
      requires styles == map[] && defaultStyles == map[]
      modifies this`defaultStyles
      ensures Valid()
      ensures defaultStyleIndex.Keys <= defaultStyles.Keys
    {
      var todo := defaultStyleIndex.Keys;
      while todo != {}
        invariant todo <= defaultStyleIndex.Keys && Valid()
        invariant defaultStyleIndex.Keys - todo <= defaultStyles.Keys
        decreases |todo|
      {
        var f :| f in todo;
        var _ := GenerateDefaultStyle(f, defaultStyleIndex[f]);
        RemoveOne(todo, f);
        todo := todo - {f};
      }
    }

    method GenerateAllStyles(ghost rank: map<string, nat>)
      requires Ranked(styleIndex, rank) && Valid() && styles == map[]
      modifies this`styles, this`defaultStyles
      ensures Valid()
      ensures styles.Keys == styleIndex.Keys
      ensures Extends(old(defaultStyles), defaultStyles)
    {
      var todo := styleIndex.Keys;
      while todo != {}
        invariant todo <= styleIndex.Keys && Valid()
        invariant Extends(old(defaultStyles), defaultStyles)
        invariant styleIndex.Keys - todo <= styles.Keys <= styleIndex.Keys
        decreases |todo|
      {
        var n :| n in todo;
        var _ := GenerateStyle(n, styleIndex[n], rank);
        RemoveOne(todo, n);
        todo := todo - {n};
      }
    }

    /** The entry of a default style, built once and then returned from
        the memo. */
    method GenerateDefaultStyle(name: string, node: Node) returns (e: Entry)
      requires Valid() && node in defaultStyleIndex.Values
      modifies this`defaultStyles
      ensures Valid()
      ensures name in defaultStyles && e == defaultStyles[name]
      ensures name in old(defaultStyles) ==> defaultStyles == old(defaultStyles)
      ensures name !in old(defaultStyles) ==> defaultStyles == old(defaultStyles)[name := Entry(None, node)]
    {
      if name in defaultStyles {
        return defaultStyles[name];
      }
      e := Entry(None, node);
      AllLinkedKept(styles, defaultStyles, styles, defaultStyles[name := e], styleIndex, defaultStyleIndex);
      defaultStyles := defaultStyles[name := e];
    }

    /** The entry of a style, built once (after its parent's) and then
        returned from the memo. Only styles ranked no higher than `name`
        are added. */
    method GenerateStyle(name: string, node: Node, ghost rank: map<string, nat>) returns (e: Entry)
      requires name in styleIndex && node == styleIndex[name]
      requires Ranked(styleIndex, rank) && Valid()
      modifies this`styles, this`defaultStyles
      decreases rank[name]
      ensures Valid()
      ensures name in styles && e == styles[name]
      ensures name in old(styles) ==> styles == old(styles) && defaultStyles == old(defaultStyles)
      ensures Extends(old(styles), styles) && Extends(old(defaultStyles), defaultStyles)
      ensures styles.Keys <= old(styles).Keys + styleIndex.Keys
      ensures forall n :: n in styles && n !in old(styles) ==> rank[n] <= rank[name]
    {
      if name in styles {
        return styles[name];
      }
      var parent: Option<Entry> := None;
      var parentName := ParentName(node);
      if parentName.Some? {
        if parentName.value in styleIndex {
          var p := GenerateStyle(parentName.value, styleIndex[parentName.value], rank);
          parent := Some(p);
        }
      } else if HasAttr(node, "style:family-name") {
        if name in defaultStyleIndex {
          // Keyed on the value of the missing parent attribute: "".
          var p := GenerateDefaultStyle("", defaultStyleIndex[name]);
          parent := Some(p);
        }
      }
      e := Entry(parent, node);
      assert name !in styles;
      assert Linked(styles[name := e], defaultStyles, styleIndex, defaultStyleIndex, name);
      StyleAdded(old(styles), old(defaultStyles), styles, defaultStyles, styleIndex, defaultStyleIndex, name, e, rank);
      styles := styles[name := e];
    }

    /** `style_`: the stored entry of a style, if any. */
    function StyleOf(name: string): (r: Option<Entry>)
      reads this
      ensures r.Some? <==> name in styles
      ensures r.Some? ==> r.value == styles[name]
    {
      if name in styles then Some(styles[name]) else None
    }

    /** The properties of element type `t` under style `name`: none for an
        unknown style, otherwise each one taken from the nearest style of
        the chain that sets it. */
    function ResolveStyle(t: ElementType, name: string): (r: Properties)
      reads this
      ensures name !in styles ==> r == map[]
      ensures name in styles ==> forall p ::
        (p in r <==> Nearest(Layers(Chain(styles[name]), Registry(t)), p).Some?)
        && (p in r ==> r[p] == Str(Nearest(Layers(Chain(styles[name]), Registry(t)), p).value))
    {
      match StyleOf(name)
      case None => map[]
      case Some(e) =>
        NearestEverywhere(e, t);
        EntryProperties(e, t)
    }
  }

  lemma NearestEverywhere(e: Entry, t: ElementType)
    ensures forall p ::
      (p in EntryProperties(e, t) <==> Nearest(Layers(Chain(e), Registry(t)), p).Some?)
      && (p in EntryProperties(e, t) ==> EntryProperties(e, t)[p] == Str(Nearest(Layers(Chain(e), Registry(t)), p).value))
  {
    forall p {
      PropertiesNearest(e, t, p);
    }
  }
}

=== FILE: odf_table.dfy ===
/** The table of an OpenDocument spreadsheet or text table: column, row
    and cell records expanded from the repeat-compressed XML into sparse
    maps keyed by index or (row, column). */
module OdfTable {
  import opened Wrappers
  import opened Xml
  import opened DocumentTypes
  import OdfDocument

  datatype Position = Position(row: nat, column: nat)

  /** A cell record: its node and the first element its content registered. */
  datatype Cell = Cell(node: Node, firstChild: nat)

  datatype Dimensions = Dimensions(rows: nat, columns: nat)

  function ColumnNodes(table: Node): seq<Node>
  {
    Named(ChildrenOf(table), "table:table-column")
  }

  function RowNodes(table: Node): seq<Node>
  {
    Named(ChildrenOf(table), "table:table-row")
  }

  function CellNodes(row: Node): seq<Node>
  {
    Named(ChildrenOf(row), "table:table-cell")
  }

  /** The row repeat count. It is read from the TABLE node, not from the
      row, and defaults to 1. */
  function RowsRepeated(table: Node): nat
  {
    AsUint(Attr(table, "table:number-rows-repeated"), 1)
  }

  /** The cell repeat count, likewise read from the table node. */
  function ColumnsRepeated(table: Node): nat
  {
    AsUint(Attr(table, "table:number-columns-repeated"), 1)
  }

  // ---------------------------------------------------------------------
  // The maps registration builds, as specifications

  /** `n` times `k`, by repeated addition: the index reached after `n`
      blocks of `k` repeats. */
  function Times(n: nat, k: nat): (r: nat)
  {
    if n == 0 then 0 else Times(n - 1, k) + k
  }

  lemma {:induction false} TimesIsProduct(n: nat, k: nat)
    ensures Times(n, k) == n * k
  {
    if n > 0 {
      TimesIsProduct(n - 1, k);
    }
  }

  /** One column record per declared column, at indices 0 .. n - 1. */
  function ColumnMap(cols: seq<Node>, n: nat): (m: map<nat, Node>)
    requires n <= |cols|
    ensures forall i: nat :: i in m <==> i < n
    ensures forall i: nat :: i < n ==> m[i] == cols[i]
  {
    map i: nat | i < n :: cols[i]
  }

  /** One row record per declared row, at the index of its first instance. */
  function RowMap(rows: seq<Node>, repeat: nat): map<nat, Node>
    decreases |rows|
  {
    if rows == [] then map[]
    else RowMap(rows[..|rows| - 1], repeat)[Times(|rows| - 1, repeat) := rows[|rows| - 1]]
  }

  /** `count` consecutive copies of one cell in row `k`, from column `start`;
      recorded only when the cell's content registers something. */
  function Repeats(cell: Node, k: nat, start: nat, count: nat, content: Node -> nat): map<Position, Cell>
  {
    if count == 0 then map[]
    else
      var m := Repeats(cell, k, start, count - 1, content);
      if content(cell) != 0 then m[Position(k, start + count - 1) := Cell(cell, content(cell))] else m
  }

  /** The cells of one row instance `k`, each repeated `repeat` times. */
  function RowCells(cells: seq<Node>, k: nat, repeat: nat, content: Node -> nat): map<Position, Cell>
    decreases |cells|
  {
    if cells == [] then map[]
    else RowCells(cells[..|cells| - 1], k, repeat, content)
         + Repeats(cells[|cells| - 1], k, Times(|cells| - 1, repeat), repeat, content)
  }

  /** `count` instances of one declared row, whose cells are `cells`,
      from row index `start`. */
  function Instances(cells: seq<Node>, start: nat, count: nat, repeat: nat, content: Node -> nat): map<Position, Cell>
  {
    if count == 0 then map[]
    else Instances(cells, start, count - 1, repeat, content) + RowCells(cells, start + count - 1, repeat, content)
  }

  /** The cells of each declared row, in order. */
  function CellLists(rows: seq<Node>): (r: seq<seq<Node>>)
    ensures |r| == |rows|
    ensures forall j :: 0 <= j < |rows| ==> r[j] == CellNodes(rows[j])
  {
    if rows == [] then [] else CellLists(rows[..|rows| - 1]) + [CellNodes(rows[|rows| - 1])]
  }

  /** Every cell record of the table, from the cells of each declared row. */
  function CellMap(rows: seq<seq<Node>>, rowRepeat: nat, cellRepeat: nat, content: Node -> nat): map<Position, Cell>
    decreases |rows|
  {
    if rows == [] then map[]
    else CellMap(rows[..|rows| - 1], rowRepeat, cellRepeat, content)
         + Instances(rows[|rows| - 1], Times(|rows| - 1, rowRepeat), rowRepeat, cellRepeat, content)
  }

  // ---------------------------------------------------------------------
  // What those maps hold

  lemma {:induction false} TimesMonotone(a: nat, b: nat, d: nat)
    requires a <= b
    ensures Times(a, d) <= Times(b, d)
    decreases b
  {
    if a < b {
      TimesMonotone(a, b - 1, d);
    }
  }

  lemma {:induction false} TimesOfZero(n: nat)
    ensures Times(n, 0) == 0
  {
    if n > 0 {
      TimesOfZero(n - 1);
    }
  }

  /** Block `j` of `repeat`-sized blocks ends no later than block `n` starts. */
  lemma BlockBefore(j: nat, r: nat, n: nat, repeat: nat)
    requires j < n && r < repeat
    ensures Times(j, repeat) + r < Times(n, repeat)
  {
    TimesMonotone(j + 1, n, repeat);
  }

  /** Row `j` of the declared rows is stored at the index of its first
      instance, `j * repeat`. */
  lemma {:induction false} RowMapAt(rows: seq<Node>, repeat: nat, j: nat)
    requires repeat > 0 && j < |rows|
    ensures Times(j, repeat) in RowMap(rows, repeat)
    ensures RowMap(rows, repeat)[Times(j, repeat)] == rows[j]
    decreases |rows|
  {
    var n := |rows|;
    if j < n - 1 {
      RowMapAt(rows[..n - 1], repeat, j);
      BlockBefore(j, 0, n - 1, repeat);
    }
  }

  /** Every stored row index is the first instance of a declared row. */
  lemma {:induction false} RowMapKeys(rows: seq<Node>, repeat: nat, k: nat)
    requires k in RowMap(rows, repeat)
    ensures exists j :: 0 <= j < |rows| && k == Times(j, repeat)
    decreases |rows|
  {
    var n := |rows|;
    if k != Times(n - 1, repeat) {
      RowMapKeys(rows[..n - 1], repeat, k);
    }
  }

  /** With a repeat count of 0 every row is stored at index 0 and the last
      one stays. */
  lemma {:induction false} RowMapNoRepeat(rows: seq<Node>)
    requires rows != []
    ensures RowMap(rows, 0) == map[0 := rows[|rows| - 1]]
    decreases |rows|
  {
    TimesOfZero(|rows| - 1);
    if |rows| > 1 {
      RowMapNoRepeat(rows[..|rows| - 1]);
    }
  }

  lemma {:induction false} RepeatsAt(cell: Node, k: nat, start: nat, count: nat, content: Node -> nat, p: Position)
    ensures p in Repeats(cell, k, start, count, content)
        <==> p.row == k && start <= p.column < start + count && content(cell) != 0
    ensures p in Repeats(cell, k, start, count, content) ==>
        Repeats(cell, k, start, count, content)[p] == Cell(cell, content(cell))
    decreases count
  {
    if count > 0 {
      RepeatsAt(cell, k, start, count - 1, content, p);
    }
  }

  /** The cell records of row instance `k` lie within the expanded width. */
  lemma {:induction false} RowCellsKeys(cells: seq<Node>, k: nat, repeat: nat, content: Node -> nat, p: Position)
    requires p in RowCells(cells, k, repeat, content)
    ensures p.row == k && p.column < Times(|cells|, repeat)
    decreases |cells|
  {
    var n := |cells|;
    RepeatsAt(cells[n - 1], k, Times(n - 1, repeat), repeat, content, p);
    if p !in Repeats(cells[n - 1], k, Times(n - 1, repeat), repeat, content) {
      RowCellsKeys(cells[..n - 1], k, repeat, content, p);
    }
  }

  /** Copy `r` of cell `j` of row instance `k` sits at column
      `j * repeat + r`; it has a record exactly when that cell's content
      registers something, and the record is that cell's. */
  lemma {:induction false} RowCellsAt(cells: seq<Node>, k: nat, repeat: nat, content: Node -> nat, j: nat, r: nat)
    requires j < |cells| && r < repeat
    ensures HoldsCell(RowCells(cells, k, repeat, content), Position(k, Times(j, repeat) + r), cells[j], content(cells[j]))
    decreases |cells|
  {
    var n := |cells|;
    var p := Position(k, Times(j, repeat) + r);
    var front := cells[..n - 1];
    RepeatsAt(cells[n - 1], k, Times(n - 1, repeat), repeat, content, p);
    if j < n - 1 {
      RowCellsAt(front, k, repeat, content, j, r);
      BlockBefore(j, r, n - 1, repeat);
    } else if p in RowCells(front, k, repeat, content) {
      RowCellsKeys(front, k, repeat, content, p);
    }
  }

  /** The cell records of `count` instances from `start` lie in those rows
      and are each row's own. */
  lemma {:induction false} InstancesAt(cells: seq<Node>, start: nat, count: nat, repeat: nat, content: Node -> nat, p: Position)
    ensures p in Instances(cells, start, count, repeat, content)
        <==> start <= p.row < start + count && p in RowCells(cells, p.row, repeat, content)
    ensures p in Instances(cells, start, count, repeat, content) ==>
        Instances(cells, start, count, repeat, content)[p] == RowCells(cells, p.row, repeat, content)[p]
    decreases count
  {
    if count > 0 {
      InstancesAt(cells, start, count - 1, repeat, content, p);
      var last := start + count - 1;
      if p in RowCells(cells, last, repeat, content) {
        RowCellsKeys(cells, last, repeat, content, p);
      }
    }
  }

  /** Every cell record lies within the expanded rows. */
  lemma {:induction false} CellMapKeys(rows: seq<seq<Node>>, rowRepeat: nat, cellRepeat: nat, content: Node -> nat, p: Position)
    requires p in CellMap(rows, rowRepeat, cellRepeat, content)
    ensures p.row < Times(|rows|, rowRepeat)
    decreases |rows|
  {
    var n := |rows|;
    InstancesAt(rows[n - 1], Times(n - 1, rowRepeat), rowRepeat, cellRepeat, content, p);
    if p !in Instances(rows[n - 1], Times(n - 1, rowRepeat), rowRepeat, cellRepeat, content) {
      CellMapKeys(rows[..n - 1], rowRepeat, cellRepeat, content, p);
    }
  }

  /** `m` holds at `p` exactly what `own` holds there. */
  ghost predicate AgreesAt(m: map<Position, Cell>, own: map<Position, Cell>, p: Position)
  {
    (p in own ==> p in m) && (p in m ==> p in own && m[p] == own[p])
  }

  /** Instance `i` of declared row `j` is row `j * rowRepeat + i`, and its
      cell records are those of row `j`'s cells. */
  lemma {:induction false} CellMapAt(rows: seq<seq<Node>>, rowRepeat: nat, cellRepeat: nat, content: Node -> nat,
                                     j: nat, i: nat, column: nat)
    requires j < |rows| && i < rowRepeat
    ensures AgreesAt(CellMap(rows, rowRepeat, cellRepeat, content),
                     RowCells(rows[j], Times(j, rowRepeat) + i, cellRepeat, content),
                     Position(Times(j, rowRepeat) + i, column))
    decreases |rows|, 1
  {
    if j < |rows| - 1 {
      CellMapAtEarlier(rows, rowRepeat, cellRepeat, content, j, i, column);
    } else {
      CellMapAtLast(rows, rowRepeat, cellRepeat, content, i, column);
    }
  }

  /** `CellMapAt` for a row before the last declared one. */
  lemma {:induction false} CellMapAtEarlier(rows: seq<seq<Node>>, rowRepeat: nat, cellRepeat: nat, content: Node -> nat,
                                            j: nat, i: nat, column: nat)
    requires j < |rows| - 1 && i < rowRepeat
    ensures AgreesAt(CellMap(rows, rowRepeat, cellRepeat, content),
                     RowCells(rows[j], Times(j, rowRepeat) + i, cellRepeat, content),
                     Position(Times(j, rowRepeat) + i, column))
    decreases |rows|, 0
  {
    var n := |rows|;
    var p := Position(Times(j, rowRepeat) + i, column);
    var front := rows[..n - 1];
    var before := CellMap(front, rowRepeat, cellRepeat, content);
    var last := Instances(rows[n - 1], Times(n - 1, rowRepeat), rowRepeat, cellRepeat, content);
    CellMapLast(rows, rowRepeat, cellRepeat, content);
    BlockBefore(j, i, n - 1, rowRepeat);
    InstancesAbove(rows[n - 1], Times(n - 1, rowRepeat), rowRepeat, cellRepeat, content, p);
    assert front[j] == rows[j];
    CellMapAt(front, rowRepeat, cellRepeat, content, j, i, column);
    AgreesBefore(before, last, RowCells(rows[j], Times(j, rowRepeat) + i, cellRepeat, content), p);
  }

  /** `CellMapAt` for the last declared row. */
  lemma {:induction false} CellMapAtLast(rows: seq<seq<Node>>, rowRepeat: nat, cellRepeat: nat, content: Node -> nat,
                                         i: nat, column: nat)
    requires 0 < |rows| && i < rowRepeat
    ensures var j := |rows| - 1;
      AgreesAt(CellMap(rows, rowRepeat, cellRepeat, content),
               RowCells(rows[j], Times(j, rowRepeat) + i, cellRepeat, content),
               Position(Times(j, rowRepeat) + i, column))
  {
    var n := |rows|;
    var p := Position(Times(n - 1, rowRepeat) + i, column);
    var front := rows[..n - 1];
    var before := CellMap(front, rowRepeat, cellRepeat, content);
    var last := Instances(rows[n - 1], Times(n - 1, rowRepeat), rowRepeat, cellRepeat, content);
    CellMapLast(rows, rowRepeat, cellRepeat, content);
    InstancesAgree(rows[n - 1], Times(n - 1, rowRepeat), rowRepeat, cellRepeat, content, Times(n - 1, rowRepeat) + i, column);
    CellMapBelow(front, rowRepeat, cellRepeat, content, p);
    AgreesLast(before, last, RowCells(rows[n - 1], Times(n - 1, rowRepeat) + i, cellRepeat, content), p);
  }

  /** The records of the last declared row come after the others'. */
  lemma CellMapLast(rows: seq<seq<Node>>, rowRepeat: nat, cellRepeat: nat, content: Node -> nat)
    requires 0 < |rows|
    ensures CellMap(rows, rowRepeat, cellRepeat, content)
         == CellMap(rows[..|rows| - 1], rowRepeat, cellRepeat, content)
          + Instances(rows[|rows| - 1], Times(|rows| - 1, rowRepeat), rowRepeat, cellRepeat, content)
  {
  }

  /** Row `k` of the instances agrees with that row's own cells. */
  lemma InstancesAgree(cells: seq<Node>, start: nat, count: nat, repeat: nat, content: Node -> nat, k: nat, column: nat)
    requires start <= k < start + count
    ensures AgreesAt(Instances(cells, start, count, repeat, content), RowCells(cells, k, repeat, content),
                     Position(k, column))
  {
    InstancesAt(cells, start, count, repeat, content, Position(k, column));
  }

  /** The instances record nothing before their first row. */
  lemma InstancesAbove(cells: seq<Node>, start: nat, count: nat, repeat: nat, content: Node -> nat, p: Position)
    requires p.row < start
    ensures p !in Instances(cells, start, count, repeat, content)
  {
    InstancesAt(cells, start, count, repeat, content, p);
  }

  /** Nothing is recorded at or past the expanded rows. */
  lemma CellMapBelow(rows: seq<seq<Node>>, rowRepeat: nat, cellRepeat: nat, content: Node -> nat, p: Position)
    requires Times(|rows|, rowRepeat) <= p.row
    ensures p !in CellMap(rows, rowRepeat, cellRepeat, content)
  {
    if p in CellMap(rows, rowRepeat, cellRepeat, content) {
      CellMapKeys(rows, rowRepeat, cellRepeat, content, p);
    }
  }

  /** Agreement in the earlier rows survives adding a block without `p`. */
  lemma AgreesBefore(before: map<Position, Cell>, last: map<Position, Cell>, own: map<Position, Cell>, p: Position)
    requires p !in last && AgreesAt(before, own, p)
    ensures AgreesAt(before + last, own, p)
  {
  }

  /** Agreement in the last block, which the earlier rows do not reach. */
  lemma AgreesLast(before: map<Position, Cell>, last: map<Position, Cell>, own: map<Position, Cell>, p: Position)
    requires p !in before && AgreesAt(last, own, p)
    ensures AgreesAt(before + last, own, p)
  {
  }

  lemma RepeatsNext(cell: Node, k: nat, start: nat, count: nat, content: Node -> nat)
    ensures Repeats(cell, k, start, count + 1, content)
         == if content(cell) != 0
            then Repeats(cell, k, start, count, content)[Position(k, start + count) := Cell(cell, content(cell))]
            else Repeats(cell, k, start, count, content)
  {
  }

  lemma RowCellsNext(cells: seq<Node>, c: nat, k: nat, repeat: nat, content: Node -> nat)
    requires c < |cells|
    ensures RowCells(cells[..c + 1], k, repeat, content)
         == RowCells(cells[..c], k, repeat, content) + Repeats(cells[c], k, Times(c, repeat), repeat, content)
  {
    assert cells[..c + 1][..c] == cells[..c];
  }

  /** One more declared row records it at its first instance. */
  lemma RowMapNext(rowNodes: seq<Node>, j: nat, repeat: nat)
    requires j < |rowNodes|
    ensures RowMap(rowNodes[..j + 1], repeat) == RowMap(rowNodes[..j], repeat)[Times(j, repeat) := rowNodes[j]]
  {
    assert rowNodes[..j + 1][..j] == rowNodes[..j];
  }

  /** One more declared row adds its instances' cells after the others'. */
  lemma CellMapNext(rowNodes: seq<Node>, j: nat, rowRepeat: nat, cellRepeat: nat, content: Node -> nat)
    requires j < |rowNodes|
    ensures CellMap(CellLists(rowNodes[..j + 1]), rowRepeat, cellRepeat, content)
         == CellMap(CellLists(rowNodes[..j]), rowRepeat, cellRepeat, content)
          + Instances(CellNodes(rowNodes[j]), Times(j, rowRepeat), rowRepeat, cellRepeat, content)
  {
    var lists := CellLists(rowNodes[..j + 1]);
    assert rowNodes[..j + 1][..j] == rowNodes[..j];
    assert lists[..j] == CellLists(rowNodes[..j]);
  }

  lemma UnionAssociates<K, V>(a: map<K, V>, b: map<K, V>, c: map<K, V>)
    ensures a + b + c == a + (b + c)
  {
  }

  lemma UpdateUnion<K, V>(a: map<K, V>, b: map<K, V>, key: K, v: V)
    ensures (a + b)[key := v] == a + b[key := v]
  {
  }

  // ---------------------------------------------------------------------
  // Lookups

  lemma MinExists(s: set<nat>)
    requires s != {}
    ensures exists m :: m in s && forall k :: k in s ==> m <= k
  {
    var y :| y in s;
    MinAtMost(s, y);
  }

  /** A set holding `y` has a least element, found by descending from `y`. */
  lemma {:induction false} MinAtMost(s: set<nat>, y: nat)
    requires y in s
    ensures exists m :: m in s && forall k :: k in s ==> m <= k
    decreases y
  {
    if !forall k :: k in s ==> y <= k {
      var z :| z in s && z < y;
      MinAtMost(s, z);
    }
  }

  /** The smallest key at or above `x` (`lower_bound`), if any. */
  function LowerBound(keys: set<nat>, x: nat): (r: Option<nat>)
    ensures r.None? <==> forall k :: k in keys ==> k < x
    ensures r.Some? ==> r.value in keys && x <= r.value
    ensures r.Some? ==> forall k :: k in keys && x <= k ==> r.value <= k
  {
    var above := set k | k in keys && x <= k;
    assert forall k :: k in keys && x <= k ==> k in above;
    if above == {} then None
    else
      MinExists(above);
      var m :| m in above && forall k :: k in above ==> m <= k;
      Some(m)
  }

  /** The properties of a column, row or cell record: nothing without a
      record or without a `table:style-name`; otherwise the style name
      and, except where that key is already set, the style resolved for
      the record's element type. */
  function RecordProperties(node: Option<Node>, t: ElementType, resolve: (ElementType, string) -> Properties): (r: Properties)
    ensures node.None? || !HasAttr(node.value, "table:style-name") ==> r == map[]
    ensures node.Some? && HasAttr(node.value, "table:style-name") ==>
      var name := Attr(node.value, "table:style-name").value;
      StyleName in r && r[StyleName] == Str(name)
      && r.Keys == resolve(t, name).Keys + {StyleName}
      && forall p :: p in r && p != StyleName ==> r[p] == resolve(t, name)[p]
  {
    match node
    case None => map[]
    case Some(n) =>
      match Attr(n, "table:style-name")
      case None => map[]
      case Some(name) => resolve(t, name)[StyleName := Str(name)]
  }

  // ---------------------------------------------------------------------
  // The table object

  class Table {
    var columns: map<nat, Node>
    var rows: map<nat, Node>
    var cells: map<Position, Cell>
    var dimensions: Dimensions

    /** Builds the records of `table`; `content` gives the first element
        registering a cell's content yields (0 for none). */
    constructor (table: Node, content: Node -> nat)
      ensures columns == ColumnMap(ColumnNodes(table), |ColumnNodes(table)|)
      ensures rows == RowMap(RowNodes(table), RowsRepeated(table))
      ensures cells == CellMap(CellLists(RowNodes(table)), RowsRepeated(table), ColumnsRepeated(table), content)
      ensures dimensions == Dimensions(Times(|RowNodes(table)|, RowsRepeated(table)), |ColumnNodes(table)|)
    {
      columns := map[];
      rows := map[];
      cells := map[];
      dimensions := Dimensions(0, 0);
      new;
      Register(table, content);
    }

    method Register(table: Node, content: Node -> nat)
      requires columns == map[] && rows == map[] && cells == map[]
      modifies this
      ensures columns == ColumnMap(ColumnNodes(table), |ColumnNodes(table)|)
      ensures rows == RowMap(RowNodes(table), RowsRepeated(table))
      ensures cells == CellMap(CellLists(RowNodes(table)), RowsRepeated(table), ColumnsRepeated(table), content)
      ensures dimensions == Dimensions(Times(|RowNodes(table)|, RowsRepeated(table)), |ColumnNodes(table)|)
    {
      var cols := ColumnNodes(table);
      var rowNodes := RowNodes(table);
      var rowRepeat := RowsRepeated(table);
      var cellRepeat := ColumnsRepeated(table);
      RegisterColumns(cols);
      var rowCount := RegisterRows(rowNodes, rowRepeat, cellRepeat, content);
      dimensions := Dimensions(rowCount, |cols|);
    }

    /** One record per column element, at consecutive indices. */
    method RegisterColumns(cols: seq<Node>)
      requires columns == map[]
      modifies this`columns
      ensures columns == ColumnMap(cols, |cols|)
    {
      var columnIndex := 0;
      while columnIndex < |cols|
        invariant columnIndex <= |cols|
        invariant columns == ColumnMap(cols, columnIndex)
      {
        columns := columns[columnIndex := cols[columnIndex]];
        columnIndex := columnIndex + 1;
      }
    }

    /** One record per row element at the index of its first instance, and
        the cells of every instance; returns the expanded row count. */
    method RegisterRows(rowNodes: seq<Node>, rowRepeat: nat, cellRepeat: nat, content: Node -> nat) returns (rowCount: nat)
      requires rows == map[] && cells == map[]
      modifies this`rows, this`cells
      ensures rowCount == Times(|rowNodes|, rowRepeat)
      ensures rows == RowMap(rowNodes, rowRepeat)
      ensures cells == CellMap(CellLists(rowNodes), rowRepeat, cellRepeat, content)
    {
      rowCount := 0;
      var j := 0;
      while j < |rowNodes|
        invariant j <= |rowNodes| && rowCount == Times(j, rowRepeat)
        invariant rows == RowMap(rowNodes[..j], rowRepeat)
        invariant cells == CellMap(CellLists(rowNodes[..j]), rowRepeat, cellRepeat, content)
      {
        RowMapNext(rowNodes, j, rowRepeat);
        CellMapNext(rowNodes, j, rowRepeat, cellRepeat, content);
        rows := rows[rowCount := rowNodes[j]];
        rowCount := RegisterInstances(CellNodes(rowNodes[j]), rowCount, rowRepeat, cellRepeat, content);
        j := j + 1;
      }
      assert rowNodes[..j] == rowNodes;
    }

    /** The `count` instances of one row element, from row `start`; returns
        the row after the last instance. */
    method RegisterInstances(cs: seq<Node>, start: nat, count: nat, cellRepeat: nat, content: Node -> nat) returns (next: nat)
      modifies this`cells
      ensures next == start + count
      ensures cells == old(cells) + Instances(cs, start, count, cellRepeat, content)
    {
      next := start;
      var i := 0;
      while i < count
        invariant i <= count && next == start + i
        invariant cells == old(cells) + Instances(cs, start, i, cellRepeat, content)
      {
        RegisterCells(cs, next, cellRepeat, content);
        UnionAssociates(old(cells), Instances(cs, start, i, cellRepeat, content),
                        RowCells(cs, next, cellRepeat, content));
        next := next + 1;
        i := i + 1;
      }
    }

    /** Registers one row instance `k`: every cell, repeated, at a cursor
        that starts at 0 and advances whether or not a record is stored. */
    method RegisterCells(cs: seq<Node>, k: nat, repeat: nat, content: Node -> nat)
      modifies this`cells
      ensures cells == old(cells) + RowCells(cs, k, repeat, content)
    {
      var cellIndex := 0;
      var c := 0;
      while c < |cs|
        invariant c <= |cs| && cellIndex == Times(c, repeat)
        invariant cells == old(cells) + RowCells(cs[..c], k, repeat, content)
      {
        cellIndex := RegisterRepeats(cs[c], k, cellIndex, repeat, content);
        RowCellsNext(cs, c, k, repeat, content);
        UnionAssociates(old(cells), RowCells(cs[..c], k, repeat, content),
                        Repeats(cs[c], k, Times(c, repeat), repeat, content));
        c := c + 1;
      }
      assert cs[..c] == cs;
    }

    /** The `repeat` copies of one cell, from column `start`; returns the
        column after the last copy. */
    method RegisterRepeats(cell: Node, k: nat, start: nat, repeat: nat, content: Node -> nat) returns (next: nat)
      modifies this`cells
      ensures next == start + repeat
      ensures cells == old(cells) + Repeats(cell, k, start, repeat, content)
    {
      var first := content(cell);
      next := start;
      var r := 0;
      while r < repeat
        invariant r <= repeat && next == start + r
        invariant cells == old(cells) + Repeats(cell, k, start, r, content)
      {
        RepeatsNext(cell, k, start, r, content);
        if first != 0 {
          UpdateUnion(old(cells), Repeats(cell, k, start, r, content), Position(k, next), Cell(cell, first));
          cells := cells[Position(k, next) := Cell(cell, first)];
        }
        next := next + 1;
        r := r + 1;
      }
    }

    /** The record of the first column at or after `column` (`lower_bound`). */
    function ColumnRecord(column: nat): (r: Option<Node>)
      reads this
      ensures r.None? <==> forall k :: k in columns ==> k < column
      ensures r.Some? ==>
        exists k :: k in columns && column <= k && columns[k] == r.value && (forall j :: j in columns && column <= j ==> k <= j)
    {
      match LowerBound(columns.Keys, column)
      case None => None
      case Some(k) => Some(columns[k])
    }

    /** The record of the first row at or after `row` (`lower_bound`). */
    function RowRecord(row: nat): (r: Option<Node>)
      reads this
      ensures r.None? <==> forall k :: k in rows ==> k < row
      ensures r.Some? ==>
        exists k :: k in rows && row <= k && rows[k] == r.value && (forall j :: j in rows && row <= j ==> k <= j)
    {
      match LowerBound(rows.Keys, row)
      case None => None
      case Some(k) => Some(rows[k])
    }

    /** The first element of the cell at exactly (row, column); 0 when no
        record is stored there. */
    function CellFirstChild(row: nat, column: nat): (r: nat)
      reads this
      ensures Position(row, column) !in cells ==> r == 0
      ensures Position(row, column) in cells ==> r == cells[Position(row, column)].firstChild
    {
      if Position(row, column) in cells then cells[Position(row, column)].firstChild else 0
    }

    function ColumnProperties(column: nat, resolve: (ElementType, string) -> Properties): Properties
      reads this
    {
      RecordProperties(ColumnRecord(column), TableColumn, resolve)
    }

    function RowProperties(row: nat, resolve: (ElementType, string) -> Properties): Properties
      reads this
    {
      RecordProperties(RowRecord(row), TableRow, resolve)
    }

    function CellProperties(row: nat, column: nat, resolve: (ElementType, string) -> Properties): Properties
      reads this
    {
      var p := Position(row, column);
      RecordProperties(if p in cells then Some(cells[p].node) else None, TableCell, resolve)
    }

    method UpdateColumnProperties(column: nat, properties: Properties) returns (r: Outcome<OdfDocument.Error>)
      ensures r == Fail(OdfDocument.UnsupportedOperation)
    {
      r := Fail(OdfDocument.UnsupportedOperation);
    }

    method UpdateRowProperties(row: nat, properties: Properties) returns (r: Outcome<OdfDocument.Error>)
      ensures r == Fail(OdfDocument.UnsupportedOperation)
    {
      r := Fail(OdfDocument.UnsupportedOperation);
    }

    method UpdateCellProperties(row: nat, column: nat, properties: Properties) returns (r: Outcome<OdfDocument.Error>)
      ensures r == Fail(OdfDocument.UnsupportedOperation)
    {
      r := Fail(OdfDocument.UnsupportedOperation);
    }

    method Resize(rowCount: nat, columnCount: nat) returns (r: Outcome<OdfDocument.Error>)
      ensures r == Fail(OdfDocument.UnsupportedOperation)
    {
      r := Fail(OdfDocument.UnsupportedOperation);
    }

    method DecoupleCell(row: nat, column: nat) returns (r: Outcome<OdfDocument.Error>)
      ensures r == Fail(OdfDocument.UnsupportedOperation)
    {
      r := Fail(OdfDocument.UnsupportedOperation);
    }
  }

  /** After registration, copy `c` of cell `m` in instance `i` of declared
      row `j` sits at row `j * rowRepeat + i`, column `m * cellRepeat + c`,
      and its first child is what that cell's content registered (0, no
      record, when nothing). */
  lemma {:induction false} RegisteredCell(rows: seq<seq<Node>>, rowRepeat: nat, cellRepeat: nat, content: Node -> nat,
                                          j: nat, i: nat, m: nat, c: nat)
    requires j < |rows| && i < rowRepeat
    requires m < |rows[j]| && c < cellRepeat
    ensures HoldsCell(CellMap(rows, rowRepeat, cellRepeat, content),
                      Position(Times(j, rowRepeat) + i, Times(m, cellRepeat) + c),
                      rows[j][m], content(rows[j][m]))
  {
    var k := Times(j, rowRepeat) + i;
    var column := Times(m, cellRepeat) + c;
    var p := Position(k, column);
    var cs := rows[j];
    var own := RowCells(cs, k, cellRepeat, content);
    CellMapAt(rows, rowRepeat, cellRepeat, content, j, i, column);
    RowCellsAt(cs, k, cellRepeat, content, m, c);
    AgreesWith(CellMap(rows, rowRepeat, cellRepeat, content), own, p, cs[m], content(cs[m]));
  }

  /** `cells` records `cell` at `p` with first child `first` when that is
      not 0, and nothing at `p` otherwise. */
  ghost predicate HoldsCell(cells: map<Position, Cell>, p: Position, cell: Node, first: nat)
  {
    (p in cells <==> first != 0) && (p in cells ==> cells[p] == Cell(cell, first))
  }

  lemma AgreesWith(m: map<Position, Cell>, own: map<Position, Cell>, p: Position, cell: Node, first: nat)
    requires AgreesAt(m, own, p) && HoldsCell(own, p, cell, first)
    ensures HoldsCell(m, p, cell, first)
  {
  }

  /** No cell record lies beyond the expanded rows. */
  lemma RegisteredCellsInside(table: Node, content: Node -> nat, p: Position)
    requires p in CellMap(CellLists(RowNodes(table)), RowsRepeated(table), ColumnsRepeated(table), content)
    ensures p.row < |RowNodes(table)| * RowsRepeated(table)
  {
    CellMapKeys(CellLists(RowNodes(table)), RowsRepeated(table), ColumnsRepeated(table), content, p);
    TimesIsProduct(|RowNodes(table)|, RowsRepeated(table));
  }
}

=== FILE: office_open_xml_meta.dfy ===
/** The tinyxml2-based metadata parser of an Office Open XML package: the
    file type from the marker parts, one entry per slide or sheet, and the
    relationships of a part. */
module OfficeOpenXmlMeta {
  import opened Wrappers
  import opened Xml
  import opened Counters
  import opened OoxmlPackage

  /** What parsing the main part needs of the package: the detected main
      part parses, and every sheet names itself (the code reads the
      documents and the `name` attribute without a null check). */
  ghost predicate MainPartReadable(s: Storage, t: FileType)
  {
    (t == OfficeOpenXmlPresentation ==> PresentationPath in s.documents) &&
    (t == OfficeOpenXmlWorkbook ==>
       WorkbookPath in s.documents &&
       forall n :: n in Descendants(s.documents[WorkbookPath], "sheet") ==> HasAttr(n, "name"))
  }

  /** `parseFileMeta`: the type of the first marker part present, in the
      table's visiting order `order`; a presentation gets one unnamed
      entry per `p:sldId`, a workbook one entry per `sheet` named by its
      `name`, and the 32-bit entry count follows the entries. */
  method ParseFileMeta(s: Storage, order: seq<Marker>) returns (r: FileMeta)
    requires IsOrdering(order)
    requires MainPartReadable(s, FirstPresent(s, order))
    ensures r.fileType == FirstPresent(s, order) && !r.passwordEncrypted
    ensures r.entryCount == |r.entries| % U32
    ensures r.fileType == OfficeOpenXmlPresentation ==>
      var slides := Descendants(s.documents[PresentationPath], "p:sldId");
      |r.entries| == |slides| && forall i :: 0 <= i < |slides| ==> r.entries[i] == Entry("", 0, 0, "")
    ensures r.fileType == OfficeOpenXmlWorkbook ==>
      var sheets := Descendants(s.documents[WorkbookPath], "sheet");
      |r.entries| == |sheets| && forall i :: 0 <= i < |sheets| ==> r.entries[i] == Entry(AttrValue(sheets[i], "name"), 0, 0, "")
    ensures r.fileType !in {OfficeOpenXmlPresentation, OfficeOpenXmlWorkbook} ==> r.entries == []
  {
    var t := DetectType(s, order);
    r := NoMeta.(fileType := t);
    match t {
      case OfficeOpenXmlPresentation =>
        var ppt := s.documents[PresentationPath];
        var count, entries := CollectEntries(Descendants(ppt, "p:sldId"), _ => "");
        r := r.(entryCount := count, entries := entries);
      case OfficeOpenXmlWorkbook =>
        var xls := s.documents[WorkbookPath];
        var count, entries := CollectEntries(Descendants(xls, "sheet"), e => AttrValue(e, "name"));
        r := r.(entryCount := count, entries := entries);
      case _ =>
    }
  }

  /** `loadRelationships`: the relationships part of `path`, parsed. */
  function LoadRelationships(s: Storage, path: Path): Option<Node>
  {
    Parse(s, RelationsPath(path))
  }

  function RelationshipPairs(rels: Node): seq<(string, string)>
  {
    var rs := Relationships(rels);
    seq(|rs|, i requires 0 <= i < |rs| => (AttrValue(rs[i], "Id"), AttrValue(rs[i], "Target")))
  }

  /** `parseRelationships(rels)`: every `Relationship` element visited is
      inserted, Id to target, first occurrence wins. */
  method ParseRelationships(rels: Node) returns (result: map<string, string>)
    requires RelationshipsAttributed(rels)
    ensures FirstWinsMap(result, RelationshipPairs(rels))
  {
    result := InsertEach(RelationshipPairs(rels));
  }

  /** `parseRelationships(storage, path)`: the empty map when the
      relationships part does not load. */
  method ParseRelationshipsAt(s: Storage, path: Path) returns (result: map<string, string>)
    requires LoadRelationships(s, path).Some? ==> RelationshipsAttributed(LoadRelationships(s, path).value)
    ensures LoadRelationships(s, path).None? ==> result == map[]
    ensures LoadRelationships(s, path).Some? ==> FirstWinsMap(result, RelationshipPairs(LoadRelationships(s, path).value))
  {
    var relationships := LoadRelationships(s, path);
    if relationships.None? {
      return map[];
    }
    result := ParseRelationships(relationships.value);
  }
}

=== FILE: ooxml_meta.dfy ===
/** The pugixml-based metadata parser of an Office Open XML package: the
    encrypted-package check, the file type from the marker parts, and the
    relationships of a part. */
module OoxmlMeta {
  import opened Wrappers
  import opened Xml
  import opened OoxmlPackage

  const EncryptionInfoPath: Path := ["EncryptionInfo"]
  const EncryptedPackagePath: Path := ["EncryptedPackage"]

  /** An encrypted package is a compound file holding both the
      `EncryptionInfo` and the `EncryptedPackage` stream ([MS-OFFCRYPTO]
      section 2.3). */
  predicate IsEncryptedPackage(s: Storage)
  {
    EncryptionInfoPath in s.files && EncryptedPackagePath in s.files
  }

  /** `parseFileMeta`: the encryption check comes first and returns at
      once; otherwise the type is that of a marker part present in the
      package, in the table's visiting order `order`. */
  method ParseFileMeta(s: Storage, order: seq<Marker>) returns (r: FileMeta)
    requires IsOrdering(order)
    ensures r.passwordEncrypted <==> IsEncryptedPackage(s)
    ensures IsEncryptedPackage(s) ==> r.fileType == OfficeOpenXmlEncrypted
    ensures !IsEncryptedPackage(s) ==> r.fileType == FirstPresent(s, order)
    ensures r.entryCount == 0 && r.entries == []
  {
    if EncryptionInfoPath in s.files && EncryptedPackagePath in s.files {
      r := NoMeta.(fileType := OfficeOpenXmlEncrypted, passwordEncrypted := true);
      return;
    }
    var t := DetectType(s, order);
    r := NoMeta.(fileType := t);
  }

  /** An unencrypted package whose marker parts are all missing keeps
      the default type; one with a marker part gets that part's type. */
  lemma UnencryptedTypeFromMarkers(s: Storage, order: seq<Marker>)
    requires IsOrdering(order) && !IsEncryptedPackage(s)
    ensures FirstPresent(s, order) == Unknown <==> forall m :: m in Markers ==> m.path !in s.files
    ensures FirstPresent(s, order) != Unknown ==>
      exists m :: m in Markers && m.path in s.files && m.fileType == FirstPresent(s, order)
  {
    DetectedTypeIsMarked(s, order);
  }

  /** `attribute("Id").as_string()` and `attribute("Target").as_string()`:
      a missing attribute reads as the empty string. */
  function RelationshipPairs(rels: Node): seq<(string, string)>
  {
    var rs := Relationships(rels);
    seq(|rs|, i requires 0 <= i < |rs| => (AttrValue(rs[i], "Id"), AttrValue(rs[i], "Target")))
  }

  /** `parseRelationships(rels)`: every `Relationship` element selected by
      `//Relationship` is inserted, Id to target, first occurrence wins. */
  method ParseRelationships(rels: Node) returns (result: map<string, string>)
    ensures FirstWinsMap(result, RelationshipPairs(rels))
  {
    result := InsertEach(RelationshipPairs(rels));
  }

  /** `parseRelationships(storage, path)`: the relationships of the part
      at `path`, read from its relationships part; a package without
      that part gives the empty map. */
  method ParseRelationshipsAt(s: Storage, path: Path) returns (result: map<string, string>)
    requires RelationsPath(path) in s.files ==> RelationsPath(path) in s.documents
    ensures RelationsPath(path) !in s.files ==> result == map[]
    ensures RelationsPath(path) in s.files ==>
      FirstWinsMap(result, RelationshipPairs(s.documents[RelationsPath(path)]))
  {
    var relPath := RelationsPath(path);
    if relPath !in s.files {
      return map[];
    }
    var relationships := s.documents[relPath];
    result := ParseRelationships(relationships);
  }
}

=== FILE: ooxml_package.dfy ===
/** What the three Office Open XML metadata parsers share: package paths,
    the storage they query, the marker table that decides the file type,
    the path of a part's relationships, and the first-wins insertion that
    turns relationship elements into an Id-to-target map (ECMA-376 Part 2,
    Open Packaging Conventions, section 9.3). */
module OoxmlPackage {
  import opened Wrappers
  import opened Xml
  import opened Counters

  /** A path inside the package, as its components: `xl/workbook.xml` is
      `["xl", "workbook.xml"]`. */
  type Path = seq<string>

  /** `parent()`: the path without its last component. */
  function Parent(p: Path): Path
  {
    if p == [] then [] else p[..|p| - 1]
  }

  /** `basename()`: the last component. */
  function Basename(p: Path): string
  {
    if p == [] then "" else p[|p| - 1]
  }

  /** `join(c)`: one more component. */
  function Join(p: Path, c: string): (r: Path)
    ensures Parent(r) == p && Basename(r) == c
  {
    p + [c]
  }

  /** `relationsPath`: the relationships part of `p` sits in a `_rels`
      folder beside it and is named after it with `.rels` appended. */
  function RelationsPath(p: Path): Path
  {
    Join(Join(Parent(p), "_rels"), Basename(p) + ".rels")
  }

  /** The part a relationships path belongs to: the inverse of
      `RelationsPath`. */
  function PartOf(r: Path): Path
  {
    var name := Basename(r);
    Join(Parent(Parent(r)), if |name| >= 5 then name[..|name| - 5] else name)
  }

  /** The relationships part lies in the `_rels` folder of the part's own
      folder, one level deeper than the part. */
  lemma RelationsPathShape(p: Path)
    requires p != []
    ensures |RelationsPath(p)| == |p| + 1
    ensures Parent(Parent(RelationsPath(p))) == Parent(p)
    ensures Basename(Parent(RelationsPath(p))) == "_rels"
    ensures Basename(RelationsPath(p)) == Basename(p) + ".rels"
  {
  }

  /** Every part has its own relationships part: the part can be read back
      from it, so two parts never share one. */
  lemma RelationsPathRoundTrip(p: Path)
    requires p != []
    ensures PartOf(RelationsPath(p)) == p
  {
    var name := Basename(p) + ".rels";
    assert name[..|name| - 5] == Basename(p);
    assert Parent(p) + [Basename(p)] == p;
  }

  lemma RelationsPathInjective(p: Path, q: Path)
    requires p != [] && q != []
    requires RelationsPath(p) == RelationsPath(q)
    ensures p == q
  {
    RelationsPathRoundTrip(p);
    RelationsPathRoundTrip(q);
  }

  /** The package as the metadata parsers see it: the paths that are
      files, and the XML document that parsing a file yields; a path with
      no document stands for a part that is missing or does not parse. */
  datatype Storage = Storage(files: set<Path>, documents: map<Path, Node>)

  /** `XmlUtil::parse`: the document's root element, or None for the null
      pointer. */
  function Parse(s: Storage, p: Path): Option<Node>
  {
    if p in s.documents then Some(s.documents[p]) else None
  }

  /** The file types these parsers can report; the other members of the
      enumeration are never produced here. */
  datatype FileType =
    | Unknown
    | OfficeOpenXmlDocument
    | OfficeOpenXmlPresentation
    | OfficeOpenXmlWorkbook
    | OfficeOpenXmlEncrypted

  /** One sheet or slide of the file. */
  datatype Entry = Entry(name: string, rowCount: nat, columnCount: nat, notes: string)

  /** `FileMeta`, with the fields these parsers write. */
  datatype FileMeta = FileMeta(fileType: FileType, passwordEncrypted: bool, entryCount: nat, entries: seq<Entry>)

  /** A default-constructed `FileMeta`. */
  const NoMeta: FileMeta := FileMeta(Unknown, false, 0, [])

  datatype Marker = Marker(path: Path, fileType: FileType)

  const DocumentPath: Path := ["word", "document.xml"]
  const PresentationPath: Path := ["ppt", "presentation.xml"]
  const WorkbookPath: Path := ["xl", "workbook.xml"]

  /** The `TYPES` table: the main part whose presence marks each type. */
  const Markers: seq<Marker> := [
    Marker(DocumentPath, OfficeOpenXmlDocument),
    Marker(PresentationPath, OfficeOpenXmlPresentation),
    Marker(WorkbookPath, OfficeOpenXmlWorkbook)
  ]

  /** The table in the order an `unordered_map` happens to visit it, which
      the language leaves unspecified: any arrangement of its entries. */
  predicate IsOrdering(order: seq<Marker>)
  {
    multiset(order) == multiset(Markers)
  }

  /** The type of the first marker, in visiting order, whose path is a
      file; `Unknown` when there is none. */
  function FirstPresent(s: Storage, order: seq<Marker>): FileType
  {
    if order == [] then Unknown
    else if order[0].path in s.files then order[0].fileType
    else FirstPresent(s, order[1..])
  }

  /** The type loop: stop at the first marker that is a file. */
  method DetectType(s: Storage, order: seq<Marker>) returns (t: FileType)
    requires IsOrdering(order)
    ensures t == FirstPresent(s, order)
  {
    t := Unknown;
    var i := 0;
    while i < |order|
      invariant 0 <= i <= |order|
      invariant FirstPresent(s, order[i..]) == FirstPresent(s, order)
    {
      assert order[i..][1..] == order[i + 1..];
      if order[i].path in s.files {
        t := order[i].fileType;
        break;
      }
      i := i + 1;
    }
  }

  lemma {:induction false} FirstPresentIn(s: Storage, order: seq<Marker>)
    requires forall i :: 0 <= i < |order| ==> order[i].fileType != Unknown
    ensures FirstPresent(s, order) != Unknown <==> exists i :: 0 <= i < |order| && order[i].path in s.files
    ensures FirstPresent(s, order) != Unknown ==>
      exists i :: 0 <= i < |order| && order[i].path in s.files && order[i].fileType == FirstPresent(s, order)
    decreases |order|
  {
    if order != [] && order[0].path !in s.files {
      FirstPresentIn(s, order[1..]);
      if FirstPresent(s, order) != Unknown {
        var i :| 0 <= i < |order[1..]| && order[1..][i].path in s.files && order[1..][i].fileType == FirstPresent(s, order);
        assert order[i + 1] == order[1..][i];
      }
      forall i | 0 <= i < |order| && order[i].path in s.files
        ensures FirstPresent(s, order) != Unknown
      {
        assert order[1..][i - 1] == order[i];
      }
    }
  }

  /** Whatever the visiting order, the type found is that of a marker
      whose path is a file, and it is `Unknown` exactly when no marker
      path is a file. */
  lemma DetectedTypeIsMarked(s: Storage, order: seq<Marker>)
    requires IsOrdering(order)
    ensures FirstPresent(s, order) != Unknown <==> exists m :: m in Markers && m.path in s.files
    ensures FirstPresent(s, order) != Unknown ==>
      exists m :: m in Markers && m.path in s.files && m.fileType == FirstPresent(s, order)
  {
    forall i | 0 <= i < |order|
      ensures order[i].fileType != Unknown
    {
      assert order[i] in multiset(Markers);
    }
    FirstPresentIn(s, order);
    if exists m :: m in Markers && m.path in s.files {
      var m :| m in Markers && m.path in s.files;
      assert m in multiset(order);
      var i :| 0 <= i < |order| && order[i] == m;
    }
    if FirstPresent(s, order) != Unknown {
      var i :| 0 <= i < |order| && order[i].path in s.files && order[i].fileType == FirstPresent(s, order);
      assert order[i] in multiset(Markers);
    }
  }

  /** When exactly one marker path is a file the visiting order does not
      matter: the type is that marker's. */
  lemma SingleMarkerDecides(s: Storage, order: seq<Marker>, m: Marker)
    requires IsOrdering(order)
    requires m in Markers && m.path in s.files
    requires forall m' :: m' in Markers && m'.path in s.files ==> m' == m
    ensures FirstPresent(s, order) == m.fileType
  {
    DetectedTypeIsMarked(s, order);
    var m' :| m' in Markers && m'.path in s.files && m'.fileType == FirstPresent(s, order);
  }

  /** `result.insert({key, value})` for each pair in turn: a key already
      in the map keeps its value. */
  function InsertAll<V>(m: map<string, V>, pairs: seq<(string, V)>): map<string, V>
    decreases |pairs|
  {
    if pairs == [] then m
    else InsertAll(if pairs[0].0 in m then m else m[pairs[0].0 := pairs[0].1], pairs[1..])
  }

  /** The keys after inserting are the keys before and every inserted key. */
  lemma {:induction false} InsertAllKeys<V>(m: map<string, V>, pairs: seq<(string, V)>, k: string)
    ensures k in InsertAll(m, pairs) <==> k in m || exists i :: 0 <= i < |pairs| && pairs[i].0 == k
    decreases |pairs|
  {
    if pairs != [] {
      var m1 := if pairs[0].0 in m then m else m[pairs[0].0 := pairs[0].1];
      InsertAllKeys(m1, pairs[1..], k);
      if exists i :: 0 <= i < |pairs[1..]| && pairs[1..][i].0 == k {
        var i :| 0 <= i < |pairs[1..]| && pairs[1..][i].0 == k;
        assert pairs[i + 1].0 == k;
      }
      if exists i :: 0 <= i < |pairs| && pairs[i].0 == k {
        var i :| 0 <= i < |pairs| && pairs[i].0 == k;
        if i > 0 {
          assert pairs[1..][i - 1].0 == k;
        }
      }
    }
  }

  /** A key already present is never overwritten. */
  lemma {:induction false} InsertAllKeeps<V>(m: map<string, V>, pairs: seq<(string, V)>, k: string)
    requires k in m
    ensures k in InsertAll(m, pairs) && InsertAll(m, pairs)[k] == m[k]
    decreases |pairs|
  {
    if pairs != [] {
      var m1 := if pairs[0].0 in m then m else m[pairs[0].0 := pairs[0].1];
      InsertAllKeeps(m1, pairs[1..], k);
    }
  }

  /** The first pair with a key the map lacks decides that key's value. */
  lemma {:induction false} InsertAllFirstWins<V>(m: map<string, V>, pairs: seq<(string, V)>, i: nat)
    requires i < |pairs| && pairs[i].0 !in m
    requires forall j :: 0 <= j < i ==> pairs[j].0 != pairs[i].0
    ensures pairs[i].0 in InsertAll(m, pairs) && InsertAll(m, pairs)[pairs[i].0] == pairs[i].1
    decreases |pairs|
  {
    var m1 := if pairs[0].0 in m then m else m[pairs[0].0 := pairs[0].1];
    if i == 0 {
      InsertAllKeeps(m1, pairs[1..], pairs[0].0);
    } else {
      assert pairs[1..][i - 1] == pairs[i];
      forall j | 0 <= j < i - 1
        ensures pairs[1..][j].0 != pairs[1..][i - 1].0
      {
        assert pairs[1..][j] == pairs[j + 1];
      }
      InsertAllFirstWins(m1, pairs[1..], i - 1);
    }
  }

  /** The map an empty map becomes: exactly the keys inserted, each with
      the value of its first occurrence. */
  lemma FirstOccurrenceWins<V>(pairs: seq<(string, V)>, i: nat)
    requires i < |pairs|
    requires forall j :: 0 <= j < i ==> pairs[j].0 != pairs[i].0
    ensures pairs[i].0 in InsertAll(map[], pairs) && InsertAll(map[], pairs)[pairs[i].0] == pairs[i].1
  {
    InsertAllFirstWins(map[], pairs, i);
  }

  lemma OnlyInsertedKeys<V>(pairs: seq<(string, V)>, k: string)
    ensures k in InsertAll(map[], pairs) <==> exists i :: 0 <= i < |pairs| && pairs[i].0 == k
  {
    InsertAllKeys(map[], pairs, k);
  }

  /** The map first-wins insertion promises, stated without the loop: its
      keys are the inserted keys, and each key maps to the value of the
      first pair that carries it. */
  ghost predicate FirstWinsMap<V>(result: map<string, V>, pairs: seq<(string, V)>)
  {
    (forall k :: k in result <==> exists i :: 0 <= i < |pairs| && pairs[i].0 == k) &&
    (forall i :: 0 <= i < |pairs| && (forall j :: 0 <= j < i ==> pairs[j].0 != pairs[i].0) ==>
      pairs[i].0 in result && result[pairs[i].0] == pairs[i].1)
  }

  lemma InsertAllIsFirstWins<V>(pairs: seq<(string, V)>)
    ensures FirstWinsMap(InsertAll(map[], pairs), pairs)
  {
    forall k {
      OnlyInsertedKeys(pairs, k);
    }
    forall i | 0 <= i < |pairs| && (forall j :: 0 <= j < i ==> pairs[j].0 != pairs[i].0) {
      FirstOccurrenceWins(pairs, i);
    }
  }

  /** The earliest pair with the same key as pair `i`. */
  lemma {:induction false} EarliestWithKey<V>(pairs: seq<(string, V)>, i: nat) returns (e: nat)
    requires i < |pairs|
    ensures e <= i && pairs[e].0 == pairs[i].0
    ensures forall j :: 0 <= j < e ==> pairs[j].0 != pairs[i].0
    decreases i
  {
    if exists j :: 0 <= j < i && pairs[j].0 == pairs[i].0 {
      var j :| 0 <= j < i && pairs[j].0 == pairs[i].0;
      e := EarliestWithKey(pairs, j);
    } else {
      e := i;
    }
  }

  /** `FirstWinsMap` pins the map down completely. */
  lemma FirstWinsMapUnique<V>(a: map<string, V>, b: map<string, V>, pairs: seq<(string, V)>)
    requires FirstWinsMap(a, pairs) && FirstWinsMap(b, pairs)
    ensures a == b
  {
    forall k | k in a
      ensures k in b && a[k] == b[k]
    {
      var i :| 0 <= i < |pairs| && pairs[i].0 == k;
      var e := EarliestWithKey(pairs, i);
    }
    assert a.Keys == b.Keys;
  }

  /** The insertion loop of `parseRelationships`. */
  method InsertEach<V>(pairs: seq<(string, V)>) returns (result: map<string, V>)
    ensures result == InsertAll(map[], pairs)
    ensures FirstWinsMap(result, pairs)
  {
    result := map[];
    var i := 0;
    while i < |pairs|
      invariant 0 <= i <= |pairs|
      invariant InsertAll(result, pairs[i..]) == InsertAll(map[], pairs)
    {
      assert pairs[i..][1..] == pairs[i + 1..];
      if pairs[i].0 !in result {
        result := result[pairs[i].0 := pairs[i].1];
      }
      i := i + 1;
    }
    InsertAllIsFirstWins(pairs);
  }

  /** The relationship elements, root included, in document order. */
  function Relationships(rels: Node): seq<Node>
  {
    Descendants(rels, "Relationship")
  }

  /** Every relationship element carries `Id` and `Target`: where the
      code dereferences the attribute handles without a check. */
  ghost predicate RelationshipsAttributed(rels: Node)
  {
    forall n :: n in Relationships(rels) ==> HasAttr(n, "Id") && HasAttr(n, "Target")
  }

  /** The visitor that counts entries and appends one per visited
      element, named by `name`; the count is a 32-bit counter. */
  method CollectEntries(ns: seq<Node>, name: Node -> string) returns (count: nat, entries: seq<Entry>)
    ensures |entries| == |ns|
    ensures forall i :: 0 <= i < |ns| ==> entries[i] == Entry(name(ns[i]), 0, 0, "")
    ensures count == |entries| % U32
  {
    count := 0;
    entries := [];
    var i := 0;
    while i < |ns|
      invariant 0 <= i <= |ns| && |entries| == i
      invariant forall j :: 0 <= j < i ==> entries[j] == Entry(name(ns[j]), 0, 0, "")
      invariant count == i % U32
    {
      Next32Counts(i);
      count := Next32(count);
      entries := entries + [Entry(name(ns[i]), 0, 0, "")];
      i := i + 1;
    }
  }
}

=== FILE: ooxml_text.dfy ===
/** The WordprocessingML element view: which XML nodes become document
    elements, the search for the first recognised child and the nearest
    recognised siblings, and the small per-kind accessors. An element is
    a handle on its node's position among its parent's children. */
module OoxmlText {
  import opened Wrappers
  import opened Xml
  import opened Strings
  import opened DocumentTypes
  import opened Counters

  /** The element a node stands for (`factorize_element`); NoneType for
      any node the view does not recognise. */
  function Factorize(n: Node): (t: ElementType)
    ensures t != NoneType <==>
      n.Element? && n.name in {"w:t", "w:p", "w:r", "w:hyperlink", "w:bookmarkStart", "w:tbl"}
    ensures t in {NoneType, TextRun, Paragraph, Span, Link, Bookmark, Table}
  {
    if !n.Element? then NoneType
    else if n.name == "w:t" then TextRun
    else if n.name == "w:p" then Paragraph
    else if n.name == "w:r" then Span
    else if n.name == "w:hyperlink" then Link
    else if n.name == "w:bookmarkStart" then Bookmark
    else if n.name == "w:tbl" then Table
    else NoneType
  }

  predicate Recognised(n: Node)
  {
    Factorize(n) != NoneType
  }

  /** What a sibling or child search looks for: any recognised node, or
      an element with one fixed tag (`next_sibling(name)`, `child(name)`). */
  datatype Filter = AnyRecognised | Tagged(tag: string)

  predicate Accepts(f: Filter, n: Node)
  {
    match f
    case AnyRecognised => Recognised(n)
    case Tagged(tag) => IsElementNamed(n, tag)
  }

  /** An element: the document root, or the node at `index` among
      `siblings`, reached from the element `parent`. A table column that
      was reached from another column holds no parent (`Orphan`): the
      column keeps its table in a field its constructor never sets. */
  datatype Handle =
    | RootHandle(root: Node)
    | Known(kind: ElementType, parent: Handle, siblings: seq<Node>, index: nat)
    | Orphan(siblings: seq<Node>, index: nat)

  function NodeOf(h: Handle): Node
  {
    match h
    case RootHandle(n) => n
    case Known(_, _, ss, i) => if i < |ss| then ss[i] else Other
    case Orphan(ss, i) => if i < |ss| then ss[i] else Other
  }

  /** `type()`. */
  function Type(h: Handle): (t: ElementType)
    ensures h.RootHandle? <==> t == Root
  {
    match h
    case RootHandle(_) => Root
    case Known(k, _, _, _) => if k == Root then NoneType else k
    case Orphan(_, _) => TableColumn
  }

  /** The tag a kind that is reached by name (rather than by recognition)
      is looked up with; table rows, columns and cells. */
  function TagOf(k: ElementType): Option<string>
  {
    match k
    case TableColumn => Some("table:table-column")
    case TableRow => Some("w:tr")
    case TableCell => Some("w:tc")
    case _ => None
  }

  /** How the siblings of an element of kind `k` are found. */
  function SiblingFilter(k: ElementType): Filter
  {
    match TagOf(k)
    case Some(tag) => Tagged(tag)
    case None => AnyRecognised
  }

  /** The kind given to a node accepted by a search for siblings of kind `k`. */
  function KindFound(k: ElementType, n: Node): ElementType
  {
    if TagOf(k).Some? then k else Factorize(n)
  }

  /** Handles the view can produce: every element sits among its parent's
      children, with the kind its node is recognised as (or, for table
      parts, the tag of its kind), under a parent of the right kind. */
  ghost predicate Valid(h: Handle)
    decreases h
  {
    match h
    case RootHandle(_) => true
    case Known(k, p, ss, i) =>
      Valid(p) && ss == ChildrenOf(NodeOf(p)) && i < |ss| &&
      k != NoneType && k != Root &&
      (match TagOf(k)
       case None => Factorize(ss[i]) == k
       case Some(tag) =>
         IsElementNamed(ss[i], tag) &&
         (k == TableCell ==> p.Known? && p.kind == TableRow) &&
         (k != TableCell ==> p.Known? && p.kind == Table))
    case Orphan(ss, i) => i < |ss| && IsElementNamed(ss[i], "table:table-column")
  }

  /** The first node at or after `from` that `f` accepts. */
  method ScanForward(cs: seq<Node>, from: nat, f: Filter) returns (r: Option<nat>)
    requires from <= |cs|
    ensures r.Some? ==> from <= r.value < |cs| && Accepts(f, cs[r.value])
    ensures r.Some? ==> forall j :: from <= j < r.value ==> !Accepts(f, cs[j])
    ensures r.None? ==> forall j :: from <= j < |cs| ==> !Accepts(f, cs[j])
  {
    var i := from;
    while i < |cs|
      invariant from <= i <= |cs|
      invariant forall j :: from <= j < i ==> !Accepts(f, cs[j])
    {
      if Accepts(f, cs[i]) {
        return Some(i);
      }
      i := i + 1;
    }
    return None;
  }

  /** The last node before `before` that `f` accepts. */
  method ScanBackward(cs: seq<Node>, before: nat, f: Filter) returns (r: Option<nat>)
    requires before <= |cs|
    ensures r.Some? ==> r.value < before && Accepts(f, cs[r.value])
    ensures r.Some? ==> forall j :: r.value < j < before ==> !Accepts(f, cs[j])
    ensures r.None? ==> forall j :: 0 <= j < before ==> !Accepts(f, cs[j])
  {
    var i := before;
    while i > 0
      invariant 0 <= i <= before
      invariant forall j :: i <= j < before ==> !Accepts(f, cs[j])
    {
      if Accepts(f, cs[i - 1]) {
        return Some(i - 1);
      }
      i := i - 1;
    }
    return None;
  }

  /** `factorize_first_child`: the first child of `parent`, in document
      order, that the view recognises. */
  method FactorizeFirstChild(parent: Handle) returns (r: Option<Handle>)
    requires Valid(parent)
    ensures r.Some? ==> r.value.Known? && Valid(r.value) && r.value.parent == parent
    ensures r.Some? ==> ParentOf(r.value) == Some(parent) && Type(r.value) == Factorize(NodeOf(r.value))
    ensures r.Some? ==> Recognised(NodeOf(r.value)) && r.value.siblings == ChildrenOf(NodeOf(parent))
    ensures r.Some? ==> forall j :: 0 <= j < r.value.index ==> !Recognised(r.value.siblings[j])
    ensures r.None? ==> forall j :: 0 <= j < |ChildrenOf(NodeOf(parent))| ==> !Recognised(ChildrenOf(NodeOf(parent))[j])
  {
    var cs := ChildrenOf(NodeOf(parent));
    var i := ScanForward(cs, 0, AnyRecognised);
    if i.Some? {
      r := Some(Known(Factorize(cs[i.value]), parent, cs, i.value));
    } else {
      r := None;
    }
  }

  /** The first child tagged `tag`, as a handle of kind `k` (`child(name)`
      wrapped by `factorize_known_element`). */
  method FirstTagged(parent: Handle, k: ElementType) returns (r: Option<Handle>)
    requires Valid(parent) && TagOf(k).Some?
    requires k == TableCell ==> parent.Known? && parent.kind == TableRow
    requires k != TableCell ==> parent.Known? && parent.kind == Table
    ensures r.Some? ==> r.value.Known? && Valid(r.value) && r.value.parent == parent && r.value.kind == k
    ensures r.Some? ==> ParentOf(r.value) == Some(parent) && Type(r.value) == k
    ensures r.Some? ==> IsElementNamed(NodeOf(r.value), TagOf(k).value) && r.value.siblings == ChildrenOf(NodeOf(parent))
    ensures r.Some? ==> forall j :: 0 <= j < r.value.index ==> !IsElementNamed(r.value.siblings[j], TagOf(k).value)
    ensures r.None? ==> forall j :: 0 <= j < |ChildrenOf(NodeOf(parent))| ==> !IsElementNamed(ChildrenOf(NodeOf(parent))[j], TagOf(k).value)
  {
    var cs := ChildrenOf(NodeOf(parent));
    var i := ScanForward(cs, 0, Tagged(TagOf(k).value));
    if i.Some? {
      r := Some(Known(k, parent, cs, i.value));
    } else {
      r := None;
    }
  }

  /** `first_child()`: none for a table (its rows are reached through
      `first_row`) and for a table column; the first `w:tc` of a table
      row; otherwise the first recognised child. */
  method FirstChildOf(h: Handle) returns (r: Option<Handle>)
    requires Valid(h)
    ensures Type(h) in {Table, TableColumn} ==> r.None?
    ensures r.Some? ==> Valid(r.value) && ParentOf(r.value) == Some(h)
    ensures Type(h) == TableRow ==>
      (r.None? <==> forall j :: 0 <= j < |ChildrenOf(NodeOf(h))| ==> !IsElementNamed(ChildrenOf(NodeOf(h))[j], "w:tc"))
    ensures Type(h) == TableRow && r.Some? ==>
      Type(r.value) == TableCell && IsElementNamed(NodeOf(r.value), "w:tc") &&
      forall j :: 0 <= j < r.value.index ==> !IsElementNamed(r.value.siblings[j], "w:tc")
    ensures Type(h) !in {Table, TableColumn, TableRow} ==>
      (r.None? <==> forall j :: 0 <= j < |ChildrenOf(NodeOf(h))| ==> !Recognised(ChildrenOf(NodeOf(h))[j]))
    ensures Type(h) !in {Table, TableColumn, TableRow} && r.Some? ==>
      Type(r.value) == Factorize(NodeOf(r.value)) &&
      forall j :: 0 <= j < r.value.index ==> !Recognised(r.value.siblings[j])
  {
    if Type(h) in {Table, TableColumn} {
      r := None;
    } else if Type(h) == TableRow {
      r := FirstTagged(h, TableCell);
      if r.Some? {
        assert IsElementNamed(ChildrenOf(NodeOf(h))[r.value.index], "w:tc");
      }
    } else {
      r := FactorizeFirstChild(h);
      if r.Some? {
        assert Recognised(ChildrenOf(NodeOf(h))[r.value.index]);
      }
    }
  }

  /** `first_column()` and `first_row()` of a table. */
  method FirstColumn(h: Handle) returns (r: Option<Handle>)
    requires Valid(h) && h.Known? && h.kind == Table
    ensures r.Some? ==> r.value.Known? && Valid(r.value) && r.value.parent == h && r.value.kind == TableColumn
    ensures r.Some? ==> IsElementNamed(NodeOf(r.value), "table:table-column") && r.value.siblings == ChildrenOf(NodeOf(h))
    ensures r.Some? ==> forall j :: 0 <= j < r.value.index ==> !IsElementNamed(r.value.siblings[j], "table:table-column")
    ensures r.None? ==> forall j :: 0 <= j < |ChildrenOf(NodeOf(h))| ==> !IsElementNamed(ChildrenOf(NodeOf(h))[j], "table:table-column")
  {
    r := FirstTagged(h, TableColumn);
  }

  method FirstRow(h: Handle) returns (r: Option<Handle>)
    requires Valid(h) && h.Known? && h.kind == Table
    ensures r.Some? ==> r.value.Known? && Valid(r.value) && r.value.parent == h && r.value.kind == TableRow
    ensures r.Some? ==> IsElementNamed(NodeOf(r.value), "w:tr") && r.value.siblings == ChildrenOf(NodeOf(h))
    ensures r.Some? ==> forall j :: 0 <= j < r.value.index ==> !IsElementNamed(r.value.siblings[j], "w:tr")
    ensures r.None? ==> forall j :: 0 <= j < |ChildrenOf(NodeOf(h))| ==> !IsElementNamed(ChildrenOf(NodeOf(h))[j], "w:tr")
  {
    r := FirstTagged(h, TableRow);
  }

  /** `parent()`: none for the root, otherwise the element the handle was
      reached from. */
  function ParentOf(h: Handle): (r: Option<Handle>)
    ensures r.None? <==> !h.Known?
    ensures Valid(h) && r.Some? ==> Valid(r.value) && ChildrenOf(NodeOf(r.value)) == h.siblings
  {
    match h
    case RootHandle(_) => None
    case Known(_, p, _, _) => Some(p)
    case Orphan(_, _) => None
  }

  /** The element at position `j` among the siblings of `h`, under the
      same parent: what a sibling search hands back. */
  function SiblingAt(h: Handle, j: nat): (r: Handle)
    requires !h.RootHandle?
    ensures !r.RootHandle? && r.siblings == h.siblings && r.index == j
    ensures ParentOf(r) == ParentOf(h)
  {
    match h
    case Known(k, p, ss, _) => Known(KindFound(k, if j < |ss| then ss[j] else Other), p, ss, j)
    case Orphan(ss, _) => Orphan(ss, j)
  }

  /** `next_sibling()`: none for the root; for table parts the next
      sibling with the same tag; otherwise the first following sibling
      the view recognises, skipping the ones it does not. */
  method NextSiblingOf(h: Handle) returns (r: Option<Handle>)
    requires Valid(h)
    ensures h.RootHandle? ==> r.None?
    ensures r.Some? ==> !h.RootHandle? && Valid(r.value) && Type(r.value) == KindFound(Type(h), NodeOf(r.value))
    ensures r.Some? ==> ParentOf(r.value) == ParentOf(h) && r.value.siblings == h.siblings && h.index < r.value.index
    ensures r.Some? ==> Accepts(SiblingFilter(Type(h)), NodeOf(r.value))
    ensures r.Some? ==> forall j :: h.index < j < r.value.index ==> !Accepts(SiblingFilter(Type(h)), h.siblings[j])
    ensures !h.RootHandle? && r.None? ==> forall j :: h.index < j < |h.siblings| ==> !Accepts(SiblingFilter(Type(h)), h.siblings[j])
  {
    if h.RootHandle? {
      return None;
    }
    var i := ScanForward(h.siblings, h.index + 1, SiblingFilter(Type(h)));
    if i.Some? {
      r := Some(SiblingAt(h, i.value));
    } else {
      r := None;
    }
  }

  /** `previous_sibling()`, as evidently intended: none for the root;
      otherwise the nearest preceding sibling the search accepts. */
  method PreviousSiblingOf(h: Handle) returns (r: Option<Handle>)
    requires Valid(h)
    ensures h.RootHandle? ==> r.None?
    ensures r.Some? ==> !h.RootHandle? && Valid(r.value) && Type(r.value) == KindFound(Type(h), NodeOf(r.value))
    ensures r.Some? ==> ParentOf(r.value) == ParentOf(h) && r.value.siblings == h.siblings && r.value.index < h.index
    ensures r.Some? ==> Accepts(SiblingFilter(Type(h)), NodeOf(r.value))
    ensures r.Some? ==> forall j :: r.value.index < j < h.index ==> !Accepts(SiblingFilter(Type(h)), h.siblings[j])
    ensures !h.RootHandle? && r.None? ==> forall j :: 0 <= j < h.index ==> !Accepts(SiblingFilter(Type(h)), h.siblings[j])
  {
    if h.RootHandle? {
      return None;
    }
    var i := ScanBackward(h.siblings, h.index, SiblingFilter(Type(h)));
    if i.Some? {
      r := Some(SiblingAt(h, i.value));
    } else {
      r := None;
    }
  }

  /** `next_column()` as written: it finds the next `table:table-column`
      sibling but hands the column's never-set table field on as the
      parent, so the column found has none. */
  method NextColumnAsWritten(h: Handle) returns (r: Option<Handle>)
    requires Valid(h) && Type(h) == TableColumn
    ensures r.Some? ==> r.value.Orphan? && r.value.siblings == h.siblings && Valid(r.value) && ParentOf(r.value).None?
    ensures r.Some? ==> h.index < r.value.index
    ensures r.Some? ==> forall j :: h.index < j < r.value.index ==> !IsElementNamed(h.siblings[j], "table:table-column")
    ensures r.None? ==> forall j :: h.index < j < |h.siblings| ==> !IsElementNamed(h.siblings[j], "table:table-column")
  {
    var i := ScanForward(h.siblings, h.index + 1, Tagged("table:table-column"));
    if i.Some? {
      r := Some(Orphan(h.siblings, i.value));
    } else {
      r := None;
    }
  }

  /** `previous_column()` as written, with the same lost parent. */
  method PreviousColumnAsWritten(h: Handle) returns (r: Option<Handle>)
    requires Valid(h) && Type(h) == TableColumn
    ensures r.Some? ==> r.value.Orphan? && r.value.siblings == h.siblings && Valid(r.value) && ParentOf(r.value).None?
    ensures r.Some? ==> r.value.index < h.index
    ensures r.Some? ==> forall j :: r.value.index < j < h.index ==> !IsElementNamed(h.siblings[j], "table:table-column")
    ensures r.None? ==> forall j :: 0 <= j < h.index ==> !IsElementNamed(h.siblings[j], "table:table-column")
  {
    var i := ScanBackward(h.siblings, h.index, Tagged("table:table-column"));
    if i.Some? {
      r := Some(Orphan(h.siblings, i.value));
    } else {
      r := None;
    }
  }

  /** A table with two columns: the first column, reached from the table,
      has the table as its parent; the second, reached from the first, has
      none as written, and the table again when the parent is carried over. */
  lemma ColumnSiblingCounterexample()
    ensures var col := Element("table:table-column", [], []);
      var table := Element("w:tbl", [], [col, col]);
      var tableHandle := Known(Table, RootHandle(Element("w:body", [], [table])), [table], 0);
      var first := Known(TableColumn, tableHandle, [col, col], 0);
      Valid(first) && ParentOf(first) == Some(tableHandle) &&
      Valid(Orphan([col, col], 1)) && ParentOf(Orphan([col, col], 1)).None? &&
      Valid(SiblingAt(first, 1)) && ParentOf(SiblingAt(first, 1)) == Some(tableHandle)
  {
    var col := Element("table:table-column", [], []);
    var table := Element("w:tbl", [], [col, col]);
    assert Factorize(table) == Table;
    assert ChildrenOf(table) == [col, col];
  }

  /** Outcome of a search that is given a bounded number of steps. */
  datatype Search = Found(index: nat) | NotFound | OutOfSteps

  /** `factorize_previous_sibling` as written: every round re-reads the
      immediate previous sibling of the starting node instead of moving
      on, so `steps` rounds of the loop end in the same place. */
  function PreviousAsWritten(siblings: seq<Node>, index: nat, steps: nat): Search
    requires index < |siblings|
    decreases steps
  {
    if index == 0 then NotFound
    else if steps == 0 then OutOfSteps
    else if Recognised(siblings[index - 1]) then Found(index - 1)
    else PreviousAsWritten(siblings, index, steps - 1)
  }

  /** The loop as written, run for at most `steps` rounds. */
  method FactorizePreviousSiblingAsWritten(siblings: seq<Node>, index: nat, steps: nat) returns (r: Search)
    requires index < |siblings|
    ensures r == PreviousAsWritten(siblings, index, steps)
  {
    if index == 0 {
      return NotFound;
    }
    var s := index - 1;
    var round := 0;
    while round < steps
      invariant round <= steps
      invariant s == index - 1
      invariant PreviousAsWritten(siblings, index, steps) == PreviousAsWritten(siblings, index, steps - round)
    {
      if Recognised(siblings[s]) {
        return Found(s);
      }
      s := index - 1;  // re-reads the starting node's previous sibling
      round := round + 1;
    }
    return OutOfSteps;
  }

  /** When the immediate previous sibling is not recognised the loop as
      written never ends: no number of rounds finds anything. */
  lemma {:induction false} AsWrittenNeverEnds(siblings: seq<Node>, index: nat, steps: nat)
    requires 0 < index < |siblings| && !Recognised(siblings[index - 1])
    ensures PreviousAsWritten(siblings, index, steps) == OutOfSteps
    decreases steps
  {
    if steps > 0 {
      AsWrittenNeverEnds(siblings, index, steps - 1);
    }
  }

  /** A paragraph, a proofing mark and a run: from the run, the intended
      search finds the paragraph, the loop as written spins on the mark. */
  lemma PreviousSiblingCounterexample(steps: nat)
    ensures var ss := [Element("w:p", [], []), Element("w:proofErr", [], []), Element("w:r", [], [])];
      Recognised(ss[0]) && !Recognised(ss[1]) && PreviousAsWritten(ss, 2, steps) == OutOfSteps
  {
    var ss := [Element("w:p", [], []), Element("w:proofErr", [], []), Element("w:r", [], [])];
    AsWrittenNeverEnds(ss, 2, steps);
  }

  /** When the loop as written does end with an element it agrees with the
      intended search: that element is the nearest recognised one. */
  lemma {:induction false} AsWrittenFoundIsNearest(siblings: seq<Node>, index: nat, steps: nat)
    requires index < |siblings|
    requires PreviousAsWritten(siblings, index, steps).Found?
    ensures PreviousAsWritten(siblings, index, steps) == Found(index - 1)
    ensures index > 0 && Recognised(siblings[index - 1])
    decreases steps
  {
    if index > 0 && steps > 0 && !Recognised(siblings[index - 1]) {
      AsWrittenFoundIsNearest(siblings, index, steps - 1);
    }
  }

  /** `text()` of a `w:t`: the value of its first child node, which is the
      character data for a text node and empty otherwise. */
  function TextOf(h: Handle): (r: string)
    ensures FirstChild(NodeOf(h)).Some? && FirstChild(NodeOf(h)).value.Text? ==> r == FirstChild(NodeOf(h)).value.text
    ensures (FirstChild(NodeOf(h)).None? || !FirstChild(NodeOf(h)).value.Text?) ==> r == ""
  {
    match FirstChild(NodeOf(h))
    case Some(Text(t)) => t
    case _ => ""
  }

  /** `href()` of a link or an image and `name()` of a bookmark: the
      attribute's text, empty when it is missing. */
  function Href(h: Handle): (r: string)
    ensures HasAttr(NodeOf(h), "xlink:href") ==> r == Attr(NodeOf(h), "xlink:href").value
    ensures !HasAttr(NodeOf(h), "xlink:href") ==> r == ""
  {
    AttrValue(NodeOf(h), "xlink:href")
  }

  function BookmarkName(h: Handle): (r: string)
    ensures HasAttr(NodeOf(h), "w:name") ==> r == Attr(NodeOf(h), "w:name").value
    ensures !HasAttr(NodeOf(h), "w:name") ==> r == ""
  {
    AttrValue(NodeOf(h), "w:name")
  }

  /** The style id an element asks for: a paragraph's
      `w:pPr/w:pStyle/@w:val`; a span passes a null attribute, whose value
      is the empty string. */
  function StyleId(h: Handle): (r: string)
    ensures Type(h) == Span ==> r == ""
    ensures Type(h) == Paragraph && ChildOpt(Child(NodeOf(h), "w:pPr"), "w:pStyle").None? ==> r == ""
    ensures Type(h) == Paragraph && ChildOpt(Child(NodeOf(h), "w:pPr"), "w:pStyle").Some? ==>
      r == AttrValue(ChildOpt(Child(NodeOf(h), "w:pPr"), "w:pStyle").value, "w:val")
  {
    if Type(h) == Paragraph then
      match ChildOpt(Child(NodeOf(h), "w:pPr"), "w:pStyle")
      case Some(s) => AttrValue(s, "w:val")
      case None => ""
    else ""
  }

  /** `resolved_style`: the style the document defines under the id, or
      a default style when it defines none; None stands for that default. */
  function StyleFor<S>(styles: map<string, S>, id: string): (r: Option<S>)
    ensures r.Some? <==> id in styles
    ensures r.Some? ==> r.value == styles[id]
  {
    if id in styles then Some(styles[id]) else None
  }

  /** A span resolves the style registered under the empty id, and the
      default style when there is none. */
  lemma SpanStyle<S>(styles: map<string, S>, h: Handle)
    requires Type(h) == Span
    ensures StyleFor(styles, StyleId(h)) == (if "" in styles then Some(styles[""]) else None)
  {
  }

  /** `row_span()` and `column_span()` of a table cell: the attribute as
      pugixml's `as_uint` reads it, 1 when it is missing. */
  function RowSpan(h: Handle): (r: nat)
    ensures !HasAttr(NodeOf(h), "table:number-rows-spanned") ==> r == 1
    ensures HasAttr(NodeOf(h), "table:number-rows-spanned") ==> r < U32
    ensures var v := AttrValue(NodeOf(h), "table:number-rows-spanned");
      HasAttr(NodeOf(h), "table:number-rows-spanned") && v != [] && IsDigit(v[0]) ==> r == Min(LeadingDecimal(v), U32 - 1)
  {
    AsUintReads(Attr(NodeOf(h), "table:number-rows-spanned"), 1);
    DigitFirstReads(AttrValue(NodeOf(h), "table:number-rows-spanned"));
    AsUint(Attr(NodeOf(h), "table:number-rows-spanned"), 1)
  }

  function ColumnSpan(h: Handle): (r: nat)
    ensures !HasAttr(NodeOf(h), "table:number-columns-spanned") ==> r == 1
    ensures HasAttr(NodeOf(h), "table:number-columns-spanned") ==> r < U32
    ensures var v := AttrValue(NodeOf(h), "table:number-columns-spanned");
      HasAttr(NodeOf(h), "table:number-columns-spanned") && v != [] && IsDigit(v[0]) ==> r == Min(LeadingDecimal(v), U32 - 1)
  {
    AsUintReads(Attr(NodeOf(h), "table:number-columns-spanned"), 1);
    DigitFirstReads(AttrValue(NodeOf(h), "table:number-columns-spanned"));
    AsUint(Attr(NodeOf(h), "table:number-columns-spanned"), 1)
  }

  /** A span written with a number reads back as that number, saturated
      at 2^32 - 1. */
  lemma SpanReadsBack(h: Handle, k: nat)
    requires Attr(NodeOf(h), "table:number-rows-spanned") == Some(NatToString(k))
    ensures RowSpan(h) == Min(k, U32 - 1)
  {
    LeadingDecimalOfNatToString(k);
  }

  /** `row_count()` and `column_count()` of a table, both still 0. */
  function TableSize(h: Handle): (r: (nat, nat))
    ensures r == (0, 0)
  {
    (0, 0)
  }

  /** `internal()` of an image: there is an `xlink:href` and the document's
      file system has a file at that path; `isFile` stands for that file
      system (and for a path the path type rejects). */
  function ImageInternal(h: Handle, isFile: string -> bool): (r: bool)
    ensures !HasAttr(NodeOf(h), "xlink:href") ==> !r
    ensures r <==> HasAttr(NodeOf(h), "xlink:href") && isFile(Href(h))
  {
    match Attr(NodeOf(h), "xlink:href")
    case None => false
    case Some(href) => isFile(href)
  }

  datatype FileType = StarviewMetafile | UnknownFileType

  /** The image file an internal image refers to. */
  datatype ImageFileRef = ImageFileRef(path: string, fileType: FileType)

  /** `image_file()`: fails unless the image is internal; the file type is
      a StarView metafile exactly when the href contains
      "ObjectReplacements" or ".svm". */
  function ImageFileOf(h: Handle, isFile: string -> bool): (r: Result<ImageFileRef, ()>)
    ensures r.Ok? <==> ImageInternal(h, isFile)
    ensures r.Ok? ==> r.value.path == Href(h)
    ensures r.Ok? ==> (r.value.fileType == StarviewMetafile <==>
      Contains(Href(h), "ObjectReplacements") || Contains(Href(h), ".svm"))
  {
    if !ImageInternal(h, isFile) then Err(())
    else
      var href := Href(h);
      Ok(ImageFileRef(href, if Contains(href, "ObjectReplacements") || Contains(href, ".svm") then StarviewMetafile else UnknownFileType))
  }

  /** The sniffing rule in terms of positions: a StarView metafile exactly
      when one of the two markers sits somewhere in the href. */
  lemma ImageFileSniffing(h: Handle, isFile: string -> bool)
    requires ImageInternal(h, isFile)
    ensures ImageFileOf(h, isFile).value.fileType == StarviewMetafile <==>
      (exists i: nat :: OccursAt(Href(h), "ObjectReplacements", i)) ||
      (exists i: nat :: OccursAt(Href(h), ".svm", i))
  {
    ContainsIffOccurs(Href(h), "ObjectReplacements");
    ContainsIffOccurs(Href(h), ".svm");
  }
}

=== FILE: property.dfy ===
/** `ConstProperty`: a property whose optional string value is fixed when
    it is made; it reports itself read-only and optional, and setting it
    fails. */
module Property {
  import opened Wrappers

  datatype ConstProperty = ConstProperty(value: Option<string>)

  /** The error `set` throws. */
  datatype PropertyError = PropertyReadOnly

  /** The default constructor: no value. */
  function Empty(): (p: ConstProperty)
    ensures Value(p) == None
  {
    ConstProperty(None)
  }

  /** The constructor from a value. */
  function Make(v: Option<string>): (p: ConstProperty)
    ensures Value(p) == v
  {
    ConstProperty(v)
  }

  function Readonly(p: ConstProperty): (r: bool)
    ensures r
  {
    true
  }

  function Optional(p: ConstProperty): (r: bool)
    ensures r
  {
    true
  }

  function Value(p: ConstProperty): Option<string>
  {
    p.value
  }

  /** `set`: always the read-only error; the property it leaves behind is
      the one it was given. */
  function Set(p: ConstProperty, v: Option<string>): (r: Result<ConstProperty, PropertyError>)
    ensures r == Err(PropertyReadOnly)
  {
    Err(PropertyReadOnly)
  }

  /** Whatever is set, the value read afterwards is the one the property
      was made with. */
  lemma ValueSurvivesSet(v: Option<string>, w: Option<string>)
    ensures Set(Make(v), w).Err? && Value(Make(v)) == v
  {
  }
}

=== FILE: strings.dfy ===
/** Character and number helpers shared by the XML readers and the HTML
    writers: decimal printing and parsing, substring search, repetition. */
module Strings {

  predicate IsDigit(c: char)
  {
    '0' <= c <= '9'
  }

  function DigitValue(c: char): nat
    requires IsDigit(c)
  {
    (c as int - '0' as int) as nat
  }

  function DigitChar(d: nat): (c: char)
    requires d < 10
    ensures IsDigit(c) && DigitValue(c) == d
  {
    ('0' as int + d) as char
  }

  /** Number of leading decimal digits of `s`. */
  function DigitRun(s: string): (k: nat)
    ensures k <= |s|
    ensures forall i :: 0 <= i < k ==> IsDigit(s[i])
    ensures k < |s| ==> !IsDigit(s[k])
  {
    if s == [] || !IsDigit(s[0]) then 0 else 1 + DigitRun(s[1..])
  }

  /** The value of a string made only of decimal digits. */
  function DecimalValue(s: string): nat
    requires forall i :: 0 <= i < |s| ==> IsDigit(s[i])
  {
    if s == [] then 0 else 10 * DecimalValue(s[..|s| - 1]) + DigitValue(s[|s| - 1])
  }

  /** The value of the leading digits of `s`; 0 when it has none. This is
      what the C library's unsigned conversions do with a plain
      decimal string. */
  function LeadingDecimal(s: string): nat
  {
    DecimalValue(s[..DigitRun(s)])
  }

  /** Decimal rendering of a natural number, as `operator<<` and
      `std::to_string` print it. */
  function NatToString(n: nat): (s: string)
    ensures |s| >= 1
    ensures forall i :: 0 <= i < |s| ==> IsDigit(s[i])
    decreases n
  {
    if n < 10 then [DigitChar(n)] else NatToString(n / 10) + [DigitChar(n % 10)]
  }

  /** Decimal rendering of an integer, with a leading '-' when negative. */
  function IntToString(i: int): (s: string)
    ensures |s| >= 1
    ensures (s[0] == '-') <==> i < 0
  {
    if i < 0 then "-" + NatToString(-i) else NatToString(i)
  }

  /** Printing a number and reading it back gives the number. */
  lemma {:induction false} NatToStringRoundTrip(n: nat)
    ensures DecimalValue(NatToString(n)) == n
    decreases n
  {
    var s := NatToString(n);
    if n >= 10 {
      NatToStringRoundTrip(n / 10);
      assert s[..|s| - 1] == NatToString(n / 10);
    }
  }

  /** A printed number is also what a leading-digit parser reads from it. */
  lemma LeadingDecimalOfNatToString(n: nat)
    ensures LeadingDecimal(NatToString(n)) == n
  {
    var s := NatToString(n);
    assert DigitRun(s) == |s|;
    assert s[..|s|] == s;
    NatToStringRoundTrip(n);
  }

  /** `n` copies of `s`, one after the other. */
  function Repeat(s: string, n: nat): (r: string)
    ensures |r| == n * |s|
  {
    if n == 0 then [] else Repeat(s, n - 1) + s
  }

  /** A prefix stays a prefix when text is appended. */
  lemma PrefixAppend(a: string, b: string, c: string)
    requires a <= b
    ensures a <= b + c
  {
  }

  /** Text written in two pieces is the text of the two joined. */
  lemma AppendTwo(o: string, a: string, b: string)
    ensures o + a + b == o + (a + b)
  {
  }

  /** Text written in three pieces is the text of the three joined. */
  lemma AppendThree(o: string, a: string, b: string, c: string)
    ensures o + a + b + c == o + (a + b + c)
  {
  }

  /** Text written in five pieces is the text of the five joined. */
  lemma AppendFive(o: string, a: string, b: string, c: string, d: string, e: string)
    ensures o + a + b + c + d + e == o + (a + b + c + d + e)
  {
  }

  /** The strings of `ss` written one after another. */
  function Concat(ss: seq<string>): string
  {
    if ss == [] then "" else ss[0] + Concat(ss[1..])
  }

  /** `pre` is a prefix of `s`. */
  predicate IsPrefix(pre: string, s: string)
  {
    |pre| <= |s| && s[..|pre|] == pre
  }

  /** `sub` occurs in `s`, as `s.find(sub, 0) != npos` tests. */
  predicate Contains(s: string, sub: string)
    decreases |s|
  {
    IsPrefix(sub, s) || (s != [] && Contains(s[1..], sub))
  }

  /** `sub` sits at position `i` of `s`. */
  predicate OccursAt(s: string, sub: string, i: nat)
  {
    i + |sub| <= |s| && s[i..i + |sub|] == sub
  }

  /** The search succeeds exactly when `sub` sits at some position of `s`. */
  lemma {:induction false} ContainsIffOccurs(s: string, sub: string)
    ensures Contains(s, sub) <==> exists i: nat :: OccursAt(s, sub, i)
    decreases |s|
  {
    if IsPrefix(sub, s) {
      assert OccursAt(s, sub, 0);
    } else if s == [] {
    } else {
      ContainsIffOccurs(s[1..], sub);
      if exists i: nat :: OccursAt(s, sub, i) {
        var i: nat :| OccursAt(s, sub, i);
        assert i != 0;
        assert OccursAt(s[1..], sub, i - 1) by {
          assert s[1..][i - 1..i - 1 + |sub|] == s[i..i + |sub|];
        }
      }
      if Contains(s[1..], sub) {
        var j: nat :| OccursAt(s[1..], sub, j);
        assert s[j + 1..j + 1 + |sub|] == s[1..][j..j + |sub|];
        assert OccursAt(s, sub, j + 1);
      }
    }
  }

  /** A sequence in reverse order. */
  function Reverse<T>(s: seq<T>): (r: seq<T>)
    ensures |r| == |s|
  {
    if s == [] then [] else Reverse(s[1..]) + [s[0]]
  }
}

=== FILE: table_window.dfy ===
/** The arithmetic of a table window: a loop moves the table cursor one
    row or column per pass, stops at the window's end bound, and writes
    only for the positions at or after its start bound. Shared by both
    HTML serialisers. */
module TableWindow {
  import opened Strings

  /** Number of loop passes before the cursor, starting at `c0`, reaches
      `end`, with at most `k` passes. */
  function Passes(c0: nat, end: nat, k: nat): nat
  {
    if c0 >= end then 0 else if k <= end - c0 then k else end - c0
  }

  /** Where a loop that moves the cursor one place per pass leaves it after
      at most `k` passes. */
  function LastPass(c0: nat, end: nat, k: nat): nat
  {
    c0 + Passes(c0, end, k)
  }

  /** The first place the window writes: the cursor's start, or the
      start bound when the cursor begins before it (`last` when the loop
      stops before reaching it). */
  function WindowFirst(c0: nat, start: nat, last: nat): nat
  {
    if c0 >= start then c0 else if start <= last then start else last
  }

  /** The first place written among `k` passes from `c0`. */
  function FirstWritten(c0: nat, start: nat, end: nat, k: nat): nat
  {
    WindowFirst(c0, start, LastPass(c0, end, k))
  }

  /** How many of `k` passes, starting at column `c0`, fall inside the
      window from `start` up to `end`. */
  function Written(c0: nat, start: nat, end: nat, k: nat): nat
  {
    LastPass(c0, end, k) - FirstWritten(c0, start, end, k)
  }

  /** The induction step of a windowed loop, on the output alone: a pass
      writes `col` exactly when it lies at or after the start bound. */
  lemma WindowStep(o: string, o1: string, r: string, col: string, c0: nat, start: nat, end: nat, k: nat)
    requires 0 < k && c0 < end
    requires o1 == if c0 >= start then o + col else o
    requires r == o1 + Repeat(col, Written(c0 + 1, start, end, k - 1))
    ensures r == o + Repeat(col, Written(c0, start, end, k))
  {
    var last := LastPass(c0, end, k);
    assert LastPass(c0 + 1, end, k - 1) == last;
    if c0 >= start {
      PrependRepeat(o, col, last - c0 - 1);
    }
  }

  /** The pass counts one pass later: a pass at or after the start bound is
      the first one written and adds one to the count, a pass before it
      changes neither the count nor where writing begins. */
  lemma WindowAdvance(c0: nat, start: nat, end: nat, k: nat)
    requires 0 < k && c0 < end
    ensures LastPass(c0 + 1, end, k - 1) == LastPass(c0, end, k)
    ensures c0 >= start ==>
      FirstWritten(c0, start, end, k) == c0 && FirstWritten(c0 + 1, start, end, k - 1) == c0 + 1 &&
      Written(c0, start, end, k) == Written(c0 + 1, start, end, k - 1) + 1
    ensures c0 < start ==>
      FirstWritten(c0, start, end, k) == FirstWritten(c0 + 1, start, end, k - 1) > c0 &&
      Written(c0, start, end, k) == Written(c0 + 1, start, end, k - 1)
  {
  }

  /** A loop that makes no pass writes nothing and leaves the cursor. */
  lemma WindowEmpty(c0: nat, start: nat, end: nat, k: nat)
    requires k == 0 || c0 >= end
    ensures LastPass(c0, end, k) == c0 && FirstWritten(c0, start, end, k) == c0 && Written(c0, start, end, k) == 0
  {
  }

  lemma PrependRepeat(o: string, t: string, j: nat)
    ensures o + t + Repeat(t, j) == o + Repeat(t, j + 1)
  {
    RepeatShift(t, j);
    assert o + t + Repeat(t, j) == o + (t + Repeat(t, j));
  }

  lemma {:induction false} RepeatShift(t: string, k: nat)
    ensures t + Repeat(t, k) == Repeat(t, k) + t
  {
    if k > 0 {
      RepeatShift(t, k - 1);
    }
  }
}

=== FILE: workbook_translator.dfy ===
/** The SpreadsheetML to HTML serialiser. The style sheet becomes CSS
    rules, one per font, fill, border and cell format, and a table of the
    classes each cell format depends on; a worksheet becomes an HTML table
    whose rows and cells are placed by their `r` references, the gaps of
    a sparse sheet filled with empty rows and cells, inside the configured
    window.

    `Translate*` functions are the reference definition: each maps a node
    and the state before it to the state after it. The `Translator` class
    performs the same walk in place and is proved equal to them. */
module WorkbookTranslator {
  import opened Wrappers
  import opened Xml
  import opened Strings
  import opened HtmlText
  import opened TableWindow
  import opened Counters

  /** The table cursor: row and column of the next cell. Every move this
      serialiser makes is one column on (a column or a cell with no span),
      or whole rows on, which restarts the column at 0. */
  datatype Cursor = Cursor(row: nat, col: nat)

  function NextCol(c: Cursor): Cursor
  {
    c.(col := c.col + 1)
  }

  function AddRows(c: Cursor, k: nat): Cursor
  {
    Cursor(c.row + k, 0)
  }

  /** What the walk reads but never changes: the translation options, the
      workbook's shared strings, and the column a cell reference such as
      `C7` names. */
  datatype Config = Config(
    editable: bool,
    tableOffsetRows: nat, tableLimitRows: nat,
    tableOffsetCols: nat, tableLimitCols: nat,
    sharedStrings: seq<Node>,
    cellColumn: string -> nat)

  /** The output written so far and the translation context. */
  datatype State = State(
    out: string,
    rowStart: nat, rowEnd: nat, colStart: nat, colEnd: nat,
    cursor: Cursor,
    styleDependencies: map<string, seq<string>>,
    texts: map<nat, Node>,
    textIndex: nat)

  function Emit(s: State, text: string): State
  {
    s.(out := s.out + text)
  }

  /** Every text node handed out for editing sits under an index below the
      next one, and every such index is taken. */
  ghost predicate TextsDense(s: State)
  {
    forall i: nat :: i in s.texts <==> i < s.textIndex
  }

  /** What no step of the content walk undoes or touches: output is only
      appended, the text index only grows, the handed-out texts stay
      dense, outside editing mode no text is handed out, and the style
      dependencies are only read. */
  ghost predicate Grows(cfg: Config, s: State, r: State)
  {
    s.out <= r.out && s.textIndex <= r.textIndex &&
    (TextsDense(s) ==> TextsDense(r)) &&
    (!cfg.editable ==> r.textIndex == s.textIndex && r.texts == s.texts) &&
    r.styleDependencies == s.styleDependencies
  }

  // ---------------------------------------------------------------- style sheet

  /** The element children of `cs`, in order: the nodes a style list's
      counter numbers. */
  function ElementsOf(cs: seq<Node>): (r: seq<Node>)
    ensures |r| <= |cs|
  {
    if cs == [] then [] else (if cs[0].Element? then [cs[0]] else []) + ElementsOf(cs[1..])
  }

  /** One rule per element child, numbered by a 32-bit counter from `i`;
      other child nodes are passed over. */
  function Rules(cs: seq<Node>, i: nat, rule: (nat, Node) -> string): string
  {
    if cs == [] then ""
    else if cs[0].Element? then rule(i, cs[0]) + Rules(cs[1..], Next32(i), rule)
    else Rules(cs[1..], i, rule)
  }

  /** The value of attribute `attribute` of the first child called `child`. */
  function ChildAttr(e: Node, child: string, attribute: string): Option<string>
  {
    match Child(e, child)
    case None => None
    case Some(c) => Attr(c, attribute)
  }

  /** A colour written as ARGB hex, its alpha (the first two characters)
      dropped. */
  function Rgb(argb: string): string
  {
    if |argb| >= 2 then argb[2..] else ""
  }

  /** A declaration for the child `child`, when there is one. */
  function Declaration(e: Node, child: string, attribute: string, property: string, unit: string): string
  {
    if Child(e, child).Some? then property + OptionOr(ChildAttr(e, child, attribute), "") + unit + ";" else ""
  }

  /** A colour declaration for the child `c`, when there is one. */
  function ColorOf(c: Option<Node>, property: string): string
  {
    match c
    case None => ""
    case Some(c) => property + ": #" + Rgb(AttrValue(c, "rgb")) + ";"
  }

  /** `.font-i`: family, size in points and colour, each when given. */
  function FontRule(i: nat, e: Node): string
  {
    ".font-" + NatToString(i) + " {" +
    Declaration(e, "name", "val", "font-family: ", "") +
    Declaration(e, "sz", "val", "font-size: ", "pt") +
    ColorOf(Child(e, "color"), "color") +
    "} "
  }

  /** `.fill-i`: the background of a pattern fill, when given. */
  function FillRule(i: nat, e: Node): string
  {
    ".fill-" + NatToString(i) + " {" +
    (match Child(e, "patternFill")
     case None => ""
     case Some(p) => ColorOf(Child(p, "bgColor"), "background-color")) +
    "} "
  }

  /** `.border-i`: no declaration. */
  function BorderRule(i: nat, e: Node): string
  {
    ".border-" + NatToString(i) + " {} "
  }

  /** A font the translator can read: a `name` or `sz` child carries
      `val`, a `color` child carries an ARGB `rgb`. */
  predicate FontDefined(e: Node)
  {
    (Child(e, "name").Some? ==> ChildAttr(e, "name", "val").Some?) &&
    (Child(e, "sz").Some? ==> ChildAttr(e, "sz", "val").Some?) &&
    (Child(e, "color").Some? ==> ChildAttr(e, "color", "rgb").Some? && |ChildAttr(e, "color", "rgb").value| >= 2)
  }

  predicate FillDefined(e: Node)
  {
    match Child(e, "patternFill")
    case None => true
    case Some(p) =>
      Child(p, "bgColor").Some? ==> ChildAttr(p, "bgColor", "rgb").Some? && |ChildAttr(p, "bgColor", "rgb").value| >= 2
  }

  /** The class of the i-th cell format. */
  function XfName(i: nat): string
  {
    "cellxf-" + NatToString(i)
  }

  /** The classes a cell format depends on, in the order they are pushed:
      its font when `applyFont` is "true", its fill whenever it names one,
      its border when `applyBorder` is "true". */
  function XfDependencies(e: Node): seq<string>
  {
    (if AttrValue(e, "applyFont") == "true" then ["font-" + AttrValue(e, "fontId")] else []) +
    (if HasAttr(e, "fillId") then ["fill-" + AttrValue(e, "fillId")] else []) +
    (if AttrValue(e, "applyBorder") == "true" then ["border-" + AttrValue(e, "borderId")] else [])
  }

  /** `styleDependencies[name].push_back(dep)`: the entry is created by
      its first push. */
  function Push(deps: map<string, seq<string>>, name: string, dep: string): map<string, seq<string>>
  {
    deps[name := (if name in deps then deps[name] else []) + [dep]]
  }

  /** The three conditional pushes for a cell format. */
  function XfPushes(deps: map<string, seq<string>>, name: string, e: Node): map<string, seq<string>>
  {
    var d1 := if AttrValue(e, "applyFont") == "true" then Push(deps, name, "font-" + AttrValue(e, "fontId")) else deps;
    var d2 := if HasAttr(e, "fillId") then Push(d1, name, "fill-" + AttrValue(e, "fillId")) else d1;
    if AttrValue(e, "applyBorder") == "true" then Push(d2, name, "border-" + AttrValue(e, "borderId")) else d2
  }

  /** `.cellxf-i`: the horizontal alignment when `applyAlignment` is "true". */
  function XfRule(i: nat, e: Node): string
  {
    "." + XfName(i) + " {" +
    (if AttrValue(e, "applyAlignment") == "true"
     then "text-align: " + OptionOr(ChildAttr(e, "alignment", "horizontal"), "") + ";" else "") +
    "} "
  }

  /** A cell format the translator can read: `applyFont`, `applyBorder`
      and `applyAlignment` are present, an applied font or border names
      its id, and applied alignment has an `alignment` child with a
      `horizontal` value. */
  predicate XfDefined(e: Node)
  {
    HasAttr(e, "applyFont") && (AttrValue(e, "applyFont") == "true" ==> HasAttr(e, "fontId")) &&
    HasAttr(e, "applyBorder") && (AttrValue(e, "applyBorder") == "true" ==> HasAttr(e, "borderId")) &&
    HasAttr(e, "applyAlignment") &&
    (AttrValue(e, "applyAlignment") == "true" ==> ChildAttr(e, "alignment", "horizontal").Some?)
  }

  predicate AllOf(cs: seq<Node>, p: Node -> bool)
  {
    forall i :: 0 <= i < |cs| && cs[i].Element? ==> p(cs[i])
  }

  function XfStep(i: nat, e: Node, s: State): State
  {
    Emit(s.(styleDependencies := XfPushes(s.styleDependencies, XfName(i), e)), XfRule(i, e))
  }

  /** `CellXfsTranslator`: each cell format's rule and dependencies. */
  function TranslateXfs(cs: seq<Node>, i: nat, s: State): (r: State)
    ensures s.out <= r.out
  {
    if cs == [] then s
    else if cs[0].Element? then TranslateXfs(cs[1..], Next32(i), XfStep(i, cs[0], s))
    else TranslateXfs(cs[1..], i, s)
  }

  /** A style sheet the translator can read. */
  predicate StyleDefined(n: Node)
  {
    (Child(n, "fonts").Some? ==> AllOf(ChildrenOf(Child(n, "fonts").value), FontDefined)) &&
    (Child(n, "fills").Some? ==> AllOf(ChildrenOf(Child(n, "fills").value), FillDefined)) &&
    (Child(n, "cellXfs").Some? ==> AllOf(ChildrenOf(Child(n, "cellXfs").value), XfDefined))
  }

  function ListRules(n: Node, list: string, rule: (nat, Node) -> string): string
  {
    match Child(n, list)
    case None => ""
    case Some(l) => Rules(ChildrenOf(l), 0, rule)
  }

  /** `translateStyle`: fonts, fills, borders, then the cell formats. */
  function TranslateStyle(n: Node, s: State): (r: State)
    ensures s.out <= r.out
  {
    var s1 := Emit(s, ListRules(n, "fonts", FontRule) + ListRules(n, "fills", FillRule) + ListRules(n, "borders", BorderRule));
    match Child(n, "cellXfs")
    case None => s1
    case Some(x) => TranslateXfs(ChildrenOf(x), 0, s1)
  }

  // ---------------------------------------------------------------- attributes

  /** The class attribute of an element with a cell format `s`: the
      format's class, then the classes it depends on, last pushed first;
      a format without an entry gets only its own class. */
  function ClassAttr(n: Node, deps: map<string, seq<string>>): string
  {
    match Attr(n, "s")
    case None => ""
    case Some(v) =>
      var name := "cellxf-" + v;
      " class=\"" + name + (if name in deps then Spaced(Reverse(deps[name])) else "") + "\""
  }

  /** A column width in inches and a row height in points, as inline
      style, each read as a signed 64-bit number. */
  function StyleAttr(n: Node): string
  {
    if HasAttr(n, "width") || HasAttr(n, "ht") then
      " style=\"" +
      (if HasAttr(n, "width") then "width:" + IntToString(ParseInt(AttrValue(n, "width"), 0)) + "in;" else "") +
      (if HasAttr(n, "ht") then "height:" + IntToString(ParseInt(AttrValue(n, "ht"), 0)) + "pt;" else "") +
      "\""
    else ""
  }

  /** `ElementAttributeTranslator`. */
  function Attrs(n: Node, deps: map<string, seq<string>>): string
  {
    ClassAttr(n, deps) + StyleAttr(n)
  }

  // ---------------------------------------------------------------- preconditions

  const Skippers: set<string> := {"headerFooter", "f"}

  /** Cell types whose value is the cell's own content. */
  predicate OwnValue(t: string)
  {
    t == "str" || t == "inlineStr" || t == "n"
  }

  /** The shared-string index in a cell's `v` child, read as tinyxml2's
      `IntText(-1)` reads it: -1 unless the first child is text that
      starts with a number. */
  function SharedIndex(n: Node): int
  {
    match Child(n, "v")
    case None => -1
    case Some(v) =>
      match FirstChild(v)
      case Some(Text(t)) => ParseInt(t, -1)
      case _ => -1
  }

  /** What the walk needs of a tree so that it never follows a null
      pointer and never indexes past the shared strings: rows and cells
      carry `r`; a shared-string cell has a `v` child whose index, when
      not negative, names a shared string; and a shared string does not
      itself hold a shared-string cell (the walk would otherwise follow
      shared strings without bound). Only the parts the walk visits are
      constrained. */
  predicate Defined(cfg: Config, n: Node, inShared: bool)
    decreases if inShared then 0 else 1, Size(n), 1
  {
    match n
    case Element(name, _, cs) =>
      if name in Skippers || name == "col" then true
      else if name == "row" then HasAttr(n, "r") && AllDefined(cfg, cs, inShared)
      else if name == "c" then HasAttr(n, "r") && CellDefined(cfg, n, inShared)
      else AllDefined(cfg, cs, inShared)
    case _ => true
  }

  predicate CellDefined(cfg: Config, n: Node, inShared: bool)
    decreases if inShared then 0 else 1, Size(n), 0
  {
    match Attr(n, "t")
    case None => true
    case Some(t) =>
      if t == "s" then
        !inShared && Child(n, "v").Some? && SharedIndex(n) < |cfg.sharedStrings| &&
        (SharedIndex(n) >= 0 ==> AllDefined(cfg, ChildrenOf(cfg.sharedStrings[SharedIndex(n)]), true))
      else if OwnValue(t) then AllDefined(cfg, ChildrenOf(n), inShared)
      else true
  }

  predicate AllDefined(cfg: Config, cs: seq<Node>, inShared: bool)
    decreases if inShared then 0 else 1, SizeOf(cs), 2
  {
    cs == [] || (Defined(cfg, cs[0], inShared) && AllDefined(cfg, cs[1..], inShared))
  }

  // ---------------------------------------------------------------- the content walk

  /** `ElementTranslator`. */
  function TranslateElement(cfg: Config, n: Node, s: State, inShared: bool): (r: State)
    requires n.Element? && Defined(cfg, n, inShared)
    ensures Grows(cfg, s, r)
    decreases if inShared then 0 else 1, Size(n), 3
  {
    var name := n.name;
    if name in Skippers then s
    else if name == "worksheet" then TranslateTable(cfg, n, s, inShared)
    else if name == "col" then TranslateCol(n, s)
    else if name == "row" then TranslateRow(cfg, n, s, inShared)
    else if name == "c" then TranslateCell(cfg, n, s, inShared)
    else TranslateOther(cfg, n, s, inShared)
  }

  /** `ElementChildrenTranslator`: text children are escaped, element
      children translated, other nodes ignored, in document order. */
  function TranslateChildren(cfg: Config, cs: seq<Node>, s: State, inShared: bool): (r: State)
    requires AllDefined(cfg, cs, inShared)
    ensures Grows(cfg, s, r)
    decreases if inShared then 0 else 1, SizeOf(cs), 4
  {
    if cs == [] then s
    else
      var s1 := match cs[0]
        case Text(_) => TranslateText(cfg, cs[0], s)
        case Element(_, _, _) => TranslateElement(cfg, cs[0], s, inShared)
        case Other => s;
      TranslateChildren(cfg, cs[1..], s1, inShared)
  }

  /** `TextTranslator`. */
  function TranslateText(cfg: Config, n: Node, s: State): (r: State)
    requires n.Text?
    ensures Grows(cfg, s, r)
  {
    var text := EscapeText(n.text);
    if !cfg.editable then Emit(s, text)
    else
      s.(out := s.out + EditableText(s.textIndex, text),
         texts := s.texts[s.textIndex := n],
         textIndex := s.textIndex + 1)
  }

  /** `cols` is written as a `colgroup` around its children; any other tag
      is transparent. */
  function TranslateOther(cfg: Config, n: Node, s: State, inShared: bool): (r: State)
    requires n.Element? && AllDefined(cfg, n.children, inShared)
    ensures Grows(cfg, s, r)
    decreases if inShared then 0 else 1, Size(n), 2
  {
    if n.name == "cols" then
      var s1 := Emit(s, "<colgroup" + Attrs(n, s.styleDependencies) + ">");
      Emit(TranslateChildren(cfg, n.children, s1, inShared), "</colgroup>")
    else TranslateChildren(cfg, n.children, s, inShared)
  }

  const TableOpen := "<table border=\"0\" cellspacing=\"0\" cellpadding=\"0\""

  /** The window and the fresh cursor a worksheet starts with. */
  function StartTable(cfg: Config, s: State): State
  {
    s.(rowStart := cfg.tableOffsetRows, rowEnd := cfg.tableOffsetRows + cfg.tableLimitRows,
       colStart := cfg.tableOffsetCols, colEnd := cfg.tableOffsetCols + cfg.tableLimitCols,
       cursor := Cursor(0, 0))
  }

  /** `TableTranslator`: a worksheet is a table written in the window the
      configured offsets and limits give. */
  function TranslateTable(cfg: Config, n: Node, s: State, inShared: bool): (r: State)
    requires n.Element? && AllDefined(cfg, n.children, inShared)
    ensures Grows(cfg, s, r)
    decreases if inShared then 0 else 1, Size(n), 2
  {
    var s1 := StartTable(cfg, s);
    var s2 := Emit(s1, TableOpen + Attrs(n, s1.styleDependencies) + ">");
    Emit(TranslateChildren(cfg, n.children, s2, inShared), "</table>")
  }

  // ---------------------------------------------------------------- columns

  /** `max - min + 1` as unsigned 64-bit arithmetic, both bounds 1 when
      missing. */
  function ColumnCount(n: Node): nat
  {
    (Unsigned64(Attr(n, "max"), 1) - Unsigned64(Attr(n, "min"), 1) + 1) % U64
  }

  function ColTag(n: Node, deps: map<string, seq<string>>): string
  {
    "<col" + Attrs(n, deps) + ">"
  }

  /** One pass of the column loop: the column's tag when the cursor is at
      or after the window's start, and one column on. The tag is the same
      on every pass, as the attributes it carries are read from the
      unchanging `col` element and style dependencies. */
  function ColStep(tag: string, s: State): State
  {
    var s1 := if s.cursor.col >= s.colStart then Emit(s, tag) else s;
    s1.(cursor := NextCol(s1.cursor))
  }

  /** The column loop from its 32-bit counter `i`: it runs while the
      counter is below the count and stops at the window's end. */
  function ColLoop(tag: string, i: nat, count: nat, s: State): (r: State)
    ensures s.out <= r.out && r == s.(out := r.out, cursor := r.cursor)
    decreases s.colEnd - s.cursor.col
  {
    if i >= count || s.cursor.col >= s.colEnd then s
    else ColLoop(tag, Next32(i), count, ColStep(tag, s))
  }

  /** `TableColTranslator`. */
  function TranslateCol(n: Node, s: State): (r: State)
    ensures s.out <= r.out && r == s.(out := r.out, cursor := r.cursor)
  {
    ColLoop(ColTag(n, s.styleDependencies), 0, ColumnCount(n), s)
  }

  // ---------------------------------------------------------------- rows

  /** The row index the element names: its 1-based `r` less one, in
      unsigned 64-bit arithmetic, so that a missing or zero `r` wraps
      around to 2^64 - 1. */
  function RowTarget(n: Node): nat
  {
    var r := Unsigned64(Attr(n, "r"), 0);
    if r == 0 then U64 - 1 else r - 1
  }

  /** The gap before a row: an empty row for each skipped row inside the
      window, stopping at the row the element names or at the window's end. */
  function RowGap(target: nat, s: State): (r: State)
    ensures s.out <= r.out && r == s.(out := r.out, cursor := r.cursor)
    decreases target - s.cursor.row
  {
    if target <= s.cursor.row || s.cursor.row >= s.rowEnd then s
    else
      var s1 := if s.cursor.row >= s.rowStart then Emit(s, "<tr></tr>") else s;
      RowGap(target, s1.(cursor := AddRows(s1.cursor, 1)))
  }

  /** `TableRowTranslator`: the gap, then the row itself unless the window
      has ended. The gap loop returns from the translator when it meets the
      window's end before the named row. */
  function TranslateRow(cfg: Config, n: Node, s: State, inShared: bool): (r: State)
    requires n.Element? && AllDefined(cfg, n.children, inShared)
    ensures Grows(cfg, s, r)
    decreases if inShared then 0 else 1, Size(n), 2
  {
    var target := RowTarget(n);
    var s1 := RowGap(target, s);
    if s1.cursor.row < target then s1
    else
      var s2 := s1.(cursor := AddRows(s1.cursor, 0));
      if s2.cursor.row >= s2.rowEnd then s2
      else RowElement(cfg, n, s2, inShared)
  }

  /** The named row once the gap is behind it: written when it lies at or
      after the window's start, and the cursor moves one row on. */
  function RowElement(cfg: Config, n: Node, s: State, inShared: bool): (r: State)
    requires n.Element? && AllDefined(cfg, n.children, inShared)
    ensures Grows(cfg, s, r)
    decreases if inShared then 0 else 1, Size(n), 1
  {
    var s1 := if s.cursor.row >= s.rowStart
      then Emit(TranslateChildren(cfg, n.children, Emit(s, "<tr" + Attrs(n, s.styleDependencies) + ">"), inShared), "</tr>")
      else s;
    s1.(cursor := AddRows(s1.cursor, 1))
  }

  // ---------------------------------------------------------------- cells

  function CellTarget(cfg: Config, n: Node): nat
  {
    cfg.cellColumn(AttrValue(n, "r"))
  }

  /** The gap before a cell: an empty cell for each skipped column inside
      the window, stopping at the cell's column or at the window's end. */
  function CellGap(target: nat, s: State): (r: State)
    ensures s.out <= r.out && r == s.(out := r.out, cursor := r.cursor)
    decreases target - s.cursor.col
  {
    if target <= s.cursor.col || s.cursor.col >= s.colEnd then s
    else
      var s1 := if s.cursor.col >= s.colStart then Emit(s, "<td></td>") else s;
      CellGap(target, s1.(cursor := NextCol(s1.cursor)))
  }

  /** A cell's content by its type: a shared string's children, the
      cell's own children for inline strings, strings and numbers, nothing
      for a negative shared-string index, another type or no type. */
  function CellValue(cfg: Config, n: Node, s: State, inShared: bool): (r: State)
    requires n.Element? && CellDefined(cfg, n, inShared)
    ensures Grows(cfg, s, r)
    decreases if inShared then 0 else 1, Size(n), 0
  {
    match Attr(n, "t")
    case None => s
    case Some(t) =>
      if t == "s" then
        var index := SharedIndex(n);
        if index >= 0 then TranslateChildren(cfg, ChildrenOf(cfg.sharedStrings[index]), s, true) else s
      else if OwnValue(t) then TranslateChildren(cfg, n.children, s, inShared)
      else s
  }

  /** The cell written out: its opening tag, its content, its end tag. */
  function CellMarkup(cfg: Config, n: Node, s: State, inShared: bool): (r: State)
    requires n.Element? && CellDefined(cfg, n, inShared)
    ensures Grows(cfg, s, r)
    decreases if inShared then 0 else 1, Size(n), 1
  {
    Emit(CellValue(cfg, n, Emit(s, "<td" + Attrs(n, s.styleDependencies) + ">"), inShared), "</td>")
  }

  /** `TableCellTranslator` as written: after the gap the cell is written
      wherever the cursor stands, inside the window or not. */
  function TranslateCellAsWritten(cfg: Config, n: Node, s: State, inShared: bool): (r: State)
    requires n.Element? && CellDefined(cfg, n, inShared)
    ensures Grows(cfg, s, r)
  {
    var s1 := CellGap(CellTarget(cfg, n), s);
    if s1.cursor.col < CellTarget(cfg, n) then s1
    else
      var s2 := CellMarkup(cfg, n, s1, inShared);
      s2.(cursor := NextCol(s2.cursor))
  }

  /** `TableCellTranslator` with the window applied to the cell itself, as
      the gap loop and the row translator apply it: nothing once the
      window has ended, only the cursor moves before it starts. */
  function TranslateCell(cfg: Config, n: Node, s: State, inShared: bool): (r: State)
    requires n.Element? && CellDefined(cfg, n, inShared)
    ensures Grows(cfg, s, r)
    decreases if inShared then 0 else 1, Size(n), 2
  {
    var s1 := CellGap(CellTarget(cfg, n), s);
    if s1.cursor.col < CellTarget(cfg, n) || s1.cursor.col >= s1.colEnd then s1
    else
      var s2 := if s1.cursor.col >= s1.colStart then CellMarkup(cfg, n, s1, inShared) else s1;
      s2.(cursor := NextCol(s2.cursor))
  }

  // ---------------------------------------------------------------- style sheet properties

  /** Different cell formats get different classes. */
  lemma XfNameInjective(a: nat, b: nat)
    requires XfName(a) == XfName(b)
    ensures a == b
  {
    assert XfName(a)[7..] == NatToString(a);
    assert XfName(b)[7..] == NatToString(b);
    LeadingDecimalOfNatToString(a);
    LeadingDecimalOfNatToString(b);
  }

  /** `ds` appended to the entry `name`, the entry created only when `ds`
      is not empty. */
  function Appended(deps: map<string, seq<string>>, name: string, ds: seq<string>): map<string, seq<string>>
  {
    if ds == [] then deps else deps[name := (if name in deps then deps[name] else []) + ds]
  }

  lemma PushAppended(deps: map<string, seq<string>>, name: string, ds: seq<string>, dep: string)
    ensures Push(Appended(deps, name, ds), name, dep) == Appended(deps, name, ds + [dep])
  {
    var o := if name in deps then deps[name] else [];
    if ds == [] {
      assert ds + [dep] == [dep];
    } else {
      var m := deps[name := o + ds];
      assert o + ds + [dep] == o + (ds + [dep]);
      assert m[name := m[name] + [dep]] == deps[name := o + (ds + [dep])];
    }
  }

  /** The three pushes append the format's dependencies to its entry, in
      order, and create the entry only when there is at least one. */
  lemma XfPushesAppend(deps: map<string, seq<string>>, name: string, e: Node)
    ensures XfPushes(deps, name, e) == Appended(deps, name, XfDependencies(e))
  {
    var f := if AttrValue(e, "applyFont") == "true" then ["font-" + AttrValue(e, "fontId")] else [];
    var l := if HasAttr(e, "fillId") then ["fill-" + AttrValue(e, "fillId")] else [];
    var b := if AttrValue(e, "applyBorder") == "true" then ["border-" + AttrValue(e, "borderId")] else [];
    var d1 := if f != [] then Push(deps, name, f[0]) else deps;
    var d2 := if l != [] then Push(d1, name, l[0]) else d1;
    assert Appended(deps, name, []) == deps;
    if f != [] {
      PushAppended(deps, name, [], f[0]);
      assert [] + f == f;
    }
    assert d1 == Appended(deps, name, f);
    if l != [] {
      PushAppended(deps, name, f, l[0]);
    } else {
      assert f + l == f;
    }
    assert d2 == Appended(deps, name, f + l);
    if b != [] {
      PushAppended(deps, name, f + l, b[0]);
    } else {
      assert f + l + b == f + l;
    }
  }

  /** A format's dependency list holds exactly its applied font, its fill
      and its applied border; the font comes first and the border last. */
  lemma XfDependencyContents(e: Node, d: string)
    ensures d in XfDependencies(e) <==>
      (AttrValue(e, "applyFont") == "true" && d == "font-" + AttrValue(e, "fontId")) ||
      (HasAttr(e, "fillId") && d == "fill-" + AttrValue(e, "fillId")) ||
      (AttrValue(e, "applyBorder") == "true" && d == "border-" + AttrValue(e, "borderId"))
    ensures AttrValue(e, "applyFont") == "true" ==> XfDependencies(e)[0] == "font-" + AttrValue(e, "fontId")
    ensures AttrValue(e, "applyBorder") == "true" ==>
      XfDependencies(e)[|XfDependencies(e)| - 1] == "border-" + AttrValue(e, "borderId")
  {
  }

  /** The lookup of `name` in a dependency table. */
  function Entry(deps: map<string, seq<string>>, name: string): Option<seq<string>>
  {
    if name in deps then Some(deps[name]) else None
  }

  /** One cell format touches only its own entry. */
  lemma XfStepEntries(i: nat, e: Node, s: State, name: string)
    ensures var d := XfStep(i, e, s).styleDependencies;
      Entry(d, name) ==
        if name == XfName(i) && XfDependencies(e) != []
        then Some(OptionOr(Entry(s.styleDependencies, name), []) + XfDependencies(e))
        else Entry(s.styleDependencies, name)
  {
    XfPushesAppend(s.styleDependencies, XfName(i), e);
  }

  /** Later formats leave an earlier format's entry alone, as long as the
      32-bit counter does not wrap around. */
  lemma {:induction false} XfsKeep(cs: seq<Node>, i: nat, s: State, j: nat)
    requires j < i && i + |ElementsOf(cs)| < U32
    ensures Entry(TranslateXfs(cs, i, s).styleDependencies, XfName(j)) == Entry(s.styleDependencies, XfName(j))
  {
    if cs != [] {
      if cs[0].Element? {
        assert ElementsOf(cs) == [cs[0]] + ElementsOf(cs[1..]);
        Next32Steps(i);
        if XfName(i) == XfName(j) {
          XfNameInjective(i, j);
        }
        XfStepEntries(i, cs[0], s, XfName(j));
        XfsKeep(cs[1..], i + 1, XfStep(i, cs[0], s), j);
      } else {
        XfsKeep(cs[1..], i, s, j);
      }
    }
  }

  /** The entry a format's dependency list gets: none when the list is
      empty, the list otherwise. */
  function Recorded(d: seq<string>): Option<seq<string>>
  {
    if d == [] then None else Some(d)
  }

  /** The dependency table after the cell formats numbered from `i`: the
      class of the format numbered `j` holds exactly that format's
      dependencies, and has an entry only when there is at least one. */
  lemma {:induction false} XfsRecorded(cs: seq<Node>, i: nat, s: State, j: nat)
    requires i + |ElementsOf(cs)| < U32 && i <= j < i + |ElementsOf(cs)|
    requires XfName(j) !in s.styleDependencies
    ensures Entry(TranslateXfs(cs, i, s).styleDependencies, XfName(j)) == Recorded(XfDependencies(ElementsOf(cs)[j - i]))
    decreases |cs|, 1
  {
    if cs[0].Element? {
      XfsUnfold(cs, i, s);
      if j == i {
        XfsRecordedFirst(cs, i, s);
      } else {
        XfsRecordedLater(cs, i, s, j);
      }
    } else {
      assert ElementsOf(cs) == ElementsOf(cs[1..]);
      assert TranslateXfs(cs, i, s) == TranslateXfs(cs[1..], i, s);
      XfsRecorded(cs[1..], i, s, j);
    }
  }

  /** The first step of the cell formats, unfolded. */
  lemma XfsUnfold(cs: seq<Node>, i: nat, s: State)
    requires cs != [] && cs[0].Element? && i + |ElementsOf(cs)| < U32
    ensures ElementsOf(cs) == [cs[0]] + ElementsOf(cs[1..])
    ensures TranslateXfs(cs, i, s) == TranslateXfs(cs[1..], i + 1, XfStep(i, cs[0], s))
  {
    Next32Steps(i);
  }

  lemma {:induction false} XfsRecordedLater(cs: seq<Node>, i: nat, s: State, j: nat)
    requires cs != [] && cs[0].Element?
    requires i + |ElementsOf(cs)| < U32 && i < j < i + |ElementsOf(cs)|
    requires XfName(j) !in s.styleDependencies
    requires ElementsOf(cs) == [cs[0]] + ElementsOf(cs[1..])
    ensures Entry(TranslateXfs(cs[1..], i + 1, XfStep(i, cs[0], s)).styleDependencies, XfName(j)) ==
      Recorded(XfDependencies(ElementsOf(cs)[j - i]))
    decreases |cs|, 0
  {
    XfStepEntries(i, cs[0], s, XfName(j));
    if XfName(i) == XfName(j) {
      XfNameInjective(i, j);
    }
    assert ElementsOf(cs)[j - i] == ElementsOf(cs[1..])[j - (i + 1)];
    XfsRecorded(cs[1..], i + 1, XfStep(i, cs[0], s), j);
  }

  lemma XfsRecordedFirst(cs: seq<Node>, i: nat, s: State)
    requires cs != [] && cs[0].Element? && i + |ElementsOf(cs)| < U32
    requires ElementsOf(cs) == [cs[0]] + ElementsOf(cs[1..])
    requires XfName(i) !in s.styleDependencies
    ensures Entry(TranslateXfs(cs[1..], i + 1, XfStep(i, cs[0], s)).styleDependencies, XfName(i)) ==
      Recorded(XfDependencies(cs[0]))
  {
    var d := XfDependencies(cs[0]);
    XfStepEntries(i, cs[0], s, XfName(i));
    assert [] + d == d;
    XfsKeep(cs[1..], i + 1, XfStep(i, cs[0], s), i);
  }

  /** The rule list written as one rule per element child, the k-th
      numbered `i + k`. */
  lemma {:induction false} RulesNumbered(cs: seq<Node>, i: nat, rule: (nat, Node) -> string)
    requires i + |ElementsOf(cs)| < U32
    ensures var es := ElementsOf(cs);
      Rules(cs, i, rule) == Concat(seq(|es|, k requires 0 <= k < |es| => rule(i + k, es[k])))
  {
    var es := ElementsOf(cs);
    var all := seq(|es|, k requires 0 <= k < |es| => rule(i + k, es[k]));
    if cs != [] {
      if cs[0].Element? {
        var rest := ElementsOf(cs[1..]);
        Next32Steps(i);
        RulesNumbered(cs[1..], i + 1, rule);
        assert es == [cs[0]] + rest;
        assert all[1..] == seq(|rest|, k requires 0 <= k < |rest| => rule(i + 1 + k, rest[k]));
      } else {
        assert es == ElementsOf(cs[1..]);
        RulesNumbered(cs[1..], i, rule);
      }
    }
  }

  /** After the cell formats, a cell naming the k-th format carries that
      format's class followed by its dependencies, last pushed first: the
      border before the fill before the font. */
  lemma CellClassFollowsFormat(cs: seq<Node>, s: State, k: nat, n: Node)
    requires |ElementsOf(cs)| < U32 && k < |ElementsOf(cs)|
    requires XfName(k) !in s.styleDependencies
    requires Attr(n, "s") == Some(NatToString(k))
    ensures ClassAttr(n, TranslateXfs(cs, 0, s).styleDependencies) ==
      " class=\"" + XfName(k) + Spaced(Reverse(XfDependencies(ElementsOf(cs)[k]))) + "\""
  {
    var d := XfDependencies(ElementsOf(cs)[k]);
    XfsRecorded(cs, 0, s, k);
    ClassOfEntry(n, TranslateXfs(cs, 0, s).styleDependencies, k);
    if d == [] {
      assert Spaced(Reverse(d)) == "";
    }
  }

  /** The class attribute of a cell naming the k-th format, by the
      format's entry. */
  lemma ClassOfEntry(n: Node, deps: map<string, seq<string>>, k: nat)
    requires Attr(n, "s") == Some(NatToString(k))
    ensures ClassAttr(n, deps) == " class=\"" + XfName(k) +
      (match Entry(deps, XfName(k)) case None => "" case Some(d) => Spaced(Reverse(d))) + "\""
  {
  }

  // ---------------------------------------------------------------- content properties

  /** How many passes a column loop from counter `i` may make before its
      counter stops it: the count less the counter, unless the count is
      out of the 32-bit counter's reach, in which case only the window's
      end stops the loop. */
  function ColumnBudget(i: nat, count: nat, c0: nat, end: nat): nat
  {
    if count >= U32 then (if c0 < end then end - c0 else 0)
    else if i < count then count - i else 0
  }

  /** The column loop writes a `col` for each of its passes inside the
      window and leaves the cursor after the last pass. */
  lemma ColumnLoopWindow(tag: string, i: nat, count: nat, s: State)
    requires i < U32 && (count < U32 ==> i <= count)
    ensures var b := ColumnBudget(i, count, s.cursor.col, s.colEnd);
      var r := ColLoop(tag, i, count, s);
      r.out == s.out + Repeat(tag, Written(s.cursor.col, s.colStart, s.colEnd, b)) &&
      r.cursor.col == LastPass(s.cursor.col, s.colEnd, b)
  {
    ColumnLoopOut(tag, i, count, s);
    ColumnLoopCursor(tag, i, count, s);
  }

  lemma {:induction false} ColumnLoopOut(tag: string, i: nat, count: nat, s: State)
    requires i < U32 && (count < U32 ==> i <= count)
    ensures ColLoop(tag, i, count, s).out ==
      s.out + Repeat(tag, Written(s.cursor.col, s.colStart, s.colEnd, ColumnBudget(i, count, s.cursor.col, s.colEnd)))
    decreases s.colEnd - s.cursor.col
  {
    var c0 := s.cursor.col;
    var b := ColumnBudget(i, count, c0, s.colEnd);
    if i < count && c0 < s.colEnd {
      Next32Steps(i);
      var s1 := ColStep(tag, s);
      assert s1.out == if c0 >= s.colStart then s.out + tag else s.out;
      assert s1.cursor.col == c0 + 1 && s1.colStart == s.colStart && s1.colEnd == s.colEnd;
      assert ColumnBudget(Next32(i), count, c0 + 1, s.colEnd) == b - 1;
      var r := ColLoop(tag, Next32(i), count, s1);
      assert ColLoop(tag, i, count, s) == r;
      ColumnLoopOut(tag, Next32(i), count, s1);
      WindowStep(s.out, s1.out, r.out, tag, c0, s.colStart, s.colEnd, b);
    } else {
      assert Written(c0, s.colStart, s.colEnd, b) == 0;
    }
  }

  lemma {:induction false} ColumnLoopCursor(tag: string, i: nat, count: nat, s: State)
    requires i < U32 && (count < U32 ==> i <= count)
    ensures ColLoop(tag, i, count, s).cursor.col == LastPass(s.cursor.col, s.colEnd, ColumnBudget(i, count, s.cursor.col, s.colEnd))
    decreases s.colEnd - s.cursor.col
  {
    var c0 := s.cursor.col;
    var b := ColumnBudget(i, count, c0, s.colEnd);
    if i < count && c0 < s.colEnd {
      Next32Steps(i);
      var s1 := ColStep(tag, s);
      assert s1.cursor.col == c0 + 1 && s1.colEnd == s.colEnd;
      assert ColumnBudget(Next32(i), count, c0 + 1, s.colEnd) == b - 1;
      assert ColLoop(tag, i, count, s) == ColLoop(tag, Next32(i), count, s1);
      ColumnLoopCursor(tag, Next32(i), count, s1);
      assert LastPass(c0 + 1, s.colEnd, b - 1) == LastPass(c0, s.colEnd, b);
    }
  }

  /** Unsigned 64-bit wrap-around of a difference in range. */
  lemma Wrap64(a: int)
    requires 0 <= a + U64 && a < U64
    ensures a % U64 == if a >= 0 then a else a + U64
  {
    if a >= 0 {
      assert a / U64 == 0;
    } else {
      assert a / U64 == -1;
    }
  }

  /** The span a `col` element names, `max - min + 1`, before any
      wrap-around. */
  function ColumnSpan(n: Node): int
  {
    Unsigned64(Attr(n, "max"), 1) - Unsigned64(Attr(n, "min"), 1) + 1
  }

  /** With `min <= max` the count is the span; with `min > max + 1` it
      wraps around to the span plus 2^64. */
  lemma ColumnCountWraps(n: Node)
    requires 0 <= ColumnSpan(n) + U64 && ColumnSpan(n) < U64
    ensures ColumnCount(n) == if ColumnSpan(n) >= 0 then ColumnSpan(n) else ColumnSpan(n) + U64
  {
    Wrap64(ColumnSpan(n));
  }

  /** A `col` inside the window with `min <= max`, the span within the
      32-bit counter's reach, writes one tag per column of its span that
      falls in the window; without `min` and `max` it is one column. */
  lemma ColumnsWritten(n: Node, s: State)
    requires 0 < ColumnSpan(n) < U32
    ensures ColumnCount(n) == ColumnSpan(n)
    ensures var r := TranslateCol(n, s);
      r.out == s.out + Repeat(ColTag(n, s.styleDependencies), Written(s.cursor.col, s.colStart, s.colEnd, ColumnSpan(n))) &&
      r.cursor.col == LastPass(s.cursor.col, s.colEnd, ColumnSpan(n))
  {
    var k := ColumnSpan(n);
    ColumnCountWraps(n);
    assert ColumnBudget(0, k, s.cursor.col, s.colEnd) == k;
    var tag := ColTag(n, s.styleDependencies);
    assert TranslateCol(n, s) == ColLoop(tag, 0, k, s);
    ColumnLoopWindow(tag, 0, k, s);
  }

  /** With `min > max + 1` (the case the source leaves open) the count
      wraps around past the counter's reach and the columns run on to the
      window's end. */
  lemma UnorderedColumnsFillWindow(n: Node, s: State)
    requires ColumnSpan(n) < 0 && U32 < ColumnSpan(n) + U64
    ensures TranslateCol(n, s).cursor.col == if s.cursor.col < s.colEnd then s.colEnd else s.cursor.col
  {
    ColumnCountWraps(n);
    var count := ColumnCount(n);
    assert count >= U32;
    var tag := ColTag(n, s.styleDependencies);
    assert TranslateCol(n, s) == ColLoop(tag, 0, count, s);
    ColumnLoopCursor(tag, 0, count, s);
    var c0 := s.cursor.col;
    assert LastPass(c0, s.colEnd, ColumnBudget(0, count, c0, s.colEnd)) == if c0 < s.colEnd then s.colEnd else c0;
  }

  /** The passes a gap loop makes from `c0` towards `target`. */
  function GapLength(c0: nat, target: nat): nat
  {
    if target > c0 then target - c0 else 0
  }

  /** The rows skipped before a row are written as empty rows, each inside
      the window; the loop stops at the named row or at the window's end. */
  lemma RowGapWindow(target: nat, s: State)
    ensures var k := GapLength(s.cursor.row, target);
      var r := RowGap(target, s);
      r.out == s.out + Repeat("<tr></tr>", Written(s.cursor.row, s.rowStart, s.rowEnd, k)) &&
      r.cursor.row == LastPass(s.cursor.row, s.rowEnd, k)
  {
    RowGapOut(target, s);
    RowGapCursor(target, s);
  }

  lemma {:induction false} RowGapOut(target: nat, s: State)
    ensures RowGap(target, s).out ==
      s.out + Repeat("<tr></tr>", Written(s.cursor.row, s.rowStart, s.rowEnd, GapLength(s.cursor.row, target)))
    decreases target - s.cursor.row
  {
    var r0 := s.cursor.row;
    var k := GapLength(r0, target);
    if target > r0 && r0 < s.rowEnd {
      var s1 := if r0 >= s.rowStart then Emit(s, "<tr></tr>") else s;
      var s2 := s1.(cursor := AddRows(s1.cursor, 1));
      assert RowGap(target, s) == RowGap(target, s2);
      assert s2.cursor.row == r0 + 1 && GapLength(r0 + 1, target) == k - 1;
      RowGapOut(target, s2);
      WindowStep(s.out, s2.out, RowGap(target, s2).out, "<tr></tr>", r0, s.rowStart, s.rowEnd, k);
    } else {
      assert Written(r0, s.rowStart, s.rowEnd, k) == 0;
    }
  }

  lemma {:induction false} RowGapCursor(target: nat, s: State)
    ensures RowGap(target, s).cursor.row == LastPass(s.cursor.row, s.rowEnd, GapLength(s.cursor.row, target))
    decreases target - s.cursor.row
  {
    var r0 := s.cursor.row;
    var k := GapLength(r0, target);
    if target > r0 && r0 < s.rowEnd {
      var s1 := if r0 >= s.rowStart then Emit(s, "<tr></tr>") else s;
      var s2 := s1.(cursor := AddRows(s1.cursor, 1));
      assert RowGap(target, s) == RowGap(target, s2);
      assert s2.cursor.row == r0 + 1 && GapLength(r0 + 1, target) == k - 1;
      RowGapCursor(target, s2);
      assert LastPass(r0 + 1, s.rowEnd, k - 1) == LastPass(r0, s.rowEnd, k);
    }
  }

  /** The columns skipped before a cell are written as empty cells, each
      inside the window; the loop stops at the cell's column or at the
      window's end. */
  lemma CellGapWindow(target: nat, s: State)
    ensures var k := GapLength(s.cursor.col, target);
      var r := CellGap(target, s);
      r.out == s.out + Repeat("<td></td>", Written(s.cursor.col, s.colStart, s.colEnd, k)) &&
      r.cursor.col == LastPass(s.cursor.col, s.colEnd, k)
  {
    CellGapOut(target, s);
    CellGapCursor(target, s);
  }

  lemma {:induction false} CellGapOut(target: nat, s: State)
    ensures CellGap(target, s).out ==
      s.out + Repeat("<td></td>", Written(s.cursor.col, s.colStart, s.colEnd, GapLength(s.cursor.col, target)))
    decreases target - s.cursor.col
  {
    var c0 := s.cursor.col;
    var k := GapLength(c0, target);
    if target > c0 && c0 < s.colEnd {
      var s1 := if c0 >= s.colStart then Emit(s, "<td></td>") else s;
      var s2 := s1.(cursor := NextCol(s1.cursor));
      assert CellGap(target, s) == CellGap(target, s2);
      assert s2.cursor.col == c0 + 1 && GapLength(c0 + 1, target) == k - 1;
      CellGapOut(target, s2);
      WindowStep(s.out, s2.out, CellGap(target, s2).out, "<td></td>", c0, s.colStart, s.colEnd, k);
    } else {
      assert Written(c0, s.colStart, s.colEnd, k) == 0;
    }
  }

  lemma {:induction false} CellGapCursor(target: nat, s: State)
    ensures CellGap(target, s).cursor.col == LastPass(s.cursor.col, s.colEnd, GapLength(s.cursor.col, target))
    decreases target - s.cursor.col
  {
    var c0 := s.cursor.col;
    var k := GapLength(c0, target);
    if target > c0 && c0 < s.colEnd {
      var s1 := if c0 >= s.colStart then Emit(s, "<td></td>") else s;
      var s2 := s1.(cursor := NextCol(s1.cursor));
      assert CellGap(target, s) == CellGap(target, s2);
      assert s2.cursor.col == c0 + 1 && GapLength(c0 + 1, target) == k - 1;
      CellGapCursor(target, s2);
      assert LastPass(c0 + 1, s.colEnd, k - 1) == LastPass(c0, s.colEnd, k);
    }
  }

  /** Once the cursor has reached the window's last row, a row writes
      nothing and the cursor stays on its row. */
  lemma RowPastEndWritesNothing(cfg: Config, n: Node, s: State, inShared: bool)
    requires n.Element? && AllDefined(cfg, n.children, inShared)
    requires s.cursor.row >= s.rowEnd
    ensures TranslateRow(cfg, n, s, inShared).out == s.out
    ensures TranslateRow(cfg, n, s, inShared).cursor.row == s.cursor.row
  {
    RowGapWindow(RowTarget(n), s);
  }

  /** A row the window holds is written on the row it names: the gap
      brings the cursor there and the row's start tag follows the gap. */
  lemma RowWrittenAtIndex(cfg: Config, n: Node, s: State, inShared: bool)
    requires n.Element? && AllDefined(cfg, n.children, inShared)
    requires s.cursor.row <= RowTarget(n) && s.rowStart <= RowTarget(n) < s.rowEnd
    ensures var g := RowGap(RowTarget(n), s);
      g.cursor.row == RowTarget(n) &&
      g.out + ("<tr" + Attrs(n, s.styleDependencies) + ">") <= TranslateRow(cfg, n, s, inShared).out
  {
    var target := RowTarget(n);
    RowGapWindow(target, s);
    var g := RowGap(target, s);
    assert g.cursor.row == target;
    RowBody(cfg, n, s, inShared);
  }

  /** The row translator once its gap has reached the named row inside
      the window. */
  lemma RowBody(cfg: Config, n: Node, s: State, inShared: bool)
    requires n.Element? && AllDefined(cfg, n.children, inShared)
    requires var g := RowGap(RowTarget(n), s);
      g.cursor.row == RowTarget(n) && g.rowStart <= g.cursor.row < g.rowEnd
    ensures var g := RowGap(RowTarget(n), s);
      g.out + ("<tr" + Attrs(n, s.styleDependencies) + ">") <= TranslateRow(cfg, n, s, inShared).out
  {
    var g := RowGap(RowTarget(n), s);
    var s2 := g.(cursor := AddRows(g.cursor, 0));
    var s3 := Emit(s2, "<tr" + Attrs(n, s2.styleDependencies) + ">");
    var c := TranslateChildren(cfg, n.children, s3, inShared);
    var r3 := Emit(c, "</tr>");
    assert TranslateRow(cfg, n, s, inShared) == r3.(cursor := AddRows(r3.cursor, 1));
    PrefixAppend(s3.out, c.out, "</tr>");
  }

  /** The corrected cell: once the cursor has reached the window's last
      column, a cell writes nothing and leaves the state alone. */
  lemma CellPastEndDropped(cfg: Config, n: Node, s: State, inShared: bool)
    requires n.Element? && CellDefined(cfg, n, inShared)
    requires s.cursor.col >= s.colEnd
    ensures TranslateCell(cfg, n, s, inShared) == s
  {
  }

  /** The corrected cell: a cell in a column before the window writes
      nothing; only the cursor moves past it. */
  lemma CellBeforeWindowSkipped(cfg: Config, n: Node, s: State, inShared: bool)
    requires n.Element? && CellDefined(cfg, n, inShared)
    requires CellTarget(cfg, n) <= s.cursor.col < s.colStart && s.cursor.col < s.colEnd
    ensures TranslateCell(cfg, n, s, inShared) == s.(cursor := NextCol(s.cursor))
  {
  }

  /** The cell as written: past the window's end the cell is still
      written whenever there is no gap before it. */
  lemma AsWrittenCellPastEnd(cfg: Config, n: Node, s: State, inShared: bool)
    requires n.Element? && CellDefined(cfg, n, inShared)
    requires CellTarget(cfg, n) <= s.cursor.col && s.cursor.col >= s.colEnd
    ensures s.out + "<td" <= TranslateCellAsWritten(cfg, n, s, inShared).out
    ensures TranslateCellAsWritten(cfg, n, s, inShared).out != TranslateCell(cfg, n, s, inShared).out
  {
    CellOpens(cfg, n, s, inShared);
  }

  /** The cell as written: before the window's start the cell is written
      all the same. */
  lemma AsWrittenCellBeforeStart(cfg: Config, n: Node, s: State, inShared: bool)
    requires n.Element? && CellDefined(cfg, n, inShared)
    requires CellTarget(cfg, n) <= s.cursor.col < s.colStart
    ensures s.out + "<td" <= TranslateCellAsWritten(cfg, n, s, inShared).out
    ensures s.cursor.col < s.colEnd ==>
      TranslateCellAsWritten(cfg, n, s, inShared).out != TranslateCell(cfg, n, s, inShared).out
  {
    CellOpens(cfg, n, s, inShared);
  }

  /** A written cell starts with its opening tag. */
  lemma CellOpens(cfg: Config, n: Node, s: State, inShared: bool)
    requires n.Element? && CellDefined(cfg, n, inShared)
    ensures s.out + "<td" <= CellMarkup(cfg, n, s, inShared).out
    ensures |CellMarkup(cfg, n, s, inShared).out| > |s.out|
  {
    var s1 := Emit(s, "<td" + Attrs(n, s.styleDependencies) + ">");
    var r1 := CellValue(cfg, n, s1, inShared);
    assert s.out + "<td" <= s1.out;
    assert s1.out <= r1.out + "</td>";
  }

  /** A cell of the window is written in the column it names, after the
      empty cells of its gap. */
  lemma CellWrittenAtColumn(cfg: Config, n: Node, s: State, inShared: bool)
    requires n.Element? && CellDefined(cfg, n, inShared)
    requires s.cursor.col <= CellTarget(cfg, n) && s.colStart <= CellTarget(cfg, n) < s.colEnd
    ensures var g := CellGap(CellTarget(cfg, n), s);
      g.cursor.col == CellTarget(cfg, n) &&
      g.out == s.out + Repeat("<td></td>", CellTarget(cfg, n) - (if s.cursor.col >= s.colStart then s.cursor.col else s.colStart)) &&
      TranslateCell(cfg, n, s, inShared) == CellMarkup(cfg, n, g, inShared).(cursor := NextCol(CellMarkup(cfg, n, g, inShared).cursor))
  {
    CellGapWindow(CellTarget(cfg, n), s);
  }

  /** A cell without a value (no type, an unknown type, or a negative
      shared-string index) is written as an empty cell. */
  lemma EmptyCellWritten(cfg: Config, n: Node, s: State, inShared: bool)
    requires n.Element? && CellDefined(cfg, n, inShared)
    requires match Attr(n, "t")
      case None => true
      case Some(t) => (t == "s" && SharedIndex(n) < 0) || (t != "s" && !OwnValue(t))
    ensures CellMarkup(cfg, n, s, inShared) == Emit(s, "<td" + Attrs(n, s.styleDependencies) + "></td>")
  {
    var a := "<td" + Attrs(n, s.styleDependencies) + ">";
    assert CellValue(cfg, n, Emit(s, a), inShared) == Emit(s, a);
    assert s.out + a + "</td>" == s.out + (a + "</td>");
  }

  /** A cell holding a shared string that is one `t` element of plain
      text has that text, escaped, as its content, outside editing mode:
      the `t` element itself is transparent. */
  lemma SharedTextValue(cfg: Config, n: Node, s: State, a: seq<Attribute>, x: string)
    requires n.Element? && CellDefined(cfg, n, false) && !cfg.editable
    requires Attr(n, "t") == Some("s") && SharedIndex(n) >= 0
    requires ChildrenOf(cfg.sharedStrings[SharedIndex(n)]) == [Element("t", a, [Text(x)])]
    ensures CellValue(cfg, n, s, false) == Emit(s, EscapeText(x))
  {
    var t := Element("t", a, [Text(x)]);
    assert CellValue(cfg, n, s, false) == TranslateChildren(cfg, [t], s, true);
    PlainTextString(cfg, a, x, s);
  }

  /** A shared string that is one `t` element of plain text writes that
      text, escaped, outside editing mode. */
  lemma PlainTextString(cfg: Config, a: seq<Attribute>, x: string, s: State)
    requires !cfg.editable && AllDefined(cfg, [Element("t", a, [Text(x)])], true)
    ensures TranslateChildren(cfg, [Element("t", a, [Text(x)])], s, true) == Emit(s, EscapeText(x))
  {
    var t := Element("t", a, [Text(x)]);
    var inner := [Text(x)];
    assert Defined(cfg, t, true);
    assert inner[1..] == [] && [t][1..] == [];
    calc {
      TranslateChildren(cfg, [t], s, true);
      TranslateElement(cfg, t, s, true);
      TranslateOther(cfg, t, s, true);
      TranslateChildren(cfg, inner, s, true);
      TranslateText(cfg, Text(x), s);
    }
  }

  /** Outside editing mode a text node is written escaped and nothing
      else changes; the written text holds no tag and reads back as the
      node's text. */
  lemma TextWrittenEscaped(cfg: Config, n: Node, s: State)
    requires n.Text? && !cfg.editable
    ensures TranslateText(cfg, n, s) == Emit(s, EscapeText(n.text))
    ensures '<' !in EscapeText(n.text) && Unescape(EscapeText(n.text)) == n.text
  {
    EscapeHasNoBrackets(n.text);
    EscapeRoundTrip(n.text);
  }

  /** In editing mode each text node is wrapped with the current index,
      recorded under that index, and the index moves on by exactly one. */
  lemma TextHandedOut(cfg: Config, n: Node, s: State)
    requires n.Text? && cfg.editable
    ensures var r := TranslateText(cfg, n, s);
      r.out == s.out + EditableText(s.textIndex, EscapeText(n.text)) &&
      r.textIndex == s.textIndex + 1 &&
      r.texts == s.texts[s.textIndex := n] &&
      (TextsDense(s) ==> TextsDense(r) && s.textIndex !in s.texts)
  {
  }

  /** `headerFooter` and `f` (formulas) write nothing and leave the
      context alone. */
  lemma SkippedTagsWriteNothing(cfg: Config, n: Node, s: State, inShared: bool)
    requires n.Element? && n.name in Skippers && Defined(cfg, n, inShared)
    ensures TranslateElement(cfg, n, s, inShared) == s
  {
  }

  /** `cols` is written as a `colgroup` holding its children. */
  lemma ColsAsColgroup(cfg: Config, n: Node, s: State, inShared: bool)
    requires n.Element? && n.name == "cols" && Defined(cfg, n, inShared)
    ensures s.out + ("<colgroup" + Attrs(n, s.styleDependencies) + ">") <= TranslateElement(cfg, n, s, inShared).out
  {
    assert AllDefined(cfg, n.children, inShared);
    assert TranslateElement(cfg, n, s, inShared) == TranslateOther(cfg, n, s, inShared);
    var s1 := Emit(s, "<colgroup" + Attrs(n, s.styleDependencies) + ">");
    var c := TranslateChildren(cfg, n.children, s1, inShared);
    assert TranslateOther(cfg, n, s, inShared) == Emit(c, "</colgroup>");
    PrefixAppend(s1.out, c.out, "</colgroup>");
  }

  /** A tag the walk does not know is transparent: only its children are
      written. */
  lemma UnknownTagsTransparent(cfg: Config, n: Node, s: State, inShared: bool)
    requires n.Element? && Defined(cfg, n, inShared)
    requires n.name !in Skippers && n.name !in {"worksheet", "col", "row", "c", "cols"}
    ensures TranslateElement(cfg, n, s, inShared) == TranslateChildren(cfg, n.children, s, inShared)
  {
    assert AllDefined(cfg, n.children, inShared);
    assert TranslateElement(cfg, n, s, inShared) == TranslateOther(cfg, n, s, inShared);
  }

  /** Three emissions in a row write their concatenation. */
  lemma EmitThree(s: State, a: string, b: string, c: string)
    ensures Emit(Emit(Emit(s, a), b), c) == Emit(s, a + b + c)
  {
    assert s.out + a + b + c == s.out + (a + b + c);
  }

  /** `AllDefined` of a list holds of each of its suffixes. */
  lemma AllDefinedStep(cfg: Config, cs: seq<Node>, i: nat, inShared: bool)
    requires i < |cs| && AllDefined(cfg, cs[i..], inShared)
    ensures Defined(cfg, cs[i], inShared) && AllDefined(cfg, cs[i + 1..], inShared)
  {
    assert cs[i..][1..] == cs[i + 1..];
  }

  /** One child of a style list: an element writes its rule and moves the
      counter on, another node is passed over. */
  lemma RulesStep(cs: seq<Node>, k: nat, i: nat, rule: (nat, Node) -> string, o: string, p: string)
    requires k < |cs| && p == o + (if cs[k].Element? then rule(i, cs[k]) else "")
    ensures p + Rules(cs[k + 1..], if cs[k].Element? then Next32(i) else i, rule) == o + Rules(cs[k..], i, rule)
  {
    assert cs[k..][1..] == cs[k + 1..];
    if cs[k].Element? {
      assert o + rule(i, cs[k]) + Rules(cs[k + 1..], Next32(i), rule) == o + (rule(i, cs[k]) + Rules(cs[k + 1..], Next32(i), rule));
    } else {
      assert o + "" == o;
    }
  }

  // ---------------------------------------------------------------- the walk in place

  /** The translation context and the output stream, updated in place;
      the style dependencies the style sheet records are read by the
      content walk that follows. */
  class Translator {
    const cfg: Config
    var out: string
    var rowStart: nat
    var rowEnd: nat
    var colStart: nat
    var colEnd: nat
    var cursor: Cursor
    var styleDependencies: map<string, seq<string>>
    var textTranslation: map<nat, Node>
    var textIndex: nat

    function Snapshot(): State
      reads this
    {
      State(out, rowStart, rowEnd, colStart, colEnd, cursor, styleDependencies, textTranslation, textIndex)
    }

    constructor (cfg: Config)
      ensures Snapshot() == State("", 0, 0, 0, 0, Cursor(0, 0), map[], map[], 0)
      ensures TextsDense(Snapshot())
    {
      this.cfg := cfg;
      out := "";
      rowStart, rowEnd, colStart, colEnd := 0, 0, 0, 0;
      cursor := Cursor(0, 0);
      styleDependencies := map[];
      textTranslation := map[];
      textIndex := 0;
    }

    // ------------------------------------------------------------ style sheet

    /** `translateStyle`. */
    method StyleTranslator(n: Node)
      requires StyleDefined(n)
      modifies this`out, this`styleDependencies
      ensures Snapshot() == TranslateStyle(n, old(Snapshot()))
    {
      ghost var o := out;
      var fonts := Child(n, "fonts");
      if fonts.Some? {
        FontsTranslator(fonts.value);
      }
      ghost var o1 := out;
      var fills := Child(n, "fills");
      if fills.Some? {
        FillsTranslator(fills.value);
      }
      ghost var o2 := out;
      var borders := Child(n, "borders");
      if borders.Some? {
        BordersTranslator(borders.value);
      }
      var a, b, c := ListRules(n, "fonts", FontRule), ListRules(n, "fills", FillRule), ListRules(n, "borders", BorderRule);
      assert o1 == o + a && o2 == o1 + b && out == o2 + c;
      AppendThree(o, a, b, c);
      ghost var s1 := Snapshot();
      assert s1 == Emit(old(Snapshot()), a + b + c);
      var cellXfs := Child(n, "cellXfs");
      if cellXfs.Some? {
        CellXfsTranslator(cellXfs.value);
      }
    }

    /** `FontsTranslator`: one rule per font, numbered by a 32-bit counter. */
    method FontsTranslator(l: Node)
      requires AllOf(ChildrenOf(l), FontDefined)
      modifies this`out
      ensures out == old(out) + Rules(ChildrenOf(l), 0, FontRule)
    {
      var cs := ChildrenOf(l);
      var i: nat := 0;
      var k := 0;
      while k < |cs|
        invariant k <= |cs| && i < U32
        invariant out + Rules(cs[k..], i, FontRule) == old(out) + Rules(cs, 0, FontRule)
      {
        ghost var o := out;
        if cs[k].Element? {
          FontWriter(i, cs[k]);
        }
        RulesStep(cs, k, i, FontRule, o, out);
        if cs[k].Element? {
          i := (i + 1) % U32;
        }
        k := k + 1;
      }
    }

    /** The rule of the font numbered `i`. */
    method FontWriter(i: nat, e: Node)
      requires FontDefined(e)
      modifies this`out
      ensures out == old(out) + FontRule(i, e)
    {
      var family, size, color := "", "", "";
      if Child(e, "name").Some? {
        var v := ChildAttr(e, "name", "val").value;
        family := "font-family: " + v + ";";
        assert family == "font-family: " + v + "" + ";";
      }
      if Child(e, "sz").Some? {
        var v := ChildAttr(e, "sz", "val").value;
        size := "font-size: " + v + "pt;";
        assert size == "font-size: " + v + "pt" + ";";
      }
      if Child(e, "color").Some? {
        var v := ChildAttr(e, "color", "rgb").value;
        color := "color: #" + v[2..] + ";";
        assert color == "color" + ": #" + Rgb(v) + ";";
      }
      assert family == Declaration(e, "name", "val", "font-family: ", "");
      assert size == Declaration(e, "sz", "val", "font-size: ", "pt");
      assert color == ColorOf(Child(e, "color"), "color");
      AppendFive(out, ".font-" + NatToString(i) + " {", family, size, color, "} ");
      out := out + (".font-" + NatToString(i) + " {") + family + size + color + "} ";
    }

    /** `FillsTranslator`: one rule per fill. */
    method FillsTranslator(l: Node)
      requires AllOf(ChildrenOf(l), FillDefined)
      modifies this`out
      ensures out == old(out) + Rules(ChildrenOf(l), 0, FillRule)
    {
      var cs := ChildrenOf(l);
      var i: nat := 0;
      var k := 0;
      while k < |cs|
        invariant k <= |cs| && i < U32
        invariant out + Rules(cs[k..], i, FillRule) == old(out) + Rules(cs, 0, FillRule)
      {
        ghost var o := out;
        if cs[k].Element? {
          FillWriter(i, cs[k]);
        }
        RulesStep(cs, k, i, FillRule, o, out);
        if cs[k].Element? {
          i := (i + 1) % U32;
        }
        k := k + 1;
      }
    }

    method FillWriter(i: nat, e: Node)
      requires FillDefined(e)
      modifies this`out
      ensures out == old(out) + FillRule(i, e)
    {
      var background := "";
      var patternFill := Child(e, "patternFill");
      if patternFill.Some? {
        var p := patternFill.value;
        if Child(p, "bgColor").Some? {
          var v := ChildAttr(p, "bgColor", "rgb").value;
          background := "background-color: #" + v[2..] + ";";
          assert background == "background-color" + ": #" + Rgb(v) + ";";
        }
        assert background == ColorOf(Child(p, "bgColor"), "background-color");
      }
      out := out + (".fill-" + NatToString(i) + " {" + background + "} ");
    }

    /** `BordersTranslator`: an empty rule per border. */
    method BordersTranslator(l: Node)
      modifies this`out
      ensures out == old(out) + Rules(ChildrenOf(l), 0, BorderRule)
    {
      var cs := ChildrenOf(l);
      var i: nat := 0;
      var k := 0;
      while k < |cs|
        invariant k <= |cs| && i < U32
        invariant out + Rules(cs[k..], i, BorderRule) == old(out) + Rules(cs, 0, BorderRule)
      {
        ghost var o := out;
        if cs[k].Element? {
          out := out + (".border-" + NatToString(i) + " {} ");
        }
        RulesStep(cs, k, i, BorderRule, o, out);
        if cs[k].Element? {
          i := (i + 1) % U32;
        }
        k := k + 1;
      }
    }

    /** `CellXfsTranslator`: each cell format's dependencies and rule. */
    method CellXfsTranslator(l: Node)
      requires AllOf(ChildrenOf(l), XfDefined)
      modifies this`out, this`styleDependencies
      ensures Snapshot() == TranslateXfs(ChildrenOf(l), 0, old(Snapshot()))
    {
      var cs := ChildrenOf(l);
      var i: nat := 0;
      var k := 0;
      while k < |cs|
        invariant k <= |cs| && i < U32
        invariant TranslateXfs(cs[k..], i, Snapshot()) == TranslateXfs(cs, 0, old(Snapshot()))
      {
        assert cs[k..][1..] == cs[k + 1..];
        if cs[k].Element? {
          XfWriter(i, cs[k]);
          i := (i + 1) % U32;
        }
        k := k + 1;
      }
    }

    /** One cell format: its dependencies pushed under its class, then its rule. */
    method XfWriter(i: nat, e: Node)
      requires XfDefined(e)
      modifies this`out, this`styleDependencies
      ensures Snapshot() == XfStep(i, e, old(Snapshot()))
    {
      var name := "cellxf-" + NatToString(i);
      XfPushesWriter(name, e);
      var alignment := "";
      if Attr(e, "applyAlignment").value == "true" {
        alignment := "text-align: " + ChildAttr(e, "alignment", "horizontal").value + ";";
      }
      out := out + ("." + name + " {" + alignment + "} ");
    }

    /** `styleDependencies[name].push_back(...)` for the applied font, the
        fill and the applied border. */
    method XfPushesWriter(name: string, e: Node)
      requires XfDefined(e)
      modifies this`styleDependencies
      ensures styleDependencies == XfPushes(old(styleDependencies), name, e)
    {
      if Attr(e, "applyFont").value == "true" {
        styleDependencies := Push(styleDependencies, name, "font-" + Attr(e, "fontId").value);
      }
      var fillId := Attr(e, "fillId");
      if fillId.Some? {
        styleDependencies := Push(styleDependencies, name, "fill-" + fillId.value);
      }
      if Attr(e, "applyBorder").value == "true" {
        styleDependencies := Push(styleDependencies, name, "border-" + Attr(e, "borderId").value);
      }
    }

    // ------------------------------------------------------------ attributes

    /** `StyleAttributeTranslator`: width and height as inline style. */
    method StyleAttributeTranslator(n: Node)
      modifies this`out
      ensures out == old(out) + StyleAttr(n)
    {
      var width := Attr(n, "width");
      var ht := Attr(n, "ht");
      if width.Some? || ht.Some? {
        var w, h := "", "";
        if width.Some? {
          w := "width:" + IntToString(ParseInt(width.value, 0)) + "in;";
        }
        if ht.Some? {
          h := "height:" + IntToString(ParseInt(ht.value, 0)) + "pt;";
        }
        out := out + (" style=\"" + w + h + "\"");
      }
    }

    /** `ElementAttributeTranslator`: the cell format's class and the
        classes it depends on, last pushed first, then the inline style. */
    method ElementAttributeTranslator(n: Node)
      modifies this`out
      ensures out == old(out) + Attrs(n, styleDependencies)
    {
      ClassAttributeTranslator(n);
      StyleAttributeTranslator(n);
      AppendTwo(old(out), ClassAttr(n, styleDependencies), StyleAttr(n));
    }

    /** The class attribute: the format's class, then its dependencies
        walking the list backwards. */
    method ClassAttributeTranslator(n: Node)
      modifies this`out
      ensures out == old(out) + ClassAttr(n, styleDependencies)
    {
      var s := Attr(n, "s");
      if s.Some? {
        var name := "cellxf-" + s.value;
        out := out + " class=\"";
        out := out + name;
        ghost var start := out;
        if name in styleDependencies {
          var deps := styleDependencies[name];
          var i := |deps|;
          while i > 0
            invariant 0 <= i <= |deps|
            invariant out == start + Spaced(Reverse(deps[i..]))
          {
            SpacedStep(deps, i, start, out);
            out := out + " " + deps[i - 1];
            i := i - 1;
          }
          assert deps[0..] == deps;
        }
        ghost var tail := if name in styleDependencies then Spaced(Reverse(styleDependencies[name])) else "";
        assert out == start + tail;
        AppendThree(old(out), " class=\"", name, tail);
        out := out + "\"";
        AppendTwo(old(out), " class=\"" + name + tail, "\"");
      }
    }

    // ------------------------------------------------------------ content

    /** `translateContent`: the walk from the worksheet's root. */
    method ContentTranslator(n: Node)
      requires n.Element? && Defined(cfg, n, false)
      modifies this
      ensures Snapshot() == TranslateElement(cfg, n, old(Snapshot()), false)
    {
      ElementTranslator(n, false);
    }

    method ElementTranslator(n: Node, ghost inShared: bool)
      requires n.Element? && Defined(cfg, n, inShared)
      modifies this
      ensures Snapshot() == TranslateElement(cfg, n, old(Snapshot()), inShared)
      decreases if inShared then 0 else 1, Size(n), 3
    {
      var element := n.name;
      if element in Skippers {
        return;
      }
      if element == "worksheet" {
        TableTranslator(n, inShared);
      } else if element == "col" {
        TableColTranslator(n);
      } else if element == "row" {
        TableRowTranslator(n, inShared);
      } else if element == "c" {
        TableCellTranslator(n, inShared);
      } else {
        ghost var s0 := Snapshot();
        if element == "cols" {
          out := out + "<colgroup";
          ElementAttributeTranslator(n);
          out := out + ">";
          EmitThree(s0, "<colgroup", Attrs(n, s0.styleDependencies), ">");
        }
        ElementChildrenTranslator(n.children, inShared);
        if element == "cols" {
          out := out + "</colgroup>";
        }
      }
    }

    /** `ElementChildrenTranslator`: text and element children in order. */
    method ElementChildrenTranslator(cs: seq<Node>, ghost inShared: bool)
      requires AllDefined(cfg, cs, inShared)
      modifies this
      ensures Snapshot() == TranslateChildren(cfg, cs, old(Snapshot()), inShared)
      decreases if inShared then 0 else 1, SizeOf(cs), 4
    {
      var i := 0;
      ghost var goal := TranslateChildren(cfg, cs, old(Snapshot()), inShared);
      while i < |cs|
        invariant 0 <= i <= |cs| && AllDefined(cfg, cs[i..], inShared)
        invariant TranslateChildren(cfg, cs[i..], Snapshot(), inShared) == goal
      {
        AllDefinedStep(cfg, cs, i, inShared);
        SizeOfMember(cs, cs[i]);
        assert cs[i..][1..] == cs[i + 1..];
        match cs[i] {
          case Text(_) => TextTranslator(cs[i]);
          case Element(_, _, _) => ElementTranslator(cs[i], inShared);
          case Other =>
        }
        i := i + 1;
      }
      assert cs[i..] == [];
    }

    /** `TextTranslator`. */
    method TextTranslator(n: Node)
      requires n.Text?
      modifies this
      ensures Snapshot() == TranslateText(cfg, n, old(Snapshot()))
    {
      var text := EscapeText(n.text);
      if !cfg.editable {
        out := out + text;
      } else {
        out := out + EditableText(textIndex, text);
        textTranslation := textTranslation[textIndex := n];
        textIndex := textIndex + 1;
      }
    }

    /** `TableTranslator`. */
    method TableTranslator(n: Node, ghost inShared: bool)
      requires n.Element? && AllDefined(cfg, n.children, inShared)
      modifies this
      ensures Snapshot() == TranslateTable(cfg, n, old(Snapshot()), inShared)
      decreases if inShared then 0 else 1, Size(n), 2
    {
      rowStart := cfg.tableOffsetRows;
      rowEnd := rowStart + cfg.tableLimitRows;
      colStart := cfg.tableOffsetCols;
      colEnd := colStart + cfg.tableLimitCols;
      cursor := Cursor(0, 0);
      ghost var s1 := Snapshot();
      assert s1 == StartTable(cfg, old(Snapshot()));
      out := out + TableOpen;
      ElementAttributeTranslator(n);
      out := out + ">";
      EmitThree(s1, TableOpen, Attrs(n, s1.styleDependencies), ">");
      ghost var s2 := Snapshot();
      assert s2 == Emit(s1, TableOpen + Attrs(n, s1.styleDependencies) + ">");
      ElementChildrenTranslator(n.children, inShared);
      assert Snapshot() == TranslateChildren(cfg, n.children, s2, inShared);
      out := out + "</table>";
    }

    /** `TableColTranslator`: a 32-bit counter runs up to the unsigned
        64-bit count `max - min + 1`. */
    method TableColTranslator(n: Node)
      modifies this
      ensures Snapshot() == TranslateCol(n, old(Snapshot()))
    {
      var min := Unsigned64(Attr(n, "min"), 1);
      var max := Unsigned64(Attr(n, "max"), 1);
      var repeated := (max - min + 1) % U64;
      ghost var tag := ColTag(n, styleDependencies);
      var i: nat := 0;
      while i < repeated
        invariant i < U32 && styleDependencies == old(styleDependencies)
        invariant ColLoop(tag, i, repeated, Snapshot()) == TranslateCol(n, old(Snapshot()))
        decreases colEnd - cursor.col
      {
        if cursor.col >= colEnd {
          break;
        }
        ghost var s0 := Snapshot();
        assert ColLoop(tag, i, repeated, s0) == ColLoop(tag, Next32(i), repeated, ColStep(tag, s0));
        ColumnPass(n, tag);
        i := (i + 1) % U32;
      }
    }

    /** One pass of the column loop's body. */
    method ColumnPass(n: Node, ghost tag: string)
      requires tag == ColTag(n, styleDependencies)
      modifies this
      ensures Snapshot() == ColStep(tag, old(Snapshot()))
    {
      ghost var s0 := Snapshot();
      if cursor.col >= colStart {
        out := out + "<col";
        ElementAttributeTranslator(n);
        out := out + ">";
        EmitThree(s0, "<col", Attrs(n, s0.styleDependencies), ">");
      }
      cursor := NextCol(cursor);
    }

    /** The gap loop of `TableRowTranslator`: an empty row for each skipped
        row inside the window, until the named row or the window's end. */
    method RowGapWriter(rowIndex: nat)
      modifies this
      ensures Snapshot() == RowGap(rowIndex, old(Snapshot()))
    {
      ghost var s0 := Snapshot();
      while rowIndex > cursor.row
        invariant RowGap(rowIndex, Snapshot()) == RowGap(rowIndex, s0)
        decreases rowIndex - cursor.row
      {
        if cursor.row >= rowEnd {
          return;
        }
        if cursor.row >= rowStart {
          out := out + "<tr></tr>";
        }
        cursor := AddRows(cursor, 1);
      }
    }

    /** `TableRowTranslator`: the empty rows of the gap, then the row. */
    method TableRowTranslator(n: Node, ghost inShared: bool)
      requires n.Element? && HasAttr(n, "r") && AllDefined(cfg, n.children, inShared)
      modifies this
      ensures Snapshot() == TranslateRow(cfg, n, old(Snapshot()), inShared)
      decreases if inShared then 0 else 1, Size(n), 2
    {
      var r := Unsigned64(Attr(n, "r"), 0);
      var rowIndex := if r == 0 then U64 - 1 else r - 1;
      assert rowIndex == RowTarget(n);
      RowGapWriter(rowIndex);
      if rowIndex > cursor.row {
        return;
      }
      cursor := AddRows(cursor, 0);
      if cursor.row >= rowEnd {
        return;
      }
      RowElementWriter(n, inShared);
    }

    /** The named row: its markup when it lies inside the window, then the
        cursor one row on. */
    method RowElementWriter(n: Node, ghost inShared: bool)
      requires n.Element? && AllDefined(cfg, n.children, inShared)
      modifies this
      ensures Snapshot() == RowElement(cfg, n, old(Snapshot()), inShared)
      decreases if inShared then 0 else 1, Size(n), 1
    {
      ghost var s0 := Snapshot();
      if cursor.row >= rowStart {
        out := out + "<tr";
        ElementAttributeTranslator(n);
        out := out + ">";
        EmitThree(s0, "<tr", Attrs(n, s0.styleDependencies), ">");
        ghost var s1 := Snapshot();
        ElementChildrenTranslator(n.children, inShared);
        assert Snapshot() == TranslateChildren(cfg, n.children, s1, inShared);
        out := out + "</tr>";
      }
      cursor := AddRows(cursor, 1);
    }

    /** `TableCellTranslator` with the window applied to the cell: the
        empty cells of the gap, then the cell when it falls in the window. */
    method TableCellTranslator(n: Node, ghost inShared: bool)
      requires n.Element? && HasAttr(n, "r") && CellDefined(cfg, n, inShared)
      modifies this
      ensures Snapshot() == TranslateCell(cfg, n, old(Snapshot()), inShared)
      decreases if inShared then 0 else 1, Size(n), 2
    {
      var cellIndex := cfg.cellColumn(Attr(n, "r").value);
      ghost var s0 := Snapshot();
      while cellIndex > cursor.col
        invariant CellGap(cellIndex, Snapshot()) == CellGap(cellIndex, s0)
        decreases cellIndex - cursor.col
      {
        if cursor.col >= colEnd {
          return;
        }
        if cursor.col >= colStart {
          out := out + "<td></td>";
        }
        cursor := NextCol(cursor);
      }
      assert Snapshot() == CellGap(cellIndex, s0);
      if cursor.col >= colEnd {
        return;
      }
      ghost var s1 := Snapshot();
      assert s1 == CellGap(cellIndex, s0);
      if cursor.col >= colStart {
        CellMarkupWriter(n, inShared);
      }
      cursor := NextCol(cursor);
    }

    /** The cell's opening tag, its content and its end tag. */
    method CellMarkupWriter(n: Node, ghost inShared: bool)
      requires n.Element? && CellDefined(cfg, n, inShared)
      modifies this
      ensures Snapshot() == CellMarkup(cfg, n, old(Snapshot()), inShared)
      decreases if inShared then 0 else 1, Size(n), 1
    {
      ghost var s1 := Snapshot();
      out := out + "<td";
      ElementAttributeTranslator(n);
      out := out + ">";
      EmitThree(s1, "<td", Attrs(n, s1.styleDependencies), ">");
      CellValueTranslator(n, inShared);
      out := out + "</td>";
    }

    /** A cell's content by its type. */
    method CellValueTranslator(n: Node, ghost inShared: bool)
      requires n.Element? && CellDefined(cfg, n, inShared)
      modifies this
      ensures Snapshot() == CellValue(cfg, n, old(Snapshot()), inShared)
      decreases if inShared then 0 else 1, Size(n), 0
    {
      var t := Attr(n, "t");
      if t.Some? {
        if t.value == "s" {
          var sharedStringIndex := SharedIndex(n);
          if sharedStringIndex >= 0 {
            ElementChildrenTranslator(ChildrenOf(cfg.sharedStrings[sharedStringIndex]), true);
          }
        } else if OwnValue(t.value) {
          ElementChildrenTranslator(n.children, inShared);
        }
      }
    }
  }
}

=== FILE: wrappers.dfy ===
/** Optional values and error-carrying results, standing in for null
    pointers, `std::optional` and thrown exceptions. */
module Wrappers {

  datatype Option<T> = None | Some(value: T)

  datatype Result<T, E> = Ok(value: T) | Err(error: E)

  /** The outcome of an operation that returns nothing but may throw. */
  datatype Outcome<E> = Pass | Fail(error: E)

  function OptionOr<T>(o: Option<T>, default: T): T
  {
    match o
    case Some(v) => v
    case None => default
  }
}

=== FILE: xml.dfy ===
/** An abstract XML tree: elements with ordered attributes and children,
    character data, and every other node kind (comments, processing
    instructions) lumped together. Both XML libraries the system uses
    (pugixml and tinyxml2) are read through this one model. */
module Xml {
  import opened Wrappers
  import opened Counters
  import Strings

  datatype Attribute = Attribute(name: string, value: string)

  datatype Node =
    | Element(name: string, attributes: seq<Attribute>, children: seq<Node>)
    | Text(text: string)
    | Other

  /** Number of nodes in a tree; the measure for every recursive walk. */
  function Size(n: Node): (r: nat)
    ensures r >= 1
    decreases n
  {
    match n
    case Element(_, _, cs) => 1 + SizeOf(cs)
    case _ => 1
  }

  function SizeOf(cs: seq<Node>): nat
    decreases cs
  {
    if cs == [] then 0 else Size(cs[0]) + SizeOf(cs[1..])
  }

  lemma {:induction false} SizeOfMember(cs: seq<Node>, c: Node)
    requires c in cs
    ensures Size(c) <= SizeOf(cs)
    decreases cs
  {
    if cs[0] != c {
      SizeOfMember(cs[1..], c);
    }
  }

  function ChildrenOf(n: Node): seq<Node>
  {
    if n.Element? then n.children else []
  }

  function NameOf(n: Node): string
  {
    if n.Element? then n.name else ""
  }

  predicate IsElementNamed(n: Node, name: string)
  {
    n.Element? && n.name == name
  }

  /** The value of the first attribute called `name`; None when the node
      has no such attribute (a null attribute handle in the libraries). */
  function AttrIn(attrs: seq<Attribute>, name: string): (r: Option<string>)
    ensures r.Some? <==> exists i :: 0 <= i < |attrs| && attrs[i].name == name
    ensures r.Some? ==> exists i :: 0 <= i < |attrs| && attrs[i].name == name && attrs[i].value == r.value
  {
    if attrs == [] then None
    else if attrs[0].name == name then Some(attrs[0].value)
    else AttrIn(attrs[1..], name)
  }

  function Attr(n: Node, name: string): Option<string>
  {
    if n.Element? then AttrIn(n.attributes, name) else None
  }

  /** `attribute(name).value()`: the empty string for a missing attribute. */
  function AttrValue(n: Node, name: string): string
  {
    OptionOr(Attr(n, name), "")
  }

  predicate HasAttr(n: Node, name: string)
  {
    Attr(n, name).Some?
  }

  /** The first element child called `name` (`child(name)`,
      `FirstChildElement(name)`); None stands for the null node. */
  function FirstNamed(cs: seq<Node>, name: string): (r: Option<Node>)
    ensures r.Some? ==> r.value in cs && IsElementNamed(r.value, name)
    ensures r.None? ==> forall i :: 0 <= i < |cs| ==> !IsElementNamed(cs[i], name)
  {
    if cs == [] then None
    else if IsElementNamed(cs[0], name) then Some(cs[0])
    else FirstNamed(cs[1..], name)
  }

  function Child(n: Node, name: string): (r: Option<Node>)
    ensures r.Some? ==> r.value in ChildrenOf(n) && IsElementNamed(r.value, name)
  {
    FirstNamed(ChildrenOf(n), name)
  }

  /** `Child` of an optional (possibly null) node. */
  function ChildOpt(n: Option<Node>, name: string): Option<Node>
  {
    if n.Some? then Child(n.value, name) else None
  }

  /** The first child node of any kind (`first_child()`). */
  function FirstChild(n: Node): Option<Node>
  {
    if n.Element? && n.children != [] then Some(n.children[0]) else None
  }

  /** The element children called `name`, in document order (`children(name)`). */
  function Named(cs: seq<Node>, name: string): (r: seq<Node>)
    ensures |r| <= |cs|
    ensures forall i :: 0 <= i < |r| ==> IsElementNamed(r[i], name)
  {
    if cs == [] then []
    else if IsElementNamed(cs[0], name) then [cs[0]] + Named(cs[1..], name)
    else Named(cs[1..], name)
  }

  /** Every element called `name` in the tree rooted at `n`, the root
      included, in document (pre-)order. */
  function Descendants(n: Node, name: string): (r: seq<Node>)
    ensures forall i :: 0 <= i < |r| ==> IsElementNamed(r[i], name)
    decreases n
  {
    match n
    case Element(nm, _, cs) => (if nm == name then [n] else []) + DescendantsOf(cs, name)
    case _ => []
  }

  function DescendantsOf(cs: seq<Node>, name: string): (r: seq<Node>)
    ensures forall i :: 0 <= i < |r| ==> IsElementNamed(r[i], name)
    decreases cs
  {
    if cs == [] then [] else Descendants(cs[0], name) + DescendantsOf(cs[1..], name)
  }

  /** The white space both libraries skip before a number. */
  predicate IsSpace(c: char)
  {
    c == ' ' || c == '\t' || c == '\n' || c == '\r'
  }

  function SkipSpaces(s: string): (r: string)
    ensures r == [] || !IsSpace(r[0])
    ensures |r| <= |s| && r == s[|s| - |r|..]
    decreases |s|
  {
    if s != [] && IsSpace(s[0]) then SkipSpaces(s[1..]) else s
  }

  /** A number as the C and XML readers see it: leading white space, an
      optional sign, then decimal digits. The sign (true for '-') and the
      value of the digits; None when no digit follows the sign. */
  function SignedDecimal(s: string): Option<(bool, nat)>
  {
    var t := SkipSpaces(s);
    if t != [] && Strings.IsDigit(t[0]) then Some((false, Strings.LeadingDecimal(t)))
    else if |t| > 1 && (t[0] == '+' || t[0] == '-') && Strings.IsDigit(t[1]) then
      Some((t[0] == '-', Strings.LeadingDecimal(t[1..])))
    else None
  }

  /** pugixml's `as_uint(default)`. */
  function AsUint(a: Option<string>, default: nat): nat
  {
    match a
    case None => default
    case Some(s) =>
      match SignedDecimal(s)
      case Some((false, m)) => Min(m, U32 - 1)
      case _ => 0
  }

  /** tinyxml2's `Unsigned64Attribute(name, default)`, which reads with
      `sscanf("%llu")`. */
  function Unsigned64(a: Option<string>, default: nat): nat
  {
    match a
    case None => default
    case Some(s) =>
      match SignedDecimal(s)
      case None => default
      case Some((negative, m)) =>
        if m >= U64 then U64 - 1 else if negative && m > 0 then U64 - m else m
  }

  /** tinyxml2's `Int64Value()` and `IntText(default)` on a present value. */
  function ParseInt(s: string, default: int): int
  {
    match SignedDecimal(s)
    case None => default
    case Some((negative, m)) => if negative then -(m as int) else m
  }

  /** A number is found exactly when, after the white space, a digit
      comes first or right after a sign; its value is that of the digits. */
  lemma NumberFound(s: string)
    ensures var t := SkipSpaces(s);
      SignedDecimal(s).Some? <==>
        (t != [] && Strings.IsDigit(t[0])) || (|t| > 1 && (t[0] == '+' || t[0] == '-') && Strings.IsDigit(t[1]))
    ensures var t := SkipSpaces(s);
      SignedDecimal(s).Some? ==>
        SignedDecimal(s).value.0 == (t[0] == '-') &&
        SignedDecimal(s).value.1 == Strings.LeadingDecimal(if Strings.IsDigit(t[0]) then t else t[1..])
  {
  }

  /** Text that starts with a digit reads as its leading decimal. */
  lemma DigitFirstReads(s: string)
    ensures s != [] && Strings.IsDigit(s[0]) ==> SignedDecimal(s) == Some((false, Strings.LeadingDecimal(s)))
  {
    if s != [] && Strings.IsDigit(s[0]) {
      assert SkipSpaces(s) == s;
    }
  }

  /** `as_uint`: the default for a missing attribute; otherwise 0 for text
      without a number and for a negative number, and the number saturated
      at 2^32 - 1. */
  lemma AsUintReads(a: Option<string>, default: nat)
    ensures a.None? ==> AsUint(a, default) == default
    ensures a.Some? ==> AsUint(a, default) < U32
    ensures a.Some? && SignedDecimal(a.value).Some? && !SignedDecimal(a.value).value.0 ==>
      AsUint(a, default) == Min(SignedDecimal(a.value).value.1, U32 - 1)
    ensures a.Some? && (SignedDecimal(a.value).None? || SignedDecimal(a.value).value.0) ==> AsUint(a, default) == 0
  {
  }

  /** `Unsigned64Attribute`: the default for a missing attribute or one
      without a number; a number too large for 64 bits reads as 2^64 - 1,
      and a negative one wraps around modulo 2^64. */
  lemma Unsigned64Reads(a: Option<string>, default: nat)
    ensures a.None? || SignedDecimal(a.value).None? ==> Unsigned64(a, default) == default
    ensures a.Some? && SignedDecimal(a.value).Some? ==>
      var (negative, m) := SignedDecimal(a.value).value;
      Unsigned64(a, default) < U64 &&
      Unsigned64(a, default) == (if m >= U64 then U64 - 1 else if negative then (U64 - m) % U64 else m)
  {
  }

  /** `Int64Value` and `IntText`: the number with its sign, or the
      default when there is none. */
  lemma ParseIntReads(s: string, default: int)
    ensures SignedDecimal(s).None? ==> ParseInt(s, default) == default
    ensures SignedDecimal(s).Some? ==>
      ParseInt(s, default) == (if SignedDecimal(s).value.0 then -(SignedDecimal(s).value.1 as int) else SignedDecimal(s).value.1)
  {
  }

  function Min(a: nat, b: nat): nat
  {
    if a <= b then a else b
  }

  /** A missing attribute reads as the default under both libraries. */
  lemma MissingAttributeDefaults(n: Node, name: string, default: nat)
    requires !HasAttr(n, name)
    ensures AsUint(Attr(n, name), default) == default
    ensures Unsigned64(Attr(n, name), default) == default
  {
  }

  /** A printed number reads back unchanged under both libraries, as
      long as it fits their width. */
  lemma PrintedNumberReadsBack(k: nat, default: nat)
    ensures k < U32 ==> AsUint(Some(Strings.NatToString(k)), default) == k
    ensures k < U64 ==> Unsigned64(Some(Strings.NatToString(k)), default) == k
    ensures ParseInt(Strings.NatToString(k), default) == k
  {
    Strings.LeadingDecimalOfNatToString(k);
    assert SignedDecimal(Strings.NatToString(k)) == Some((false, k));
  }

  /** A printed integer, negative or not, reads back unchanged. */
  lemma PrintedIntegerReadsBack(i: int, default: int)
    ensures ParseInt(Strings.IntToString(i), default) == i
  {
    var s := Strings.IntToString(i);
    if i < 0 {
      PrintedNegativeReads(-i);
      assert s == "-" + Strings.NatToString(-i);
      assert SignedDecimal(s) == Some((true, -i));
    } else {
      Strings.LeadingDecimalOfNatToString(i);
      assert s == Strings.NatToString(i);
      assert SignedDecimal(s) == Some((false, i));
    }
  }

  /** A minus sign and a printed number read as that number, negated. */
  lemma PrintedNegativeReads(k: nat)
    ensures SignedDecimal("-" + Strings.NatToString(k)) == Some((true, k))
  {
    var t := Strings.NatToString(k);
    var s := "-" + t;
    Strings.LeadingDecimalOfNatToString(k);
    assert s[1..] == t && s[0] == '-';
    assert SkipSpaces(s) == s;
  }
}
